=== FILE: README.md ===
# segmenta, modelled in Dafny

segmenta stores sets of non-negative integer ids ("segments") as bitmaps in Redis. The model covers the part of it that is pure logic, and proves properties of that logic.

**The sparse bitmap.** Runs of bytes ("hunks") sit at virtual byte addresses.
- `or`, `and` and `not` merge bytes into the bitmap.
- `at` and `dump` read bytes back.
- `getOnBitPositions` lists the ids whose bit is on, with optional bounds and paging.

**The query language.**
- A regular-expression lexer.
- Validators, where the first failing check decides the error.
- A parser that folds the tokens into a pipeline builder.
- The pipeline's left-to-right evaluation over segment bitmaps.

**The segment store around them.**
- Bucket addressing of ids.
- The batch command list `_tryPut` builds, and the `setbits` Lua script that decodes it.
- The Redis key scheme.
- How fetched buckets become one bitmap.
- Query options, paging and re-queries.
- The listing of segment names.
- Snapshots of query results (dehydrate and rehydrate).
- The two shuffles.

The model is functional:
- Hunks, tokens, pipelines and command lists are immutable datatypes.
- Every operation is a pure function, or a method with a loop.
- Redis, the LRU cache, `Math.random` and uuid generation are parameters:
  - a segment store is a function from name to bitmap;
  - the key-value store is a `map`;
  - `KEYS` and `mget` answers are sequences;
  - random draws come from an oracle `rand: nat -> nat`.

Modules follow the source files:

| module | models |
|---|---|
| `Hunks` | `src/lib/hunk.ts` |
| `ByteOps`, `SparseBuffers`, `SparseBufferProperties`, `BitPositions`, `HunkInsertion` | `src/lib/sparse-buffer.ts` |
| `Shuffles` | `src/lib/shuffle.ts` and `randomizeInPlace` |
| `Tokens`, `Tokenizer` | `src/lib/dsl/tokenize.ts` |
| `Validation` | `src/lib/dsl/validation.ts` |
| `Parser` | `src/lib/dsl/parse.ts` |
| `Pipelines`, `PipelineProperties` | `src/lib/dsl/pipeline.ts` |
| `Addressing`, `BucketFetch`, `Queries`, `Listing`, `Engine` | `src/lib/segmenta.ts` |
| `SetBits` | `src/lib/set-bits.ts` and `_tryPut` |
| `Keys` | `src/lib/key-generator.ts` |
| `Hydrator` | `src/lib/resultset-hydrator.ts` |
| `Decimal`, `JsText`, `JsArrays` | the JavaScript and Lua primitives the source relies on |

The `*Examples` modules restate the repository's test cases as lemmas over the model.

Where the source's modules disagree with each other, the model follows the code:
- The lexer produces nine token kinds. The parser and the validators also name `negate`, `min`, `max`, `integer`, `skip`, `take` and `random`, so `Tokens.TokenType` is the union of both sets.
- The pipeline has no `min`, `max`, `int`, `skip`, `take` or `asRandom` method. The parser's calls to them fail (`Parser.ParseError.NotAFunction`).
- The lexer's table has an entry for `NOT IN` but none for a bare `not`, so it never produces the `negate` token the parser handles. The repository's test of a nested `not` group, "get where in 'x' and not (in 'y' or in 'z')", therefore stops the lexer at `not (` (`TokenizerExamples.NotGroupTextDoesNotLex`); the model evaluates that test on the token list the parser expects (`PipelineExamples.AndNotGroupExample`).
- The lexer has no entry for `skip` or `take` either. The three re-query tests first run `get where in "<id>" skip 0 take 1`, which stops the lexer at `skip` (`EngineExamples.PagedQueryTextFails`), so the listing they re-query is never stored. The model states those tests from the cached listing they intend (`QueriesExamples.ReQueryWithSkipAndTake` and its neighbours).
- `tokenize` does not call `validate`, although the tokenizer's tests expect validation errors from it. `Engine.TokenizeAndValidate` composes the two. `Engine.RunDsl`, the query path `getBuffer` takes, does not validate, just as `_getBufferForDSL` does not.
- The constants file is not part of this model. The model uses:
  - a default bucket size of 41960 and a default result-set TTL of 86400 seconds, the values the tests expect;
  - `MAX_OPERATIONS_PER_BATCH` as a positive parameter.

## Model

| member | source | states |
|---|---|---|
| Addressing.BucketSize | src/lib/segmenta.ts:72-80 | the bucket size is a multiple of 8; a missing, NaN or sub-1 request gives the default 41960; otherwise it is the request rounded down to whole bytes |
| Addressing.TinyBucketSizeIsZero | src/lib/segmenta.ts:72-80 | a requested size of 1 to 7 bits yields an empty (size 0) bucket |
| Addressing.BucketSizeIdempotent | src/lib/segmenta.ts:72-80 | normalising an already normalised non-zero size changes nothing |
| Addressing.BucketLower | src/lib/segmenta.ts:401-404 | the first id of an id's bucket is at most the id and less than a bucket size below it, the distance being the id modulo the size |
| Addressing.JsRemainder | src/lib/segmenta.ts:377 | JavaScript `%` agrees with the mathematical remainder for non-negative ids and takes the dividend's sign for negative ones |
| Addressing.BucketPlacement | src/lib/segmenta.ts:377-406 | a non-negative id lies between its bucket's first and last id, and its bit offset added to the bucket's first id gives the id back |
| Addressing.BucketNameStart | src/lib/segmenta.ts:401-406 | `parseInt` of a bucket name reads back the bucket's first id |
| Addressing.SameBucketName | src/lib/segmenta.ts:401-406 | two ids get the same bucket name exactly when they fall into the same bucket |
| Keys.DataKeyFor | src/lib/key-generator.ts:8-10 | the data key is the prefix, `/data/`, then the segment, with nothing else in between |
| Keys.ResultSetKeyFor | src/lib/key-generator.ts:12-14 | the result-set key is the prefix, `/results/`, then the id |
| Keys.DataKeyInjective | src/lib/key-generator.ts:8-10 | for a fixed prefix, different segments never share a data key |
| Keys.ResultSetKeyInjective | src/lib/key-generator.ts:12-14 | for a fixed prefix, different result sets never share a key |
| Keys.DataAndResultSetKeysDiffer | src/lib/key-generator.ts:8-14 | a data key never coincides with a result-set key of the same generator |
| Keys.IndexKeyFor | src/lib/segmenta.ts:392-399 | the index set of a segment lives at its data key followed by `/index` |
| Keys.BucketKey | src/lib/segmenta.ts:372-375 | a bucket key is the data key, a slash and the bucket name, recoverable piece by piece |
| Decimal.NatToStringRoundTrip | src/lib/segmenta.ts:405 | the decimal text of a non-negative number denotes that number |
| Decimal.JsParseIntOfIntToString | src/lib/segmenta.ts:136 | `parseInt` reads back any integer `${i}` wrote, also when non-digit text follows it |
| Decimal.LuaToNumberOfNatToString | src/lib/set-bits.ts:9 | Lua `tonumber` reads back the decimal text of an offset or bit value |
| ByteOps.OrByte | src/lib/sparse-buffer.ts:53-55 | a bit of `or(a, b)` is on exactly when it is on in either byte |
| ByteOps.AndByte | src/lib/sparse-buffer.ts:57-59 | a bit of `and(a, b)` is on exactly when it is on in both bytes |
| ByteOps.NotLoopInvariant | src/lib/sparse-buffer.ts:69-80 | after any number of steps, the shift loop of `not` has set exactly the bits of `a & ~b` it has reached |
| ByteOps.NotIsAndNot | src/lib/sparse-buffer.ts:69-80 | `not(a, b)` equals `a & ~b`: a bit is on exactly when it is on in `a` and off in `b` |
| ByteOps.Apply | src/lib/sparse-buffer.ts:109-133 | `or`, `and` and `not` combine an existing byte with an incoming one as OR, AND and AND-NOT |
| Hunks.Hunk.At | src/lib/hunk.ts:56-62 | reading a hunk yields a byte exactly at the addresses it covers, namely the byte at that distance from `first` |
| Hunks.Hunk.Set | src/lib/hunk.ts:52-54 | writing a covered address makes it read the new byte; `first`, the length and every other address keep their values; writing outside changes nothing |
| Hunks.Hunk.Slice | src/lib/hunk.ts:64-69 | a slice of in-range virtual addresses holds the hunk's bytes at exactly those addresses, to the end when no end is given |
| Hunks.NewHunk | src/lib/hunk.ts:35-50 | a new hunk holds the given bytes at the given offset (0 when left out), and its last address is `first + length - 1` |
| Hunks.IntersectsIffOverlap | src/lib/sparse-buffer.ts:369-383 | for non-empty hunks the source's interval test holds exactly when some address is covered by both |
| SparseBuffers.AbovePairwise | src/lib/sparse-buffer.ts:281-299 | the hunk-list invariant means non-empty hunks, each ending no later than the next one starts |
| SparseBuffers.ReadCovering | src/lib/sparse-buffer.ts:320-328 | `_findHunkAt` finds a byte exactly when some hunk covers the address, and it is a covering hunk's byte |
| SparseBuffers.ReadUnique | src/lib/sparse-buffer.ts:320-328 | in a sorted list the covering hunk is unique, so any covering hunk gives the byte read |
| SparseBuffers.LengthOf | src/lib/sparse-buffer.ts:313-318 | the length bounds every hunk's end and is attained by one of them, or is 0 |
| SparseBuffers.LengthBoundsCover | src/lib/sparse-buffer.ts:313-318 | every stored address lies below the length, and the address just below a non-zero length is stored; the `length` getter at line 85 reads this value |
| SparseBuffers.Gap | src/lib/sparse-buffer.ts:260-272 | the gap part holds exactly the incoming bytes between `from` and `end` |
| SparseBuffers.Remainder | src/lib/sparse-buffer.ts:274-279 | the remainder holds exactly the incoming bytes from `from` on and is dropped when empty |
| SparseBuffers.OverlayFrom | src/lib/sparse-buffer.ts:238-247 | the in-place loop transforms each address of the shared range and leaves the rest of the hunk alone |
| SparseBuffers.MergeFromRead | src/lib/sparse-buffer.ts:230-258 | after the merge walk, every address reads as the transform of the existing and incoming bytes where both exist, the incoming byte where only it exists, and unchanged elsewhere |
| SparseBuffers.MergeFromSorted | src/lib/sparse-buffer.ts:230-299 | the merge walk keeps the hunk list sorted and pairwise disjoint |
| SparseBuffers.ConsumeBuffer | src/lib/sparse-buffer.ts:230-258 | merging a run transforms covered bytes, copies incoming bytes verbatim into uncovered space for every transform, leaves all other addresses alone and sets the length to the larger end |
| SparseBuffers.ConsumeHunksRead | src/lib/sparse-buffer.ts:221-223 | merging another sparse buffer acts address by address, each of its hunks at its own `first` |
| SparseBuffers.New | src/lib/sparse-buffer.ts:100-104 | a new buffer holds exactly the given bytes from address 0, ordered, unbounded and (for the paging variant) with no skip or take; the paging subclass constructor at lines 460-463 adds no skip or take |
| SparseBuffers.ReadSorted | src/lib/sparse-buffer.ts:320-328 | in a sorted list, a byte is found exactly when a hunk covers the address, it is that hunk's byte, and it lies below the length; `at` at lines 207-213 reads through this search |
| SparseBuffers.At | src/lib/sparse-buffer.ts:207-213 | `at` gives the covering hunk's byte, 0 in a gap below the length, and undefined exactly from the length on |
| SparseBuffers.Dump | src/lib/sparse-buffer.ts:194-205 | `dump` has one entry per address below the length, each equal to `at` of that address |
| SparseBuffers.Consume | src/lib/sparse-buffer.ts:215-228 | raw bytes merge at the offset and change nothing outside it; a hunk or another buffer merges at its own addresses, ignoring the offset |
| SparseBufferProperties.AppendBytesAt | src/lib/sparse-buffer.ts:115-118 | `append` puts the bytes right after the old length, grows the length by their count and leaves every other byte as it was |
| SparseBufferProperties.OrBufferBits | src/lib/sparse-buffer.ts:109-113 | OR-ing in another buffer turns a bit on exactly when either buffer has it on; the buffer case of `_consume` is at lines 215-228 |
| SparseBufferProperties.OrBufferPositionsUnion | src/lib/sparse-buffer.ts:109-113 | the ids of an OR of two buffers are the union of their ids; positions as listed by `getOnBitPositions`, lines 139-168 |
| SparseBufferProperties.IncomingCopiedWhereNothingStored | src/lib/sparse-buffer.ts:274-279 | where nothing is stored, every transform, AND and NOT included, stores the incoming byte as it is; the gap parts of lines 249 and 255 are copied the same way |
| SparseBufferProperties.AndNotOnlyClear | src/lib/sparse-buffer.ts:120-133 | where a byte is stored, AND and NOT only ever clear bits of it; the transform is applied in place at line 244 |
| SparseBufferProperties.AndLeftoverBytes | tests/lib/sparse-buffer.spec.ts:289-303 | AND-ing two bytes over one stored byte ANDs the shared byte and keeps the leftover byte as it comes |
| SparseBufferProperties.AndWholeEnchilada | tests/lib/sparse-buffer.spec.ts:337-369 | five overlapping AND runs leave a ten-byte buffer whose unshared bytes came in verbatim and whose shared bytes are ANDed |
| SparseBufferProperties.AllOnBytesListEveryPosition | tests/lib/sparse-buffer.spec.ts:382-435 | after OR-ing `n` bytes of `0xFF`, the positions are exactly `0 .. 8n - 1`, in order, and the total is `8n` |
| BitPositions.AddOnBitPositionsFor | src/lib/sparse-buffer.ts:385-443 | the positions listed for a byte are exactly its on-bits, most significant bit first, within the bounds, in ascending order |
| BitPositions.PositionsMembership | src/lib/sparse-buffer.ts:139-168 | position `8 * o + k` is listed exactly when it is within the bounds and byte `o` has bit `128 >> k` on |
| BitPositions.PositionsIncreasing | src/lib/sparse-buffer.ts:139-168 | over a sorted hunk list the positions come out strictly ascending |
| BitPositions.Bound | src/lib/sparse-buffer.ts:146-147 | a bound passed to the call wins over the buffer's own `minimum` or `maximum` |
| BitPositions.OnBitPositions | src/lib/sparse-buffer.ts:139-188 | the total counts every position within the bounds; for a non-negative `skip`, an ordered buffer returns the ascending listing cut from `skip` for `take`; an unordered one with no skip and a missing, sub-1 or large take returns a permutation of all of it; the unordered case goes through `randomizeInPlace`, lines 335-349 |
| BitPositions.OnBitPositionsFromBack | src/lib/sparse-buffer.ts:179-188 | for a negative `skip` an ordered buffer returns JavaScript's `slice(skip, skip + take)` of the ascending listing, which counts the start from the back |
| BitPositions.PageOfArrangement | src/lib/sparse-buffer.ts:173-188 | for any non-negative skip, the values are the page from `skip`, `take` long and clamped to the end, of an arrangement that is a permutation of all positions (the positions themselves when ordered); so they are a sub-multiset of the positions, and a missing or sub-1 take runs to the end |
| BitPositions.GetOnBitPositions | src/lib/sparse-buffer.ts:464-468 | the paging variant falls back to its own skip and take when the call leaves them out |
| BitPositions.ClearPaging | src/lib/sparse-buffer.ts:470-476 | `clearPaging` keeps the bytes and the ordering and forgets bounds, skip and take |
| BitPositions.ClearedPagingListsEverything | src/lib/sparse-buffer.ts:464-476 | once paging is cleared, every on-bit of the buffer is listed |
| Shuffles.Swap | src/lib/shuffle.ts:3-7 | one loop step exchanges positions `i` and `j`, touches nothing else and keeps the multiset |
| Shuffles.FisherYates | src/lib/shuffle.ts:1-9 | the shuffle only permutes (same length and multiset), and leaves arrays of length 0 or 1 alone |
| Shuffles.FisherYatesFreezesPosition | src/lib/shuffle.ts:2-8 | once step `i` has swapped in the element from `j <= i`, position `i` is never written again; the draw comes from `randomNumber`, lines 11-15 |
| Shuffles.ShuffleFisherYates | src/lib/shuffle.ts:1-15 | the in-place loop, run on a copy, permutes its input and matches the functional definition |
| Shuffles.Top | src/lib/sparse-buffer.ts:335-340 | the swapped prefix has length `ceil(3n / 4)` |
| Shuffles.RandomizeInPlace | src/lib/sparse-buffer.ts:335-349 | the partial shuffle of unordered positions only permutes them; the draw comes from `randomNumber`, line 363 |
| HunkInsertion.InsertIndex | src/lib/sparse-buffer.ts:260-272 | the intended insertion point is after every hunk starting at or before `from` and before the first starting after it |
| HunkInsertion.AsWrittenVersusIntended | src/lib/sparse-buffer.ts:264-268 | for non-negative addresses, the index reduction as written agrees with the intended position, except that it answers 1 when the gap belongs in front of two or more hunks |
| HunkInsertion.InsertIndexCounterexample | src/lib/sparse-buffer.ts:230-272 | OR-ing six bytes at 5 into hunks at 10 and 30 inserts the gap part second and leaves the list unsorted; the intended index keeps it sorted |
| HunkInsertion.InsertAtIndexKeepsSorted | src/lib/sparse-buffer.ts:260-272 | inserting a non-overlapping hunk at the intended index keeps the hunk list sorted; the plain `splice` of `_addHunk` at line 288 does not re-sort |
| HunkInsertion.MergeGapAtInsertIndex | src/lib/sparse-buffer.ts:238-243 | the model's merge puts each gap part exactly at the intended index |
| Tokenizer.FirstMatch | src/lib/dsl/tokenize.ts:76-85 | the table `reduce` settles on the first pattern, in table order, that matches at index 0, and finds none only when no pattern matches |
| Tokenizer.TableKinds | src/lib/dsl/tokenize.ts:45-62 | the table produces only the nine lexable kinds, and only its two quoted patterns produce identifiers |
| Tokenizer.SanitizeIdentifier | src/lib/dsl/tokenize.ts:64-70 | an accepted identifier contains no quote |
| Tokenizer.QuotedValue | src/lib/dsl/tokenize.ts:46-52 | an identifier token's value is the lexeme without its quotes, and it is a valid name, so the sanitizer never fails there; the value is sanitised at lines 93-95 |
| Tokenizer.Lex | src/lib/dsl/tokenize.ts:75-99 | the loop yields at most one token per character, only well-formed tokens and nothing for empty text; it fails only with `InvalidToken`, where some non-empty stretch of the text that it reached matches no table pattern, and the error carries that stretch's first ten characters (lines 86-89) |
| Tokenizer.Tokenize | src/lib/dsl/tokenize.ts:72-101 | `tokenize` terminates with at most as many tokens as characters, all well-formed, or fails with `InvalidToken` carrying the first ten characters of a stretch of the input, from where it stopped, that no table pattern matches |
| Tokenizer.StuckInRemainder | src/lib/dsl/tokenize.ts:97 | a stretch the lexer stops at in the trimmed remainder after a lexeme is a stretch of the whole text too, so the error found later in the loop is about the caller's text |
| Tokenizer.LexRenderedToken | src/lib/dsl/tokenize.ts:45-62 | the canonical text of any lexable token, followed by nothing or a space, is matched by that token's own table entry, whole; the table is searched by the `reduce` of lines 76-85 |
| Tokenizer.TokenizeRenderAll | src/lib/dsl/tokenize.ts:72-101 | lexing undoes rendering: the canonical text of any well-formed token list lexes back to that list |
| TokenizerExamples.QuotedKeywordIsName | tests/lib/dsl/tokenizer.spec.ts:173-189 | a keyword in quotes is lexed as a segment name, and `NOT IN` is read as one token before `IN` can match |
| TokenizerExamples.NotGroupTextDoesNotLex | tests/lib/segmenta.spec.ts:674 | the query text of the nested `not` group test, "get where in 'x' and not (in 'y' or in 'z')", does not lex: `get where`, `in`, `'x'` and `and` are read and then `not (` matches no table entry, so `tokenize` fails with "not (in 'y" |
| TokenizerExamples.DoubleSpacedNotInIsInvalid | src/lib/dsl/tokenize.ts:86-89 | `NOT` and `IN` separated by two spaces match no pattern, and the error carries the first ten characters; the `NOT IN` pattern at line 58 allows one space only |
| Validation.Spelling | src/lib/dsl/validation.ts:94-99 | the adjacency message spells `negate` as "not" and `exclude` as "not in", and every other kind by its name |
| Validation.FindKind | src/lib/dsl/validation.ts:27-40 | `findIndex` gives the first position of a kind, or -1 exactly when the kind is absent |
| Validation.ShouldNotBeEmpty | src/lib/dsl/validation.ts:12-16 | the check fails, as an empty query, exactly on the empty list |
| Validation.ShouldStartWithGetOrCount | src/lib/dsl/validation.ts:18-25 | a non-empty list passes exactly when it starts with `get` or `count`; on an empty list the check itself throws |
| Validation.ShouldNotStartNegated | src/lib/dsl/validation.ts:73-83 | the list fails exactly when some `exclude` has no `include` before it |
| Validation.SearchStart | src/lib/dsl/validation.ts:28-35 | the search for an initial `in` starts at the first `get`, else the first `count`, else (as `indexOf` with -1 does) at the last position |
| Validation.ShouldHaveInitialIn | src/lib/dsl/validation.ts:27-40 | the list passes exactly when it has two or more tokens and an `include` lies between the search start and the first identifier |
| Validation.ShouldHaveSomeSegmentId | src/lib/dsl/validation.ts:42-47 | the list passes exactly when it holds an identifier |
| Validation.ShouldNotRun | src/lib/dsl/validation.ts:49-71 | a non-empty list fails exactly when the pair occurs as adjacent tokens; on an empty list the `reduce` throws |
| Validation.ReduceFindsFirst | src/lib/dsl/validation.ts:102-108 | the validator fold reports nothing exactly when every check passes, and otherwise the error of the first failing check |
| Validation.ValidateAcceptsIffAllPass | src/lib/dsl/validation.ts:85-112 | a token list is accepted exactly when it passes every check |
| Validation.ValidateReportsFirstFailure | src/lib/dsl/validation.ts:85-112 | a rejected list carries the error of a failing check all of whose predecessors pass |
| Validation.ValidateStopsAtFirstFailure | src/lib/dsl/validation.ts:85-112 | the first failing check decides the error, and later checks are not consulted |
| Validation.EmptyIsEmptyQuery | src/lib/dsl/validation.ts:88-100 | the empty list is rejected as an empty query, before the checks that would throw on it; the checks of lines 12-25 are listed first |
| Validation.NeverReportsTypeError | src/lib/dsl/validation.ts:85-112 | the throw an empty list would cause inside a check is never what `validate` reports |
| ValidationExamples.MustStartWithVerbExample | tests/lib/dsl/tokenizer.spec.ts:260-266 | `IN GET WHERE IN 'x'` is rejected for not starting with a verb |
| ValidationExamples.StartsNegatedShape | src/lib/dsl/validation.ts:73-83 | every list starting `get`, `not in` is rejected as starting negated |
| ValidationExamples.StartsNegatedExample | tests/lib/dsl/tokenizer.spec.ts:267-273 | `GET WHERE NOT IN 'x'` is rejected as starting negated |
| ValidationExamples.NameRightAfterVerbShape | src/lib/dsl/validation.ts:27-40 | every list with a name right after the verb, and no negation before an `in`, lacks an initial `in` |
| ValidationExamples.NoInitialInExample | tests/lib/dsl/tokenizer.spec.ts:274-281 | `GET WHERE 'X'` is rejected for lacking an initial `in` |
| ValidationExamples.LateInExample | tests/lib/dsl/tokenizer.spec.ts:282-289 | `GET WHERE 'X' OR IN 'Y'` is rejected because the `in` comes after the first name |
| ValidationExamples.NoNameShape | src/lib/dsl/validation.ts:42-47 | every list starting `get`, `in` without any name is rejected for naming no segment |
| ValidationExamples.NoSegmentIdExample | tests/lib/dsl/tokenizer.spec.ts:290-297 | `GET WHERE IN OR AND AND` is rejected for naming no segment |
| ValidationExamples.AndIntoAndShape | src/lib/dsl/validation.ts:49-65 | every list `get in <name> and and ...` is rejected for running `and` into `and`; the message spelling is at line 94 |
| ValidationExamples.AndIntoAndExample | tests/lib/dsl/tokenizer.spec.ts:298-312 | `GET WHERE IN 'X' AND AND IN 'Y'` is rejected for running `and` into `and` |
| ValidationExamples.AcceptedShape | src/lib/dsl/validation.ts:85-112 | every list of the shape `get in <name> or in <name>` passes all checks |
| ValidationExamples.NotIntoNotInMessage | tests/lib/dsl/tokenizer.spec.ts:303 | the message for `negate` followed by `exclude` reads "May not run not into not in" |
| ValidationExamples.NotInIntoNotMessage | tests/lib/dsl/tokenizer.spec.ts:304 | the message for `exclude` followed by `negate` reads "May not run not in into not" |
| Parser.Step | src/lib/dsl/parse.ts:15-32 | each token kind makes exactly the one builder call the action table names; a name-less identifier or integer fails; kinds bound to methods the pipeline lacks fail; the identifier case is at lines 42-47 |
| Parser.ParseFromSnoc | src/lib/dsl/parse.ts:34-52 | parsing one more token continues from the builder the earlier tokens left |
| Parser.ParseFromAppend | src/lib/dsl/parse.ts:34-52 | the parse of a concatenation is the parse of the second part from where the first left off, and an error in the first part stops it |
| Parser.ParseTrace | src/lib/dsl/parse.ts:34-52 | a chain of successful single steps is a successful parse ending at the last builder |
| Pipelines.In | src/lib/dsl/pipeline.ts:48-62 | `in()` turns nothing or `or` pending into `orIn`, keeps `andIn` and `notIn`, and fails after `orIn` |
| Pipelines.SetPending | src/lib/dsl/pipeline.ts:73-86 | `notIn`, `not`, `and` and `or` only overwrite the pending operator; `notIn` at lines 41-44 does the same |
| Pipelines.AddSegment | src/lib/dsl/pipeline.ts:64-71 | `segment(id)` fails exactly when nothing is pending, and otherwise commits the pending operator with the name and clears it |
| Pipelines.AsGet | src/lib/dsl/pipeline.ts:116-119 | `asGet` sets GET mode and changes nothing else |
| Pipelines.AsCount | src/lib/dsl/pipeline.ts:121-124 | `asCount` sets COUNT mode and changes nothing else |
| Pipelines.StartGroup | src/lib/dsl/pipeline.ts:88-96 | with nothing or `notIn` pending, a GET-mode child becomes the segment of a new operation and building moves into it; otherwise nothing changes |
| Pipelines.CompleteGroup | src/lib/dsl/pipeline.ts:98-100 | `completeGroup` returns to the parent with the child in place, and stays put at the root |
| Pipelines.SegmentBuffer | src/lib/dsl/pipeline.ts:129-147 | a named operation contributes its segment's buffer, and an empty name fails as "no segment" |
| Pipelines.Apply | src/lib/dsl/pipeline.ts:148-163 | `orIn` and `or` OR, `andIn` ANDs and `notIn` NOTs the segment into the result address by address; a `none` operation fails |
| Pipelines.Evaluate | src/lib/dsl/pipeline.ts:126-166 | a GET result is a fresh, ordered, unbounded plain buffer |
| Pipelines.Exec | src/lib/dsl/pipeline.ts:107-114 | the corrected `exec` of the second finding: it fails without a mode; GET yields the evaluated buffer, and COUNT the number of its on-bits, where `_count` as written yields `undefined` (`Pipelines.ExecAsWritten`) |
| Pipelines.ExecAsWritten | src/lib/dsl/pipeline.ts:102-114 | as written, `exec` agrees with the corrected one except for COUNT, which fails exactly when GET would |
| PipelineProperties.CountIsCardinalityOfGet | src/lib/dsl/pipeline.ts:102-114 | COUNT fails exactly when GET does, with the same error, and otherwise yields the number of ids GET lists |
| PipelineProperties.CountIsDistinctPositions | src/lib/dsl/pipeline.ts:102-105 | the count is the number of distinct on-bit positions, none counted twice |
| PipelineProperties.OrChainIsUnion | src/lib/dsl/pipeline.ts:126-166 | a chain of OR operations never fails, and its result has a bit on exactly where the start or one of the named segments has |
| PipelineProperties.OrQueryIsUnion | src/lib/dsl/pipeline.ts:107-166 | a GET made only of ORs lists exactly the union of its segments' ids |
| PipelineProperties.AndStepBits | src/lib/dsl/pipeline.ts:152-154 | where the result holds a byte, AND keeps a bit only when the segment has it on, or has no byte there |
| PipelineProperties.NotStepBits | src/lib/dsl/pipeline.ts:155-157 | where the result holds a byte, NOT keeps a bit only when the segment has it off |
| PipelineProperties.AndNotCopyIntoGaps | src/lib/dsl/pipeline.ts:152-157 | where the result holds nothing, AND and NOT both turn on exactly the segment's bits |
| PipelineProperties.NestedCountRefused | src/lib/dsl/pipeline.ts:134-141 | a group run as COUNT is refused as "nested pipeline can ONLY be a get" |
| PipelineExamples.AndNotGroupExample | tests/lib/segmenta.spec.ts:661-677 | with x = {1..5}, y = {2} and z = {4}, the token list GET, IN 'x', AND, `negate`, `(`, IN 'y', OR, IN 'z', `)` (the parse the test's query intends) parses to a nested group and lists exactly 1, 3 and 5; the lexer cannot produce this list from the test's text (`TokenizerExamples.NotGroupTextDoesNotLex`) |
| PipelineExamples.AndGroupFlatExample | tests/lib/segmenta.spec.ts:644-660 | "in x and (in y or in z)" does not nest, is evaluated flat as ((x AND y) OR z), and lists exactly 2 and 4 |
| PipelineExamples.BareGroupFails | src/lib/dsl/pipeline.ts:88-96 | a group opened with nothing pending leaves a `none` operation, and evaluating it fails; the `none` case of `_get` fails at lines 161-162 |
| PipelineExamples.NestedCountFails | src/lib/dsl/pipeline.ts:134-141 | "get where not in (count where in y)" is refused |
| PipelineExamples.UnclosedGroupYieldsChild | src/lib/dsl/parse.ts:36-51 | a group never closed leaves its child as the parse result, so only the child's query runs |
| PipelineExamples.CountXCardinality | src/lib/dsl/pipeline.ts:102-105 | the corrected `_count` of the five-member example segment x = {1..5} is 5, the number of its listed positions |
| PipelineExamples.CountAsWrittenIsUndefined | src/lib/dsl/pipeline.ts:102-105 | as written, counting a five-member segment resolves to undefined, while the corrected count is 5 |
| BucketFetch.MakeHunk | src/lib/segmenta.ts:132-139 | a bucket becomes a hunk holding its bytes at the byte address of its first id, when that id is a whole number of bytes |
| BucketFetch.MakeHunks | src/lib/segmenta.ts:132-139 | every fetched bucket becomes its hunk, in key order, or the fetch fails naming an unaddressable bucket |
| BucketFetch.SortByFirstFacts | src/lib/segmenta.ts:115 | `orderBy` on `first` only reorders the hunks and orders them by `first` |
| BucketFetch.OrAllBits | src/lib/segmenta.ts:116 | after OR-ing the hunks in, a bit is on exactly where it was on before or one of the hunks has it, whatever the order |
| BucketFetch.GetSegmentsBuffer | src/lib/segmenta.ts:103-118 | the fetched buffer is a fresh, ordered, unbounded paging buffer, and the fetch fails exactly when some bucket is unaddressable |
| BucketFetch.GetSegmentsBufferPositions | src/lib/segmenta.ts:103-118 | the ids of the fetched buffer are exactly the ids whose bit is set in some fetched bucket, counted from the bucket's first id; the buckets become hunks in `_makeHunks`, lines 132-139 |
| BucketFetch.BucketKeyHunk | src/lib/segmenta.ts:132-139 | the bucket an id's bit is written to reads back as a hunk at that bucket's first id, with the id at its written offset; the keys and offsets come from `_tryPut` at lines 372-377 and the names from lines 401-406 |
| SetBits.EncodeFrom | src/lib/segmenta.ts:362-380 | building the command list fails exactly when some operation combines add and del |
| SetBits.TryPut | src/lib/segmenta.ts:348-383 | an empty batch only ensures the segment exists; an oversized batch fails before any command is built; otherwise the batch becomes one `setbits` call unless an operation combines add and del; the batch limit is checked by `validateMaxOperationLength`, lines 421-428 |
| SetBits.IndexAdds | src/lib/set-bits.ts:26-29 | each kept key is added to its index set, in order |
| SetBits.PutRoundTrip | src/lib/set-bits.ts:7-29 | the script run on the list `_tryPut` builds makes exactly the batch's bit writes, in input order, and indexes exactly the bucket keys the list names |
| SetBits.BucketKeyIsNotANumber | src/lib/set-bits.ts:9-15 | a bucket key never reads as a number, so the script always takes it as a key |
| SetBits.IndexKeyOfBucketKey | src/lib/set-bits.ts:26-29 | the script files a bucket key under `<dataKey>/index`, the set the store reads a segment's buckets from; that set is the one `_fetchIndex` reads, segmenta.ts line 393 |
| SetBits.PutIndexesUnderSegment | src/lib/set-bits.ts:26-29 | every index addition of a batch goes to its segment's own index set |
| SetBits.LastWriteWins | src/lib/set-bits.ts:20 | a later write to a bit overrides an earlier one, and bits nobody writes keep their value |
| SetBits.PutLastOperationWins | src/lib/segmenta.ts:362-380 | after a batch, each id's bit holds the value of the last operation naming it, and other bits are unchanged; each bit is written by the `setbit` of set-bits.ts lines 17-22 |
| SetBitsExamples.TestScriptEffect | tests/lib/set-bits.spec.ts:7-17 | the test's argument list makes each pair's write under its key, in order, and indexes both keys |
| SetBitsExamples.TestBits | tests/lib/set-bits.spec.ts:16-32 | after the test's script the first key's bits 0..2 read 1, 0, 1 and the second key's bits 0..3 read 0, 1, 0, 1 |
| Queries.SanitizeOptions | src/lib/segmenta.ts:458-465 | a bare text becomes the query, and a missing or empty query is refused |
| Queries.SanitizeOptionsRoundTrip | src/lib/segmenta.ts:443-465 | sanitising options that are already sanitised changes nothing |
| Queries.NullIsUndefined | src/lib/segmenta.ts:443-456 | `null` paging options are indistinguishable from left-out ones once sanitised |
| Queries.LooksLikeDSL | src/lib/segmenta.ts:467-471 | a query counts as DSL text exactly when it contains a space |
| Queries.SearchPagingWord | src/lib/segmenta.ts:418 | the pattern search finds a match exactly when a paging word sits between white space somewhere in the text |
| Queries.ExpectsPaging | src/lib/segmenta.ts:413-419 | a query is paged exactly when some paging option is given or the text mentions skip, take, min or max as a word |
| Queries.FilterBounds | src/lib/segmenta.ts:480-482 | the bound filter keeps exactly the ids within the inclusive bounds, in their order; `_paginateLocal` passes the bounds on at lines 273-275 |
| Queries.PaginateLocalPage | src/lib/segmenta.ts:256-290 | for every buffer `getBuffer` hands over (a fetched paging buffer, or the plain unbounded buffer of a DSL `get`) and a non-negative skip and take: a snapshot page is the ascending list of ids within the bounds, cut from skip for take ids; options win over the buffer's own settings; the total counts every id; the stored buffer is the buffer itself, with its paging cleared when it is a paging buffer (line 265 skips `clearPaging` on a plain one) |
| Queries.PrepareCountResult | src/lib/segmenta.ts:495-507 | a count result has no ids, count and total equal to the count, and is not paged |
| Queries.CachedResultPage | src/lib/segmenta.ts:473-493 | a re-query pages the cached ids within the bounds from skip for take ids, a missing take meaning the cached total, and keeps the cached total |
| Queries.CachedAgreesWithLocal | src/lib/segmenta.ts:473-493 | for a fetched paging buffer or the plain buffer of a DSL `get`, without bounds, and a non-negative skip: a re-query with the same options returns the page the snapshot query returned; the snapshot page comes from `_paginateLocal`, lines 256-290 |
| Queries.NewResult | src/lib/segmenta.ts:174-198 | a snapshot is stored exactly for a paged query that is not a re-query, and the result-set id names the snapshot or the re-queried id |
| Queries.UnpagedListsEverything | src/lib/segmenta.ts:174-198 | for a fetched paging buffer or the plain buffer of a DSL `get`: an unpaged query stores nothing, has no result-set id, and lists every id in ascending order |
| Queries.Query | src/lib/segmenta.ts:149-172 | `query` refuses a missing query, answers a cached re-query from the cache, answers COUNT with a count result, answers GET with a new result over the fetched buffer under the new id, and otherwise passes on the fetch's error |
| Queries.TryDo | src/lib/segmenta.ts:430-441 | `tryDo` makes at most `maxAttempts` calls, stops at the first success, and rethrows the failure of the last permitted call |
| QueriesExamples.ReQueryWithSkipAndTake | tests/lib/segmenta.spec.ts:281-299 | re-querying a cached listing of ids 1..5 with skip 2 and take 1 returns 3; the test's first query cannot create that listing, because its text does not lex (`EngineExamples.PagedQueryTextFails`) |
| QueriesExamples.ReQueryWithMinAndMax | tests/lib/segmenta.spec.ts:300-318 | re-querying a cached listing of ids 1..5 with min 3 and max 3 returns 3; the test's first query does not lex (`EngineExamples.PagedQueryTextFails`) |
| QueriesExamples.ReQueryWithBoundsAndPaging | tests/lib/segmenta.spec.ts:319-338 | re-querying a cached listing of ids 1..5 with min 2, max 4, skip 1 and take 1 returns 3; the test's first query does not lex (`EngineExamples.PagedQueryTextFails`) |
| QueriesExamples.SkipAndTakeMakeAQueryPaged | tests/lib/segmenta.spec.ts:290 | a query text holding `skip` and `take` as words counts as paged by `expectsPaging`; the lexer still rejects that text, so the query fails before paging matters (`EngineExamples.PagedQueryTextFails`) |
| QueriesExamples.UpperCaseKeywordMakesAQueryPaged | src/lib/segmenta.ts:418 | paging words are recognised in any letter case |
| QueriesExamples.KeywordInsideAWordIsNotPaging | src/lib/segmenta.ts:418 | a text without white space, such as a plain segment id, is never paged |
| QueriesExamples.NoSnapshotWithoutPaging | tests/lib/segmenta.spec.ts:396-414 | querying a segment id without skip or take stores no snapshot and lists all the segment's ids |
| QueriesExamples.PagedQuerySnapshots | src/lib/segmenta.ts:186-193 | a query with skip and take over a fresh buffer is snapshotted under the new id |
| Listing.SegmentOfIndexKey | src/lib/segmenta.ts:306-313 | for a segment name without `/`, the name read off the segment's index key is that segment |
| Listing.ListedNameAsWritten | src/lib/segmenta.ts:306-313 | as written, `list` reports the last `/`-separated component of each segment name, which is the whole name only when it holds no `/` |
| Listing.SlashedSegmentListedByLastPart | src/lib/segmenta.ts:306-313 | a segment added as `a/b` is listed as `b` |
| Listing.SortNamesFacts | src/lib/segmenta.ts:312 | sorting orders the names and only permutes them |
| Listing.SortedUnique | src/lib/segmenta.ts:312 | any two sorted arrangements of the same names are equal |
| Listing.ListSegmentsFacts | src/lib/segmenta.ts:306-313 | `list` is sorted, holds each index key's segment name once per key, and does not depend on the order `KEYS` answered in |
| Hydrator.Ttl | src/lib/resultset-hydrator.ts:21-25 | a missing or zero TTL falls back to one day, and any other TTL is kept |
| Hydrator.Dehydrate | src/lib/resultset-hydrator.ts:27-36 | a snapshot always leaves its expiry marker under `<base>/expires`; the marker is written by `_setExpiresInfo`, lines 66-71 |
| Hydrator.Rehydrate | src/lib/resultset-hydrator.ts:38-64 | reading a snapshot fails as "not found" exactly when its marker is missing or empty, and otherwise yields a fresh ordered buffer |
| Hydrator.BlockKeyOffset | src/lib/resultset-hydrator.ts:49-56 | a hunk's block key lies under the base key and parses back to the hunk's `first`; the key is built at line 32 |
| Hydrator.ExpiresKeySkipped | src/lib/resultset-hydrator.ts:50-56 | the marker lies under the base key, but its last component is no number, so `rehydrate` skips it |
| Hydrator.StoreHunksFacts | src/lib/resultset-hydrator.ts:31-34 | the dehydrate loop stores each hunk's bytes under its block key and leaves every other key as it was |
| Hydrator.RehydrateFromRead | src/lib/resultset-hydrator.ts:49-61 | after the rehydrate loop each address covered by a listed block holds that block's byte, and every other address is unchanged |
| Hydrator.DehydrateRehydrate | src/lib/resultset-hydrator.ts:27-64 | rehydrating a fresh snapshot yields a buffer with the same bytes at every address, and so the same `at` and `dump`, as the buffer dehydrated |
| Engine.RunDsl | src/lib/segmenta.ts:141-147 | a DSL query fails in the lexer exactly when `tokenize` fails, and otherwise is the parse and execution of its tokens |
| EngineExamples.PagedQueryTextFails | tests/lib/segmenta.spec.ts:290 | for every name, `getBuffer` on the re-query tests' first query, `get where in "<name>" skip 0 take 1`, fails in the lexing stage with "skip 0 tak": the table has no entry for `skip`, so no result set is stored for the second query |
| TokenizerExamples.PagedQueryTextDoesNotLex | tests/lib/segmenta.spec.ts:290 | `get where`, `in` and the double-quoted name are read and then `skip` matches no table entry, so `tokenize` fails with "skip 0 tak" |
| EngineExamples.NotGroupQueryTextFails | src/lib/segmenta.ts:141-147 | `getBuffer` on the nested `not` group test's text, "get where in 'x' and not (in 'y' or in 'z')", fails in the lexing stage with "not (in 'y", so that test's expected ids 1, 3 and 5 are not what the code produces |
| Engine.TokenizeAndValidate | tests/lib/dsl/tokenizer.spec.ts:253-312 | lexing then validating accepts exactly the texts that lex to a list passing every check, and reports the lexer's or the first failing check's error |
| Engine.RenderedTokensValidate | src/lib/dsl/tokenize.ts:72-101 | the canonical text of well-formed tokens passes lexing and validation exactly when the tokens pass validation, and gives the tokens back; validation is `validate` of dsl/validation.ts, lines 85-112 |
| Engine.GetBuffer | src/lib/segmenta.ts:103-118 | a single argument containing a space runs as a query, and anything else is fetched bucket by bucket |
| Engine.GetBufferIsPaginable | src/lib/segmenta.ts:103-118 | every buffer `getBuffer` yields is ordered and either a paging buffer or an unbounded plain one, the two kinds `_paginateLocal` is handed |
| Engine.DslBufferIsPaginable | src/lib/dsl/pipeline.ts:126-127 | the buffer a query pipeline yields is a fresh plain buffer without bounds, not a paging buffer |
| Engine.RenderedQueryRunsItsTokens | src/lib/segmenta.ts:141-147 | handing the canonical text of two or more tokens to `getBuffer` runs exactly those tokens; `getBuffer` sends such text there at lines 103-107 |
| Engine.SegmentNameIsFetched | src/lib/segmenta.ts:103-118 | a lone segment name never runs as a query; it is fetched as an ordered paging buffer |
| EngineExamples.AndGroupQueryText | tests/lib/segmenta.spec.ts:644-660 | `getBuffer` on the text "GET WHERE IN 'x' AND ( IN 'y' OR IN 'z' )" lists exactly 2 and 4 |

## Left out

- Redis I/O is not modelled. The connection cache, `sunion`, `keys`, `mget`, `multi`/`exec` and the Lua registration are replaced by parameters: the store function, the key listings and the fetched byte sequences.
- Expiry timing is not modelled. The `expire` commands, the expiry date kept in the marker and the TTL refresh on rehydrate are left out; the marker's content is a parameter.
- The LRU cache, `uuid()` and `isUUID` are parameters of `Queries.Query`. They are the cached entry, the new id and the re-query flag.
- `Math.random` and `Math.round` in both `randomNumber` helpers are left out. An oracle's draw is reduced into the range the helper produces.
- Promise scheduling and concurrent queries are left out; every operation is sequential.
- `fetchStats` and `_humanReadableSize` are left out. They do floating-point byte arithmetic and formatting.
- `dispose` and `clearLRUCache` are left out. They only delete from the cache and the store, and `resultset-hydrator.ts` defines no `dispose`.
- `put`, `add` and `del` are covered through `SetBits.TryPut` and `Queries.TryDo`. They only map ids to operations and retry.
- `_ensureSegmentExists` is represented by the plan `EnsureSegmentExists`. Its store round trip is not modelled.
- Node `Buffer` aliasing is not modelled; the model uses value semantics. In the source a hunk wraps the caller's buffer and `slice` shares memory, so a merge can write into a segment's own buffer.
- The performance scaffolding of `getOnBitPositions` is left out: the scratch array, `trim` and the growth increments. Its result is modelled as a sequence.
- The `isHunk` predicate and the type testers are left out; the `Source` datatype discriminates instead. The "supports types" throw of `_consume` cannot happen for a value of that datatype.
- The "Unhandled token type" branch of `parse` is left out. Every token kind has an action, so the branch is unreachable.
- The line and column of syntax errors are not modelled, because tokens carry neither. The tests' messages with positions come from a lexer that is not part of this model.
- Addressing.BucketSize: a bucket size of 0 (a request of 1 to 7) is computed but not used further. Addressing functions require a positive size, since the source would divide by zero.
- Negative ids are not modelled. The batch properties (`SetBits.PutRoundTrip`, `SetBits.PutLastOperationWins`) require non-negative ids, because a negative id's offset is negative in JavaScript and `setbit` rejects it.
- BucketFetch.MakeHunks: a bucket whose first id is not a multiple of 8, or not a number, fails as `UnaddressableBucket`. In the source, a start that is a number but not a multiple of 8 builds a hunk at a fractional address. A start that is not a number (NaN, as `parseInt` gives for the empty text before the first `-` of a negative-id bucket name such as `-41960--1`) is stored as address 0 by `offset || 0` (hunk.ts line 49), so that bucket's bytes are OR-ed in at address 0 over real data. Neither can happen for keys `_tryPut` writes with a normalised size (`BucketFetch.BucketKeyHunk`).
- BucketFetch.GetSegmentsBuffer: `mget` answering `nil` for a key that vanished after the index was read is not modelled. Every key has bytes.
- Hydrator.Rehydrate: every listed key must be in the store. A key expiring between `KEYS` and `GET` is not modelled.
- Listing.ListSegmentsFacts: it assumes every key `KEYS` returns contains a `/`, which the pattern `<prefix>/*/index` guarantees. Names are compared by character code, which matches JavaScript's UTF-16 order only for characters outside the surrogate range.
- Queries.PaginateLocalPage: a negative `skip` or `take` is not covered. JavaScript's `slice` counts a negative end from the back.
- BitPositions.OnBitPositions: its page clause is stated for a non-negative `skip`. A negative `skip` slices from the back of the listing; `BitPositions.OnBitPositionsFromBack` states that for an ordered buffer, and for an unordered one only the total is stated.
- Listing.SegmentOfIndexKey: holds for segment names without `/` only. A name holding `/` is listed by its last component (`Listing.ListedNameAsWritten`), so `add("a/b", …)` makes `list()` report `b`.
- Pipelines.Exec: models the corrected `_count`, where COUNT yields the number of on-bits. `_count` as written yields `undefined` (the second finding; `Pipelines.ExecAsWritten`).
- Queries.CachedResultPage: a negative `skip` or `take` is not covered, for the same reason.
- Parser.Step: the builder calls `min`, `max`, `int`, `skip`, `take` and `asRandom` are modelled only as the failure they cause, because the pipeline does not define them.
- SetBits.TryPut: the partial effect of a Lua error part-way through is described by `SetBits.ScriptError` but not proved about. It cannot arise from lists `_tryPut` builds (`SetBits.PutRoundTrip`).
- Queries.Query: models `query()` over the corrected `_count`, where a COUNT query yields a number. With `_count` as written it yields `undefined`, and `query()` throws a TypeError (see the second finding); the `Fetched` datatype has no case for that value.
- SparseBuffers.MergeFrom: the merge walk puts each gap part directly in front of the hunk it precedes. That is the position `HunkInsertion.InsertIndex` computes, the corrected index of the first finding (`HunkInsertion.MergeGapAtInsertIndex`), not the index `_insertHunkPart` computes as written. So `SparseBuffers.MergeFromSorted` holds for the corrected merge only; `HunkInsertion.InsertIndexCounterexample` shows the as-written index breaking the order.
- Decimal.LuaToNumber: accepts non-empty runs of decimal digits only. Lua's `tonumber` also accepts a sign, hexadecimal, fractions, exponents and surrounding white space. The script only ever parses keys containing `/` and the decimal text of non-negative offsets and bits, and on those the two agree.
- `MAX_OPERATIONS_PER_BATCH` is a positive parameter, because the constants module is not modelled.

## Findings

| source | as written | input that shows it | evidently intended | confidence | as-written member | corrected member |
|---|---|---|---|---|---|---|
| src/lib/sparse-buffer.ts:264-268 | `_insertHunkPart` computes the insertion index with `(acc === 0 && cur.first) > from ? idx : acc`, starting at 0; when the gap precedes every hunk, the first hunk is skipped (`idx` 0 is indistinguishable from "not found") and the answer is 1 | hunks at 10 and 30 (one byte each), then `or` of six bytes at offset 5: the gap part 5..9 is spliced in second, giving starts 10, 5, 30 | insert the gap before the first hunk starting after it (index 0 here), keeping hunks sorted so positions come out ascending | medium (not executed) | HunkInsertion.InsertIndexCounterexample | HunkInsertion.InsertAtIndexKeepsSorted |
| src/lib/dsl/pipeline.ts:102-105 | `_count` returns `getOnBitPositions().length`, but the result object has only `values` and `total` | "count where in 'x'" over a segment with ids 1..5 | the number of on-bits, `total` (5 here), as the COUNT tests expect. As written, `getBuffer` hands `undefined` to `query`; `isNumber(undefined)` is false (segmenta.ts lines 163-165), so `_prepareNewResultAndCacheIfAppropriate` calls a method of `undefined` and every COUNT query throws a TypeError | high (not executed) | PipelineExamples.CountAsWrittenIsUndefined | PipelineProperties.CountIsCardinalityOfGet |

=== FILE: addressing.dfy ===
/** Where an id lives: the bucket size a `Segmenta` instance settles on, the name of the bucket
    holding an id and the bit offset of the id inside it. */
module Addressing {
  import opened Wrappers
  import Decimal

  /** `DEFAULT_BUCKET_SIZE`. */
  const DefaultBucketSize: nat := 41960

  /** The constructor's normalisation of the `bucketSize` option; `None` stands for an absent or
      `NaN` option. Sizes below 1 fall back to the default, and every size is rounded down to
      whole bytes. */
  function BucketSize(requested: Option<int>): (b: nat)
    ensures b % 8 == 0
    ensures requested.None? || requested.value < 1 ==> b == DefaultBucketSize
    ensures requested.Some? && requested.value >= 1 ==> b <= requested.value < b + 8
  {
    var size := if requested.None? || requested.value < 1 then DefaultBucketSize else requested.value;
    var mod := size % 8;
    if mod > 0 then size - mod else size
  }

  /** A requested size of 1 to 7 bits rounds down to an empty bucket. */
  lemma TinyBucketSizeIsZero(n: int)
    requires 1 <= n < 8
    ensures BucketSize(Some(n)) == 0
  {
  }

  /** Normalising a normalised (non-zero) size changes nothing. */
  lemma BucketSizeIdempotent(requested: Option<int>)
    requires BucketSize(requested) > 0
    ensures BucketSize(Some(BucketSize(requested))) == BucketSize(requested)
  {
  }

  /** `Math.floor(id / size) * size`: the first id of the bucket. */
  function BucketLower(id: int, size: nat): (lower: int)
    requires size > 0
    ensures lower <= id < lower + size
    ensures id - lower == id % size
  {
    var q := id / size;
    assert id == q * size + id % size;
    q * size
  }

  /** `_generateSegmentNameFor(id)`: `"<lower>-<upper>"`, both ends inclusive. */
  function BucketName(id: int, size: nat): string
    requires size > 0
  {
    var lower := BucketLower(id, size);
    RangeName(lower, lower + size - 1)
  }

  /** `"<lower>-<upper>"`. */
  function RangeName(lower: int, upper: int): string {
    Decimal.IntToString(lower) + ("-" + Decimal.IntToString(upper))
  }

  /** JavaScript's `%`: the remainder takes the sign of the dividend. */
  function JsRemainder(a: int, b: int): (r: int)
    requires b > 0
    ensures a >= 0 ==> 0 <= r < b
    ensures a >= 0 ==> r == a % b
    ensures a < 0 ==> -b < r <= 0
  {
    if a >= 0 then a % b else -((-a) % b)
  }

  /** `id % this._bucketSize`: the bit of the id inside its bucket. */
  function Offset(id: int, size: nat): int
    requires size > 0
  {
    JsRemainder(id, size)
  }

  /** A non-negative id lies inside the bucket it is named after, at its offset from the bucket's start. */
  lemma BucketPlacement(id: nat, size: nat)
    requires size > 0
    ensures var lower := BucketLower(id, size);
            0 <= lower <= id <= lower + size - 1 &&
            0 <= Offset(id, size) < size && lower + Offset(id, size) == id
  {
    var q := id / size;
    assert q >= 0;
    assert BucketLower(id, size) == q * size;
    NonNegativeProduct(q, size);
    assert Offset(id, size) == id % size;
  }

  lemma NonNegativeProduct(a: nat, b: nat)
    ensures a * b >= 0
  {
  }

  /** The bucket name reads back, through `parseInt`, as the bucket's first id. */
  lemma BucketNameStart(id: int, size: nat)
    requires size > 0
    ensures Decimal.JsParseInt(BucketName(id, size)) == Some(BucketLower(id, size))
  {
    var lower := BucketLower(id, size);
    var upper := lower + size - 1;
    assert BucketName(id, size) == RangeName(lower, upper);
    RangeNameStart(lower, upper);
  }

  lemma RangeNameStart(lower: int, upper: int)
    ensures Decimal.JsParseInt(RangeName(lower, upper)) == Some(lower)
  {
    var rest := "-" + Decimal.IntToString(upper);
    assert rest[0] == '-';
    Decimal.JsParseIntOfIntToString(lower, rest);
  }

  /** Two ids share a bucket name exactly when they fall into the same bucket. */
  lemma SameBucketName(a: int, b: int, size: nat)
    requires size > 0
    ensures BucketName(a, size) == BucketName(b, size) <==> a / size == b / size
  {
    if a / size != b / size {
      BucketNameStart(a, size);
      BucketNameStart(b, size);
      DistinctProducts(a / size, b / size, size);
    }
  }

  lemma DistinctProducts(x: int, y: int, size: nat)
    requires size > 0 && x != y
    ensures x * size != y * size
  {
    var lo, hi := if x < y then x else y, if x < y then y else x;
    PositiveProduct(hi - lo, size);
    assert hi * size - lo * size == (hi - lo) * size;
  }

  lemma {:induction false} PositiveProduct(d: nat, size: nat)
    requires d > 0 && size > 0
    ensures d * size > 0
  {
    if d > 1 {
      PositiveProduct(d - 1, size);
      assert d * size == (d - 1) * size + size;
    }
  }
}

=== FILE: bit_positions.dfy ===
/** Enumerating the on-bits of a sparse buffer (`getOnBitPositions`): bit `k` of the byte at
    address `o` (most significant bit first) is position `8 * o + k`; positions are produced hunk by
    hunk and byte by byte, filtered by the optional inclusive bounds, shuffled when the buffer is not
    ordered, and paged with `skip`/`take`. */
module BitPositions {
  import opened Wrappers
  import opened ByteOps
  import opened Hunks
  import opened SparseBuffers
  import JsArrays
  import Shuffles

  predicate Increasing(s: seq<int>) {
    forall i, j :: 0 <= i < j < |s| ==> s[i] < s[j]
  }

  /** The optional inclusive bounds on a position. */
  predicate InBounds(x: int, minimum: Option<int>, maximum: Option<int>) {
    (minimum.None? || minimum.value <= x) && (maximum.None? || x <= maximum.value)
  }

  lemma IncreasingConcat(a: seq<int>, b: seq<int>)
    requires Increasing(a) && Increasing(b)
    requires forall i, j :: 0 <= i < |a| && 0 <= j < |b| ==> a[i] < b[j]
    ensures Increasing(a + b)
  {
  }

  // ---------------------------------------------------------------- one byte

  /** The filled scratch slots from slot `k` on: `bitOffset + b` for each bit `b >= k` that is on
      (membership is `ScratchMember`). */
  function Scratch(src: bv8, bitOffset: int, k: nat): (r: seq<int>)
    requires k <= 8
    ensures Increasing(r)
    ensures forall m :: 0 <= m < |r| ==> bitOffset + k <= r[m] < bitOffset + 8
    decreases 8 - k
  {
    if k == 8 then []
    else
      var rest := Scratch(src, bitOffset, k + 1);
      var r := (if BitOn(src, k) then [bitOffset + k] else []) + rest;
      assert forall m :: 0 < m < |r| && BitOn(src, k) ==> r[m] == rest[m - 1];
      r
  }

  /** A position is in the scratch from slot `k` on exactly when it is slot `b >= k` and bit `b` is on. */
  lemma {:induction false} ScratchMember(src: bv8, bitOffset: int, k: nat, x: int)
    requires k <= 8
    ensures x in Scratch(src, bitOffset, k) <==> bitOffset + k <= x < bitOffset + 8 && BitOn(src, x - bitOffset)
    decreases 8 - k
  {
    if k < 8 {
      ScratchMember(src, bitOffset, k + 1, x);
      var rest := Scratch(src, bitOffset, k + 1);
      assert Scratch(src, bitOffset, k) == (if BitOn(src, k) then [bitOffset + k] else []) + rest;
      if x == bitOffset + k {
        assert x - bitOffset == k;
      }
    }
  }

  /** The `scratch.filter(i => i >= min && i <= max)` step, in order. */
  function Filter(s: seq<int>, lo: int, hi: int): (r: seq<int>)
    ensures forall x :: x in r <==> x in s && lo <= x <= hi
    ensures Increasing(s) ==> Increasing(r)
    ensures forall m :: 0 <= m < |r| ==> r[m] in s
  {
    if |s| == 0 then []
    else
      var rest := Filter(s[1..], lo, hi);
      if lo <= s[0] <= hi then
        assert forall m :: 0 <= m < |rest| ==> rest[m] in rest;
        assert forall m :: 0 <= m < |rest| ==> rest[m] in s[1..];
        [s[0]] + rest
      else
        rest
  }

  /** `addOnBitPositionsFor`: every bit of `src` that is on, as a position, in bit order; with a
      bound given, only positions inside it (a missing bound defaults to the byte's own range). */
  function AddOnBitPositionsFor(src: bv8, offset: int, minimum: Option<int>, maximum: Option<int>): (r: seq<int>)
    ensures forall x :: x in r <==> x / 8 == offset && BitOn(src, x % 8) && InBounds(x, minimum, maximum)
    ensures Increasing(r)
    ensures forall m :: 0 <= m < |r| ==> 8 * offset <= r[m] < 8 * offset + 8
  {
    if src == 0 then
      ZeroListsNothing(offset, minimum, maximum);
      []
    else
      ByteMembership(src, offset, minimum, maximum);
      Kept(src, offset, minimum, maximum)
  }

  /** The scratch of the byte at `offset`, filtered when a bound is given. */
  function Kept(src: bv8, offset: int, minimum: Option<int>, maximum: Option<int>): seq<int> {
    var bitOffset := offset * 8;
    var scratch := Scratch(src, bitOffset, 0);
    if minimum.None? && maximum.None? then scratch
    else Filter(scratch, minimum.GetOr(bitOffset), maximum.GetOr(bitOffset + 8))
  }

  /** A zero byte has no position to list. */
  lemma ZeroListsNothing(offset: int, minimum: Option<int>, maximum: Option<int>)
    ensures forall x :: !(x / 8 == offset && BitOn(0, x % 8) && InBounds(x, minimum, maximum))
  {
    forall x
      ensures !(x / 8 == offset && BitOn(0, x % 8) && InBounds(x, minimum, maximum))
    {
      ZeroBitOff(x % 8);
    }
  }

  lemma ZeroBitOff(k: int)
    requires 0 <= k < 8
    ensures !BitOn(0, k)
  {
  }

  /** The positions `AddOnBitPositionsFor` keeps are the on-bits of the byte within the bounds, in
      order; a bound left out defaults to the byte's own first position or one past its last, which
      lets every position of the byte through. */
  lemma ByteMembership(src: bv8, offset: int, minimum: Option<int>, maximum: Option<int>)
    ensures var r := Kept(src, offset, minimum, maximum);
            (forall x :: x in r <==> x / 8 == offset && BitOn(src, x % 8) && InBounds(x, minimum, maximum)) &&
            Increasing(r) &&
            (forall m :: 0 <= m < |r| ==> 8 * offset <= r[m] < 8 * offset + 8)
  {
    var r := Kept(src, offset, minimum, maximum);
    var scratch := Scratch(src, offset * 8, 0);
    forall x
      ensures x in r <==> x / 8 == offset && BitOn(src, x % 8) && InBounds(x, minimum, maximum)
    {
      KeptMember(src, offset, minimum, maximum, x);
      ByteBit(src, offset, x);
    }
    forall m | 0 <= m < |r|
      ensures 8 * offset <= r[m] < 8 * offset + 8
    {
      assert r[m] in scratch;
      ScratchMember(src, offset * 8, 0, r[m]);
    }
  }

  /** One position: kept exactly when it is one of the byte's slots, its bit is on and it is within
      the bounds. */
  lemma KeptMember(src: bv8, offset: int, minimum: Option<int>, maximum: Option<int>, x: int)
    ensures x in Kept(src, offset, minimum, maximum) <==>
              offset * 8 <= x < offset * 8 + 8 && BitOn(src, x - offset * 8) && InBounds(x, minimum, maximum)
  {
    KeptUnfold(src, offset, minimum, maximum);
    ScratchMember(src, offset * 8, 0, x);
    DefaultBounds(x, offset * 8, minimum, maximum);
    if !(minimum.None? && maximum.None?) {
      FilterMember(Scratch(src, offset * 8, 0), minimum.GetOr(offset * 8), maximum.GetOr(offset * 8 + 8), x);
    }
  }

  lemma KeptUnfold(src: bv8, offset: int, minimum: Option<int>, maximum: Option<int>)
    ensures Kept(src, offset, minimum, maximum) ==
              if minimum.None? && maximum.None? then Scratch(src, offset * 8, 0)
              else Filter(Scratch(src, offset * 8, 0), minimum.GetOr(offset * 8), maximum.GetOr(offset * 8 + 8))
  {
  }

  lemma FilterMember(s: seq<int>, lo: int, hi: int, x: int)
    ensures x in Filter(s, lo, hi) <==> x in s && lo <= x <= hi
  {
  }

  /** Within the byte starting at `bitOffset`, the defaulted bounds agree with `InBounds`. */
  lemma DefaultBounds(x: int, bitOffset: int, minimum: Option<int>, maximum: Option<int>)
    ensures bitOffset <= x < bitOffset + 8 ==>
              (minimum.GetOr(bitOffset) <= x <= maximum.GetOr(bitOffset + 8) <==> InBounds(x, minimum, maximum))
  {
  }

  /** Slot `x - offset * 8` of the byte at `offset` is bit `x % 8` of position `x`. */
  lemma ByteBit(src: bv8, offset: int, x: int)
    ensures offset * 8 <= x < offset * 8 + 8 && BitOn(src, x - offset * 8) <==> x / 8 == offset && BitOn(src, x % 8)
  {
    OnePositionPerBit(offset, x);
  }

  /** The positions `offset * 8 .. offset * 8 + 7` are exactly those whose byte address is `offset`. */
  lemma OnePositionPerBit(offset: int, x: int)
    ensures offset * 8 <= x < offset * 8 + 8 <==> x / 8 == offset
    ensures x / 8 == offset ==> x - offset * 8 == x % 8
  {
  }

  // ---------------------------------------------------------------- hunks

  /** The inner loop over one hunk, from address `offset` to its last byte; zero bytes are skipped
      (membership is `OffsetPositionsMember`). */
  function OffsetPositions(h: Hunk, offset: int, minimum: Option<int>, maximum: Option<int>): (r: seq<int>)
    requires h.first <= offset
    ensures Increasing(r)
    ensures forall m :: 0 <= m < |r| ==> 8 * offset <= r[m] < 8 * h.End()
    decreases h.End() - offset
  {
    if offset > h.Last() then []
    else
      var src := h.At(offset).value;
      var here := if src == 0 then [] else AddOnBitPositionsFor(src, offset, minimum, maximum);
      var rest := OffsetPositions(h, offset + 1, minimum, maximum);
      IncreasingConcat(here, rest);
      here + rest
  }

  /** A position is listed by the inner loop from `offset` on exactly when its byte address is at least
      `offset` and inside the hunk, its bit is on there, and it is within the bounds. */
  lemma {:induction false} OffsetPositionsMember(h: Hunk, offset: int, minimum: Option<int>, maximum: Option<int>, x: int)
    requires h.first <= offset
    ensures x in OffsetPositions(h, offset, minimum, maximum) <==>
              offset <= x / 8 && h.Covers(x / 8) && BitOn(h.At(x / 8).value, x % 8) && InBounds(x, minimum, maximum)
    decreases h.End() - offset
  {
    if offset <= h.Last() {
      OffsetPositionsMember(h, offset + 1, minimum, maximum, x);
      var src := h.At(offset).value;
      var here := if src == 0 then [] else AddOnBitPositionsFor(src, offset, minimum, maximum);
      assert OffsetPositions(h, offset, minimum, maximum) == here + OffsetPositions(h, offset + 1, minimum, maximum);
      if src == 0 && x / 8 == offset {
        ZeroBitOff(x % 8);
      }
    }
  }

  /** The outer loop: the hunks in list order. */
  function Positions(hs: seq<Hunk>, minimum: Option<int>, maximum: Option<int>): seq<int>
    decreases |hs|
  {
    if |hs| == 0 then [] else OffsetPositions(hs[0], hs[0].first, minimum, maximum) + Positions(hs[1..], minimum, maximum)
  }

  /** A position is listed exactly when it is within the bounds and its bit is on in the byte the
      buffer holds at its address. */
  lemma {:induction false} PositionsMembership(hs: seq<Hunk>, lo: int, minimum: Option<int>, maximum: Option<int>, x: int)
    requires Above(hs, lo)
    ensures x in Positions(hs, minimum, maximum) <==>
              Read(hs, x / 8).Some? && BitOn(Read(hs, x / 8).value, x % 8) && InBounds(x, minimum, maximum)
    decreases |hs|
  {
    if |hs| > 0 {
      var h := hs[0];
      PositionsMembership(hs[1..], h.End(), minimum, maximum, x);
      OffsetPositionsMember(h, h.first, minimum, maximum, x);
      if h.Covers(x / 8) {
        ReadBelow(hs[1..], h.End(), x / 8);
      }
    }
  }

  /** For a sorted list every position is at least `8 * lo`, and they come out strictly ascending. */
  lemma {:induction false} PositionsIncreasing(hs: seq<Hunk>, lo: int, minimum: Option<int>, maximum: Option<int>)
    requires Above(hs, lo)
    ensures Increasing(Positions(hs, minimum, maximum))
    ensures forall m :: 0 <= m < |Positions(hs, minimum, maximum)| ==> 8 * lo <= Positions(hs, minimum, maximum)[m]
    decreases |hs|
  {
    if |hs| > 0 {
      var h := hs[0];
      PositionsIncreasing(hs[1..], h.End(), minimum, maximum);
      IncreasingConcat(OffsetPositions(h, h.first, minimum, maximum), Positions(hs[1..], minimum, maximum));
    }
  }

  // ---------------------------------------------------------------- getOnBitPositions

  datatype PositionsResult = PositionsResult(values: seq<int>, total: nat)

  /** Bounds passed to the call win over the buffer's own `minimum` and `maximum`. */
  function Bound(given: Option<int>, own: Option<int>): (r: Option<int>)
    ensures given.Some? ==> r == given
    ensures given.None? ==> r == own
  {
    if given.None? then own else given
  }

  /** `SparseBuffer.getOnBitPositions(skip, take, min, max)`. A missing `skip` is 0; a missing `take`,
      or one below 1, takes everything. A negative `skip` is handed to `slice` as it is, which counts
      it from the back of the listing. `rand` stands for `Math.random` in the shuffle of an
      unordered buffer. */
  function OnBitPositions(b: SparseBuffer, skip: Option<int>, take: Option<int>,
                          min: Option<int>, max: Option<int>, rand: nat -> nat): (r: PositionsResult)
    ensures var all := Positions(b.hunks, Bound(min, b.minimum), Bound(max, b.maximum));
            r.total == |all| &&
            (b.ordered ==> Increasing(all)) &&
            (skip.GetOr(0) == 0 && (take.None? || take.value < 1 || take.value >= |all|) ==>
               multiset(r.values) == multiset(all) && (b.ordered ==> r.values == all)) &&
            (b.ordered && skip.GetOr(0) >= 0 ==>
               var s := skip.GetOr(0);
               var e := if take.None? || take.value < 1 then |all| else s + take.value;
               r.values == if s >= |all| then [] else all[s..if e < |all| then e else |all|])
  {
    var all := Positions(b.hunks, Bound(min, b.minimum), Bound(max, b.maximum));
    PositionsIncreasing(b.hunks, if |b.hunks| > 0 then b.hunks[0].first else 0, Bound(min, b.minimum), Bound(max, b.maximum));
    var s := skip.GetOr(0);
    var tk := if take.None? || take.value < 1 then |all| else take.value;
    var arranged := Arrange(all, b.ordered, rand);
    CutFacts(all, b.ordered, arranged, skip, take);
    PositionsResult(Cut(arranged, s, tk), |arranged|)
  }

  /** A negative `skip` on an ordered buffer: the page is `slice(skip, skip + take)` of the ascending
      listing, whose start counts from the back, since the whole-listing shortcut needs `skip === 0`. */
  lemma OnBitPositionsFromBack(b: SparseBuffer, skip: Option<int>, take: Option<int>,
                               min: Option<int>, max: Option<int>, rand: nat -> nat)
    requires b.ordered && skip.GetOr(0) < 0
    ensures var all := Positions(b.hunks, Bound(min, b.minimum), Bound(max, b.maximum));
            var s := skip.GetOr(0);
            var tk := if take.None? || take.value < 1 then |all| else take.value;
            OnBitPositions(b, skip, take, min, max, rand).values == JsArrays.Slice(all, s, s + tk)
  {
    var all := Positions(b.hunks, Bound(min, b.minimum), Bound(max, b.maximum));
    var s := skip.GetOr(0);
    var tk := if take.None? || take.value < 1 then |all| else take.value;
    var arranged := Arrange(all, b.ordered, rand);
    assert OnBitPositions(b, skip, take, min, max, rand).values == Cut(arranged, s, tk);
    CutFromBack(all, arranged, s, tk);
  }

  /** From a negative start the cut is always a `slice`. */
  lemma CutFromBack(all: seq<int>, arranged: seq<int>, s: int, tk: int)
    requires arranged == all && s < 0
    ensures Cut(arranged, s, tk) == JsArrays.Slice(all, s, s + tk)
  {
  }

  /** The listing in the buffer's order: as enumerated when ordered, shuffled otherwise. */
  function Arrange(all: seq<int>, ordered: bool, rand: nat -> nat): (r: seq<int>)
    ensures |r| == |all| && multiset(r) == multiset(all)
    ensures ordered ==> r == all
  {
    if ordered then all else Shuffles.RandomizeInPlace(all, rand)
  }

  /** The page: the whole arrangement when it starts at 0 and takes at least everything, otherwise
      `slice(skip, skip + take)`. */
  function Cut<T>(arr: seq<T>, s: int, tk: int): seq<T> {
    if s == 0 && tk >= |arr| then arr else JsArrays.Slice(arr, s, s + tk)
  }

  /** What the cut of an arrangement of `all` holds: everything when it starts at 0 and takes at least
      everything, and the clamped page of the arrangement from a non-negative start. */
  lemma CutFacts(all: seq<int>, ordered: bool, arranged: seq<int>, skip: Option<int>, take: Option<int>)
    requires |arranged| == |all| && multiset(arranged) == multiset(all) && (ordered ==> arranged == all)
    ensures var s := skip.GetOr(0);
            var tk := if take.None? || take.value < 1 then |all| else take.value;
            s == 0 && (take.None? || take.value < 1 || take.value >= |all|) ==>
              multiset(Cut(arranged, s, tk)) == multiset(all) && (ordered ==> Cut(arranged, s, tk) == all)
    ensures var s := skip.GetOr(0);
            var tk := if take.None? || take.value < 1 then |all| else take.value;
            var v := Cut(arranged, s, tk);
            var e := if take.None? || take.value < 1 then |all| else s + take.value;
            var end := if e < |all| then e else |all|;
            s >= 0 ==> v == (if s >= |all| then [] else arranged[s..end]) &&
                       multiset(v) <= multiset(all) && |v| == (if s >= |all| then 0 else end - s)
  {
    var s := skip.GetOr(0);
    var tk := if take.None? || take.value < 1 then |all| else take.value;
    if s >= 0 {
      CutPage(arranged, s, tk);
    }
  }

  /** Whatever the ordering, the listing is the page cut from `skip` for `take` out of an arrangement
      of every position within the bounds: the ascending listing itself for an ordered buffer, a
      permutation of it for an unordered one. So the page holds only listed positions, none twice
      more often than listed, and has the clamped page length. */
  lemma PageOfArrangement(b: SparseBuffer, skip: Option<int>, take: Option<int>,
                          min: Option<int>, max: Option<int>, rand: nat -> nat) returns (arranged: seq<int>)
    requires skip.GetOr(0) >= 0
    ensures var all := Positions(b.hunks, Bound(min, b.minimum), Bound(max, b.maximum));
            var r := OnBitPositions(b, skip, take, min, max, rand);
            var s := skip.GetOr(0);
            var e := if take.None? || take.value < 1 then |all| else s + take.value;
            var end := if e < |all| then e else |all|;
            |arranged| == |all| && multiset(arranged) == multiset(all) && (b.ordered ==> arranged == all) &&
            r.values == (if s >= |all| then [] else arranged[s..end]) &&
            multiset(r.values) <= multiset(all) &&
            |r.values| == (if s >= |all| then 0 else end - s)
  {
    var all := Positions(b.hunks, Bound(min, b.minimum), Bound(max, b.maximum));
    arranged := Arrange(all, b.ordered, rand);
    CutFacts(all, b.ordered, arranged, skip, take);
  }

  /** Cutting from a non-negative start clamps the page to the arrangement. */
  lemma CutPage<T>(arr: seq<T>, s: nat, tk: nat)
    ensures var v := Cut(arr, s, tk);
            var end := if s + tk < |arr| then s + tk else |arr|;
            v == (if s >= |arr| then [] else arr[s..end]) && multiset(v) <= multiset(arr) &&
            |v| == (if s >= |arr| then 0 else end - s) &&
            (s == 0 && tk >= |arr| ==> v == arr)
  {
    var end := if s + tk < |arr| then s + tk else |arr|;
    if s < |arr| {
      SliceSubMultiset(arr, s, end);
    }
  }

  /** A slice holds nothing more often than the whole. */
  lemma SliceSubMultiset<T>(s: seq<T>, a: nat, e: nat)
    requires a <= e <= |s|
    ensures multiset(s[a..e]) <= multiset(s)
  {
    assert s == s[..a] + s[a..e] + s[e..];
  }

  /** `SparseBufferWithPaging.getOnBitPositions`: a missing `skip` or `take` falls back to the
      buffer's own before the plain enumeration runs. */
  function GetOnBitPositions(b: SparseBuffer, skip: Option<int>, take: Option<int>,
                             min: Option<int>, max: Option<int>, rand: nat -> nat): (r: PositionsResult)
    ensures b.paging.Plain? ==> r == OnBitPositions(b, skip, take, min, max, rand)
    ensures b.paging.WithPaging? ==>
              r == OnBitPositions(b, Bound(skip, b.paging.skip), Bound(take, b.paging.take), min, max, rand)
  {
    match b.paging
    case Plain => OnBitPositions(b, skip, take, min, max, rand)
    case WithPaging(ownSkip, ownTake) =>
      OnBitPositions(b, if skip.None? then ownSkip else skip, if take.None? then ownTake else take, min, max, rand)
  }

  /** `clearPaging()`: forgets the bounds and the paging. */
  function ClearPaging(b: SparseBuffer): (r: SparseBuffer)
    requires b.paging.WithPaging?
    ensures r.hunks == b.hunks && r.ordered == b.ordered
    ensures r.minimum.None? && r.maximum.None? && r.paging == WithPaging(None, None)
  {
    b.(minimum := None, maximum := None, paging := WithPaging(None, None))
  }

  /** After `clearPaging()` the enumeration lists every on-bit of the buffer. */
  lemma ClearedPagingListsEverything(b: SparseBuffer, rand: nat -> nat, x: int)
    requires b.paging.WithPaging? && b.ordered
    ensures var r := GetOnBitPositions(ClearPaging(b), None, None, None, None, rand);
            x in r.values <==> Read(b.hunks, x / 8).Some? && BitOn(Read(b.hunks, x / 8).value, x % 8)
  {
    PositionsMembership(b.hunks, if |b.hunks| > 0 then b.hunks[0].first else 0, None, None, x);
  }
}

=== FILE: bucket_fetch.dfy ===
/** `getBuffer` for plain segment names: each bucket fetched for the named segments becomes a hunk
    at the byte address its name starts at, and the hunks are OR-ed, lowest address first, into a
    fresh paging buffer. Which bucket keys exist and what bytes they hold come from the store, so
    both are parameters here. */
module BucketFetch {
  import opened Wrappers
  import opened JsText
  import Decimal
  import ByteOps
  import Keys
  import opened Hunks
  import opened SparseBuffers
  import BitPositions
  import Addressing

  /** The first id of a bucket as `_makeHunks` reads it: `parseInt` of the text before the first
      `-` of the key's last path part. `.map(parseInt)` hands the first piece radix 0, which
      `parseInt` treats as 10; the other pieces are discarded. */
  function BucketStart(key: string): Option<int> {
    Decimal.JsParseInt(Split(LastPart(key, '/'), '-')[0])
  }

  /** `new Hunk(buffer, start / 8)`, where the start is a whole number of bytes. */
  function MakeHunk(key: string, bytes: seq<bv8>): (h: Option<Hunk>)
    ensures h.Some? <==> BucketStart(key).Some? && BucketStart(key).value % 8 == 0
    ensures h.Some? ==> h.value.bytes == bytes && h.value.first * 8 == BucketStart(key).value
  {
    match BucketStart(key)
    case None => None
    case Some(start) => if start % 8 == 0 then Some(Hunk(bytes, start / 8)) else None
  }

  /** A key whose bucket start is not a whole byte address (or not a number at all). */
  datatype FetchError = UnaddressableBucket(key: string)

  /** `_makeHunks(buffers, keys)`: one hunk per key, in key order. */
  function MakeHunks(keys: seq<string>, buffers: seq<seq<bv8>>): (r: Result<seq<Hunk>, FetchError>)
    requires |keys| == |buffers|
    ensures r.Err? ==> exists k :: 0 <= k < |keys| && MakeHunk(keys[k], buffers[k]).None?
    ensures r.Ok? ==> |r.value| == |keys| && forall k :: 0 <= k < |keys| ==> MakeHunk(keys[k], buffers[k]) == Some(r.value[k])
    decreases |keys|
  {
    if |keys| == 0 then Ok([])
    else
      match MakeHunk(keys[0], buffers[0])
      case None => Err(UnaddressableBucket(keys[0]))
      case Some(h) =>
        match MakeHunks(keys[1..], buffers[1..])
        case Err(e) => MakeHunksTail(keys, buffers); Err(e)
        case Ok(rest) => MakeHunksTail(keys, buffers); Ok([h] + rest)
  }

  /** The keys after the first, as the recursion sees them. */
  lemma MakeHunksTail(keys: seq<string>, buffers: seq<seq<bv8>>)
    requires |keys| == |buffers| > 0
    ensures forall k :: 1 <= k < |keys| ==> keys[1..][k - 1] == keys[k] && buffers[1..][k - 1] == buffers[k]
  {
  }

  // ---------------------------------------------------------------- lodash `orderBy(h => h.first)`

  predicate NonDecreasing(hs: seq<Hunk>) {
    forall i, j :: 0 <= i < j < |hs| ==> hs[i].first <= hs[j].first
  }

  /** Places `h` after every hunk that does not start later, so equal starts keep their order. */
  function Insert(h: Hunk, s: seq<Hunk>): (r: seq<Hunk>)
    ensures |r| == |s| + 1
    ensures |s| > 0 ==> r[0] == h || r[0] == s[0]
    decreases |s|
  {
    if |s| == 0 then [h]
    else if h.first < s[0].first then [h] + s
    else [s[0]] + Insert(h, s[1..])
  }

  lemma {:induction false} InsertMultiset(h: Hunk, s: seq<Hunk>)
    ensures multiset(Insert(h, s)) == multiset(s) + multiset{h}
    decreases |s|
  {
    if |s| > 0 && h.first >= s[0].first {
      InsertMultiset(h, s[1..]);
      assert s == [s[0]] + s[1..];
    }
  }

  /** Inserting into a list sorted by `first` keeps it sorted. */
  lemma {:induction false} InsertSorted(h: Hunk, s: seq<Hunk>)
    requires NonDecreasing(s)
    ensures NonDecreasing(Insert(h, s))
    decreases |s|
  {
    if |s| > 0 && h.first >= s[0].first {
      var rest := Insert(h, s[1..]);
      InsertSorted(h, s[1..]);
      var r := [s[0]] + rest;
      forall i, j | 0 <= i < j < |r| ensures r[i].first <= r[j].first {
        if i == 0 {
          AtLeastHead(h, s, j - 1);
        }
      }
    }
  }

  /** Every element after the head of a sorted list's insertion starts no earlier than the head. */
  lemma AtLeastHead(h: Hunk, s: seq<Hunk>, k: nat)
    requires NonDecreasing(s) && |s| > 0 && h.first >= s[0].first && k < |s|
    ensures Insert(h, s[1..])[k].first >= s[0].first
  {
    var rest := Insert(h, s[1..]);
    InsertMultiset(h, s[1..]);
    assert rest[k] in multiset(rest);
    if rest[k] != h {
      assert rest[k] in multiset(s[1..]);
      var n :| 0 <= n < |s[1..]| && s[1..][n] == rest[k];
      assert s[n + 1] == rest[k];
    }
  }

  /** A stable sort by `first`. */
  function SortByFirst(hs: seq<Hunk>): (r: seq<Hunk>)
    ensures |r| == |hs|
    decreases |hs|
  {
    if |hs| == 0 then [] else Insert(hs[|hs| - 1], SortByFirst(hs[..|hs| - 1]))
  }

  /** The sort only reorders, and its result is ordered by `first`. */
  lemma {:induction false} SortByFirstFacts(hs: seq<Hunk>)
    ensures multiset(SortByFirst(hs)) == multiset(hs)
    ensures NonDecreasing(SortByFirst(hs))
    decreases |hs|
  {
    if |hs| > 0 {
      var init := hs[..|hs| - 1];
      SortByFirstFacts(init);
      InsertMultiset(hs[|hs| - 1], SortByFirst(init));
      InsertSorted(hs[|hs| - 1], SortByFirst(init));
      assert hs == init + [hs[|hs| - 1]];
    }
  }

  // ---------------------------------------------------------------- OR-ing the hunks in

  /** `_.forEach(hunks, h => result.or(h))`. */
  function OrAll(b: SparseBuffer, hs: seq<Hunk>): (r: SparseBuffer)
    ensures r.minimum == b.minimum && r.maximum == b.maximum && r.ordered == b.ordered && r.paging == b.paging
    decreases |hs|
  {
    if |hs| == 0 then b else OrAll(Or(b, HunkSource(hs[0]), None), hs[1..])
  }

  /** Bit `k` of an optional byte. */
  predicate BitIn(r: Option<bv8>, k: nat)
    requires k < 8
  {
    r.Some? && ByteOps.BitOn(r.value, k)
  }

  /** Some hunk of the list holds byte `i` with bit `k` on. */
  predicate SomeHunkHasBit(hs: seq<Hunk>, i: int, k: nat)
    requires k < 8
  {
    exists n :: 0 <= n < |hs| && BitIn(hs[n].At(i), k)
  }

  /** After OR-ing a list of hunks in, a bit is on exactly where it was on before or where one of the
      hunks has it on; the order of the hunks does not matter. */
  lemma {:induction false} OrAllBits(b: SparseBuffer, hs: seq<Hunk>, i: int, k: nat)
    requires k < 8
    ensures BitIn(Read(OrAll(b, hs).hunks, i), k) <==> BitIn(Read(b.hunks, i), k) || SomeHunkHasBit(hs, i, k)
    decreases |hs|
  {
    if |hs| > 0 {
      var h := hs[0];
      var next := Or(b, HunkSource(h), None);
      OrAllBits(next, hs[1..], i, k);
      assert BitIn(Read(next.hunks, i), k) <==> BitIn(Read(b.hunks, i), k) || BitIn(h.At(i), k);
      if SomeHunkHasBit(hs[1..], i, k) {
        var n :| 0 <= n < |hs| - 1 && BitIn(hs[1..][n].At(i), k);
        assert BitIn(hs[n + 1].At(i), k);
      }
      if SomeHunkHasBit(hs, i, k) {
        var n :| 0 <= n < |hs| && BitIn(hs[n].At(i), k);
        if n > 0 {
          assert BitIn(hs[1..][n - 1].At(i), k);
        }
      }
    }
  }

  /** Only whether some hunk has the bit matters, not where in the list it sits. */
  lemma SomeHunkHasBitPermutation(a: seq<Hunk>, b: seq<Hunk>, i: int, k: nat)
    requires k < 8 && multiset(a) == multiset(b)
    ensures SomeHunkHasBit(a, i, k) <==> SomeHunkHasBit(b, i, k)
  {
    if SomeHunkHasBit(a, i, k) {
      var n :| 0 <= n < |a| && BitIn(a[n].At(i), k);
      assert a[n] in multiset(b);
      var m :| 0 <= m < |b| && b[m] == a[n];
    }
    if SomeHunkHasBit(b, i, k) {
      var n :| 0 <= n < |b| && BitIn(b[n].At(i), k);
      assert b[n] in multiset(a);
      var m :| 0 <= m < |a| && a[m] == b[n];
    }
  }

  /** `getBuffer(...segments)` after the index has named the bucket keys and `mget` has returned
      their bytes (`buffers[k]` for `keys[k]`). */
  function GetSegmentsBuffer(keys: seq<string>, buffers: seq<seq<bv8>>): (r: Result<SparseBuffer, FetchError>)
    requires |keys| == |buffers|
    ensures r.Err? <==> exists k :: 0 <= k < |keys| && MakeHunk(keys[k], buffers[k]).None?
    ensures r.Ok? ==> r.value.minimum.None? && r.value.maximum.None? && r.value.ordered &&
                      r.value.paging == WithPaging(None, None)
  {
    match MakeHunks(keys, buffers)
    case Err(e) => Err(e)
    case Ok(hs) => Ok(OrAll(New(None, true), SortByFirst(hs)))
  }

  /** Bit `x` of a bucket's bytes as Redis numbers them (`setbit`/`getbit`): byte `x / 8`, most
      significant bit first. */
  predicate StoredBit(bytes: seq<bv8>, x: int) {
    0 <= x < 8 * |bytes| && ByteOps.BitOn(bytes[x / 8], x % 8)
  }

  /** A bucket named as starting at `start` holds id `x` at its own bit `x - start`. */
  predicate BucketHasBit(key: string, bytes: seq<bv8>, x: int) {
    BucketStart(key).Some? && StoredBit(bytes, x - BucketStart(key).value)
  }

  predicate SomeBucketHasBit(keys: seq<string>, buffers: seq<seq<bv8>>, x: int)
    requires |keys| == |buffers|
  {
    exists k :: 0 <= k < |keys| && BucketHasBit(keys[k], buffers[k], x)
  }

  /** A byte-aligned shift leaves the bit within the byte alone. */
  lemma ByteAligned(x: int, m: int)
    ensures (x - 8 * m) / 8 == x / 8 - m && (x - 8 * m) % 8 == x % 8
  {
  }

  /** A hunk made from a bucket holds id `x` exactly where the bucket's own bit `x - start` is. */
  lemma HunkBit(key: string, bytes: seq<bv8>, h: Hunk, x: int)
    requires MakeHunk(key, bytes) == Some(h)
    ensures BitIn(h.At(x / 8), x % 8) <==> BucketHasBit(key, bytes, x)
  {
    ByteAligned(x, h.first);
  }

  /** The ids the fetched buffer lists are exactly the ids whose bit is set in one of the fetched
      buckets, each bucket counting from the id its name starts with. */
  lemma GetSegmentsBufferPositions(keys: seq<string>, buffers: seq<seq<bv8>>, x: int)
    requires |keys| == |buffers|
    requires GetSegmentsBuffer(keys, buffers).Ok?
    ensures x in BitPositions.Positions(GetSegmentsBuffer(keys, buffers).value.hunks, None, None) <==>
              SomeBucketHasBit(keys, buffers, x)
  {
    var hs := MakeHunks(keys, buffers).value;
    var sorted := SortByFirst(hs);
    var r := GetSegmentsBuffer(keys, buffers).value;
    assert r == OrAll(New(None, true), sorted);
    var i, bit := x / 8, x % 8;
    var lo := if |r.hunks| > 0 then r.hunks[0].first else 0;
    BitPositions.PositionsMembership(r.hunks, lo, None, None, x);
    assert x in BitPositions.Positions(r.hunks, None, None) <==> BitIn(Read(r.hunks, i), bit);
    OrAllBits(New(None, true), sorted, i, bit);
    assert BitIn(Read(r.hunks, i), bit) <==> SomeHunkHasBit(sorted, i, bit);
    SortByFirstFacts(hs);
    SomeHunkHasBitPermutation(sorted, hs, i, bit);
    StoredBitsOfHunks(keys, buffers, hs, x);
  }

  /** The hunks made from the fetched buckets hold bit `x` exactly when one of the buckets does. */
  lemma StoredBitsOfHunks(keys: seq<string>, buffers: seq<seq<bv8>>, hs: seq<Hunk>, x: int)
    requires |keys| == |buffers| == |hs|
    requires forall k :: 0 <= k < |keys| ==> MakeHunk(keys[k], buffers[k]) == Some(hs[k])
    ensures SomeHunkHasBit(hs, x / 8, x % 8) <==> SomeBucketHasBit(keys, buffers, x)
  {
    if SomeHunkHasBit(hs, x / 8, x % 8) {
      var n :| 0 <= n < |hs| && BitIn(hs[n].At(x / 8), x % 8);
      HunkBit(keys[n], buffers[n], hs[n], x);
      assert BucketHasBit(keys[n], buffers[n], x);
    }
    if SomeBucketHasBit(keys, buffers, x) {
      var k :| 0 <= k < |keys| && BucketHasBit(keys[k], buffers[k], x);
      HunkBit(keys[k], buffers[k], hs[k], x);
    }
  }

  /** The key `_tryPut` writes an id's bit to reads back, in `_makeHunks`, as a hunk at the byte
      address of the bucket's first id, and the id's offset within the bucket is its distance from
      that first id. */
  lemma BucketKeyHunk(dataKey: string, id: nat, size: nat, bytes: seq<bv8>)
    requires size > 0 && size % 8 == 0
    ensures var lower := Addressing.BucketLower(id, size);
            var key := Keys.BucketKey(dataKey, Addressing.BucketName(id, size));
            BucketStart(key) == Some(lower) &&
            MakeHunk(key, bytes) == Some(Hunk(bytes, lower / 8)) &&
            id - lower == Addressing.Offset(id, size)
  {
    var lower := Addressing.BucketLower(id, size);
    var name := Addressing.BucketName(id, size);
    Addressing.BucketPlacement(id, size);
    var head, tail := Decimal.IntToString(lower), Decimal.IntToString(lower + size - 1);
    assert name == head + "-" + tail;
    assert '/' !in name by { assert '/' !in head && '/' !in tail; }
    LastPartAfter(dataKey, '/', name);
    assert Keys.BucketKey(dataKey, name) == dataKey + ['/'] + name;
    assert '-' !in head by { assert Decimal.AllDigits(head); }
    SplitCons(head, '-', tail);
    assert head + "-" + tail == head + ['-'] + tail;
    Decimal.JsParseIntOfIntToString(lower, "");
    assert head + "" == head;
    MultipleOfEight(id / size, size);
  }

  lemma MultipleOfEight(q: int, size: nat)
    requires size % 8 == 0
    ensures (q * size) % 8 == 0
  {
    var m := size / 8;
    assert q * size == (q * m) * 8;
  }
}

=== FILE: byte_ops.dfy ===
/** The three byte transforms a sparse bitmap merge can apply, and the bit
    numbering (most significant bit first) the rest of the model uses. */
module ByteOps {

  /** Bit `k` of a byte counted from the most significant end: bit 0 is 128, bit 7 is 1. */
  function Mask(k: nat): (m: bv8)
    requires k < 8
  {
    match k
    case 0 => 0x80 case 1 => 0x40 case 2 => 0x20 case 3 => 0x10
    case 4 => 0x08 case 5 => 0x04 case 6 => 0x02 case _ => 0x01
  }

  predicate BitOn(x: bv8, k: nat)
    requires k < 8
  {
    x & Mask(k) != 0
  }

  /** A byte is determined by its eight bits. */
  lemma BitsDetermineByte(x: bv8, y: bv8)
    requires forall k :: 0 <= k < 8 ==> (BitOn(x, k) <==> BitOn(y, k))
    ensures x == y
  {
    assert BitOn(x, 0) == BitOn(y, 0);
    assert BitOn(x, 1) == BitOn(y, 1);
    assert BitOn(x, 2) == BitOn(y, 2);
    assert BitOn(x, 3) == BitOn(y, 3);
    assert BitOn(x, 4) == BitOn(y, 4);
    assert BitOn(x, 5) == BitOn(y, 5);
    assert BitOn(x, 6) == BitOn(y, 6);
    assert BitOn(x, 7) == BitOn(y, 7);
  }

  function OrByte(a: bv8, b: bv8): (r: bv8)
    ensures forall k :: 0 <= k < 8 ==> (BitOn(r, k) <==> BitOn(a, k) || BitOn(b, k))
  {
    a | b
  }

  function AndByte(a: bv8, b: bv8): (r: bv8)
    ensures forall k :: 0 <= k < 8 ==> (BitOn(r, k) <==> BitOn(a, k) && BitOn(b, k))
  {
    a & b
  }

  /** The source's `not(a, b)`: walks `shift` from 128 down to 1 and keeps a bit when it
      is on in `a` and off in `b`. `k` counts the steps taken, so `shift == Mask(k)`. */
  function NotLoop(a: bv8, b: bv8, k: nat, result: bv8): bv8
    requires k <= 8
    decreases 8 - k
  {
    if k == 8 then result else NotLoop(a, b, k + 1, NotStep(a, b, Mask(k), result))
  }

  /** One iteration: set `shift` in the result when it is on in `a` and off in `b`. */
  function NotStep(a: bv8, b: bv8, shift: bv8, result: bv8): bv8 {
    if a & shift == shift && b & shift != shift then result | shift else result
  }

  function NotByte(a: bv8, b: bv8): (r: bv8) {
    NotLoop(a, b, 0, 0)
  }

  /** Bits the loop has not reached yet once `k` steps are done. */
  function Remaining(k: nat): (m: bv8)
    requires k <= 8
  {
    match k
    case 0 => 0xFF case 1 => 0x7F case 2 => 0x3F case 3 => 0x1F
    case 4 => 0x0F case 5 => 0x07 case 6 => 0x03 case 7 => 0x01 case _ => 0x00
  }

  lemma {:induction false} NotLoopInvariant(a: bv8, b: bv8, k: nat, result: bv8)
    requires k <= 8
    ensures NotLoop(a, b, k, result) == result | (a & !b & Remaining(k))
    decreases 8 - k
  {
    if k < 8 {
      var result' := NotStep(a, b, Mask(k), result);
      NotLoopInvariant(a, b, k + 1, result');
      StepValue(a, b, k, result);
    } else {
      assert Remaining(k) == 0;
      ZeroMask(a & !b, result);
    }
  }

  lemma ZeroMask(x: bv8, result: bv8)
    ensures result | (x & 0) == result
  {
  }

  /** One step of the loop moves bit `k` from the pending mask into the result. */
  lemma StepValue(a: bv8, b: bv8, k: nat, result: bv8)
    requires k < 8
    ensures NotStep(a, b, Mask(k), result) | (a & !b & Remaining(k + 1))
            == result | (a & !b & Remaining(k))
  {
    if k < 4 { StepValueHigh(a, b, k, result); } else { StepValueLow(a, b, k, result); }
  }

  lemma StepValueHigh(a: bv8, b: bv8, k: nat, result: bv8)
    requires k < 4
    ensures NotStep(a, b, Mask(k), result) | (a & !b & Remaining(k + 1))
            == result | (a & !b & Remaining(k))
  {
    match k
    case 0 => case 1 => case 2 => case 3 =>
  }

  lemma StepValueLow(a: bv8, b: bv8, k: nat, result: bv8)
    requires 4 <= k < 8
    ensures NotStep(a, b, Mask(k), result) | (a & !b & Remaining(k + 1))
            == result | (a & !b & Remaining(k))
  {
    match k
    case 4 => case 5 => case 6 => case 7 =>
  }

  /** `not(a, b)` is `a & ~b`: a bit is on exactly when it is on in `a` and off in `b`. */
  lemma NotIsAndNot(a: bv8, b: bv8)
    ensures NotByte(a, b) == a & !b
    ensures forall k :: 0 <= k < 8 ==> (BitOn(NotByte(a, b), k) <==> BitOn(a, k) && !BitOn(b, k))
  {
    NotLoopInvariant(a, b, 0, 0);
    assert NotByte(a, b) == a & !b by {
      ZeroOr(a & !b);
    }
    AndNotBits(a, b);
  }

  lemma ZeroOr(x: bv8)
    ensures 0 | x == x
  {
  }

  lemma AndNotBits(a: bv8, b: bv8)
    ensures forall k :: 0 <= k < 8 ==> (BitOn(a & !b, k) <==> BitOn(a, k) && !BitOn(b, k))
  {
  }

  /** The transform a merge applies where the incoming bytes meet existing ones. */
  datatype Transform = Or | And | Not

  function Apply(t: Transform, existing: bv8, incoming: bv8): (r: bv8)
    ensures t == Or ==> r == existing | incoming
    ensures t == And ==> r == existing & incoming
    ensures t == Not ==> r == existing & !incoming
  {
    match t
    case Or => OrByte(existing, incoming)
    case And => AndByte(existing, incoming)
    case Not => NotIsAndNot(existing, incoming); NotByte(existing, incoming)
  }
}

=== FILE: decimal.dfy ===
/** Decimal text <-> integers as the source uses them: template-literal
    rendering of numbers (`${n}`), JavaScript `parseInt(s, 10)`, and Lua's
    `tonumber` on the argument strings of the batch script. */
module Decimal {
  import opened Wrappers
  import opened JsText

  function DigitChar(d: nat): (c: char)
    requires d < 10
    ensures IsDigit(c)
  {
    (d + '0' as int) as char
  }

  function DigitValue(c: char): (d: nat)
    requires IsDigit(c)
    ensures d < 10
  {
    c as int - '0' as int
  }

  predicate AllDigits(s: string) {
    forall k :: 0 <= k < |s| ==> IsDigit(s[k])
  }

  /** `${n}` for a non-negative integer: shortest decimal, no leading zero. */
  function NatToString(n: nat): (s: string)
    ensures |s| > 0 && AllDigits(s)
    ensures |s| > 1 ==> s[0] != '0'
  {
    if n < 10 then [DigitChar(n)] else NatToString(n / 10) + [DigitChar(n % 10)]
  }

  /** The value of a run of decimal digits (most significant first). */
  function DigitsValue(s: string): nat
    requires AllDigits(s)
  {
    if |s| == 0 then 0 else 10 * DigitsValue(s[..|s| - 1]) + DigitValue(s[|s| - 1])
  }

  lemma {:induction false} NatToStringRoundTrip(n: nat)
    ensures DigitsValue(NatToString(n)) == n
  {
    if n >= 10 {
      NatToStringRoundTrip(n / 10);
      var s := NatToString(n);
      assert s[..|s| - 1] == NatToString(n / 10);
    }
  }

  lemma NatToStringInjective(a: nat, b: nat)
    requires NatToString(a) == NatToString(b)
    ensures a == b
  {
    NatToStringRoundTrip(a);
    NatToStringRoundTrip(b);
  }

  /** `${i}` for any integer. */
  function IntToString(i: int): (s: string)
    ensures |s| > 0
    ensures '/' !in s && '-' !in s[1..]
  {
    if i < 0 then "-" + NatToString(-i) else NatToString(i)
  }

  /** The longest prefix of `s` made of decimal digits. */
  function LeadingDigits(s: string): (d: string)
    ensures AllDigits(d) && |d| <= |s| && d == s[..|d|]
    ensures |d| < |s| ==> !IsDigit(s[|d|])
  {
    if |s| > 0 && IsDigit(s[0]) then [s[0]] + LeadingDigits(s[1..]) else []
  }

  /** `parseInt(s, 10)`: optional leading white space and sign, then the longest digit
      prefix; `None` stands for `NaN` (no digit where one is required). */
  function JsParseInt(s: string): Option<int> {
    ParseSigned(TrimStart(s))
  }

  /** `parseInt` after the leading white space is gone. */
  function ParseSigned(t: string): Option<int> {
    if |t| > 0 && t[0] == '-' then
      (var d := LeadingDigits(t[1..]); if |d| == 0 then None else Some(-(DigitsValue(d) as int)))
    else
      (var rest := if |t| > 0 && t[0] == '+' then t[1..] else t;
       var d := LeadingDigits(rest);
       if |d| == 0 then None else Some(DigitsValue(d)))
  }

  lemma LeadingDigitsOfDigitsThen(d: string, rest: string)
    requires AllDigits(d)
    requires |rest| > 0 ==> !IsDigit(rest[0])
    ensures LeadingDigits(d + rest) == d
  {
    if |d| > 0 {
      assert (d + rest)[1..] == d[1..] + rest;
      LeadingDigitsOfDigitsThen(d[1..], rest);
    }
  }

  /** `parseInt` reads back what `${i}` wrote, also when more text follows that does not start with a digit. */
  lemma JsParseIntOfIntToString(i: int, rest: string)
    requires |rest| > 0 ==> !IsDigit(rest[0])
    ensures JsParseInt(IntToString(i) + rest) == Some(i)
  {
    if i < 0 {
      var n: nat := -i;
      assert IntToString(i) == "-" + NatToString(n);
      assert IntToString(i) + rest == "-" + (NatToString(n) + rest);
      ParseNegative(n, rest);
    } else {
      assert IntToString(i) == NatToString(i);
      ParseNonNegative(i, rest);
    }
  }

  lemma ParseNegative(n: nat, rest: string)
    requires |rest| > 0 ==> !IsDigit(rest[0])
    ensures JsParseInt("-" + (NatToString(n) + rest)) == Some(-(n as int))
  {
    var m := NatToString(n);
    ParseDigitsThen("-", m, rest);
    assert JsParseInt("-" + (m + rest)) == Some(-(DigitsValue(m) as int));
    NatToStringRoundTrip(n);
  }

  lemma ParseNonNegative(n: nat, rest: string)
    requires |rest| > 0 ==> !IsDigit(rest[0])
    ensures JsParseInt(NatToString(n) + rest) == Some(n)
  {
    var m := NatToString(n);
    ParseDigitsThen("", m, rest);
    assert "" + (m + rest) == m + rest;
    NatToStringRoundTrip(n);
  }

  /** `parseInt` of an optional minus sign, a digit run and a non-digit tail. */
  lemma ParseDigitsThen(sign: string, d: string, rest: string)
    requires sign == "" || sign == "-"
    requires |d| > 0 && AllDigits(d)
    requires |rest| > 0 ==> !IsDigit(rest[0])
    ensures JsParseInt(sign + (d + rest)) == Some(if sign == "-" then -(DigitsValue(d) as int) else DigitsValue(d))
  {
    var s := sign + (d + rest);
    LeadingDigitsOfDigitsThen(d, rest);
    if sign == "-" {
      assert s[0] == '-' && s[1..] == d + rest;
      TrimStartNoop(s);
      ParseSignedMinus(s, d);
    } else {
      assert s == d + rest && IsDigit(s[0]);
      TrimStartNoop(s);
      ParseSignedDigit(s, d);
    }
  }

  lemma ParseSignedMinus(s: string, d: string)
    requires |s| > 0 && s[0] == '-' && |d| > 0 && LeadingDigits(s[1..]) == d
    ensures ParseSigned(s) == Some(-(DigitsValue(d) as int))
  {
  }

  lemma ParseSignedDigit(s: string, d: string)
    requires |s| > 0 && IsDigit(s[0]) && |d| > 0 && LeadingDigits(s) == d
    ensures ParseSigned(s) == Some(DigitsValue(d))
  {
  }

  lemma TrimStartNoop(s: string)
    requires |s| > 0 && (s[0] == '-' || IsDigit(s[0]))
    ensures TrimStart(s) == s
  {
    NoSpace(s[0]);
  }

  lemma NoSpace(c: char)
    requires c == '-' || IsDigit(c)
    ensures !IsWhitespace(c)
  {
  }

  /** Lua `tonumber` on an argument string, restricted to plain decimal digits. */
  function LuaToNumber(s: string): (r: Option<nat>)
    ensures r.Some? <==> |s| > 0 && AllDigits(s)
  {
    if |s| > 0 && AllDigits(s) then Some(DigitsValue(s)) else None
  }

  lemma LuaToNumberOfNatToString(n: nat)
    ensures LuaToNumber(NatToString(n)) == Some(n)
  {
    NatToStringRoundTrip(n);
  }
}

=== FILE: engine.dfy ===
/** `getBuffer` of the `Segmenta` class: a single argument that reads as a query is lexed, parsed
    and executed; anything else is a list of segment names whose buckets are fetched and OR-ed. */
module Engine {
  import opened Wrappers
  import opened Tokens
  import Tokenizer
  import Validation
  import Parser
  import Pipelines
  import SparseBuffers
  import BucketFetch
  import Queries

  /** The stage a request failed in, with that stage's own error. */
  datatype EngineError =
    | LexFailed(lex: Tokenizer.LexError)
    | SyntaxFailed(syntax: Validation.SyntaxError)
    | ParseFailed(parse: Parser.ParseError)
    | ExecFailed(exec: Pipelines.PipelineError)
    | FetchFailed(fetch: BucketFetch.FetchError)

  /** Parse a token list and execute the pipeline it builds; `store` answers the pipeline's
      requests for the buffer of a named segment. */
  function RunTokens(ts: seq<Token>, store: string -> SparseBuffers.SparseBuffer): (r: Result<Pipelines.Value, EngineError>)
    ensures r.Err? && r.error.ParseFailed? <==> Parser.Parse(ts).Err?
    ensures Parser.Parse(ts).Err? ==> r.error.parse == Parser.Parse(ts).error
    ensures r.Err? && r.error.ExecFailed? <==>
              Parser.Parse(ts).Ok? && Pipelines.Exec(Parser.Parse(ts).value.current, store).Err?
    ensures r.Ok? ==> Parser.Parse(ts).Ok? && Pipelines.Exec(Parser.Parse(ts).value.current, store) == Ok(r.value)
    ensures r.Err? ==> r.error.ParseFailed? || r.error.ExecFailed?
  {
    match Parser.Parse(ts)
    case Err(e) => Err(ParseFailed(e))
    case Ok(b) =>
      match Pipelines.Exec(b.current, store)
      case Err(e) => Err(ExecFailed(e))
      case Ok(v) => Ok(v)
  }

  /** `_getBufferForDSL(query)`: tokenize, parse, execute. The query's tokens are not passed through
      `validate` on this path. */
  function RunDsl(query: string, store: string -> SparseBuffers.SparseBuffer): (r: Result<Pipelines.Value, EngineError>)
    ensures r.Err? && r.error.LexFailed? <==> Tokenizer.Tokenize(query).Err?
    ensures Tokenizer.Tokenize(query).Err? ==> r.error.lex == Tokenizer.Tokenize(query).error
    ensures Tokenizer.Tokenize(query).Ok? ==> r == RunTokens(Tokenizer.Tokenize(query).value, store)
    ensures r.Err? ==> !r.error.FetchFailed?
  {
    match Tokenizer.Tokenize(query)
    case Err(e) => Err(LexFailed(e))
    case Ok(ts) => RunTokens(ts, store)
  }

  /** Lexing followed by the validators, the composition the tokenizer's tests expect of
      `tokenize`; `tokenize` itself does not call `validate`. */
  function TokenizeAndValidate(code: string): (r: Result<seq<Token>, EngineError>)
    ensures r.Ok? <==> Tokenizer.Tokenize(code).Ok? && Validation.Validate(Tokenizer.Tokenize(code).value).Ok?
    ensures r.Ok? ==> r.value == Tokenizer.Tokenize(code).value
    ensures Tokenizer.Tokenize(code).Err? ==> r == Err(LexFailed(Tokenizer.Tokenize(code).error))
    ensures Tokenizer.Tokenize(code).Ok? && Validation.Validate(Tokenizer.Tokenize(code).value).Err? ==>
              r == Err(SyntaxFailed(Validation.Validate(Tokenizer.Tokenize(code).value).error))
  {
    match Tokenizer.Tokenize(code)
    case Err(e) => Err(LexFailed(e))
    case Ok(ts) =>
      match Validation.Validate(ts)
      case Err(e) => Err(SyntaxFailed(e))
      case Ok(_) => Ok(ts)
  }

  /** Text rendered from tokens the lexer can produce passes the composition exactly when the
      tokens pass the validators, and then gives the tokens back. */
  lemma RenderedTokensValidate(ts: seq<Token>)
    requires Tokenizer.WellFormed(ts)
    ensures TokenizeAndValidate(Tokenizer.RenderAll(ts)).Ok? <==> Validation.Validate(ts).Ok?
    ensures TokenizeAndValidate(Tokenizer.RenderAll(ts)).Ok? ==> TokenizeAndValidate(Tokenizer.RenderAll(ts)).value == ts
    ensures Validation.Validate(ts).Err? ==>
              TokenizeAndValidate(Tokenizer.RenderAll(ts)) == Err(SyntaxFailed(Validation.Validate(ts).error))
  {
    Tokenizer.TokenizeRenderAll(ts);
  }

  /** `getBuffer(...segments)`. For the segment path the index listing and `mget` are inputs:
      `buffers[k]` holds the bytes of the bucket `keys[k]`. */
  function GetBuffer(segments: seq<string>, keys: seq<string>, buffers: seq<seq<bv8>>,
                     store: string -> SparseBuffers.SparseBuffer): (r: Result<Pipelines.Value, EngineError>)
    requires |keys| == |buffers|
    ensures |segments| == 1 && ' ' in segments[0] ==> r == RunDsl(segments[0], store)
    ensures !(|segments| == 1 && ' ' in segments[0]) ==>
              (r.Err? <==> BucketFetch.GetSegmentsBuffer(keys, buffers).Err?) &&
              (r.Err? ==> r == Err(FetchFailed(BucketFetch.GetSegmentsBuffer(keys, buffers).error))) &&
              (r.Ok? ==> r.value == Pipelines.BufferValue(BucketFetch.GetSegmentsBuffer(keys, buffers).value))
  {
    if |segments| == 1 && Queries.LooksLikeDSL(segments[0]) then
      RunDsl(segments[0], store)
    else
      match BucketFetch.GetSegmentsBuffer(keys, buffers)
      case Err(e) => Err(FetchFailed(e))
      case Ok(b) => Ok(Pipelines.BufferValue(b))
  }

  /** Rendering tokens the lexer can produce and handing the text to `getBuffer` runs exactly those
      tokens: a query of two or more tokens always contains a space, and lexing undoes rendering. */
  lemma {:induction false} RenderedQueryRunsItsTokens(ts: seq<Token>, keys: seq<string>, buffers: seq<seq<bv8>>,
                                                     store: string -> SparseBuffers.SparseBuffer)
    requires Tokenizer.WellFormed(ts) && |ts| >= 2
    requires |keys| == |buffers|
    ensures GetBuffer([Tokenizer.RenderAll(ts)], keys, buffers, store) == RunTokens(ts, store)
  {
    var q := Tokenizer.RenderAll(ts);
    var head := Tokenizer.Render(ts[0]);
    assert q == head + " " + Tokenizer.RenderAll(ts[1..]);
    assert q[|head|] == ' ';
    Tokenizer.TokenizeRenderAll(ts);
  }

  /** A lone segment name never reads as a query: it is fetched by its bucket keys. */
  lemma SegmentNameIsFetched(name: string, keys: seq<string>, buffers: seq<seq<bv8>>,
                             store: string -> SparseBuffers.SparseBuffer)
    requires Tokenizer.ValidName(name) && |keys| == |buffers|
    ensures var r := GetBuffer([name], keys, buffers, store);
            r.Ok? <==> BucketFetch.GetSegmentsBuffer(keys, buffers).Ok?
    ensures var r := GetBuffer([name], keys, buffers, store);
            r.Ok? ==> r.value.BufferValue? && r.value.buffer.ordered &&
                      r.value.buffer.paging == SparseBuffers.WithPaging(None, None)
  {
    assert forall k :: 0 <= k < |name| ==> name[k] != ' ';
  }

  /** Every buffer `getBuffer` yields is one `_paginateLocal` handles: a DSL `get` gives a fresh
      ordered plain buffer without bounds, and fetched segments give an ordered paging buffer. */
  lemma GetBufferIsPaginable(segments: seq<string>, keys: seq<string>, buffers: seq<seq<bv8>>,
                             store: string -> SparseBuffers.SparseBuffer)
    requires |keys| == |buffers|
    ensures var r := GetBuffer(segments, keys, buffers, store);
            r.Ok? && r.value.BufferValue? ==> Queries.Paginable(r.value.buffer)
  {
    var r := GetBuffer(segments, keys, buffers, store);
    if r.Ok? && r.value.BufferValue? {
      if |segments| == 1 && ' ' in segments[0] {
        var ts := Tokenizer.Tokenize(segments[0]).value;
        var p := Parser.Parse(ts).value.current;
        DslBufferIsPaginable(p, store);
      }
    }
  }

  /** A pipeline's buffer result is its `get`: a fresh ordered plain buffer without bounds. */
  lemma DslBufferIsPaginable(p: Pipelines.Pipeline, store: string -> SparseBuffers.SparseBuffer)
    ensures var e := Pipelines.Exec(p, store);
            e.Ok? && e.value.BufferValue? ==> Queries.Paginable(e.value.buffer)
  {
    var e := Pipelines.Exec(p, store);
    if e.Ok? && e.value.BufferValue? {
      assert p.mode == Pipelines.GetMode;
      assert e.value.buffer == Pipelines.Evaluate(p, store).value;
    }
  }
}

=== FILE: engine_examples.dfy ===
/** The grouping example of the query language, end to end: the rendered text of
    "in x and (in y or in z)" is handed to `getBuffer`, which lexes, parses and runs it. */
module EngineExamples {
  import opened Wrappers
  import opened Tokens
  import Tokenizer
  import TokenizerExamples
  import opened SparseBuffers
  import opened BitPositions
  import opened Pipelines
  import opened PipelineExamples
  import opened Engine

  lemma AndTokensLexable()
    ensures Tokenizer.WellFormed(AndTokens())
  {
    assert Tokenizer.ValidName("x") && Tokenizer.ValidName("y") && Tokenizer.ValidName("z");
  }

  /** `getBuffer("GET WHERE IN 'x' AND ( IN 'y' OR IN 'z' )")`, with x = {1..5}, y = {2} and
      z = {4}, lists 2 and 4. */
  lemma AndGroupQueryText(x: int)
    ensures var r := GetBuffer([Tokenizer.RenderAll(AndTokens())], [], [], Store);
            r.Ok? && r.value.BufferValue? &&
            (x in Positions(r.value.buffer.hunks, None, None) <==> x == 2 || x == 4)
  {
    AndTokensLexable();
    RenderedQueryRunsItsTokens(AndTokens(), [], [], Store);
    AndGroupFlatExample(x);
  }

  /** The query text of the nested `not` group test fails in the lexing stage of `getBuffer`, with
      the ten characters from `not (` on, before it reaches the parser. */
  lemma NotGroupQueryTextFails()
    ensures RunDsl(TokenizerExamples.NotGroupText, Store) == Err(LexFailed(Tokenizer.InvalidToken("not (in 'y")))
  {
    TokenizerExamples.NotGroupTextDoesNotLex();
  }

  /** The first query of the re-query tests, `get where in "<id>" skip 0 take 1`, fails in the lexing
      stage of `getBuffer` for every name, with the ten characters from `skip` on: the query never
      reaches `_paginateLocal`, so no result set is stored for the second query to find. */
  lemma PagedQueryTextFails(id: string, keys: seq<string>, buffers: seq<seq<bv8>>)
    requires Tokenizer.ValidName(id) && |keys| == |buffers|
    ensures GetBuffer([TokenizerExamples.PagedQueryText(id)], keys, buffers, Store) ==
            Err(LexFailed(Tokenizer.InvalidToken("skip 0 tak")))
  {
    var text := TokenizerExamples.PagedQueryText(id);
    assert text[3] == ' ';
    TokenizerExamples.PagedQueryTextDoesNotLex(id);
  }
}

=== FILE: hunk.dfy ===
/** A hunk: a run of bytes placed at a virtual byte address. */
module Hunks {
  import opened Wrappers
  import JsArrays

  datatype Hunk = Hunk(bytes: seq<bv8>, first: int) {

    function Length(): nat {
      |bytes|
    }

    /** Virtual address of the last byte; `first - 1` for an empty hunk. */
    function Last(): int {
      first + |bytes| - 1
    }

    /** One past the last byte. */
    function End(): int {
      first + |bytes|
    }

    predicate Covers(i: int) {
      i >= first && i <= Last()
    }

    /** Reading outside the buffer yields `undefined`, here `None`. */
    function At(i: int): (r: Option<bv8>)
      ensures r.Some? <==> Covers(i)
      ensures forall k :: 0 <= k < |bytes| && first + k == i ==> r == Some(bytes[k])
    {
      if first <= i < first + |bytes| then Some(bytes[i - first]) else None
    }

    /** Writing outside the buffer is ignored, as for a Node `Buffer`. */
    function Set(i: int, v: bv8): (h: Hunk)
      ensures h.first == first && h.Length() == Length()
      ensures Covers(i) ==> h.At(i) == Some(v)
      ensures forall j :: j != i ==> h.At(j) == At(j)
      ensures !Covers(i) ==> h == this
    {
      if first <= i < first + |bytes| then Hunk(bytes[i - first := v], first) else this
    }

    /** The bytes at virtual addresses `start .. end - 1` (to the last byte when `end` is
        omitted), with the source buffer's clamping of out-of-range positions. */
    function Slice(start: int, end: Option<int>): (r: seq<bv8>)
      ensures |r| <= |bytes|
      ensures first <= start && (end.Some? ==> start <= end.value <= End()) && start <= End() ==>
                |r| == (if end.Some? then end.value else End()) - start &&
                forall k :: 0 <= k < |r| ==> At(start + k) == Some(r[k])
    {
      var s := start - first;
      if end.None? then JsArrays.Slice(bytes, s, |bytes|) else JsArrays.Slice(bytes, s, end.value - first)
    }
  }

  /** `new Hunk(buffer, offset)`: an omitted (or zero) offset places the bytes at 0. */
  function NewHunk(buffer: seq<bv8>, offset: Option<int>): (h: Hunk)
    ensures h.bytes == buffer
    ensures h.first == (if offset.Some? then offset.value else 0)
    ensures h.Last() == h.first + |buffer| - 1
  {
    Hunk(buffer, offset.GetOr(0))
  }

  /** The source's interval test between two hunks: an end of `a` lies inside `b`, or `a` spans `b`. */
  predicate IntersectsOrCovers(a: Hunk, b: Hunk) {
    var x1, x2, y1, y2 := a.first, a.Last(), b.first, b.Last();
    (x1 >= y1 && x1 <= y2) || (x2 >= y1 && x2 <= y2) || (x1 <= y1 && x2 >= y2)
  }

  /** For non-empty hunks the test is exactly "some address is covered by both". */
  lemma IntersectsIffOverlap(a: Hunk, b: Hunk)
    requires |a.bytes| > 0 && |b.bytes| > 0
    ensures IntersectsOrCovers(a, b) <==> exists i :: a.Covers(i) && b.Covers(i)
  {
    if IntersectsOrCovers(a, b) {
      var i := if a.first >= b.first then a.first else b.first;
      assert a.Covers(i) && b.Covers(i);
    }
  }
}

=== FILE: hydrator.dfy ===
/** `ResultSetHydrator`: a snapshot of a query's buffer is written hunk by hunk under
    `<prefix>/results/<id>/<first>`, with an `<prefix>/results/<id>/expires` marker, and read back by
    OR-ing every block whose key ends in a number into a fresh buffer. The store is a map from key
    to bytes; expiry times are not modelled. */
module Hydrator {
  import opened Wrappers
  import opened JsText
  import Decimal
  import Keys
  import opened Hunks
  import opened SparseBuffers

  /** The key-value store, as far as snapshots use it. */
  type Store = map<string, seq<bv8>>

  /** `DEFAULT_RESULTSET_TTL`, in seconds: one day. */
  const DefaultResultSetTtl: int := 86400

  /** `options.ttl || DEFAULT_RESULTSET_TTL`: a missing or zero TTL falls back to one day. */
  function Ttl(requested: Option<int>): (t: int)
    ensures t != 0
    ensures requested.None? || requested.value == 0 ==> t == DefaultResultSetTtl
    ensures requested.Some? && requested.value != 0 ==> t == requested.value
  {
    if requested.None? || requested.value == 0 then DefaultResultSetTtl else requested.value
  }

  datatype HydrateError = NotFound(id: string)

  /** `${baseKey}/${hunk.first}`. */
  function BlockKey(base: string, first: int): string {
    base + "/" + Decimal.IntToString(first)
  }

  /** `${baseKey}/expires`. */
  function ExpiresKey(base: string): string {
    base + "/expires"
  }

  /** A key matching the pattern `${baseKey}/` followed by anything. */
  predicate Under(base: string, k: string) {
    |k| > |base| && k[..|base| + 1] == base + "/"
  }

  /** The writes of the `dehydrate` loop, one per hunk in list order. */
  function StoreHunks(store: Store, base: string, hs: seq<Hunk>): Store
    decreases |hs|
  {
    if |hs| == 0 then store
    else StoreHunks(store[BlockKey(base, hs[0].first) := hs[0].bytes], base, hs[1..])
  }

  /** `dehydrate(id, data)`: every hunk's bytes under its `first`, then the expiry marker, which holds
      `stamp` (the expiry date as the store keeps it). */
  function Dehydrate(store: Store, prefix: string, id: string, b: SparseBuffer, stamp: seq<bv8>): (r: Store)
    ensures ExpiresKey(Keys.ResultSetKeyFor(prefix, id)) in r
    ensures r[ExpiresKey(Keys.ResultSetKeyFor(prefix, id))] == stamp
  {
    var base := Keys.ResultSetKeyFor(prefix, id);
    StoreHunks(store, base, b.hunks)[ExpiresKey(base) := stamp]
  }

  /** `parseInt(parts[parts.length - 1], 10)` of a key. */
  function BlockOffset(key: string): Option<int> {
    Decimal.JsParseInt(LastPart(key, '/'))
  }

  /** The `rehydrate` loop: each key whose last component is a number has its block OR-ed in at
      that offset; other keys are skipped. */
  function RehydrateFrom(acc: SparseBuffer, store: Store, keys: seq<string>): (r: SparseBuffer)
    requires forall j :: 0 <= j < |keys| ==> keys[j] in store
    ensures r == acc.(hunks := r.hunks)
    decreases |keys|
  {
    if |keys| == 0 then acc
    else RehydrateFrom(OrBlock(acc, store, keys[0]), store, keys[1..])
  }

  /** One turn of the loop: the block under `k` OR-ed in at its offset, or nothing for a key whose
      last component is no number. */
  function OrBlock(acc: SparseBuffer, store: Store, k: string): SparseBuffer
    requires k in store
  {
    var off := BlockOffset(k);
    if off.None? then acc else Or(acc, Bytes(store[k]), off)
  }

  /** `rehydrate(resultSetId)`. `listing` stands for the keys a `KEYS` lookup of everything below the base key returns, in
      whatever order. A missing or empty marker means the snapshot has gone. */
  function Rehydrate(store: Store, prefix: string, id: string, listing: seq<string>): (r: Result<SparseBuffer, HydrateError>)
    requires forall j :: 0 <= j < |listing| ==> listing[j] in store
    ensures var marker := ExpiresKey(Keys.ResultSetKeyFor(prefix, id));
            r.Err? <==> marker !in store || store[marker] == []
    ensures r.Err? ==> r.error == NotFound(id)
    ensures r.Ok? ==> r.value.ordered && r.value.paging.Plain? && r.value.minimum.None? && r.value.maximum.None?
  {
    var marker := ExpiresKey(Keys.ResultSetKeyFor(prefix, id));
    if marker !in store || store[marker] == [] then Err(NotFound(id))
    else Ok(RehydrateFrom(New(None, false), store, listing))
  }

  // ---------------------------------------------------------------- the key scheme

  /** A block key reads back as the hunk's `first`. */
  lemma BlockKeyOffset(base: string, first: int)
    ensures Under(base, BlockKey(base, first))
    ensures BlockOffset(BlockKey(base, first)) == Some(first)
  {
    var digits := Decimal.IntToString(first);
    assert BlockKey(base, first) == base + ['/'] + digits;
    LastPartAfter(base, '/', digits);
    Decimal.JsParseIntOfIntToString(first, "");
    assert digits + "" == digits;
  }

  /** The marker's last component is no number, so `rehydrate` skips it. */
  lemma ExpiresKeySkipped(base: string)
    ensures Under(base, ExpiresKey(base))
    ensures BlockOffset(ExpiresKey(base)) == None
  {
    assert ExpiresKey(base) == base + ['/'] + "expires";
    LastPartAfter(base, '/', "expires");
    LetterFirstIsNoNumber("expires");
  }

  /** Text starting with a letter does not parse as an integer. */
  lemma LetterFirstIsNoNumber(s: string)
    requires |s| > 0 && 'a' <= s[0] <= 'z'
    ensures Decimal.JsParseInt(s) == None
  {
    assert !IsWhitespace(s[0]) && !IsDigit(s[0]);
    assert TrimStart(s) == s;
    assert Decimal.LeadingDigits(s) == [];
    assert Decimal.ParseSigned(s) == None;
  }

  /** Different hunk starts get different keys, none of them the marker. */
  lemma BlockKeysDistinct(base: string, a: int, b: int)
    ensures BlockKey(base, a) != ExpiresKey(base)
    ensures BlockKey(base, a) == BlockKey(base, b) ==> a == b
  {
    BlockKeyOffset(base, a);
    BlockKeyOffset(base, b);
    ExpiresKeySkipped(base);
  }

  /** What the `dehydrate` loop leaves in the store: each hunk's bytes under its key, and every
      other key as it was. */
  lemma {:induction false} StoreHunksFacts(store: Store, base: string, hs: seq<Hunk>, lo: int)
    requires Above(hs, lo)
    ensures store.Keys <= StoreHunks(store, base, hs).Keys
    ensures forall m :: 0 <= m < |hs| ==>
              BlockKey(base, hs[m].first) in StoreHunks(store, base, hs) &&
              StoreHunks(store, base, hs)[BlockKey(base, hs[m].first)] == hs[m].bytes
    ensures forall k :: k in StoreHunks(store, base, hs) ==>
              (k in store && StoreHunks(store, base, hs)[k] == store[k]) ||
              exists m :: 0 <= m < |hs| && k == BlockKey(base, hs[m].first)
    decreases |hs|
  {
    if |hs| > 0 {
      var k0 := BlockKey(base, hs[0].first);
      var next := store[k0 := hs[0].bytes];
      var tail := hs[1..];
      StoreHunksFacts(next, base, tail, hs[0].End());
      var r := StoreHunks(next, base, tail);
      assert r == StoreHunks(store, base, hs);
      AbovePairwise(tail, hs[0].End());
      assert r[k0] == hs[0].bytes by {
        if (exists m :: 0 <= m < |tail| && k0 == BlockKey(base, tail[m].first)) {
          var m :| 0 <= m < |tail| && k0 == BlockKey(base, tail[m].first);
          BlockKeysDistinct(base, hs[0].first, tail[m].first);
          assert false;
        }
      }
      forall m | 0 <= m < |hs|
        ensures BlockKey(base, hs[m].first) in r && r[BlockKey(base, hs[m].first)] == hs[m].bytes
      {
        if m > 0 {
          assert hs[m] == tail[m - 1];
        }
      }
      forall k | k in r
        ensures (k in store && r[k] == store[k]) || exists m :: 0 <= m < |hs| && k == BlockKey(base, hs[m].first)
      {
        if k == k0 {
          assert k == BlockKey(base, hs[0].first);
        } else if (exists m :: 0 <= m < |tail| && k == BlockKey(base, tail[m].first)) {
          var m :| 0 <= m < |tail| && k == BlockKey(base, tail[m].first);
          assert hs[m + 1] == tail[m];
        }
      }
    }
  }

  // ---------------------------------------------------------------- reading blocks back

  /** Key `k` holds a block whose parsed offset range covers address `i`. */
  predicate BlockCovers(store: Store, k: string, i: int) {
    k in store && BlockOffset(k).Some? && BlockOffset(k).value <= i < BlockOffset(k).value + |store[k]|
  }

  function BlockByte(store: Store, k: string, i: int): bv8
    requires BlockCovers(store, k, i)
  {
    store[k][i - BlockOffset(k).value]
  }

  /** No address is covered by the blocks of two different listed keys. */
  ghost predicate DisjointBlocks(store: Store, keys: seq<string>) {
    forall j1, j2, i :: 0 <= j1 < |keys| && 0 <= j2 < |keys| && j1 != j2 && BlockCovers(store, keys[j1], i) ==>
      !BlockCovers(store, keys[j2], i)
  }

  /** The buffer holds nothing where the listed blocks go. */
  ghost predicate VacantUnder(acc: SparseBuffer, store: Store, keys: seq<string>) {
    forall j, i :: 0 <= j < |keys| && BlockCovers(store, keys[j], i) ==> Read(acc.hunks, i).None?
  }

  /** OR-ing one block into vacant space puts its bytes there verbatim and changes nothing else. */
  lemma OneBlock(acc: SparseBuffer, store: Store, k: string)
    requires k in store
    requires forall i :: BlockCovers(store, k, i) ==> Read(acc.hunks, i).None?
    ensures var next := OrBlock(acc, store, k);
            next == acc.(hunks := next.hunks) &&
            forall i :: Read(next.hunks, i) == if BlockCovers(store, k, i) then Some(BlockByte(store, k, i)) else Read(acc.hunks, i)
  {
  }

  /** After the loop, each address covered by a listed block holds that block's byte; every other
      address is as it was. */
  lemma {:induction false} RehydrateFromRead(acc: SparseBuffer, store: Store, keys: seq<string>, i: int)
    requires forall j :: 0 <= j < |keys| ==> keys[j] in store
    requires DisjointBlocks(store, keys) && VacantUnder(acc, store, keys)
    ensures forall j :: 0 <= j < |keys| && BlockCovers(store, keys[j], i) ==>
              Read(RehydrateFrom(acc, store, keys).hunks, i) == Some(BlockByte(store, keys[j], i))
    ensures (forall j :: 0 <= j < |keys| ==> !BlockCovers(store, keys[j], i)) ==>
              Read(RehydrateFrom(acc, store, keys).hunks, i) == Read(acc.hunks, i)
    decreases |keys|
  {
    if |keys| > 0 {
      var next := OrBlock(acc, store, keys[0]);
      var tail := keys[1..];
      OneBlock(acc, store, keys[0]);
      TailDisjoint(store, keys);
      TailVacant(acc, store, keys);
      RehydrateFromRead(next, store, tail, i);
      assert RehydrateFrom(acc, store, keys) == RehydrateFrom(next, store, tail);
      TailCovers(store, keys, i);
    }
  }

  /** The blocks of the remaining keys are still pairwise disjoint. */
  lemma TailDisjoint(store: Store, keys: seq<string>)
    requires |keys| > 0 && DisjointBlocks(store, keys)
    ensures DisjointBlocks(store, keys[1..])
  {
    var tail := keys[1..];
    forall j1, j2, x | 0 <= j1 < |tail| && 0 <= j2 < |tail| && j1 != j2 && BlockCovers(store, tail[j1], x)
      ensures !BlockCovers(store, tail[j2], x)
    {
      assert tail[j1] == keys[j1 + 1] && tail[j2] == keys[j2 + 1];
    }
  }

  /** Once the first block is in, the space of the remaining blocks is still vacant. */
  lemma TailVacant(acc: SparseBuffer, store: Store, keys: seq<string>)
    requires |keys| > 0 && forall j :: 0 <= j < |keys| ==> keys[j] in store
    requires DisjointBlocks(store, keys) && VacantUnder(acc, store, keys)
    ensures VacantUnder(OrBlock(acc, store, keys[0]), store, keys[1..])
  {
    var next := OrBlock(acc, store, keys[0]);
    var tail := keys[1..];
    OneBlock(acc, store, keys[0]);
    forall j, x | 0 <= j < |tail| && BlockCovers(store, tail[j], x)
      ensures Read(next.hunks, x).None?
    {
      assert tail[j] == keys[j + 1];
      assert !BlockCovers(store, keys[0], x);
    }
  }

  /** With disjoint blocks, an address the first block covers is covered by no later one, and one no
      block covers is not covered by a later one. */
  lemma TailCovers(store: Store, keys: seq<string>, i: int)
    requires |keys| > 0 && DisjointBlocks(store, keys)
    ensures BlockCovers(store, keys[0], i) ==> forall j :: 0 <= j < |keys| - 1 ==> !BlockCovers(store, keys[1..][j], i)
    ensures forall j :: 1 <= j < |keys| ==> keys[1..][j - 1] == keys[j]
  {
    if BlockCovers(store, keys[0], i) {
      forall j | 0 <= j < |keys| - 1 ensures !BlockCovers(store, keys[1..][j], i) {
        assert keys[1..][j] == keys[j + 1];
      }
    }
  }

  // ---------------------------------------------------------------- the round trip

  /** `listing` names every key under `base` exactly once. */
  predicate Enumerates(store: Store, base: string, listing: seq<string>) {
    (forall j :: 0 <= j < |listing| ==> listing[j] in store && Under(base, listing[j])) &&
    (forall k :: k in store && Under(base, k) ==> k in listing) &&
    (forall j1, j2 :: 0 <= j1 < j2 < |listing| ==> listing[j1] != listing[j2])
  }

  /** Each listed key is either skipped or holds one hunk's bytes at that hunk's `first`. */
  predicate BlocksAreHunks(store: Store, listing: seq<string>, hs: seq<Hunk>)
    requires forall j :: 0 <= j < |listing| ==> listing[j] in store
  {
    forall j :: 0 <= j < |listing| ==>
      BlockOffset(listing[j]).None? ||
      exists m :: 0 <= m < |hs| && BlockOffset(listing[j]) == Some(hs[m].first) && store[listing[j]] == hs[m].bytes
  }

  /** Under a fresh id, every key below the snapshot's base is its marker or holds one hunk's
      bytes under that hunk's `first`. */
  lemma SnapshotBlocksAreHunks(store: Store, prefix: string, id: string, b: SparseBuffer, stamp: seq<bv8>, listing: seq<string>)
    requires forall k :: k in store ==> !Under(Keys.ResultSetKeyFor(prefix, id), k)
    requires Enumerates(Dehydrate(store, prefix, id, b, stamp), Keys.ResultSetKeyFor(prefix, id), listing)
    ensures BlocksAreHunks(Dehydrate(store, prefix, id, b, stamp), listing, b.hunks)
  {
    var st := Dehydrate(store, prefix, id, b, stamp);
    forall j | 0 <= j < |listing|
      ensures BlockOffset(listing[j]).None? ||
              exists m :: 0 <= m < |b.hunks| && BlockOffset(listing[j]) == Some(b.hunks[m].first) && st[listing[j]] == b.hunks[m].bytes
    {
      if BlockOffset(listing[j]).Some? {
        var m := KeyOfHunk(store, prefix, id, b, stamp, listing, j);
      }
    }
  }

  /** A listed key with a numeric last component is the block key of a hunk, and holds its bytes. */
  lemma KeyOfHunk(store: Store, prefix: string, id: string, b: SparseBuffer, stamp: seq<bv8>, listing: seq<string>, j: nat)
    returns (m: nat)
    requires forall k :: k in store ==> !Under(Keys.ResultSetKeyFor(prefix, id), k)
    requires Enumerates(Dehydrate(store, prefix, id, b, stamp), Keys.ResultSetKeyFor(prefix, id), listing)
    requires j < |listing| && BlockOffset(listing[j]).Some?
    ensures m < |b.hunks| && listing[j] == BlockKey(Keys.ResultSetKeyFor(prefix, id), b.hunks[m].first)
    ensures BlockOffset(listing[j]) == Some(b.hunks[m].first)
    ensures Dehydrate(store, prefix, id, b, stamp)[listing[j]] == b.hunks[m].bytes
  {
    var base := Keys.ResultSetKeyFor(prefix, id);
    var hs := b.hunks;
    var sh := StoreHunks(store, base, hs);
    assert Dehydrate(store, prefix, id, b, stamp) == sh[ExpiresKey(base) := stamp];
    var lo := if |hs| > 0 then hs[0].first else 0;
    assert Above(hs, lo);
    StoreHunksFacts(store, base, hs, lo);
    ExpiresKeySkipped(base);
    var k := listing[j];
    assert k != ExpiresKey(base);
    assert k in sh && k !in store;
    m :| 0 <= m < |hs| && k == BlockKey(base, hs[m].first);
    BlockKeyOffset(base, hs[m].first);
  }

  /** Under a fresh id, each hunk's block key is listed and holds the hunk's bytes. */
  lemma SnapshotHunksListed(store: Store, prefix: string, id: string, b: SparseBuffer, stamp: seq<bv8>, listing: seq<string>, m: nat)
    returns (j: nat)
    requires Enumerates(Dehydrate(store, prefix, id, b, stamp), Keys.ResultSetKeyFor(prefix, id), listing)
    requires m < |b.hunks|
    ensures j < |listing| && listing[j] == BlockKey(Keys.ResultSetKeyFor(prefix, id), b.hunks[m].first)
    ensures Dehydrate(store, prefix, id, b, stamp)[listing[j]] == b.hunks[m].bytes
  {
    var k := BlockKey(Keys.ResultSetKeyFor(prefix, id), b.hunks[m].first);
    DehydratedBlock(store, prefix, id, b, stamp, m);
    assert k in listing;
    j :| 0 <= j < |listing| && listing[j] == k;
  }

  /** `dehydrate` leaves each hunk's bytes under its block key. */
  lemma DehydratedBlock(store: Store, prefix: string, id: string, b: SparseBuffer, stamp: seq<bv8>, m: nat)
    requires m < |b.hunks|
    ensures var base := Keys.ResultSetKeyFor(prefix, id);
            var k := BlockKey(base, b.hunks[m].first);
            var st := Dehydrate(store, prefix, id, b, stamp);
            Under(base, k) && k in st && st[k] == b.hunks[m].bytes
  {
    var base := Keys.ResultSetKeyFor(prefix, id);
    var hs := b.hunks;
    var lo := if |hs| > 0 then hs[0].first else 0;
    assert Above(hs, lo);
    StoreHunksFacts(store, base, hs, lo);
    BlockKeysDistinct(base, hs[m].first, hs[m].first);
    BlockKeyOffset(base, hs[m].first);
  }

  /** Blocks that are hunks of one sorted list, under distinct keys, never overlap. */
  lemma HunkBlocksDisjoint(store: Store, listing: seq<string>, hs: seq<Hunk>)
    requires forall j :: 0 <= j < |listing| ==> listing[j] in store
    requires Sorted(hs) && BlocksAreHunks(store, listing, hs)
    requires forall j1, j2 :: 0 <= j1 < j2 < |listing| ==> listing[j1] != listing[j2]
    requires forall j1, j2 :: (0 <= j1 < |listing| && 0 <= j2 < |listing| && BlockOffset(listing[j1]).Some? &&
               BlockOffset(listing[j1]) == BlockOffset(listing[j2])) ==> j1 == j2
    ensures DisjointBlocks(store, listing)
  {
    var lo := if |hs| > 0 then hs[0].first else 0;
    AbovePairwise(hs, lo);
    forall j1, j2, i | 0 <= j1 < |listing| && 0 <= j2 < |listing| && j1 != j2 && BlockCovers(store, listing[j1], i)
      ensures !BlockCovers(store, listing[j2], i)
    {
      if BlockOffset(listing[j2]).Some? {
        var m1 :| 0 <= m1 < |hs| && BlockOffset(listing[j1]) == Some(hs[m1].first) && store[listing[j1]] == hs[m1].bytes;
        var m2 :| 0 <= m2 < |hs| && BlockOffset(listing[j2]) == Some(hs[m2].first) && store[listing[j2]] == hs[m2].bytes;
        assert hs[m1].Covers(i);
        assert m1 != m2;
        assert !hs[m2].Covers(i) by {
          if m1 < m2 {
            assert hs[m1].End() <= hs[m2].first;
          } else {
            assert hs[m2].End() <= hs[m1].first;
          }
        }
      }
    }
  }

  /** Reading a snapshot back yields, at every address, the byte the buffer held there (so `at` and
      `dump` agree as well), provided the id was fresh and the listing names the snapshot's keys. */
  lemma DehydrateRehydrate(store: Store, prefix: string, id: string, b: SparseBuffer, stamp: seq<bv8>, listing: seq<string>)
    requires stamp != []
    requires forall k :: k in store ==> !Under(Keys.ResultSetKeyFor(prefix, id), k)
    requires Enumerates(Dehydrate(store, prefix, id, b, stamp), Keys.ResultSetKeyFor(prefix, id), listing)
    ensures var r := Rehydrate(Dehydrate(store, prefix, id, b, stamp), prefix, id, listing);
            r.Ok? && (forall i :: Read(r.value.hunks, i) == Read(b.hunks, i)) && (forall i :: At(r.value, i) == At(b, i))
  {
    var base := Keys.ResultSetKeyFor(prefix, id);
    var st := Dehydrate(store, prefix, id, b, stamp);
    var hs := b.hunks;
    SnapshotBlocksAreHunks(store, prefix, id, b, stamp, listing);
    forall j1, j2 | 0 <= j1 < |listing| && 0 <= j2 < |listing| && BlockOffset(listing[j1]).Some? &&
                    BlockOffset(listing[j1]) == BlockOffset(listing[j2])
      ensures j1 == j2
    {
      var m1 := KeyOfHunk(store, prefix, id, b, stamp, listing, j1);
      var m2 := KeyOfHunk(store, prefix, id, b, stamp, listing, j2);
    }
    HunkBlocksDisjoint(st, listing, hs);
    var r := RehydrateFrom(New(None, false), st, listing);
    assert Rehydrate(st, prefix, id, listing) == Ok(r);
    forall i ensures Read(r.hunks, i) == Read(b.hunks, i) {
      RehydratedRead(store, prefix, id, b, stamp, listing, i);
    }
    SameReadsSameAt(r, b);
  }

  /** One address of the rehydrated buffer: the block covering it is the hunk that covered it. */
  lemma RehydratedRead(store: Store, prefix: string, id: string, b: SparseBuffer, stamp: seq<bv8>, listing: seq<string>, i: int)
    requires stamp != []
    requires forall k :: k in store ==> !Under(Keys.ResultSetKeyFor(prefix, id), k)
    requires Enumerates(Dehydrate(store, prefix, id, b, stamp), Keys.ResultSetKeyFor(prefix, id), listing)
    requires DisjointBlocks(Dehydrate(store, prefix, id, b, stamp), listing)
    ensures Read(RehydrateFrom(New(None, false), Dehydrate(store, prefix, id, b, stamp), listing).hunks, i) == Read(b.hunks, i)
  {
    var base := Keys.ResultSetKeyFor(prefix, id);
    var st := Dehydrate(store, prefix, id, b, stamp);
    var hs := b.hunks;
    RehydrateFromRead(New(None, false), st, listing, i);
    ReadSorted(hs, i);
    if Read(hs, i).Some? {
      var m :| 0 <= m < |hs| && hs[m].Covers(i);
      var j := SnapshotHunksListed(store, prefix, id, b, stamp, listing, m);
      BlockKeyOffset(base, hs[m].first);
      assert BlockCovers(st, listing[j], i);
    } else {
      forall j | 0 <= j < |listing| ensures !BlockCovers(st, listing[j], i) {
        if BlockOffset(listing[j]).Some? {
          var m := KeyOfHunk(store, prefix, id, b, stamp, listing, j);
          assert !hs[m].Covers(i);
        }
      }
    }
  }

  /** Two buffers holding the same bytes at every address agree on `at` everywhere. */
  lemma SameReadsSameAt(a: SparseBuffer, b: SparseBuffer)
    requires forall i :: Read(a.hunks, i) == Read(b.hunks, i)
    ensures forall i :: At(a, i) == At(b, i)
  {
    AbovePairwise(a.hunks, if |a.hunks| > 0 then a.hunks[0].first else 0);
    AbovePairwise(b.hunks, if |b.hunks| > 0 then b.hunks[0].first else 0);
    LengthFromCover(a.hunks, b.hunks);
  }
}

=== FILE: insert_index.dfy ===
/** Where `_insertHunkPart` puts the gap part it creates. The source computes the position with
    a reduction that goes wrong when the gap belongs in front of every hunk; the intended rule is
    "before the first hunk starting after the gap", which keeps the list sorted and is where the
    merge of `SparseBuffers` puts it. */
module HunkInsertion {
  import opened Wrappers
  import opened Hunks
  import opened SparseBuffers
  import ByteOps

  /** The reduction as written: `(acc === 0 && cur.first) > from ? idx : acc`, starting at 0.
      Once `acc` is not 0 the left operand is `false`, which compares as 0. */
  function InsertIndexAsWrittenFrom(hs: seq<Hunk>, from: int, k: nat, acc: nat): nat
    requires k <= |hs|
    decreases |hs| - k
  {
    if k == |hs| then acc
    else
      var left := if acc == 0 then hs[k].first else 0;
      InsertIndexAsWrittenFrom(hs, from, k + 1, if left > from then k else acc)
  }

  function InsertIndexAsWritten(hs: seq<Hunk>, from: int): nat {
    InsertIndexAsWrittenFrom(hs, from, 0, 0)
  }

  /** The intended position: before the first hunk that starts after `from`. */
  function InsertIndex(hs: seq<Hunk>, from: int): (j: nat)
    ensures j <= |hs|
    ensures forall k :: 0 <= k < j ==> hs[k].first <= from
    ensures j < |hs| ==> hs[j].first > from
  {
    if |hs| == 0 || hs[0].first > from then 0
    else
      var j := 1 + InsertIndex(hs[1..], from);
      assert forall k :: 1 <= k < j ==> hs[k] == hs[1..][k - 1];
      j
  }

  /** Once the accumulator is not 0 it never changes again (for a non-negative `from`). */
  lemma {:induction false} AsWrittenKeepsNonZero(hs: seq<Hunk>, from: int, k: nat, acc: nat)
    requires k <= |hs| && from >= 0 && acc != 0
    ensures InsertIndexAsWrittenFrom(hs, from, k, acc) == acc
    decreases |hs| - k
  {
    if k < |hs| {
      AsWrittenKeepsNonZero(hs, from, k + 1, acc);
    }
  }

  /** From a position past 0 with the accumulator still 0, the reduction finds the first hunk
      starting after `from`. */
  lemma {:induction false} AsWrittenFindsNext(hs: seq<Hunk>, from: int, k: nat, j: nat)
    requires 1 <= k <= j < |hs| && from >= 0
    requires forall m :: k <= m < j ==> hs[m].first <= from
    requires hs[j].first > from
    ensures InsertIndexAsWrittenFrom(hs, from, k, 0) == j
    decreases j - k
  {
    if k < j {
      AsWrittenFindsNext(hs, from, k + 1, j);
    } else {
      AsWrittenKeepsNonZero(hs, from, k + 1, j);
    }
  }

  /** The as-written reduction agrees with the intended position except when the gap belongs in
      front of every hunk and there are at least two hunks: then it answers 1. */
  lemma AsWrittenVersusIntended(hs: HunkList, from: int)
    requires from >= 0
    requires exists k :: 0 <= k < |hs| && hs[k].first > from
    ensures InsertIndexAsWritten(hs, from) ==
      if InsertIndex(hs, from) == 0 && |hs| >= 2 then 1 else InsertIndex(hs, from)
  {
    var j := InsertIndex(hs, from);
    AbovePairwise(hs, hs[0].first);
    assert InsertIndexAsWritten(hs, from) == InsertIndexAsWrittenFrom(hs, from, 1, 0);
    if j == 0 {
      if |hs| >= 2 {
        assert hs[0].End() <= hs[1].first;
        AsWrittenFindsNext(hs, from, 1, 1);
      }
    } else {
      AsWrittenFindsNext(hs, from, 1, j);
    }
  }

  /** A sorted list of two single-byte hunks at 10 and 30, and the gap part that OR-ing six bytes at
      offset 5 creates in front of the hunk at 10: the as-written index puts it second, and the list
      comes out unsorted; the intended index puts it first. */
  lemma InsertIndexCounterexample()
    ensures var hs := [Hunk([1], 10), Hunk([2], 30)];
            var part := Hunk([0, 0, 0, 0, 0], 5);
            Sorted(hs) &&
            InsertIndexAsWritten(hs, 5) == 1 && InsertIndex(hs, 5) == 0 &&
            !Sorted(hs[..1] + [part] + hs[1..]) &&
            Sorted([part] + hs)
  {
    var hs := [Hunk([1], 10), Hunk([2], 30)];
    var part := Hunk([0, 0, 0, 0, 0], 5);
    assert hs[1..][1..] == [];
    assert Above(hs, 10);
    var bad := hs[..1] + [part] + hs[1..];
    assert bad == [Hunk([1], 10), part, Hunk([2], 30)];
    assert bad[1..][0] == part;
    assert !Above(bad[1..], 11);
    var good := [part] + hs;
    assert good[1..] == hs;
    assert good[1..][1..] == hs[1..];
    assert Above(good, 5);
  }

  /** Inserting a non-empty hunk that overlaps none of a sorted list at the intended position keeps
      the list sorted. */
  lemma {:induction false} InsertAtIndexKeepsSorted(hs: HunkList, part: Hunk)
    requires |part.bytes| > 0
    requires forall k :: 0 <= k < |hs| ==> hs[k].End() <= part.first || part.End() <= hs[k].first
    ensures Sorted(hs[..InsertIndex(hs, part.first)] + [part] + hs[InsertIndex(hs, part.first)..])
    decreases |hs|
  {
    var j := InsertIndex(hs, part.first);
    var r := hs[..j] + [part] + hs[j..];
    if j == 0 {
      assert r == [part] + hs;
      assert r[1..] == hs;
      if |hs| > 0 {
        assert Above(hs, hs[0].first);
        AboveLower(hs, hs[0].first, part.End());
      }
      assert Above(r, part.first);
    } else {
      var h := hs[0];
      var rest: HunkList := (assert Above(hs[1..], h.End()); AboveSorted(hs[1..], h.End()); hs[1..]);
      forall k | 0 <= k < |rest|
        ensures rest[k].End() <= part.first || part.End() <= rest[k].first
      {
        assert rest[k] == hs[k + 1];
      }
      InsertAtIndexKeepsSorted(rest, part);
      var j' := InsertIndex(rest, part.first);
      assert j == 1 + j';
      var r' := rest[..j'] + [part] + rest[j'..];
      assert r == [h] + r' by {
        assert hs[..j] == [h] + rest[..j'];
        assert hs[j..] == rest[j'..];
      }
      assert h.End() <= part.first;
      assert r'[0] == if j' == 0 then part else rest[0];
      assert Above(r', r'[0].first);
      AboveLower(r', r'[0].first, h.End());
      assert r[1..] == r';
      assert Above(r, h.first);
    }
  }

  /** The merge puts the gap in front of the first intersecting hunk exactly at the intended index. */
  lemma {:induction false} MergeGapAtInsertIndex(hs: HunkList, inc: Hunk, t: ByteOps.Transform, j: nat)
    requires |inc.bytes| > 0 && j < |hs|
    requires IntersectsOrCovers(inc, hs[j]) && hs[j].first > inc.first
    requires forall k :: 0 <= k < j ==> !IntersectsOrCovers(inc, hs[k])
    ensures j == InsertIndex(hs, inc.first)
    ensures var m := MergeFrom(hs, inc, t, inc.first);
            j < |m| && m[j].first == inc.first && m[j].End() == hs[j].first
    decreases j
  {
    AbovePairwise(hs, hs[0].first);
    var h := hs[0];
    assert Above(hs[1..], h.End());
    AboveSorted(hs[1..], h.End());
    if j == 0 {
      MergeGapHere(hs, inc, t);
    } else {
      assert h.End() <= hs[j].first;
      assert h.Last() < inc.first;
      var rest: HunkList := hs[1..];
      forall k | 0 <= k < j - 1
        ensures !IntersectsOrCovers(inc, rest[k])
      {
        assert rest[k] == hs[k + 1];
      }
      MergeGapAtInsertIndex(rest, inc, t, j - 1);
      MergeSkipsHead(hs, inc, t);
    }
  }

  /** When the first hunk intersects the incoming run and starts after it, the merge opens with the
      gap part in front of that hunk. */
  lemma MergeGapHere(hs: HunkList, inc: Hunk, t: ByteOps.Transform)
    requires |inc.bytes| > 0 && |hs| > 0
    requires IntersectsOrCovers(inc, hs[0]) && hs[0].first > inc.first
    ensures var m := MergeFrom(hs, inc, t, inc.first);
            0 < |m| && m[0].first == inc.first && m[0].End() == hs[0].first
  {
    var h := hs[0];
    var g := GapBefore(inc, h, inc.first);
    var m := g + [Overlaid(inc, h, t, inc.first)] + MergeAfter(hs, inc, t);
    assert m[0] == g[0];
    assert MergeFrom(hs, inc, t, inc.first) == MergeIntersecting(hs, inc, t, inc.first) == m;
  }

  /** A first hunk wholly before the incoming run is kept as it is, in front of the rest's merge. */
  lemma MergeSkipsHead(hs: HunkList, inc: Hunk, t: ByteOps.Transform)
    requires |inc.bytes| > 0 && |hs| > 0 && Sorted(hs[1..])
    requires !IntersectsOrCovers(inc, hs[0]) && hs[0].Last() < inc.first
    ensures MergeFrom(hs, inc, t, inc.first) == [hs[0]] + MergeFrom(hs[1..], inc, t, inc.first)
  {
  }
}

=== FILE: js_arrays.dfy ===
/** The two JavaScript array primitives whose edge cases the source relies on:
    `Array.prototype.slice` (negative and out-of-range indices are clamped) and
    `Array.prototype.indexOf` with a `fromIndex` (a negative start counts from the end). */
module JsArrays {

  /** How `slice` and `indexOf` turn a possibly negative index into a position in `0..len`. */
  function RelativeIndex(len: nat, i: int): (r: nat)
    ensures r <= len
    ensures 0 <= i <= len ==> r == i
    ensures i < 0 && len + i >= 0 ==> r == len + i
  {
    if i < 0 then (if len + i < 0 then 0 else len + i)
    else if i > len then len
    else i
  }

  /** `s.slice(start, end)`. */
  function Slice<T>(s: seq<T>, start: int, end: int): (r: seq<T>)
    ensures |r| <= |s|
    ensures forall k :: 0 <= k < |r| ==> RelativeIndex(|s|, start) + k < |s| && r[k] == s[RelativeIndex(|s|, start) + k]
    ensures 0 <= start <= end ==> |r| == (if end <= |s| then end else |s|) - (if start <= |s| then start else |s|)
  {
    var a := RelativeIndex(|s|, start);
    var b := RelativeIndex(|s|, end);
    if a < b then s[a..b] else []
  }

  /** Searches `s[k..]` for `x`; `|s|` stands for "not found". */
  function FindFrom<T(==)>(s: seq<T>, x: T, k: nat): (r: nat)
    requires k <= |s|
    ensures k <= r <= |s|
    ensures r < |s| ==> s[r] == x
    ensures forall j :: k <= j < r ==> s[j] != x
    decreases |s| - k
  {
    if k == |s| then |s|
    else if s[k] == x then k
    else FindFrom(s, x, k + 1)
  }

  /** `s.indexOf(x, from)`: the first position at or after the (relative) start holding `x`, or -1. */
  function IndexOf<T(==)>(s: seq<T>, x: T, from: int): (r: int)
    ensures -1 <= r < |s|
    ensures r >= 0 ==> s[r] == x && RelativeIndex(|s|, from) <= r
    ensures r >= 0 ==> forall j :: RelativeIndex(|s|, from) <= j < r ==> s[j] != x
    ensures r == -1 <==> forall j :: RelativeIndex(|s|, from) <= j < |s| ==> s[j] != x
  {
    var k := FindFrom(s, x, RelativeIndex(|s|, from));
    if k == |s| then -1 else k
  }
}

=== FILE: js_text.dfy ===
/** String primitives of JavaScript that the source leans on: the `\s` / `trim`
    whitespace class, the `\w` word class, case-insensitive ASCII letters and
    `String.prototype.split` with a one-character separator. */
module JsText {

  /** The characters JavaScript's `\s` and `String.prototype.trim` treat as white space. */
  predicate IsWhitespace(c: char) {
    var n := c as int;
    n == 0x09 || n == 0x0A || n == 0x0B || n == 0x0C || n == 0x0D || n == 0x20 ||
    n == 0xA0 || n == 0x1680 || (0x2000 <= n <= 0x200A) || n == 0x2028 || n == 0x2029 ||
    n == 0x202F || n == 0x205F || n == 0x3000 || n == 0xFEFF
  }

  /** JavaScript's `\w`: `[A-Za-z0-9_]`. */
  predicate IsWordChar(c: char) {
    ('a' <= c <= 'z') || ('A' <= c <= 'Z') || ('0' <= c <= '9') || c == '_'
  }

  predicate IsDigit(c: char) {
    '0' <= c <= '9'
  }

  /** Under the `i` flag an ASCII letter matches only itself and its other case. */
  predicate SameLetterIgnoringCase(c: char, upper: char)
    requires 'A' <= upper <= 'Z'
  {
    c == upper || c as int == upper as int + 32
  }

  /** `s` starts with `word` (upper-case ASCII letters and spaces), letters compared case-insensitively. */
  predicate StartsWithIgnoringCase(s: string, word: string)
    requires forall k :: 0 <= k < |word| ==> ('A' <= word[k] <= 'Z') || word[k] == ' '
  {
    |s| >= |word| &&
    forall k :: 0 <= k < |word| ==>
      if word[k] == ' ' then s[k] == ' ' else SameLetterIgnoringCase(s[k], word[k])
  }

  /** End of the longest run of white space starting at `i`. */
  function WhitespaceRunEnd(s: string, i: nat): (j: nat)
    requires i <= |s|
    ensures i <= j <= |s|
    ensures forall k :: i <= k < j ==> IsWhitespace(s[k])
    ensures j < |s| ==> !IsWhitespace(s[j])
    decreases |s| - i
  {
    if i < |s| && IsWhitespace(s[i]) then WhitespaceRunEnd(s, i + 1) else i
  }

  /** Start of the longest run of white space ending at `j`. */
  function WhitespaceRunStart(s: string, j: nat): (i: nat)
    requires j <= |s|
    ensures i <= j
    ensures forall k :: i <= k < j ==> IsWhitespace(s[k])
    ensures i > 0 ==> !IsWhitespace(s[i - 1])
  {
    if j > 0 && IsWhitespace(s[j - 1]) then WhitespaceRunStart(s, j - 1) else j
  }

  function TrimStart(s: string): (r: string)
    ensures |r| <= |s| && r == s[|s| - |r|..]
    ensures forall k :: 0 <= k < |s| - |r| ==> IsWhitespace(s[k])
    ensures |r| > 0 ==> !IsWhitespace(r[0])
  {
    var n := WhitespaceRunEnd(s, 0);
    assert n < |s| ==> s[n..][0] == s[n];
    s[n..]
  }

  function TrimEnd(s: string): (r: string)
    ensures |r| <= |s| && r == s[..|r|]
    ensures forall k :: |r| <= k < |s| ==> IsWhitespace(s[k])
    ensures |r| > 0 ==> !IsWhitespace(r[|r| - 1])
  {
    var n := WhitespaceRunStart(s, |s|);
    assert n > 0 ==> s[..n][n - 1] == s[n - 1];
    s[..n]
  }

  /** Number of white-space characters `TrimStart` removes. */
  function LeadingWhitespace(s: string): (n: nat)
    ensures n <= |s|
  {
    |s| - |TrimStart(s)|
  }

  /** `s.trim()`: drops leading and trailing white space and nothing else. */
  function Trim(s: string): (r: string)
    ensures LeadingWhitespace(s) + |r| <= |s|
    ensures r == s[LeadingWhitespace(s)..LeadingWhitespace(s) + |r|]
    ensures forall k :: 0 <= k < LeadingWhitespace(s) ==> IsWhitespace(s[k])
    ensures forall k :: LeadingWhitespace(s) + |r| <= k < |s| ==> IsWhitespace(s[k])
    ensures |r| > 0 ==> !IsWhitespace(r[0]) && !IsWhitespace(r[|r| - 1])
  {
    var t := TrimStart(s);
    var n := LeadingWhitespace(s);
    assert t == s[n..];
    TrimEndOfSuffix(s, n);
    var r := TrimEnd(t);
    assert |r| > 0 ==> r[0] == t[0];
    r
  }

  /** Trimming the end of a suffix of `s` leaves a slice of `s` followed only by white space. */
  lemma TrimEndOfSuffix(s: string, n: nat)
    requires n <= |s|
    ensures var r := TrimEnd(s[n..]);
            n + |r| <= |s| && r == s[n..n + |r|] &&
            forall k :: n + |r| <= k < |s| ==> IsWhitespace(s[k])
  {
    var t := s[n..];
    var r := TrimEnd(t);
    assert r == t[..|r|];
    assert t[..|r|] == s[n..n + |r|];
    forall k | n + |r| <= k < |s|
      ensures IsWhitespace(s[k])
    {
      assert s[k] == t[k - n];
    }
  }

  /** Position of the first `c` in `s`, or `|s|` when there is none. */
  function FirstIndexOf(s: string, c: char): (i: nat)
    ensures i <= |s|
    ensures i < |s| ==> s[i] == c
    ensures c !in s[..i]
  {
    if |s| == 0 then 0
    else if s[0] == c then 0
    else
      var i := 1 + FirstIndexOf(s[1..], c);
      assert s[..i] == [s[0]] + s[1..][..i - 1];
      i
  }

  /** `s.split(sep)` for a one-character separator. */
  function Split(s: string, sep: char): (parts: seq<string>)
    ensures |parts| >= 1
    ensures forall k :: 0 <= k < |parts| ==> sep !in parts[k]
    decreases |s|
  {
    var i := FirstIndexOf(s, sep);
    if i == |s| then (assert s[..i] == s; [s]) else [s[..i]] + Split(s[i + 1..], sep)
  }

  /** `parts.join(sep)`, the inverse of `Split`. */
  function Join(parts: seq<string>, sep: char): string
    requires |parts| >= 1
  {
    if |parts| == 1 then parts[0] else parts[0] + [sep] + Join(parts[1..], sep)
  }

  lemma {:induction false} SplitJoin(s: string, sep: char)
    ensures Join(Split(s, sep), sep) == s
    decreases |s|
  {
    var i := FirstIndexOf(s, sep);
    if i < |s| {
      var rest := s[i + 1..];
      SplitAt(s, sep);
      SplitJoin(rest, sep);
      JoinCons(s[..i], Split(rest, sep), sep);
      SliceAround(s, i);
    } else {
      assert s[..i] == s;
      assert Split(s, sep) == [s];
    }
  }

  /** Splitting at the first separator. */
  lemma SplitAt(s: string, sep: char)
    requires FirstIndexOf(s, sep) < |s|
    ensures var i := FirstIndexOf(s, sep);
            Split(s, sep) == [s[..i]] + Split(s[i + 1..], sep)
  {
  }

  /** A string is what comes before position `i`, the character at `i` and what comes after. */
  lemma SliceAround(s: string, i: nat)
    requires i < |s|
    ensures s == s[..i] + [s[i]] + s[i + 1..]
  {
    assert forall k :: 0 <= k < |s| ==> s[k] == (s[..i] + [s[i]] + s[i + 1..])[k];
  }

  lemma JoinCons(a: string, parts: seq<string>, sep: char)
    requires |parts| >= 1
    ensures Join([a] + parts, sep) == a + [sep] + Join(parts, sep)
  {
    assert ([a] + parts)[1..] == parts;
  }

  /** Splitting a string whose first separator follows `a` yields `a` followed by the split of the rest. */
  lemma SplitCons(a: string, sep: char, b: string)
    requires sep !in a
    ensures Split(a + [sep] + b, sep) == [a] + Split(b, sep)
  {
    var s := a + [sep] + b;
    var i := FirstIndexOf(s, sep);
    assert s[|a|] == sep;
    assert s[..|a|] == a;
    assert i == |a|;
    assert s[..i] == a;
    assert s[i + 1..] == b;
  }

  lemma SplitNoSeparator(a: string, sep: char)
    requires sep !in a
    ensures Split(a, sep) == [a]
  {
    assert a[..|a|] == a;
  }

  /** The text after the last separator (`parts[parts.length - 1]`). */
  function LastPart(s: string, sep: char): string {
    var parts := Split(s, sep);
    parts[|parts| - 1]
  }

  /** The last part of a string is whatever follows its last separator. */
  lemma {:induction false} LastPartAfter(a: string, sep: char, b: string)
    requires sep !in b
    ensures LastPart(a + [sep] + b, sep) == b
    decreases |a|
  {
    var i := FirstIndexOf(a, sep);
    if i == |a| {
      assert a[..i] == a;
      LastPartCons(a, sep, b);
      SplitNoSeparator(b, sep);
    } else {
      var a1, a2 := a[..i], a[i + 1..];
      assert a == a1 + [sep] + a2;
      assert a + [sep] + b == a1 + [sep] + (a2 + [sep] + b);
      LastPartCons(a1, sep, a2 + [sep] + b);
      LastPartAfter(a2, sep, b);
    }
  }

  /** A separator-free head does not change the last part. */
  lemma LastPartCons(a: string, sep: char, b: string)
    requires sep !in a
    ensures LastPart(a + [sep] + b, sep) == LastPart(b, sep)
  {
    SplitCons(a, sep, b);
  }

  /** Whatever precedes a separator does not change the last part of what follows it. */
  lemma {:induction false} LastPartOfTail(a: string, sep: char, b: string)
    ensures LastPart(a + [sep] + b, sep) == LastPart(b, sep)
    decreases |a|
  {
    var i := FirstIndexOf(a, sep);
    if i == |a| {
      assert a[..i] == a;
      LastPartCons(a, sep, b);
    } else {
      var a1, a2 := a[..i], a[i + 1..];
      assert a == a1 + [sep] + a2;
      assert a + [sep] + b == a1 + [sep] + (a2 + [sep] + b);
      LastPartCons(a1, sep, a2 + [sep] + b);
      LastPartOfTail(a2, sep, b);
    }
  }

  /** Splitting a string whose last separator precedes `b` yields the split of what comes before,
      followed by `b`. */
  lemma {:induction false} SplitSnoc(a: string, sep: char, b: string)
    requires sep !in b
    ensures Split(a + [sep] + b, sep) == Split(a, sep) + [b]
    decreases |a|
  {
    var i := FirstIndexOf(a, sep);
    if i == |a| {
      assert a[..i] == a;
      SplitCons(a, sep, b);
      SplitNoSeparator(b, sep);
      SplitNoSeparator(a, sep);
    } else {
      var a1, a2 := a[..i], a[i + 1..];
      assert a == a1 + [sep] + a2;
      assert a + [sep] + b == a1 + [sep] + (a2 + [sep] + b);
      SplitCons(a1, sep, a2 + [sep] + b);
      SplitCons(a1, sep, a2);
      SplitSnoc(a2, sep, b);
    }
  }

  /** `s.lastIndexOf(c)`: the position of the last `c`, or -1. */
  function LastIndexOf(s: string, c: char): (i: int)
    ensures -1 <= i < |s|
    ensures i >= 0 ==> s[i] == c
    ensures forall k :: i < k < |s| ==> s[k] != c
  {
    if |s| == 0 then -1
    else if s[|s| - 1] == c then |s| - 1
    else LastIndexOf(s[..|s| - 1], c)
  }

  /** The position of a separator followed only by separator-free text is the last one. */
  lemma LastIndexOfJoin(a: string, c: char, b: string)
    requires c !in b
    ensures LastIndexOf(a + [c] + b, c) == |a|
  {
    var s := a + [c] + b;
    var i := LastIndexOf(s, c);
    assert s[|a|] == c;
  }

  // ---------------------------------------------------------------- infixes

  /** `rest` occurs in `code` from position `i` on. */
  predicate InfixAt(rest: string, code: string, i: int) {
    0 <= i && i + |rest| <= |code| && code[i..i + |rest|] == rest
  }

  /** Text inside the trimmed remainder of `code` from `len` on lies inside `code` too. */
  lemma InfixOfRemainder(code: string, len: nat, rest: string, i: int)
    requires len <= |code| && InfixAt(rest, Trim(code[len..]), i)
    ensures InfixAt(rest, code, len + LeadingWhitespace(code[len..]) + i)
  {
    var s := code[len..];
    InfixThroughSlices(code, len, LeadingWhitespace(s), |Trim(s)|, Trim(s), rest, i);
  }

  /** What occurs in a slice `t` of a suffix of `code` occurs in `code`. */
  lemma InfixThroughSlices(code: string, len: nat, l: nat, n: nat, t: string, rest: string, i: int)
    requires len <= |code| && l + n <= |code| - len && t == code[len..][l..l + n] && InfixAt(rest, t, i)
    ensures InfixAt(rest, code, len + l + i)
  {
    InfixInSlice(code[len..], l, l + n, rest, i);
    assert code[len..] == code[len..|code|];
    InfixInSlice(code, len, |code|, rest, l + i);
  }

  /** What occurs in a slice of `code` occurs in `code`, shifted by the slice's start. */
  lemma InfixInSlice<T>(code: seq<T>, a: nat, b: nat, rest: seq<T>, i: int)
    requires a <= b <= |code| && 0 <= i && i + |rest| <= b - a && code[a..b][i..i + |rest|] == rest
    ensures a + i + |rest| <= |code| && code[a + i..a + i + |rest|] == rest
  {
    SliceOfSlice(code, a, b, i, i + |rest|);
  }

  /** Slicing a slice is slicing the whole. */
  lemma SliceOfSlice<T>(s: seq<T>, a: nat, b: nat, i: nat, j: nat)
    requires a <= b <= |s| && i <= j <= b - a
    ensures s[a..b][i..j] == s[a + i..a + j]
  {
    forall k | 0 <= k < j - i
      ensures s[a..b][i..j][k] == s[a + i..a + j][k]
    {
      assert s[a..b][i..j][k] == s[a..b][i + k] == s[a + i + k];
    }
  }
}

=== FILE: keys.dfy ===
/** The Redis key scheme of `KeyGenerator` and the keys derived from it: a segment's buckets live
    under `<prefix>/data/<segment>/<bucket>`, its index set at `<prefix>/data/<segment>/index`, and
    snapshots of query results under `<prefix>/results/<id>/...`. */
module Keys {

  /** `dataKeyFor(segmentId)`. */
  function DataKeyFor(prefix: string, segment: string): (k: string)
    ensures |k| == |prefix| + 6 + |segment|
    ensures k[..|prefix|] == prefix && k[|prefix|..|prefix| + 6] == "/data/" && k[|prefix| + 6..] == segment
  {
    prefix + "/data/" + segment
  }

  /** `resultSetKeyFor(resultSetId)`. */
  function ResultSetKeyFor(prefix: string, id: string): (k: string)
    ensures |k| == |prefix| + 9 + |id|
    ensures k[..|prefix|] == prefix && k[|prefix|..|prefix| + 9] == "/results/" && k[|prefix| + 9..] == id
  {
    prefix + "/results/" + id
  }

  /** For one prefix, different segments have different data keys. */
  lemma DataKeyInjective(prefix: string, a: string, b: string)
    requires DataKeyFor(prefix, a) == DataKeyFor(prefix, b)
    ensures a == b
  {
    var k := DataKeyFor(prefix, a);
    assert a == k[|prefix| + 6..];
  }

  /** For one prefix, different result sets have different keys. */
  lemma ResultSetKeyInjective(prefix: string, a: string, b: string)
    requires ResultSetKeyFor(prefix, a) == ResultSetKeyFor(prefix, b)
    ensures a == b
  {
    var k := ResultSetKeyFor(prefix, a);
    assert a == k[|prefix| + 9..];
  }

  /** A data key and a result-set key of the same generator differ right after the prefix. */
  lemma DataAndResultSetKeysDiffer(prefix: string, segment: string, id: string)
    ensures DataKeyFor(prefix, segment) != ResultSetKeyFor(prefix, id)
  {
    var d, r := DataKeyFor(prefix, segment), ResultSetKeyFor(prefix, id);
    assert d[|prefix| + 1] == 'd';
    assert r[|prefix| + 1] == 'r';
  }

  /** The key of the set naming a segment's buckets (`_fetchIndex`, `_getSegmentKeys`). */
  function IndexKeyFor(dataKey: string): (k: string)
    ensures |k| == |dataKey| + 6
    ensures k[..|dataKey|] == dataKey && k[|dataKey|..] == "/index"
  {
    dataKey + "/index"
  }

  /** The key of one bucket of a segment, as `_tryPut` writes it. */
  function BucketKey(dataKey: string, bucketName: string): (k: string)
    ensures |k| == |dataKey| + 1 + |bucketName|
    ensures k[..|dataKey|] == dataKey && k[|dataKey|] == '/' && k[|dataKey| + 1..] == bucketName
  {
    dataKey + "/" + bucketName
  }
}

=== FILE: listing.dfy ===
/** `Segmenta.list`: the segment names read off the index keys a `KEYS` lookup of `<prefix>/<anything>/index`
    returns, sorted as JavaScript's default `sort` orders strings. */
module Listing {
  import opened JsText
  import Keys

  /** `parts[parts.length - 2]` of `key.split("/")`: the path component before the last. */
  function SegmentOf(key: string): (name: string)
    requires '/' in key
    ensures '/' !in name
  {
    var parts := Split(key, '/');
    TwoParts(key);
    parts[|parts| - 2]
  }

  /** A string holding a `/` splits into at least two parts. */
  lemma TwoParts(key: string)
    requires '/' in key
    ensures |Split(key, '/')| >= 2
  {
    var i := FirstIndexOf(key, '/');
    assert i < |key| by {
      assert key[..|key|] == key;
    }
  }

  /** The index key of a segment's data key names that segment again. */
  lemma SegmentOfIndexKey(prefix: string, segment: string)
    requires '/' !in segment
    ensures var k := Keys.IndexKeyFor(Keys.DataKeyFor(prefix, segment));
            '/' in k && SegmentOf(k) == segment
  {
    var data := Keys.DataKeyFor(prefix, segment);
    assert Keys.IndexKeyFor(data) == data + ['/'] + "index";
    SegmentBeforeLast(data, "index");
    DataKeyShape(prefix, segment);
    LastPartAfter(prefix + "/data", '/', segment);
  }

  /** As written, `list` reports only the last path component of a segment name: the index key of a
      segment holding a `/` has more components, and `parts[parts.length - 2]` picks the one before
      `index`. */
  lemma ListedNameAsWritten(prefix: string, segment: string)
    ensures var k := Keys.IndexKeyFor(Keys.DataKeyFor(prefix, segment));
            '/' in k && SegmentOf(k) == LastPart(segment, '/')
  {
    var data := Keys.DataKeyFor(prefix, segment);
    assert Keys.IndexKeyFor(data) == data + ['/'] + "index";
    SegmentBeforeLast(data, "index");
    DataKeyShape(prefix, segment);
    LastPartOfTail(prefix + "/data", '/', segment);
  }

  /** The segment `a/b` is listed as `b`. */
  lemma SlashedSegmentListedByLastPart(prefix: string)
    ensures var k := Keys.IndexKeyFor(Keys.DataKeyFor(prefix, "a/b"));
            '/' in k && SegmentOf(k) == "b"
  {
    ListedNameAsWritten(prefix, "a/b");
    assert "a/b" == "a" + ['/'] + "b";
    LastPartCons("a", '/', "b");
    SplitNoSeparator("b", '/');
  }

  /** With a slash-free last component, the segment is the last component of what precedes it. */
  lemma SegmentBeforeLast(a: string, b: string)
    requires '/' !in b
    ensures '/' in a + ['/'] + b && SegmentOf(a + ['/'] + b) == LastPart(a, '/')
  {
    var k := a + ['/'] + b;
    assert k[|a|] == '/';
    SplitSnoc(a, '/', b);
    var parts := Split(k, '/');
    assert parts[|parts| - 2] == Split(a, '/')[|Split(a, '/')| - 1];
  }

  /** A data key is the text before its last slash, the slash, and the segment. */
  lemma DataKeyShape(prefix: string, segment: string)
    ensures Keys.DataKeyFor(prefix, segment) == (prefix + "/data") + ['/'] + segment
  {
    assert "/data/" == "/data" + ['/'];
  }

  // ---------------------------------------------------------------- ordering

  /** `a` sorts no later than `b`: compared character by character, a proper prefix first. */
  predicate Precedes(a: string, b: string)
    decreases |a|
  {
    |a| == 0 || (|b| > 0 && (a[0] < b[0] || (a[0] == b[0] && Precedes(a[1..], b[1..]))))
  }

  lemma {:induction false} PrecedesTotal(a: string, b: string)
    ensures Precedes(a, b) || Precedes(b, a)
    decreases |a|
  {
    if |a| > 0 && |b| > 0 && a[0] == b[0] {
      PrecedesTotal(a[1..], b[1..]);
    }
  }

  lemma {:induction false} PrecedesTransitive(a: string, b: string, c: string)
    requires Precedes(a, b) && Precedes(b, c)
    ensures Precedes(a, c)
    decreases |a|
  {
    if |a| > 0 && a[0] == b[0] && b[0] == c[0] {
      PrecedesTransitive(a[1..], b[1..], c[1..]);
    }
  }

  lemma {:induction false} PrecedesAntisymmetric(a: string, b: string)
    requires Precedes(a, b) && Precedes(b, a)
    ensures a == b
    decreases |a|
  {
    if |a| > 0 {
      PrecedesAntisymmetric(a[1..], b[1..]);
      assert a == [a[0]] + a[1..] && b == [b[0]] + b[1..];
    }
  }

  predicate SortedNames(s: seq<string>) {
    forall i, j :: 0 <= i < j < |s| ==> Precedes(s[i], s[j])
  }

  /** Places `x` before the first name it precedes. */
  function InsertName(x: string, s: seq<string>): (r: seq<string>)
    ensures |r| == |s| + 1
    decreases |s|
  {
    if |s| == 0 then [x]
    else if Precedes(x, s[0]) then [x] + s
    else [s[0]] + InsertName(x, s[1..])
  }

  lemma {:induction false} InsertNameMultiset(x: string, s: seq<string>)
    ensures multiset(InsertName(x, s)) == multiset(s) + multiset{x}
    decreases |s|
  {
    if |s| > 0 && !Precedes(x, s[0]) {
      InsertNameMultiset(x, s[1..]);
      assert s == [s[0]] + s[1..];
    }
  }

  lemma {:induction false} InsertNameSorted(x: string, s: seq<string>)
    requires SortedNames(s)
    ensures SortedNames(InsertName(x, s))
    decreases |s|
  {
    if |s| == 0 {
    } else if Precedes(x, s[0]) {
      forall j | 0 <= j < |s| ensures Precedes(x, s[j]) {
        if j > 0 { PrecedesTransitive(x, s[0], s[j]); }
      }
    } else {
      PrecedesTotal(x, s[0]);
      var r := InsertName(x, s[1..]);
      InsertNameSorted(x, s[1..]);
      InsertNameMultiset(x, s[1..]);
      forall j | 0 <= j < |r| ensures Precedes(s[0], r[j]) {
        assert r[j] in multiset(r);
        if r[j] != x {
          assert r[j] in multiset(s[1..]);
          var m :| 0 <= m < |s[1..]| && s[1..][m] == r[j];
          assert s[m + 1] == r[j];
        }
      }
    }
  }

  /** Insertion sort of names. */
  function SortNames(s: seq<string>): (r: seq<string>)
    ensures |r| == |s|
    decreases |s|
  {
    if |s| == 0 then [] else InsertName(s[0], SortNames(s[1..]))
  }

  /** Sorting orders the names and only permutes them. */
  lemma {:induction false} SortNamesFacts(s: seq<string>)
    ensures SortedNames(SortNames(s))
    ensures multiset(SortNames(s)) == multiset(s)
    decreases |s|
  {
    SortNamesSorted(s);
    SortNamesPermutes(s);
  }

  lemma {:induction false} SortNamesSorted(s: seq<string>)
    ensures SortedNames(SortNames(s))
    decreases |s|
  {
    if |s| > 0 {
      SortNamesSorted(s[1..]);
      InsertNameSorted(s[0], SortNames(s[1..]));
    }
  }

  lemma {:induction false} SortNamesPermutes(s: seq<string>)
    ensures multiset(SortNames(s)) == multiset(s)
    decreases |s|
  {
    if |s| > 0 {
      SortNamesPermutes(s[1..]);
      InsertNameMultiset(s[0], SortNames(s[1..]));
      assert s == [s[0]] + s[1..];
      assert multiset(s) == multiset{s[0]} + multiset(s[1..]);
    }
  }

  /** A sorted arrangement of given names is unique. */
  lemma {:induction false} SortedUnique(a: seq<string>, b: seq<string>)
    requires SortedNames(a) && SortedNames(b) && multiset(a) == multiset(b)
    ensures a == b
    decreases |a|
  {
    assert |a| == |multiset(a)| == |multiset(b)| == |b|;
    if |a| > 0 {
      assert a[0] in multiset(b) && b[0] in multiset(a);
      var i :| 0 <= i < |b| && b[i] == a[0];
      var j :| 0 <= j < |a| && a[j] == b[0];
      if i > 0 { assert Precedes(b[0], a[0]); }
      if j > 0 { assert Precedes(a[0], b[0]); }
      PrecedesTotal(a[0], b[0]);
      if a[0] != b[0] && i > 0 && j > 0 { PrecedesAntisymmetric(a[0], b[0]); }
      assert a[0] == b[0];
      DropHead(a, b);
      SortedTail(a);
      SortedTail(b);
      SortedUnique(a[1..], b[1..]);
    }
  }

  // ---------------------------------------------------------------- list

  /** Every key of the form `<prefix>/<anything>/index` holds a `/`. */
  predicate AllPaths(keys: seq<string>) {
    forall k :: 0 <= k < |keys| ==> '/' in keys[k]
  }

  /** The segment name of each key, in listing order. */
  function Names(keys: seq<string>): (r: seq<string>)
    requires AllPaths(keys)
    ensures |r| == |keys| && forall k :: 0 <= k < |keys| ==> r[k] == SegmentOf(keys[k])
  {
    if |keys| == 0 then [] else [SegmentOf(keys[0])] + Names(keys[1..])
  }

  /** `list()` over the index keys `KEYS` answered, in whatever order it answered them. */
  function ListSegments(indexKeys: seq<string>): seq<string>
    requires AllPaths(indexKeys)
  {
    SortNames(Names(indexKeys))
  }

  /** The listing is sorted, holds each key's segment name once per key, and does not depend on the
      order in which the store returned the keys. */
  lemma ListSegmentsFacts(indexKeys: seq<string>, reordered: seq<string>)
    requires AllPaths(indexKeys) && AllPaths(reordered) && multiset(reordered) == multiset(indexKeys)
    ensures var r := ListSegments(indexKeys);
            SortedNames(r) && multiset(r) == multiset(Names(indexKeys)) &&
            (forall x :: x in r <==> exists k :: 0 <= k < |indexKeys| && SegmentOf(indexKeys[k]) == x) &&
            ListSegments(reordered) == r
  {
    SortNamesFacts(Names(indexKeys));
    ListSegmentsMembers(indexKeys);
    ListSegmentsReordered(indexKeys, reordered);
  }

  /** A name is listed exactly when some key carries it. */
  lemma ListSegmentsMembers(indexKeys: seq<string>)
    requires AllPaths(indexKeys)
    ensures forall x :: x in ListSegments(indexKeys) <==> exists k :: 0 <= k < |indexKeys| && SegmentOf(indexKeys[k]) == x
  {
    var n := Names(indexKeys);
    SortNamesFacts(n);
    forall x ensures x in ListSegments(indexKeys) <==> x in n {
      assert x in ListSegments(indexKeys) <==> x in multiset(ListSegments(indexKeys));
    }
    forall x | x in n ensures exists k :: 0 <= k < |indexKeys| && SegmentOf(indexKeys[k]) == x {
      var k :| 0 <= k < |n| && n[k] == x;
    }
  }

  /** The listing does not depend on the order of the keys. */
  lemma ListSegmentsReordered(indexKeys: seq<string>, reordered: seq<string>)
    requires AllPaths(indexKeys) && AllPaths(reordered) && multiset(reordered) == multiset(indexKeys)
    ensures ListSegments(reordered) == ListSegments(indexKeys)
  {
    SortNamesFacts(Names(indexKeys));
    SortNamesFacts(Names(reordered));
    NamesPermute(indexKeys, reordered);
    SortedUnique(ListSegments(indexKeys), ListSegments(reordered));
  }

  /** Permuting the keys permutes their names. */
  lemma {:induction false} NamesPermute(a: seq<string>, b: seq<string>)
    requires AllPaths(a) && AllPaths(b) && multiset(a) == multiset(b)
    ensures multiset(Names(a)) == multiset(Names(b))
    decreases |a|
  {
    if |a| > 0 {
      var k := a[0];
      assert k in multiset(b);
      var i :| 0 <= i < |b| && b[i] == k;
      var rest := b[..i] + b[i + 1..];
      assert b == b[..i] + [k] + b[i + 1..];
      assert a == [k] + a[1..];
      DropAt(a, b, i);
      NamesRemove(b, i);
      NamesRemove(a, 0);
      assert a[..0] + a[1..] == a[1..];
      NamesPermute(a[1..], rest);
    }
  }

  /** Taking one key out of a listing takes its name out of the names. */
  lemma NamesRemove(b: seq<string>, i: nat)
    requires AllPaths(b) && i < |b|
    ensures AllPaths(b[..i] + b[i + 1..])
    ensures multiset(Names(b)) == multiset(Names(b[..i] + b[i + 1..])) + multiset{SegmentOf(b[i])}
  {
    WithoutPaths(b, i);
    NamesWithout(b, i);
    RemoveAt(Names(b), i);
  }

  lemma WithoutPaths(b: seq<string>, i: nat)
    requires AllPaths(b) && i < |b|
    ensures AllPaths(b[..i] + b[i + 1..])
  {
    Without(b, i);
  }

  lemma NamesWithout(b: seq<string>, i: nat)
    requires AllPaths(b) && i < |b|
    requires AllPaths(b[..i] + b[i + 1..])
    ensures Names(b[..i] + b[i + 1..]) == Names(b)[..i] + Names(b)[i + 1..]
  {
    var rest := b[..i] + b[i + 1..];
    var nb, nr := Names(b), Names(rest);
    var want := nb[..i] + nb[i + 1..];
    assert |nr| == |want|;
    forall m | 0 <= m < |nr| ensures nr[m] == want[m] {
      if m < i {
        assert rest[m] == b[m] && want[m] == nb[m];
      } else {
        assert rest[m] == b[m + 1] && want[m] == nb[m + 1];
      }
    }
  }

  /** The elements left once the one at `i` is taken out. */
  lemma Without<T>(s: seq<T>, i: nat)
    requires i < |s|
    ensures var r := s[..i] + s[i + 1..];
            |r| == |s| - 1 && forall m :: 0 <= m < |r| ==> r[m] == if m < i then s[m] else s[m + 1]
  {
  }

  lemma DropHead(a: seq<string>, b: seq<string>)
    requires |a| > 0 && |b| > 0 && a[0] == b[0] && multiset(a) == multiset(b)
    ensures multiset(a[1..]) == multiset(b[1..])
  {
    assert a == [a[0]] + a[1..] && b == [b[0]] + b[1..];
    assert multiset(a[1..]) == multiset(a) - multiset{a[0]};
    assert multiset(b[1..]) == multiset(b) - multiset{b[0]};
  }

  lemma DropAt(a: seq<string>, b: seq<string>, i: nat)
    requires |a| > 0 && i < |b| && a[0] == b[i] && multiset(a) == multiset(b)
    ensures multiset(a[1..]) == multiset(b[..i] + b[i + 1..])
  {
    assert a == [a[0]] + a[1..];
    assert multiset(a[1..]) == multiset(a) - multiset{a[0]};
    RemoveAt(b, i);
  }

  lemma SortedTail(a: seq<string>)
    requires SortedNames(a) && |a| > 0
    ensures SortedNames(a[1..])
  {
    assert forall i, j :: 0 <= i < j < |a| - 1 ==> a[1..][i] == a[i + 1] && a[1..][j] == a[j + 1];
  }

  /** Taking the element at `i` out of a sequence takes one copy of it out of its multiset. */
  lemma RemoveAt(s: seq<string>, i: nat)
    requires i < |s|
    ensures multiset(s[..i] + s[i + 1..]) == multiset(s) - multiset{s[i]}
    ensures multiset(s) == multiset(s[..i] + s[i + 1..]) + multiset{s[i]}
  {
    assert s == s[..i] + [s[i]] + s[i + 1..];
  }
}

=== FILE: parse.dfy ===
/** The parser (`parse`): a left fold over the tokens that starts from a fresh root pipeline and
    makes, for each token, the one builder call the action table names, carrying on with whatever
    pipeline that call returns. */
module Parser {
  import opened Wrappers
  import opened Tokens
  import opened Pipelines

  /** The builder call each kind is bound to. `min`, `max`, `int`, `skip`, `take` and `asRandom`
      are not methods of the pipeline, so calling them fails. */
  datatype Action =
    | CallAsGet | CallAsCount | CallStartGroup | CallCompleteGroup | CallIn | CallNotIn
    | CallSegment | CallAnd | CallOr | CallNot | CallMissing(member: string)

  /** `tokenActions`. */
  function ActionFor(k: TokenType): Action {
    match k
    case Get => CallAsGet
    case Count => CallAsCount
    case OParens => CallStartGroup
    case CParens => CallCompleteGroup
    case Include => CallIn
    case Exclude => CallNotIn
    case Identifier => CallSegment
    case And => CallAnd
    case Or => CallOr
    case Negate => CallNot
    case Min => CallMissing("min")
    case Max => CallMissing("max")
    case Integer => CallMissing("int")
    case Skip => CallMissing("skip")
    case Take => CallMissing("take")
    case Random => CallMissing("asRandom")
  }

  datatype ParseError =
    | IdentifierWithoutName
    | NotAFunction(member: string)
    | BuilderError(error: PipelineError)

  /** One token: identifiers and integers need a value, then the bound call is made. */
  function Step(b: Builder, t: Token): (r: Result<Builder, ParseError>)
    requires WellNested(b)
    ensures r.Ok? ==> WellNested(r.value)
    ensures (t.kind == Identifier || t.kind == Integer) && t.value.None? ==> r == Err(IdentifierWithoutName)
    ensures t.kind == Get ==> r == Ok(OnCurrent(b, AsGet(b.current)))
    ensures t.kind == Count ==> r == Ok(OnCurrent(b, AsCount(b.current)))
    ensures t.kind == OParens ==> r == Ok(StartGroup(b))
    ensures t.kind == CParens ==> r == Ok(CompleteGroup(b))
    ensures t.kind == Include ==> r == Lift(In(b.current), p => OnCurrent(b, p))
    ensures t.kind == Exclude || t.kind == Negate ==> r == Ok(OnCurrent(b, SetPending(b.current, NotIn)))
    ensures t.kind == And ==> r == Ok(OnCurrent(b, SetPending(b.current, AndIn)))
    ensures t.kind == Or ==> r == Ok(OnCurrent(b, SetPending(b.current, OrOp)))
    ensures t.kind == Identifier && t.value.Some? ==> r == Lift(AddSegment(b.current, t.value.value), p => OnCurrent(b, p))
    ensures ActionFor(t.kind).CallMissing? && !(t.kind == Integer && t.value.None?) ==>
              r == Err(NotAFunction(ActionFor(t.kind).member))
  {
    if (t.kind == Identifier || t.kind == Integer) && t.value.None? then Err(IdentifierWithoutName)
    else
      match ActionFor(t.kind)
      case CallAsGet => Ok(OnCurrent(b, AsGet(b.current)))
      case CallAsCount => Ok(OnCurrent(b, AsCount(b.current)))
      case CallStartGroup => Ok(StartGroup(b))
      case CallCompleteGroup => Ok(CompleteGroup(b))
      case CallIn => Lift(In(b.current), p => OnCurrent(b, p))
      case CallNotIn => Ok(OnCurrent(b, SetPending(b.current, NotIn)))
      case CallSegment => Lift(AddSegment(b.current, t.value.value), p => OnCurrent(b, p))
      case CallAnd => Ok(OnCurrent(b, SetPending(b.current, AndIn)))
      case CallOr => Ok(OnCurrent(b, SetPending(b.current, OrOp)))
      case CallNot => Ok(OnCurrent(b, SetPending(b.current, NotIn)))
      case CallMissing(m) => Err(NotAFunction(m))
  }

  /** A builder error as a parse failure. */
  function Lift(r: Result<Pipeline, PipelineError>, f: Pipeline -> Builder): (q: Result<Builder, ParseError>)
    ensures r.Ok? ==> q == Ok(f(r.value))
    ensures r.Err? ==> q == Err(BuilderError(r.error))
  {
    match r
    case Ok(p) => Ok(f(p))
    case Err(e) => Err(BuilderError(e))
  }

  /** The `reduce` from builder `b` over the remaining tokens. */
  function ParseFrom(b: Builder, ts: seq<Token>): (r: Result<Builder, ParseError>)
    requires WellNested(b)
    ensures r.Ok? ==> WellNested(r.value)
    decreases |ts|
  {
    if |ts| == 0 then Ok(b)
    else
      match Step(b, ts[0])
      case Err(e) => Err(e)
      case Ok(next) => ParseFrom(next, ts[1..])
  }

  /** `parse(tokens)`: the builder after the last token. Its current pipeline is what the caller
      runs, which is a group's child when that group was never completed. */
  function Parse(ts: seq<Token>): (r: Result<Builder, ParseError>)
    ensures r.Ok? ==> WellNested(r.value)
  {
    ParseFrom(Start, ts)
  }

  /** Parsing one more token continues from the builder the earlier tokens left. */
  lemma {:induction false} ParseFromSnoc(b: Builder, ts: seq<Token>, t: Token)
    requires WellNested(b)
    ensures ParseFrom(b, ts + [t]) ==
              match ParseFrom(b, ts)
              case Err(e) => Err(e)
              case Ok(c) => Step(c, t)
    decreases |ts|
  {
    if |ts| == 0 {
      assert ts + [t] == [t];
    } else {
      assert (ts + [t])[0] == ts[0] && (ts + [t])[1..] == ts[1..] + [t];
      match Step(b, ts[0])
      case Err(e) =>
      case Ok(next) => ParseFromSnoc(next, ts[1..], t);
    }
  }

  /** The parse of a concatenation is the parse of the second part from where the first left off. */
  lemma {:induction false} ParseFromAppend(b: Builder, xs: seq<Token>, ys: seq<Token>)
    requires WellNested(b)
    ensures ParseFrom(b, xs + ys) ==
              match ParseFrom(b, xs)
              case Err(e) => Err(e)
              case Ok(c) => ParseFrom(c, ys)
    decreases |xs|
  {
    if |xs| == 0 {
      assert xs + ys == ys;
    } else {
      assert (xs + ys)[0] == xs[0] && (xs + ys)[1..] == xs[1..] + ys;
      match Step(b, xs[0])
      case Err(e) =>
      case Ok(next) => ParseFromAppend(next, xs[1..], ys);
    }
  }

  /** A parse that goes through the builders `bs`, one token at a time, ends at the last of them. */
  lemma {:induction false} ParseTrace(bs: seq<Builder>, ts: seq<Token>)
    requires |bs| == |ts| + 1
    requires forall i :: 0 <= i < |bs| ==> WellNested(bs[i])
    requires forall i :: 0 <= i < |ts| ==> Step(bs[i], ts[i]) == Ok(bs[i + 1])
    ensures ParseFrom(bs[0], ts) == Ok(bs[|ts|])
    decreases |ts|
  {
    if |ts| > 0 {
      assert Step(bs[0], ts[0]) == Ok(bs[1]);
      ParseTrace(bs[1..], ts[1..]);
    }
  }
}

=== FILE: pipeline.dfy ===
/** The query pipeline (`SegmentaPipeline`): a builder the parser drives token by token, holding an
    exec mode, a list of operations and one pending operator, with groups opening child pipelines;
    and its evaluation, which folds the operations left to right into a fresh sparse buffer. */
module Pipelines {
  import opened Wrappers
  import opened SparseBuffers
  import ByteOps
  import BitPositions

  /** `SegmentaPipelineOperations`. */
  datatype Operation = NoneOp | AndIn | OrOp | OrIn | NotIn

  /** `ExecOperations`. */
  datatype Mode = NoMode | GetMode | CountMode

  /** The `segment` of an operation: a segment name, or the child pipeline of a group. */
  datatype Segment = Named(name: string) | Nested(child: Pipeline)

  datatype Op = Op(op: Operation, segment: Segment)

  datatype Pipeline = Pipeline(mode: Mode, ops: seq<Op>, pending: Operation)

  datatype PipelineError =
    | CannotInAfter(after: Operation)      // `Don't know how to "in" after ...`
    | SegmentWithoutOperation              // `can't call segment() without a preceding operation`
    | NoExecOperation
    | NoSegment(on: Operation)             // `No segment on {"op": ...}`
    | NestedNotGet                         // `nested pipeline can ONLY be a get`
    | UnknownOperation(which: Operation)   // `Unknown SegmentaPipelineOperation: ...`

  /** A fresh pipeline: no mode, no operations, nothing pending. */
  const Fresh: Pipeline := Pipeline(NoMode, [], NoneOp)

  // ---------------------------------------------------------------- builder calls on one pipeline

  /** `in()`. */
  function In(p: Pipeline): (r: Result<Pipeline, PipelineError>)
    ensures p.pending == NoneOp || p.pending == OrOp ==> r == Ok(p.(pending := OrIn))
    ensures p.pending == AndIn || p.pending == NotIn ==> r == Ok(p)
    ensures p.pending == OrIn ==> r == Err(CannotInAfter(OrIn))
  {
    match p.pending
    case NoneOp => Ok(p.(pending := OrIn))
    case OrOp => Ok(p.(pending := OrIn))
    case AndIn => Ok(p.(pending := AndIn))
    case NotIn => Ok(p)
    case OrIn => Err(CannotInAfter(p.pending))
  }

  /** `notIn()`, `not()`, `and()` and `or()` only overwrite the pending operator. */
  function SetPending(p: Pipeline, op: Operation): (r: Pipeline)
    ensures r.mode == p.mode && r.ops == p.ops && r.pending == op
  {
    p.(pending := op)
  }

  /** `segment(id)`: commits the pending operator with the name, or fails when nothing is pending. */
  function AddSegment(p: Pipeline, id: string): (r: Result<Pipeline, PipelineError>)
    ensures p.pending == NoneOp <==> r.Err?
    ensures r.Err? ==> r.error == SegmentWithoutOperation
    ensures r.Ok? ==> r.value.mode == p.mode && r.value.ops == p.ops + [Op(p.pending, Named(id))] &&
                      r.value.pending == NoneOp
  {
    if p.pending == NoneOp then Err(SegmentWithoutOperation)
    else Ok(p.(ops := p.ops + [Op(p.pending, Named(id))], pending := NoneOp))
  }

  function AsGet(p: Pipeline): (r: Pipeline)
    ensures r.mode == GetMode && r.ops == p.ops && r.pending == p.pending
  {
    p.(mode := GetMode)
  }

  function AsCount(p: Pipeline): (r: Pipeline)
    ensures r.mode == CountMode && r.ops == p.ops && r.pending == p.pending
  {
    p.(mode := CountMode)
  }

  // ---------------------------------------------------------------- groups

  /** The pipeline being built and, innermost last, the pipelines of the groups it is nested in.
      Each of those ends with the group's operation, whose child is filled in when the group is
      completed: the source shares the child object, so the parent sees everything done to it. */
  datatype Builder = Builder(current: Pipeline, parents: seq<Pipeline>)

  predicate Groups(parents: seq<Pipeline>) {
    forall k :: 0 <= k < |parents| ==> |parents[k].ops| > 0 && parents[k].ops[|parents[k].ops| - 1].segment.Nested?
  }

  /** A builder every group of which has its operation in place. */
  predicate WellNested(b: Builder) {
    Groups(b.parents)
  }

  const Start: Builder := Builder(Fresh, [])

  /** Put `child` into the last operation of `parent`. */
  function Plug(child: Pipeline, parent: Pipeline): (r: Pipeline)
    requires |parent.ops| > 0
    ensures r.mode == parent.mode && r.pending == parent.pending && |r.ops| == |parent.ops|
    ensures r.ops[..|r.ops| - 1] == parent.ops[..|parent.ops| - 1]
    ensures r.ops[|r.ops| - 1] == Op(parent.ops[|parent.ops| - 1].op, Nested(child))
  {
    var n := |parent.ops|;
    parent.(ops := parent.ops[..n - 1] + [Op(parent.ops[n - 1].op, Nested(child))])
  }

  /** `startGroup()`: with nothing or `notIn` pending, a child pipeline in GET mode becomes the
      segment of a new operation carrying the pending operator, and building continues in the child;
      otherwise nothing happens and building continues where it was. */
  function StartGroup(b: Builder): (r: Builder)
    requires WellNested(b)
    ensures WellNested(r)
    ensures b.current.pending == NoneOp || b.current.pending == NotIn ==>
              r.current == AsGet(Fresh) &&
              r.parents == b.parents + [b.current.(ops := b.current.ops + [Op(b.current.pending, Nested(AsGet(Fresh)))],
                                                   pending := NoneOp)]
    ensures !(b.current.pending == NoneOp || b.current.pending == NotIn) ==> r == b
  {
    var p := b.current;
    if p.pending == NoneOp || p.pending == NotIn then
      var next := AsGet(Fresh);
      var parent := p.(ops := p.ops + [Op(p.pending, Nested(next))], pending := NoneOp);
      var r := Builder(next, b.parents + [parent]);
      assert forall k :: 0 <= k < |b.parents| ==> r.parents[k] == b.parents[k];
      r
    else b
  }

  /** `completeGroup()`: back to the parent, the child in place; at the root, stay. */
  function CompleteGroup(b: Builder): (r: Builder)
    requires WellNested(b)
    ensures WellNested(r)
    ensures |b.parents| == 0 ==> r == b
    ensures |b.parents| > 0 ==> r.parents == b.parents[..|b.parents| - 1] &&
                                r.current == Plug(b.current, b.parents[|b.parents| - 1])
  {
    if |b.parents| == 0 then b
    else
      var n := |b.parents|;
      var r := Builder(Plug(b.current, b.parents[n - 1]), b.parents[..n - 1]);
      assert forall k :: 0 <= k < n - 1 ==> r.parents[k] == b.parents[k];
      r
  }

  /** A call on the current pipeline that keeps the nesting. */
  function OnCurrent(b: Builder, p: Pipeline): (r: Builder)
    ensures r.current == p && r.parents == b.parents
  {
    b.(current := p)
  }

  // ---------------------------------------------------------------- exec

  /** What `exec` resolves to: a buffer for GET, a number or `undefined` for COUNT. */
  datatype Value = BufferValue(buffer: SparseBuffer) | NumberValue(n: nat) | Undefined

  /** The number of on-bits of a buffer: the `total` of its bit positions, which the shuffle of an
      unordered buffer cannot change. */
  function Cardinality(b: SparseBuffer): (n: nat)
    ensures n == |BitPositions.Positions(b.hunks, b.minimum, b.maximum)|
  {
    BitPositions.GetOnBitPositions(b.(paging := Plain), None, None, None, None, _ => 0).total
  }

  /** One step of `_get`: the buffer an operation contributes. A name is looked up in the store
      (an empty name is falsy and fails first); a group's child pipeline is run and must yield a
      buffer. */
  function SegmentBuffer(p: Pipeline, i: nat, store: string -> SparseBuffer): (r: Result<SparseBuffer, PipelineError>)
    requires i < |p.ops|
    ensures p.ops[i].segment.Named? ==>
              r == if p.ops[i].segment.name == "" then Err(NoSegment(p.ops[i].op)) else Ok(store(p.ops[i].segment.name))
    decreases p, 0
  {
    assert p.ops[i] in p.ops;
    match p.ops[i].segment
    case Named(name) => if name == "" then Err(NoSegment(p.ops[i].op)) else Ok(store(name))
    case Nested(child) =>
      match Exec(child, store)
      case Err(e) => Err(e)
      case Ok(v) => if v.BufferValue? then Ok(v.buffer) else Err(NestedNotGet)
  }

  /** The byte transform an operation applies. */
  function TransformOf(op: Operation): ByteOps.Transform
    requires op != NoneOp
  {
    match op
    case AndIn => ByteOps.And
    case NotIn => ByteOps.Not
    case _ => ByteOps.Or
  }

  /** The `switch` of `_get`: `orIn` and `or` OR, `andIn` ANDs, `notIn` NOTs the segment's buffer
      into the result; an operation left at `none` is unknown. Address by address, the result holds
      the segment's byte transformed into the accumulated one, or taken as it is where the
      accumulator holds nothing. */
  function Apply(op: Operation, acc: SparseBuffer, seg: SparseBuffer): (r: Result<SparseBuffer, PipelineError>)
    ensures op == NoneOp <==> r.Err?
    ensures r.Err? ==> r.error == UnknownOperation(NoneOp)
    ensures r.Ok? ==> r.value == acc.(hunks := r.value.hunks)
    ensures r.Ok? ==> forall i :: Read(r.value.hunks, i) == Combine(TransformOf(op), Read(acc.hunks, i), Read(seg.hunks, i))
  {
    match op
    case OrIn => Ok(Or(acc, BufferSource(seg), None))
    case AndIn => Ok(And(acc, BufferSource(seg), None))
    case NotIn => Ok(Not(acc, BufferSource(seg), None))
    case OrOp => Ok(Or(acc, BufferSource(seg), None))
    case NoneOp => Err(UnknownOperation(op))
  }

  /** The loop of `_get` from operation `i` on, `acc` being the result so far. */
  function GetFrom(p: Pipeline, i: nat, acc: SparseBuffer, store: string -> SparseBuffer): (r: Result<SparseBuffer, PipelineError>)
    requires i <= |p.ops|
    ensures r.Ok? ==> r.value == acc.(hunks := r.value.hunks)
    decreases p, 1, |p.ops| - i
  {
    if i == |p.ops| then Ok(acc)
    else
      match SegmentBuffer(p, i, store)
      case Err(e) => Err(e)
      case Ok(seg) =>
        match Apply(p.ops[i].op, acc, seg)
        case Err(e) => Err(e)
        case Ok(next) => GetFrom(p, i + 1, next, store)
  }

  /** The GET result of a pipeline: its operations folded into a fresh buffer. */
  function Evaluate(p: Pipeline, store: string -> SparseBuffer): (r: Result<SparseBuffer, PipelineError>)
    ensures r.Ok? ==> r.value.minimum.None? && r.value.maximum.None? && r.value.ordered && r.value.paging.Plain?
    decreases p, 1, |p.ops| + 1
  {
    GetFrom(p, 0, New(None, false), store)
  }

  /** `exec()`, with COUNT returning the number of on-bits of the GET result. */
  function Exec(p: Pipeline, store: string -> SparseBuffer): (r: Result<Value, PipelineError>)
    ensures p.mode == NoMode ==> r == Err(NoExecOperation)
    ensures p.mode == GetMode ==> r == Map(Evaluate(p, store), b => BufferValue(b))
    ensures p.mode == CountMode ==> r == Map(Evaluate(p, store), b => NumberValue(Cardinality(b)))
    decreases p, 2
  {
    match p.mode
    case NoMode => Err(NoExecOperation)
    case GetMode =>
      (match Evaluate(p, store)
       case Err(e) => Err(e)
       case Ok(b) => Ok(BufferValue(b)))
    case CountMode =>
      (match Evaluate(p, store)
       case Err(e) => Err(e)
       case Ok(b) => Ok(NumberValue(Cardinality(b))))
  }

  /** `exec()` as `_count` is written: it reads `.length` of the object `getOnBitPositions` returns,
      which has only `values` and `total`, so a COUNT resolves to `undefined`. A nested COUNT is
      refused the same way either way, since neither a number nor `undefined` is a buffer. */
  function ExecAsWritten(p: Pipeline, store: string -> SparseBuffer): (r: Result<Value, PipelineError>)
    ensures p.mode != CountMode ==> r == Exec(p, store)
    ensures p.mode == CountMode ==> (r.Err? <==> Evaluate(p, store).Err?)
    decreases p, 3
  {
    match p.mode
    case CountMode =>
      (match Evaluate(p, store)
       case Err(e) => Err(e)
       case Ok(b) => Ok(Undefined))
    case _ => Exec(p, store)
  }

  function Map<T, U>(r: Result<T, PipelineError>, f: T -> U): Result<U, PipelineError> {
    match r
    case Ok(v) => Ok(f(v))
    case Err(e) => Err(e)
  }
}

=== FILE: pipeline_examples.dfy ===
/** The grouping examples of the query language, on the tokens the parser receives: with
    x = {1..5}, y = {2} and z = {4}, the token list GET, IN 'x', AND, `negate`, `(`, IN 'y', OR,
    IN 'z', `)` nests the group and gives {1, 3, 5}, while "in x and (in y or in z)" does not nest
    (`startGroup` after `and` returns the pipeline itself) and is evaluated flat as
    ((x AND y) OR z), which gives {2, 4}. The lexer produces no `negate` token, so the first list
    is not what the text "get where in 'x' and not (in 'y' or in 'z')" lexes to: that text stops
    the lexer at `not (` (`TokenizerExamples.NotGroupTextDoesNotLex`). */
module PipelineExamples {
  import opened Wrappers
  import opened Tokens
  import ByteOps
  import opened SparseBuffers
  import opened BitPositions
  import opened Pipelines
  import opened Parser
  import PipelineProperties

  function Kw(k: TokenType): Token {
    Token(k, None)
  }

  function Id(name: string): Token {
    Token(Identifier, Some(name))
  }

  /** One byte at address 0 holds positions 0..7, most significant bit first. */
  function Store(name: string): SparseBuffer {
    if name == "x" then New(Some([0x7C]), false)        // 1, 2, 3, 4, 5
    else if name == "y" then New(Some([0x20]), false)   // 2
    else if name == "z" then New(Some([0x08]), false)   // 4
    else New(None, false)
  }

  lemma StoreBytes(name: string, j: int)
    ensures Read(Store(name).hunks, j) ==
              if j != 0 then None
              else if name == "x" then Some(0x7C)
              else if name == "y" then Some(0x20)
              else if name == "z" then Some(0x08)
              else None
  {
  }

  /** The bytes of a result determine its positions. */
  lemma PositionsOfByteZero(b: SparseBuffer, v: bv8, x: int)
    requires b.minimum.None? && b.maximum.None?
    requires forall j :: Read(b.hunks, j) == if j == 0 then Some(v) else None
    ensures x in Positions(b.hunks, None, None) <==> 0 <= x < 8 && ByteOps.BitOn(v, x)
  {
    PipelineProperties.CountedPositions(b, x);
    assert Read(b.hunks, x / 8) == if x / 8 == 0 then Some(v) else None;
  }

  /** A GET whose result holds the single byte `v` at address 0 lists the bits of `v`. */
  lemma GetByteZero(p: Pipeline, store: string -> SparseBuffer, v: bv8, x: int)
    requires p.mode == GetMode && Evaluate(p, store).Ok?
    requires forall j :: Read(Evaluate(p, store).value.hunks, j) == if j == 0 then Some(v) else None
    ensures var r := Exec(p, store);
            r.Ok? && r.value.BufferValue? &&
            (x in Positions(r.value.buffer.hunks, None, None) <==> 0 <= x < 8 && ByteOps.BitOn(v, x))
  {
    PositionsOfByteZero(Evaluate(p, store).value, v, x);
  }

  /** The on-bits of the two result bytes. */
  lemma BitsOfResults(x: nat)
    requires x < 8
    ensures ByteOps.BitOn(0x54, x) <==> x == 1 || x == 3 || x == 5
    ensures ByteOps.BitOn(0x28, x) <==> x == 2 || x == 4
    ensures ByteOps.BitOn(0x20, x) <==> x == 2
    ensures ByteOps.BitOn(0x7C, x) <==> 1 <= x <= 5
  {
    match x
    case 0 => case 1 => case 2 => case 3 => case 4 => case 5 => case 6 => case 7 =>
  }

  // ---------------------------------------------------------------- GET IN 'x' AND negate ( IN 'y' OR IN 'z' )

  function AndNotTokens(): seq<Token> {
    [Kw(Get), Kw(Include), Id("x"), Kw(And), Kw(Negate),
     Kw(OParens), Kw(Include), Id("y"), Kw(Or), Kw(Include), Id("z"), Kw(CParens)]
  }

  function YOrZ(): Pipeline {
    Pipeline(GetMode, [Op(OrIn, Named("y")), Op(OrIn, Named("z"))], NoneOp)
  }

  function AndNotRoot(): Pipeline {
    Pipeline(GetMode, [Op(OrIn, Named("x")), Op(NotIn, Nested(YOrZ()))], NoneOp)
  }

  function InGet(ops: seq<Op>, pending: Operation): Pipeline {
    Pipeline(GetMode, ops, pending)
  }

  /** The root while the group is open: its last operation holds the still empty child. */
  function AndNotOpen(): Pipeline {
    InGet([Op(OrIn, Named("x")), Op(NotIn, Nested(AsGet(Fresh)))], NoneOp)
  }

  /** The builder after each token. */
  function AndNotBuilders(): seq<Builder> {
    [Start,
     Builder(InGet([], NoneOp), []),
     Builder(InGet([], OrIn), []),
     Builder(InGet([Op(OrIn, Named("x"))], NoneOp), []),
     Builder(InGet([Op(OrIn, Named("x"))], AndIn), []),
     Builder(InGet([Op(OrIn, Named("x"))], NotIn), []),
     Builder(InGet([], NoneOp), [AndNotOpen()]),
     Builder(InGet([], OrIn), [AndNotOpen()]),
     Builder(InGet([Op(OrIn, Named("y"))], NoneOp), [AndNotOpen()]),
     Builder(InGet([Op(OrIn, Named("y"))], OrOp), [AndNotOpen()]),
     Builder(InGet([Op(OrIn, Named("y"))], OrIn), [AndNotOpen()]),
     Builder(YOrZ(), [AndNotOpen()]),
     Builder(AndNotRoot(), [])]
  }

  /** `get`, `in`, `x`, `and`, `not` on the root. */
  lemma AndNotRootStep(i: nat)
    requires i < 5
    ensures WellNested(AndNotBuilders()[i])
    ensures Step(AndNotBuilders()[i], AndNotTokens()[i]) == Ok(AndNotBuilders()[i + 1])
  {
    var b, t, c := AndNotBuilders()[i], AndNotTokens()[i], AndNotBuilders()[i + 1];
    assert b.parents == [] && c.parents == [];
    if i == 2 {
      assert b.current.ops + [Op(OrIn, Named("x"))] == c.current.ops;
      assert AddSegment(b.current, "x") == Ok(c.current);
    }
  }

  /** `(` after `not` opens the child. */
  lemma AndNotGroupOpens()
    ensures WellNested(AndNotBuilders()[5])
    ensures Step(AndNotBuilders()[5], AndNotTokens()[5]) == Ok(AndNotBuilders()[6])
  {
    var b := AndNotBuilders()[5];
    assert b.parents == [];
    assert b.current.ops + [Op(NotIn, Nested(AsGet(Fresh)))] == AndNotOpen().ops;
    assert b.parents + [AndNotOpen()] == [AndNotOpen()];
    assert StartGroup(b) == AndNotBuilders()[6];
    assert Step(b, AndNotTokens()[5]) == Ok(StartGroup(b));
  }

  /** `in`, `y`, `or`, `in`, `z` in the child. */
  lemma AndNotChildStep(i: nat)
    requires 6 <= i < 11
    ensures WellNested(AndNotBuilders()[i])
    ensures Step(AndNotBuilders()[i], AndNotTokens()[i]) == Ok(AndNotBuilders()[i + 1])
  {
    var b, t, c := AndNotBuilders()[i], AndNotTokens()[i], AndNotBuilders()[i + 1];
    assert b.parents == [AndNotOpen()] && c.parents == [AndNotOpen()];
    assert WellNested(b);
    if i == 7 {
      assert b.current.ops + [Op(OrIn, Named("y"))] == c.current.ops;
      assert AddSegment(b.current, "y") == Ok(c.current);
    } else if i == 10 {
      assert b.current.ops + [Op(OrIn, Named("z"))] == c.current.ops;
      assert AddSegment(b.current, "z") == Ok(c.current);
    }
  }

  /** `)` puts the child into the root. */
  lemma AndNotGroupCloses()
    ensures WellNested(AndNotBuilders()[11])
    ensures Step(AndNotBuilders()[11], AndNotTokens()[11]) == Ok(AndNotBuilders()[12])
  {
    var b := AndNotBuilders()[11];
    assert b.parents == [AndNotOpen()];
    assert WellNested(b);
    var open := AndNotOpen();
    assert open.ops[..1] + [Op(NotIn, Nested(YOrZ()))] == AndNotRoot().ops;
    assert Plug(YOrZ(), open) == AndNotRoot();
    assert CompleteGroup(b) == AndNotBuilders()[12];
    assert Step(b, AndNotTokens()[11]) == Ok(CompleteGroup(b));
  }

  lemma AndNotStep(i: nat)
    requires i < |AndNotTokens()|
    ensures WellNested(AndNotBuilders()[i])
    ensures Step(AndNotBuilders()[i], AndNotTokens()[i]) == Ok(AndNotBuilders()[i + 1])
  {
    if i < 5 {
      AndNotRootStep(i);
    } else if i == 5 {
      AndNotGroupOpens();
    } else if i < 11 {
      AndNotChildStep(i);
    } else {
      AndNotGroupCloses();
    }
  }

  /** NOT before the parenthesis nests the group; closing it puts the child back in place. */
  lemma AndNotParses()
    ensures Parse(AndNotTokens()) == Ok(Builder(AndNotRoot(), []))
  {
    var bs := AndNotBuilders();
    forall i | 0 <= i < |AndNotTokens()|
      ensures WellNested(bs[i]) && Step(bs[i], AndNotTokens()[i]) == Ok(bs[i + 1])
    {
      AndNotStep(i);
    }
    assert WellNested(bs[12]);
    ParseTrace(bs, AndNotTokens());
  }

  /** The child ORs `y` and then `z` into a fresh buffer. */
  lemma YOrZChain()
    ensures Evaluate(YOrZ(), Store) == Apply(OrIn, Apply(OrIn, New(None, false), Store("y")).value, Store("z"))
  {
    var p := YOrZ();
    var first := Apply(OrIn, New(None, false), Store("y")).value;
    assert SegmentBuffer(p, 0, Store) == Ok(Store("y"));
    assert SegmentBuffer(p, 1, Store) == Ok(Store("z"));
    assert GetFrom(p, 0, New(None, false), Store) == GetFrom(p, 1, first, Store);
  }

  /** 0x20 OR 0x08 is 0x28. */
  lemma OrOrAbstract(y: SparseBuffer, z: SparseBuffer, j: int)
    requires Read(y.hunks, j) == if j == 0 then Some(0x20) else None
    requires Read(z.hunks, j) == if j == 0 then Some(0x08) else None
    ensures Read(Apply(OrIn, Apply(OrIn, New(None, false), y).value, z).value.hunks, j) ==
              if j == 0 then Some(0x28) else None
  {
    var first := Apply(OrIn, New(None, false), y).value;
    assert Read(first.hunks, j) == Read(y.hunks, j);
  }

  lemma YOrZBytes(j: int)
    ensures Evaluate(YOrZ(), Store).Ok?
    ensures Read(Evaluate(YOrZ(), Store).value.hunks, j) == if j == 0 then Some(0x28) else None
  {
    YOrZChain();
    StoreBytes("y", j);
    StoreBytes("z", j);
    OrOrAbstract(Store("y"), Store("z"), j);
  }

  /** The root ORs `x` into a fresh buffer and then NOTs the child's result into it. */
  lemma AndNotChain()
    ensures Evaluate(YOrZ(), Store).Ok?
    ensures Evaluate(AndNotRoot(), Store) ==
              Apply(NotIn, Apply(OrIn, New(None, false), Store("x")).value, Evaluate(YOrZ(), Store).value)
  {
    YOrZChain();
    AndNotChild();
    var root := AndNotRoot();
    var first := Apply(OrIn, New(None, false), Store("x")).value;
    assert SegmentBuffer(root, 0, Store) == Ok(Store("x"));
    assert GetFrom(root, 0, New(None, false), Store) == GetFrom(root, 1, first, Store);
  }

  /** The root's second operation contributes the child's GET result. */
  lemma AndNotChild()
    ensures Evaluate(YOrZ(), Store).Ok?
    ensures SegmentBuffer(AndNotRoot(), 1, Store) == Ok(Evaluate(YOrZ(), Store).value)
  {
    YOrZChain();
    var child := Evaluate(YOrZ(), Store).value;
    assert Exec(YOrZ(), Store) == Ok(BufferValue(child));
  }

  lemma AndNotBytes(j: int)
    ensures Evaluate(AndNotRoot(), Store).Ok?
    ensures Read(Evaluate(AndNotRoot(), Store).value.hunks, j) == if j == 0 then Some(0x54) else None
  {
    AndNotChain();
    StoreBytes("x", j);
    YOrZBytes(j);
    NotAfterOr(Store("x"), Evaluate(YOrZ(), Store).value, j);
  }

  /** OR-ing 0x7C into a fresh buffer and NOT-ing 0x28 out of it leaves 0x54. */
  lemma NotAfterOr(x: SparseBuffer, child: SparseBuffer, j: int)
    requires Read(x.hunks, j) == if j == 0 then Some(0x7C) else None
    requires Read(child.hunks, j) == if j == 0 then Some(0x28) else None
    ensures Apply(NotIn, Apply(OrIn, New(None, false), x).value, child).Ok?
    ensures Read(Apply(NotIn, Apply(OrIn, New(None, false), x).value, child).value.hunks, j) ==
              if j == 0 then Some(0x54) else None
  {
    var first := Apply(OrIn, New(None, false), x).value;
    assert Read(first.hunks, j) == Read(x.hunks, j);
  }

  lemma AndNotResult(x: int)
    ensures var r := Exec(AndNotRoot(), Store);
            r.Ok? && r.value.BufferValue? &&
            (x in Positions(r.value.buffer.hunks, None, None) <==> x == 1 || x == 3 || x == 5)
  {
    forall j | true
      ensures Evaluate(AndNotRoot(), Store).Ok?
      ensures Read(Evaluate(AndNotRoot(), Store).value.hunks, j) == if j == 0 then Some(0x54) else None
    {
      AndNotBytes(j);
    }
    GetByteZero(AndNotRoot(), Store, 0x54, x);
    if 0 <= x < 8 {
      BitsOfResults(x);
    }
  }

  /** The token list GET, IN 'x', AND, `negate`, `(`, IN 'y', OR, IN 'z', `)` parses, and its
      pipeline lists 1, 3 and 5. */
  lemma AndNotGroupExample(x: int)
    ensures Parse(AndNotTokens()).Ok?
    ensures var r := Exec(Parse(AndNotTokens()).value.current, Store);
            r.Ok? && r.value.BufferValue? &&
            (x in Positions(r.value.buffer.hunks, None, None) <==> x == 1 || x == 3 || x == 5)
  {
    AndNotParses();
    AndNotResult(x);
  }

  // ---------------------------------------------------------------- "in x and (in y or in z)"

  function AndTokens(): seq<Token> {
    [Kw(Get), Kw(Include), Id("x"), Kw(And),
     Kw(OParens), Kw(Include), Id("y"), Kw(Or), Kw(Include), Id("z"), Kw(CParens)]
  }

  function FlatRoot(): Pipeline {
    Pipeline(GetMode, [Op(OrIn, Named("x")), Op(AndIn, Named("y")), Op(OrIn, Named("z"))], NoneOp)
  }

  /** The builder after each token: the parenthesis changes nothing. */
  function AndBuilders(): seq<Builder> {
    var x := Op(OrIn, Named("x"));
    [Start,
     Builder(InGet([], NoneOp), []),
     Builder(InGet([], OrIn), []),
     Builder(InGet([x], NoneOp), []),
     Builder(InGet([x], AndIn), []),
     Builder(InGet([x], AndIn), []),
     Builder(InGet([x], AndIn), []),
     Builder(InGet([x, Op(AndIn, Named("y"))], NoneOp), []),
     Builder(InGet([x, Op(AndIn, Named("y"))], OrOp), []),
     Builder(InGet([x, Op(AndIn, Named("y"))], OrIn), []),
     Builder(FlatRoot(), []),
     Builder(FlatRoot(), [])]
  }

  /** `get`, `in`, `x`, `and`, `(` and `in`. */
  lemma AndOpeningStep(i: nat)
    requires i < 6
    ensures WellNested(AndBuilders()[i])
    ensures Step(AndBuilders()[i], AndTokens()[i]) == Ok(AndBuilders()[i + 1])
  {
    var b, t, c := AndBuilders()[i], AndTokens()[i], AndBuilders()[i + 1];
    assert b.parents == [] && c.parents == [];
    if i == 2 {
      assert b.current.ops + [Op(OrIn, Named("x"))] == c.current.ops;
      assert AddSegment(b.current, "x") == Ok(c.current);
    } else if i == 4 {
      assert Step(b, t) == Ok(StartGroup(b));
    }
  }

  /** `y`, `or`, `in`, `z` and `)`. */
  lemma AndClosingStep(i: nat)
    requires 6 <= i < 11
    ensures WellNested(AndBuilders()[i])
    ensures Step(AndBuilders()[i], AndTokens()[i]) == Ok(AndBuilders()[i + 1])
  {
    var b, t, c := AndBuilders()[i], AndTokens()[i], AndBuilders()[i + 1];
    assert b.parents == [] && c.parents == [];
    if i == 6 {
      assert b.current.ops + [Op(AndIn, Named("y"))] == c.current.ops;
      assert AddSegment(b.current, "y") == Ok(c.current);
    } else if i == 9 {
      assert b.current.ops + [Op(OrIn, Named("z"))] == c.current.ops;
      assert AddSegment(b.current, "z") == Ok(c.current);
    } else if i == 10 {
      assert Step(b, t) == Ok(CompleteGroup(b));
    }
  }

  /** AND before the parenthesis leaves the group open in the same pipeline. */
  lemma AndParsesFlat()
    ensures Parse(AndTokens()) == Ok(Builder(FlatRoot(), []))
  {
    var bs := AndBuilders();
    forall i | 0 <= i < |AndTokens()|
      ensures WellNested(bs[i]) && Step(bs[i], AndTokens()[i]) == Ok(bs[i + 1])
    {
      if i < 6 {
        AndOpeningStep(i);
      } else {
        AndClosingStep(i);
      }
    }
    assert WellNested(bs[11]);
    ParseTrace(bs, AndTokens());
  }

  /** The flat root ORs `x` into a fresh buffer, ANDs `y` into that and ORs `z` into the result. */
  lemma FlatChain()
    ensures Evaluate(FlatRoot(), Store) ==
              Apply(OrIn, Apply(AndIn, Apply(OrIn, New(None, false), Store("x")).value, Store("y")).value, Store("z"))
  {
    var root := FlatRoot();
    var first := Apply(OrIn, New(None, false), Store("x")).value;
    var second := Apply(AndIn, first, Store("y")).value;
    NamedStep(root, 0, New(None, false));
    NamedStep(root, 1, first);
    NamedStep(root, 2, second);
  }

  /** One named operation of the flat root folds its stored buffer into the accumulator. */
  lemma NamedStep(p: Pipeline, i: nat, acc: SparseBuffer)
    requires i < |p.ops| && p.ops[i].segment.Named? && p.ops[i].segment.name != ""
    requires Apply(p.ops[i].op, acc, Store(p.ops[i].segment.name)).Ok?
    ensures GetFrom(p, i, acc, Store) ==
              GetFrom(p, i + 1, Apply(p.ops[i].op, acc, Store(p.ops[i].segment.name)).value, Store)
  {
    assert SegmentBuffer(p, i, Store) == Ok(Store(p.ops[i].segment.name));
  }

  /** ((0x7C AND 0x20) OR 0x08) is 0x28. */
  lemma FlatAbstract(x: SparseBuffer, y: SparseBuffer, z: SparseBuffer, j: int)
    requires Read(x.hunks, j) == if j == 0 then Some(0x7C) else None
    requires Read(y.hunks, j) == if j == 0 then Some(0x20) else None
    requires Read(z.hunks, j) == if j == 0 then Some(0x08) else None
    ensures Read(Apply(OrIn, Apply(AndIn, Apply(OrIn, New(None, false), x).value, y).value, z).value.hunks, j) ==
              if j == 0 then Some(0x28) else None
  {
    var first := Apply(OrIn, New(None, false), x).value;
    assert Read(first.hunks, j) == Read(x.hunks, j);
    var second := Apply(AndIn, first, y).value;
    assert Read(second.hunks, j) == if j == 0 then Some(0x20) else None;
  }

  lemma FlatBytes(j: int)
    ensures Evaluate(FlatRoot(), Store).Ok?
    ensures Read(Evaluate(FlatRoot(), Store).value.hunks, j) == if j == 0 then Some(0x28) else None
  {
    FlatChain();
    StoreBytes("x", j);
    StoreBytes("y", j);
    StoreBytes("z", j);
    FlatAbstract(Store("x"), Store("y"), Store("z"), j);
  }

  lemma FlatResult(x: int)
    ensures var r := Exec(FlatRoot(), Store);
            r.Ok? && r.value.BufferValue? &&
            (x in Positions(r.value.buffer.hunks, None, None) <==> x == 2 || x == 4)
  {
    forall j | true
      ensures Evaluate(FlatRoot(), Store).Ok?
      ensures Read(Evaluate(FlatRoot(), Store).value.hunks, j) == if j == 0 then Some(0x28) else None
    {
      FlatBytes(j);
    }
    GetByteZero(FlatRoot(), Store, 0x28, x);
    if 0 <= x < 8 {
      BitsOfResults(x);
    }
  }

  /** "get where in 'x' and (in 'y' or in 'z')" lists 2 and 4. */
  lemma AndGroupFlatExample(x: int)
    ensures Parse(AndTokens()).Ok?
    ensures var r := Exec(Parse(AndTokens()).value.current, Store);
            r.Ok? && r.value.BufferValue? &&
            (x in Positions(r.value.buffer.hunks, None, None) <==> x == 2 || x == 4)
  {
    AndParsesFlat();
    FlatResult(x);
  }

  // ---------------------------------------------------------------- groups that go wrong

  /** "get where (in 'y')": nothing is pending at the parenthesis, so the group's operation stays
      at `none` and the evaluation fails on it. */
  function BareGroupTokens(): seq<Token> {
    [Kw(Get), Kw(OParens), Kw(Include), Id("y"), Kw(CParens)]
  }

  function BareGroupRoot(): Pipeline {
    InGet([Op(NoneOp, Nested(InGet([Op(OrIn, Named("y"))], NoneOp)))], NoneOp)
  }

  function BareGroupOpen(): Pipeline {
    InGet([Op(NoneOp, Nested(AsGet(Fresh)))], NoneOp)
  }

  function BareGroupBuilders(): seq<Builder> {
    [Start,
     Builder(InGet([], NoneOp), []),
     Builder(InGet([], NoneOp), [BareGroupOpen()]),
     Builder(InGet([], OrIn), [BareGroupOpen()]),
     Builder(InGet([Op(OrIn, Named("y"))], NoneOp), [BareGroupOpen()]),
     Builder(BareGroupRoot(), [])]
  }

  lemma BareGroupStep(i: nat)
    requires i < 5
    ensures WellNested(BareGroupBuilders()[i])
    ensures Step(BareGroupBuilders()[i], BareGroupTokens()[i]) == Ok(BareGroupBuilders()[i + 1])
  {
    if i == 1 {
      BareGroupOpens();
    } else if i == 3 {
      BareGroupAddsY();
    } else if i == 4 {
      BareGroupCloses();
    }
  }

  /** The parenthesis right after `get` parks an empty pipeline as the parent. */
  lemma BareGroupOpens()
    ensures WellNested(BareGroupBuilders()[1])
    ensures Step(BareGroupBuilders()[1], BareGroupTokens()[1]) == Ok(BareGroupBuilders()[2])
  {
    var b, c := BareGroupBuilders()[1], BareGroupBuilders()[2];
    assert b.parents == [];
    assert [] + [Op(NoneOp, Nested(AsGet(Fresh)))] == BareGroupOpen().ops;
    assert [] + [BareGroupOpen()] == c.parents;
    assert StartGroup(b) == c;
  }

  /** `y` inside the group is ORed into the child. */
  lemma BareGroupAddsY()
    ensures WellNested(BareGroupBuilders()[3])
    ensures Step(BareGroupBuilders()[3], BareGroupTokens()[3]) == Ok(BareGroupBuilders()[4])
  {
    var b, c := BareGroupBuilders()[3], BareGroupBuilders()[4];
    assert b.current.ops + [Op(OrIn, Named("y"))] == c.current.ops;
    assert AddSegment(b.current, "y") == Ok(c.current);
  }

  /** The closing parenthesis nests the child into the parked parent. */
  lemma BareGroupCloses()
    ensures WellNested(BareGroupBuilders()[4])
    ensures Step(BareGroupBuilders()[4], BareGroupTokens()[4]) == Ok(BareGroupBuilders()[5])
  {
    var b, c := BareGroupBuilders()[4], BareGroupBuilders()[5];
    assert b.parents == [BareGroupOpen()];
    assert BareGroupOpen().ops[..0] + [Op(NoneOp, Nested(c.current.ops[0].segment.child))] == BareGroupRoot().ops;
    assert CompleteGroup(b) == c;
  }

  lemma BareGroupFails()
    ensures Parse(BareGroupTokens()) == Ok(Builder(BareGroupRoot(), []))
    ensures Exec(BareGroupRoot(), Store) == Err(UnknownOperation(NoneOp))
  {
    BareGroupParses();
    BareGroupRuns();
  }

  lemma BareGroupParses()
    ensures Parse(BareGroupTokens()) == Ok(Builder(BareGroupRoot(), []))
  {
    var bs := BareGroupBuilders();
    forall i | 0 <= i < |BareGroupTokens()|
      ensures WellNested(bs[i]) && Step(bs[i], BareGroupTokens()[i]) == Ok(bs[i + 1])
    {
      BareGroupStep(i);
    }
    assert WellNested(bs[5]);
    ParseTrace(bs, BareGroupTokens());
  }

  lemma BareGroupRuns()
    ensures Exec(BareGroupRoot(), Store) == Err(UnknownOperation(NoneOp))
  {
    var child := InGet([Op(OrIn, Named("y"))], NoneOp);
    assert Evaluate(child, Store).Ok?;
    assert SegmentBuffer(BareGroupRoot(), 0, Store) == Ok(Evaluate(child, Store).value);
  }

  /** A nested COUNT is refused: "get where not in (count where in 'y')". */
  lemma NestedCountFails()
    ensures var child := Pipeline(CountMode, [Op(OrIn, Named("y"))], NoneOp);
            Exec(InGet([Op(NotIn, Nested(child))], NoneOp), Store) == Err(NestedNotGet)
  {
    var child := Pipeline(CountMode, [Op(OrIn, Named("y"))], NoneOp);
    assert Evaluate(child, Store).Ok?;
    PipelineProperties.NestedCountRefused(InGet([Op(NotIn, Nested(child))], NoneOp), New(None, false), Store);
  }

  /** The token list GET, IN 'x', AND, `negate`, `(`, IN 'y' never closes the group, so what is
      returned and run is the child, which lists y alone. */
  function UnclosedTokens(): seq<Token> {
    [Kw(Get), Kw(Include), Id("x"), Kw(And), Kw(Negate), Kw(OParens), Kw(Include), Id("y")]
  }

  lemma UnclosedParses()
    ensures Parse(UnclosedTokens()) == Ok(AndNotBuilders()[8])
  {
    var bs := AndNotBuilders()[..9];
    var ts := UnclosedTokens();
    forall i | 0 <= i < |ts|
      ensures WellNested(bs[i]) && Step(bs[i], ts[i]) == Ok(bs[i + 1])
    {
      assert ts[i] == AndNotTokens()[i];
      AndNotStep(i);
    }
    AndNotStep(8);
    ParseTrace(bs, ts);
  }

  lemma YAloneResult(x: int)
    ensures var r := Exec(InGet([Op(OrIn, Named("y"))], NoneOp), Store);
            r.Ok? && r.value.BufferValue? && (x in Positions(r.value.buffer.hunks, None, None) <==> x == 2)
  {
    var child := InGet([Op(OrIn, Named("y"))], NoneOp);
    forall j | true
      ensures Evaluate(child, Store).Ok?
      ensures Read(Evaluate(child, Store).value.hunks, j) == if j == 0 then Some(0x20) else None
    {
      StoreBytes("y", j);
    }
    GetByteZero(child, Store, 0x20, x);
    if 0 <= x < 8 {
      BitsOfResults(x);
    }
  }

  lemma UnclosedGroupYieldsChild(x: int)
    ensures Parse(UnclosedTokens()).Ok?
    ensures Parse(UnclosedTokens()).value.current == InGet([Op(OrIn, Named("y"))], NoneOp)
    ensures var r := Exec(Parse(UnclosedTokens()).value.current, Store);
            r.Ok? && r.value.BufferValue? && (x in Positions(r.value.buffer.hunks, None, None) <==> x == 2)
  {
    UnclosedParses();
    UnclosedBuilder();
    YAloneResult(x);
  }

  /** After the unclosed group's tokens the current pipeline is the child alone. */
  lemma UnclosedBuilder()
    ensures AndNotBuilders()[8].current == InGet([Op(OrIn, Named("y"))], NoneOp)
  {
  }

  // ---------------------------------------------------------------- COUNT

  function CountX(): Pipeline {
    Pipeline(CountMode, [Op(OrIn, Named("x"))], NoneOp)
  }

  lemma CountXBytes(j: int)
    ensures Evaluate(CountX(), Store).Ok?
    ensures Read(Evaluate(CountX(), Store).value.hunks, j) == if j == 0 then Some(0x7C) else None
  {
    var p := CountX();
    assert SegmentBuffer(p, 0, Store) == Ok(Store("x"));
    assert Evaluate(p, Store) == Apply(OrIn, New(None, false), Store("x"));
    StoreBytes("x", j);
  }

  /** The count of a result is the size of the set of its positions. */
  lemma CardinalityOfPositions(b: SparseBuffer, bits: set<int>)
    requires b.minimum.None? && b.maximum.None?
    requires forall x :: x in Positions(b.hunks, None, None) <==> x in bits
    ensures Cardinality(b) == |bits|
  {
    PipelineProperties.CountIsDistinctPositions(b);
    SetOfElements(Positions(b.hunks, None, None), bits);
  }

  lemma SetOfElements(s: seq<int>, elements: set<int>)
    requires forall x :: x in s <==> x in elements
    ensures (set x | x in s) == elements
  {
    var listed := set x | x in s;
    forall x | x in elements
      ensures x in listed
    {
      assert x in s;
    }
    forall x | x in listed
      ensures x in elements
    {
      assert x in s;
    }
  }

  lemma CountXCardinality()
    ensures Evaluate(CountX(), Store).Ok?
    ensures Cardinality(Evaluate(CountX(), Store).value) == 5
  {
    forall j | true
      ensures Evaluate(CountX(), Store).Ok?
      ensures Read(Evaluate(CountX(), Store).value.hunks, j) == if j == 0 then Some(0x7C) else None
    {
      CountXBytes(j);
    }
    FiveOfByte(Evaluate(CountX(), Store).value);
  }

  /** A buffer holding just 0x7C at address 0 has five on-bits. */
  lemma FiveOfByte(b: SparseBuffer)
    requires b.minimum.None? && b.maximum.None?
    requires forall j :: Read(b.hunks, j) == if j == 0 then Some(0x7C) else None
    ensures Cardinality(b) == 5
  {
    var bits: set<int> := {1, 2, 3, 4} + {5};
    forall x | true
      ensures x in Positions(b.hunks, None, None) <==> x in bits
    {
      PositionsOfByteZero(b, 0x7C, x);
      if 0 <= x < 8 {
        BitsOfResults(x);
      }
    }
    CardinalityOfPositions(b, bits);
    FiveBits();
  }

  lemma FiveBits()
    ensures |{1, 2, 3, 4} + {5}| == 5
  {
  }

  /** "count where in 'x'" with x = {1..5}: the count is 5, while the code as written resolves to
      `undefined`, which the caller then takes for a buffer. */
  lemma CountAsWrittenIsUndefined()
    ensures ExecAsWritten(CountX(), Store) == Ok(Undefined)
    ensures Exec(CountX(), Store) == Ok(NumberValue(5))
  {
    CountXCardinality();
  }
}

=== FILE: pipeline_properties.dfy ===
/** What evaluating a pipeline means for bits: OR chains are unions, AND and NOT clear bits only
    where the accumulated result holds a byte, COUNT is the size of the GET result. */
module PipelineProperties {
  import opened Wrappers
  import ByteOps
  import opened SparseBuffers
  import opened BitPositions
  import opened Pipelines
  import SparseBufferProperties

  /** The fold reads only the operations, not the mode. */
  lemma {:induction false} GetFromOpsOnly(p: Pipeline, q: Pipeline, i: nat, acc: SparseBuffer, store: string -> SparseBuffer)
    requires p.ops == q.ops && i <= |p.ops|
    ensures GetFrom(p, i, acc, store) == GetFrom(q, i, acc, store)
    decreases |p.ops| - i
  {
    if i < |p.ops| {
      assert SegmentBuffer(p, i, store) == SegmentBuffer(q, i, store);
      match SegmentBuffer(p, i, store)
      case Err(e) =>
      case Ok(seg) =>
        match Apply(p.ops[i].op, acc, seg)
        case Err(e) =>
        case Ok(next) => GetFromOpsOnly(p, q, i + 1, next, store);
    }
  }

  /** COUNT fails exactly when GET does, with the same error, and otherwise gives the number of
      on-bits of the GET result. */
  lemma CountIsCardinalityOfGet(p: Pipeline, store: string -> SparseBuffer)
    ensures var g := Exec(AsGet(p), store);
            var c := Exec(AsCount(p), store);
            (g.Err? <==> c.Err?) &&
            (g.Err? ==> c.error == g.error) &&
            (g.Ok? ==> g.value.BufferValue? && c == Ok(NumberValue(|Positions(g.value.buffer.hunks, None, None)|)))
  {
    GetFromOpsOnly(AsGet(p), AsCount(p), 0, New(None, false), store);
  }

  /** Each position the COUNT counts is an on-bit of the GET result, and each on-bit is counted. */
  lemma CountedPositions(b: SparseBuffer, x: int)
    requires b.minimum.None? && b.maximum.None?
    ensures x in Positions(b.hunks, None, None) <==>
              Read(b.hunks, x / 8).Some? && ByteOps.BitOn(Read(b.hunks, x / 8).value, x % 8)
  {
    PositionsMembership(b.hunks, if |b.hunks| > 0 then b.hunks[0].first else 0, None, None, x);
  }

  /** A bit is on at `x` in the buffer. */
  predicate On(b: SparseBuffer, x: int) {
    Read(b.hunks, x / 8).Some? && ByteOps.BitOn(Read(b.hunks, x / 8).value, x % 8)
  }

  /** Operations that only OR named segments in. */
  predicate OrChain(p: Pipeline, i: nat) {
    forall k :: i <= k < |p.ops| ==>
      (p.ops[k].op == OrIn || p.ops[k].op == OrOp) && p.ops[k].segment.Named? && p.ops[k].segment.name != ""
  }

  /** A chain of ORs from operation `i` on never fails, and its result has a bit on exactly where
      the accumulator or one of the named segments has. */
  lemma {:induction false} OrChainIsUnion(p: Pipeline, i: nat, acc: SparseBuffer, store: string -> SparseBuffer, x: int)
    requires i <= |p.ops| && OrChain(p, i)
    ensures GetFrom(p, i, acc, store).Ok?
    ensures On(GetFrom(p, i, acc, store).value, x) <==>
              On(acc, x) || exists k :: i <= k < |p.ops| && On(store(p.ops[k].segment.name), x)
    decreases |p.ops| - i
  {
    if i < |p.ops| {
      var seg := store(p.ops[i].segment.name);
      var next := Apply(p.ops[i].op, acc, seg).value;
      assert next == Or(acc, BufferSource(seg), None);
      OrChainIsUnion(p, i + 1, next, store, x);
      SparseBufferProperties.OrBufferBits(acc, seg, None, x / 8, x % 8);
      if On(seg, x) {
        assert i <= i < |p.ops| && On(store(p.ops[i].segment.name), x);
      }
      if exists k :: i <= k < |p.ops| && On(store(p.ops[k].segment.name), x) {
        var k :| i <= k < |p.ops| && On(store(p.ops[k].segment.name), x);
        if k > i {
          assert i + 1 <= k < |p.ops| && On(store(p.ops[k].segment.name), x);
        }
      }
    }
  }

  /** So a GET made only of ORs lists the union of its segments' members. */
  lemma OrQueryIsUnion(p: Pipeline, store: string -> SparseBuffer, x: int)
    requires p.mode == GetMode && OrChain(p, 0)
    ensures Exec(p, store).Ok? && Exec(p, store).value.BufferValue?
    ensures x in Positions(Exec(p, store).value.buffer.hunks, None, None) <==>
              exists k :: 0 <= k < |p.ops| && On(store(p.ops[k].segment.name), x)
  {
    OrChainIsUnion(p, 0, New(None, false), store, x);
    CountedPositions(Evaluate(p, store).value, x);
  }

  /** Where the accumulator holds a byte, AND keeps a bit only when the segment has it on too. */
  lemma AndStepBits(acc: SparseBuffer, seg: SparseBuffer, x: int)
    requires Read(acc.hunks, x / 8).Some?
    ensures var r := Apply(AndIn, acc, seg).value;
            On(r, x) <==> On(acc, x) && (Read(seg.hunks, x / 8).None? || On(seg, x))
  {
  }

  /** Where the accumulator holds a byte, NOT keeps a bit only when the segment has it off. */
  lemma NotStepBits(acc: SparseBuffer, seg: SparseBuffer, x: int)
    requires Read(acc.hunks, x / 8).Some?
    ensures var r := Apply(NotIn, acc, seg).value;
            On(r, x) <==> On(acc, x) && !On(seg, x)
  {
    var a := Read(acc.hunks, x / 8).value;
    if Read(seg.hunks, x / 8).Some? {
      ByteOps.AndNotBits(a, Read(seg.hunks, x / 8).value);
    }
  }

  /** Where the accumulator holds nothing, AND and NOT both take the segment's byte as it is, so
      they turn on whatever bits the segment has there. */
  lemma AndNotCopyIntoGaps(op: Operation, acc: SparseBuffer, seg: SparseBuffer, x: int)
    requires op == AndIn || op == NotIn
    requires Read(acc.hunks, x / 8).None?
    ensures On(Apply(op, acc, seg).value, x) <==> On(seg, x)
  {
  }

  /** A group run as COUNT is refused where its operation is reached. */
  lemma NestedCountRefused(p: Pipeline, acc: SparseBuffer, store: string -> SparseBuffer)
    requires |p.ops| > 0 && p.ops[0].segment.Nested? && p.ops[0].segment.child.mode == CountMode
    requires Evaluate(p.ops[0].segment.child, store).Ok?
    ensures GetFrom(p, 0, acc, store) == Err(NestedNotGet)
  {
    assert SegmentBuffer(p, 0, store) == Err(NestedNotGet);
  }

  /** An increasing sequence has as many elements as the set of them. */
  lemma {:induction false} IncreasingCard(s: seq<int>)
    requires Increasing(s)
    ensures |set x | x in s| == |s|
  {
    if |s| > 0 {
      IncreasingCard(s[1..]);
      assert (set x | x in s) == {s[0]} + (set x | x in s[1..]);
      assert s[0] !in (set x | x in s[1..]);
    }
  }

  /** The count lists no position twice: it is the number of distinct on-bits. */
  lemma CountIsDistinctPositions(b: SparseBuffer)
    ensures Cardinality(b) == |set x | x in Positions(b.hunks, b.minimum, b.maximum)|
  {
    PositionsIncreasing(b.hunks, if |b.hunks| > 0 then b.hunks[0].first else 0, b.minimum, b.maximum);
    IncreasingCard(Positions(b.hunks, b.minimum, b.maximum));
  }
}

=== FILE: queries.dfy ===
/** `Segmenta.query` around the bitmap: option sanitising, the decision whether a query is paged,
    the page cut from the on-bits (locally for a new snapshot, or from a cached position list for a
    re-query), the shape of count results, and the retry loop used for writes. */
module Queries {
  import opened Wrappers
  import opened JsText
  import JsArrays
  import opened SparseBuffers
  import opened BitPositions
  import ByteOps

  // ---------------------------------------------------------------- sanitizeOptions

  /** A paging option as a caller passes it: left out, explicitly `null`, or a number. */
  datatype Nullable = Undefined | Null | Value(n: int)

  /** What `query` accepts: a bare query text or an options object. */
  datatype QueryInput =
    | Text(text: string)
    | Options(query: Option<string>, skip: Nullable, take: Nullable, min: Nullable, max: Nullable)

  /** `ISanitizedQueryOptions`: a non-empty query and paging options that are numbers or `undefined`. */
  datatype QueryOptions = QueryOptions(query: string, skip: Option<int>, take: Option<int>, min: Option<int>, max: Option<int>)

  datatype QueryError = NoQueryDefined

  /** `sanitizePagingOptions` on one option: `null` becomes `undefined`. */
  function Sanitize(n: Nullable): Option<int> {
    if n.Value? then Some(n.n) else None
  }

  /** The query text the input carries, if any. */
  function QueryText(input: QueryInput): Option<string> {
    if input.Text? then Some(input.text) else input.query
  }

  /** `sanitizeOptions`: a bare text becomes `{ query: text }`; a missing or empty query is refused. */
  function SanitizeOptions(input: QueryInput): (r: Result<QueryOptions, QueryError>)
    ensures r.Err? <==> QueryText(input).None? || QueryText(input).value == ""
    ensures r.Err? ==> r.error == NoQueryDefined
    ensures r.Ok? ==> r.value.query == QueryText(input).value
  {
    match input
    case Text(text) => if text == "" then Err(NoQueryDefined) else Ok(QueryOptions(text, None, None, None, None))
    case Options(query, skip, take, min, max) =>
      if query.None? || query.value == "" then Err(NoQueryDefined)
      else Ok(QueryOptions(query.value, Sanitize(skip), Sanitize(take), Sanitize(min), Sanitize(max)))
  }

  /** Sanitised options written back as an options object. */
  function AsInput(o: QueryOptions): QueryInput {
    Options(Some(o.query), Lift(o.skip), Lift(o.take), Lift(o.min), Lift(o.max))
  }

  function Lift(x: Option<int>): Nullable {
    if x.Some? then Value(x.value) else Undefined
  }

  /** Sanitising is the identity on options that are already sanitised. */
  lemma SanitizeOptionsRoundTrip(o: QueryOptions)
    requires o.query != ""
    ensures SanitizeOptions(AsInput(o)) == Ok(o)
  {
  }

  /** `null` and a left-out option are indistinguishable once sanitised. */
  lemma NullIsUndefined(query: Option<string>, skip: Nullable, take: Nullable, min: Nullable, max: Nullable)
    ensures SanitizeOptions(Options(query, skip, take, min, max)) ==
              SanitizeOptions(Options(query, Unnull(skip), Unnull(take), Unnull(min), Unnull(max)))
  {
  }

  function Unnull(n: Nullable): Nullable {
    if n.Null? then Undefined else n
  }

  /** A bare text is the same query as an options object holding only that text. */
  lemma TextIsBareOptions(text: string)
    ensures SanitizeOptions(Text(text)) == SanitizeOptions(Options(Some(text), Undefined, Undefined, Undefined, Undefined))
  {
  }

  // ---------------------------------------------------------------- looksLikeDSL and expectsPaging

  /** `looksLikeDSL`: a query with more than one space-separated part is DSL text. */
  function LooksLikeDSL(s: string): (r: bool)
    ensures r <==> ' ' in s
  {
    SplitCountsSpaces(s);
    |Split(s, ' ')| > 1
  }

  lemma SplitCountsSpaces(s: string)
    ensures |Split(s, ' ')| > 1 <==> ' ' in s
  {
    var i := FirstIndexOf(s, ' ');
    if i < |s| {
      assert s == s[..i] + [' '] + s[i + 1..];
      SplitCons(s[..i], ' ', s[i + 1..]);
    } else {
      assert s[..i] == s;
      SplitNoSeparator(s, ' ');
    }
  }

  /** One of the alternatives `\s<word>\s` of the paging pattern matches at `i` (letters compared
      case-insensitively, as under the `i` flag). */
  predicate WordBetweenSpaces(s: string, i: nat, word: string)
    requires forall k :: 0 <= k < |word| ==> 'A' <= word[k] <= 'Z'
  {
    i + |word| + 2 <= |s| && IsWhitespace(s[i]) && StartsWithIgnoringCase(s[i + 1..], word) &&
    IsWhitespace(s[i + 1 + |word|])
  }

  /** `/(\sskip\s|\stake\s|\smin\s|\smax\s)/i` matches at `i`. */
  predicate PagingWordAt(s: string, i: nat) {
    WordBetweenSpaces(s, i, "SKIP") || WordBetweenSpaces(s, i, "TAKE") ||
    WordBetweenSpaces(s, i, "MIN") || WordBetweenSpaces(s, i, "MAX")
  }

  /** The paging pattern matches somewhere in `s`. */
  predicate MentionsPaging(s: string) {
    exists i: nat :: i < |s| && PagingWordAt(s, i)
  }

  /** The search `match` performs: try each start position in turn. */
  function SearchPagingWord(s: string, i: nat): (found: bool)
    requires i <= |s|
    ensures found <==> exists j: nat :: i <= j < |s| && PagingWordAt(s, j)
    decreases |s| - i
  {
    if i == |s| then false
    else if PagingWordAt(s, i) then true
    else
      var rest := SearchPagingWord(s, i + 1);
      assert rest <==> exists j: nat :: i <= j < |s| && PagingWordAt(s, j) by {
        if exists j: nat :: i <= j < |s| && PagingWordAt(s, j) {
          var j: nat :| i <= j < |s| && PagingWordAt(s, j);
          assert j != i;
        }
      }
      rest
  }

  /** `expectsPaging`: any paging option given, or a paging keyword in the query text. */
  function ExpectsPaging(o: QueryOptions): (r: bool)
    ensures r <==> o.skip.Some? || o.take.Some? || o.min.Some? || o.max.Some? || MentionsPaging(o.query)
  {
    o.skip.Some? || o.take.Some? || o.min.Some? || o.max.Some? || SearchPagingWord(o.query, 0)
  }

  // ---------------------------------------------------------------- the page

  /** `values.filter(i => (min === undefined || i >= min) && (max === undefined || i <= max))`. */
  function FilterBounds(s: seq<int>, min: Option<int>, max: Option<int>): (r: seq<int>)
    ensures |r| <= |s|
    ensures forall x :: x in r <==> x in s && InBounds(x, min, max)
    ensures Increasing(s) ==> Increasing(r)
    ensures forall m :: 0 <= m < |r| ==> r[m] in s
    decreases |s|
  {
    if |s| == 0 then []
    else
      var rest := FilterBounds(s[1..], min, max);
      FilterStep(s, min, max, rest);
      if InBounds(s[0], min, max) then [s[0]] + rest else rest
  }

  /** One step of the filter: what holds of the filtered tail holds, after deciding on the head,
      of the whole list. */
  lemma FilterStep(s: seq<int>, min: Option<int>, max: Option<int>, rest: seq<int>)
    requires |s| > 0 && |rest| <= |s| - 1
    requires forall x :: x in rest <==> x in s[1..] && InBounds(x, min, max)
    requires Increasing(s[1..]) ==> Increasing(rest)
    requires forall m :: 0 <= m < |rest| ==> rest[m] in s[1..]
    ensures var r := if InBounds(s[0], min, max) then [s[0]] + rest else rest;
            (forall x :: x in r <==> x in s && InBounds(x, min, max)) &&
            (Increasing(s) ==> Increasing(r)) &&
            (forall m :: 0 <= m < |r| ==> r[m] in s)
  {
    assert s == [s[0]] + s[1..];
    if Increasing(s) {
      assert Increasing(s[1..]) by {
        forall i, j | 0 <= i < j < |s[1..]| ensures s[1..][i] < s[1..][j] {
          assert s[1..][i] == s[i + 1] && s[1..][j] == s[j + 1];
        }
      }
      if InBounds(s[0], min, max) {
        forall m | 0 <= m < |rest| ensures s[0] < rest[m] {
          var k :| 0 <= k < |s[1..]| && s[1..][k] == rest[m];
          assert s[k + 1] == rest[m];
        }
        ConsIncreasing(s[0], rest);
      }
    }
  }

  lemma ConsIncreasing(x: int, s: seq<int>)
    requires Increasing(s) && forall m :: 0 <= m < |s| ==> x < s[m]
    ensures Increasing([x] + s)
  {
    forall i, j | 0 <= i < j < |[x] + s| ensures ([x] + s)[i] < ([x] + s)[j] {
      assert ([x] + s)[j] == s[j - 1];
      if i > 0 { assert ([x] + s)[i] == s[i - 1]; }
    }
  }

  /** Without bounds the filter keeps everything. */
  lemma {:induction false} FilterWithoutBounds(s: seq<int>)
    ensures FilterBounds(s, None, None) == s
    decreases |s|
  {
    if |s| > 0 {
      FilterWithoutBounds(s[1..]);
      assert InBounds(s[0], None, None);
      assert s == [s[0]] + s[1..];
    }
  }

  /** The page `_paginateLocal` returns and the buffer `_dehydrate` then stores. */
  datatype Snapshot = Snapshot(page: PositionsResult, stored: SparseBuffer)

  /** `buffer.skip` / `buffer.take` as `_.get` reads them: only a paging buffer has them. */
  function OwnSkip(b: SparseBuffer): Option<int> {
    if b.paging.WithPaging? then b.paging.skip else None
  }

  function OwnTake(b: SparseBuffer): Option<int> {
    if b.paging.WithPaging? then b.paging.take else None
  }

  /** `_paginateLocal(buffer, options)`: options win over the buffer's own bounds and paging (`_first`);
      a paging buffer is cleared before all its on-bits are listed; the listing is filtered to the
      bounds and then sliced to the page; the total is the unfiltered count. */
  function PaginateLocal(b: SparseBuffer, o: QueryOptions, rand: nat -> nat): Snapshot {
    var min, max := Bound(o.min, b.minimum), Bound(o.max, b.maximum);
    var skip, take := Bound(o.skip, OwnSkip(b)), Bound(o.take, OwnTake(b));
    var all := GetOnBitPositions(Cleared(b), None, None, None, None, rand);
    var start := skip.GetOr(0);
    var values := if min.Some? || max.Some? then FilterBounds(all.values, min, max) else all.values;
    Snapshot(PositionsResult(JsArrays.Slice(values, start, PageEnd(take, start, all.total)), all.total), Cleared(b))
  }

  /** The end of the page: `take + start`, or the total when `take` is missing. */
  function PageEnd(take: Option<int>, start: int, total: nat): int {
    if take.None? then total else take.value + start
  }

  /** `if (buffer instanceof SparseBufferWithPaging) buffer.clearPaging()`. */
  function Cleared(b: SparseBuffer): SparseBuffer {
    if b.paging.WithPaging? then ClearPaging(b) else b
  }

  /** The buffers `_paginateLocal` is handed: an ordered paging buffer (a fetched segment), or an
      ordered plain buffer without bounds (the fresh result of a DSL `get`). */
  predicate Paginable(b: SparseBuffer) {
    b.ordered && (b.paging.WithPaging? || (b.minimum.None? && b.maximum.None?))
  }

  /** The on-bits of such a buffer, once its paging is cleared, are listed in full and in order. */
  lemma ClearedListing(b: SparseBuffer, rand: nat -> nat)
    requires Paginable(b)
    ensures var every := Positions(b.hunks, None, None);
            GetOnBitPositions(Cleared(b), None, None, None, None, rand) == PositionsResult(every, |every|)
  {
    var c := Cleared(b);
    assert c.hunks == b.hunks && c.ordered && c.minimum.None? && c.maximum.None?;
    assert GetOnBitPositions(c, None, None, None, None, rand) == OnBitPositions(c, None, None, None, None, rand);
  }

  /** A bit is on at `x`. */
  predicate On(b: SparseBuffer, x: int) {
    Read(b.hunks, x / 8).Some? && ByteOps.BitOn(Read(b.hunks, x / 8).value, x % 8)
  }

  /** `s[start .. end)` with both ends clamped to `s`, for a non-negative start. */
  predicate IsPage(page: seq<int>, s: seq<int>, start: nat, end: int) {
    var lo := if start <= |s| then start else |s|;
    var hi := if end < lo then lo else if end <= |s| then end else |s|;
    |page| == hi - lo && forall k :: 0 <= k < |page| ==> page[k] == s[lo + k]
  }

  /** `slice` with non-negative ends cuts the clamped page. */
  lemma SliceIsPage(s: seq<int>, start: nat, end: int)
    requires end >= 0
    ensures IsPage(JsArrays.Slice(s, start, end), s, start, end)
  {
  }

  /** The full listing of an ordered buffer ascends and holds exactly its on-bits. */
  lemma ListingFacts(b: SparseBuffer)
    requires b.ordered
    ensures Increasing(Positions(b.hunks, None, None))
    ensures forall x :: x in Positions(b.hunks, None, None) <==> On(b, x)
  {
    var lo := if |b.hunks| > 0 then b.hunks[0].first else 0;
    PositionsIncreasing(b.hunks, lo, None, None);
    forall x ensures x in Positions(b.hunks, None, None) <==> On(b, x) {
      PositionsMembership(b.hunks, lo, None, None, x);
    }
  }

  /** For an ordered paging buffer, or a plain one without bounds, the snapshot page is the ascending
      list of on-bits within the bounds, cut from `skip` for `take` positions (to the end when `take`
      is missing); the total counts every on-bit; and the buffer stored is the one queried, with the
      bounds and paging of a paging buffer forgotten. */
  lemma PaginateLocalPage(b: SparseBuffer, o: QueryOptions, rand: nat -> nat)
    requires Paginable(b)
    requires Bound(o.skip, OwnSkip(b)).GetOr(0) >= 0
    requires Bound(o.take, OwnTake(b)).GetOr(0) >= 0
    ensures var min, max := Bound(o.min, b.minimum), Bound(o.max, b.maximum);
            var skip, take := Bound(o.skip, OwnSkip(b)).GetOr(0), Bound(o.take, OwnTake(b));
            var every := Positions(b.hunks, None, None);
            var r := PaginateLocal(b, o, rand);
            var filtered := FilterBounds(every, min, max);
            r.stored == Cleared(b) &&
            r.page.total == |every| &&
            Increasing(filtered) &&
            (forall x :: x in filtered <==> On(b, x) && InBounds(x, min, max)) &&
            IsPage(r.page.values, filtered, skip, PageEnd(take, skip, |every|))
  {
    var every := Positions(b.hunks, None, None);
    var skip, take := Bound(o.skip, OwnSkip(b)).GetOr(0), Bound(o.take, OwnTake(b));
    PaginateLocalShape(b, o, rand);
    ListingFacts(b);
    SliceIsPage(FilterBounds(every, Bound(o.min, b.minimum), Bound(o.max, b.maximum)), skip, PageEnd(take, skip, |every|));
  }

  /** For such a buffer the snapshot is the bounded listing of all on-bits, sliced. */
  lemma PaginateLocalShape(b: SparseBuffer, o: QueryOptions, rand: nat -> nat)
    requires Paginable(b)
    ensures var every := Positions(b.hunks, None, None);
            var start := Bound(o.skip, OwnSkip(b)).GetOr(0);
            var filtered := FilterBounds(every, Bound(o.min, b.minimum), Bound(o.max, b.maximum));
            PaginateLocal(b, o, rand) ==
              Snapshot(PositionsResult(JsArrays.Slice(filtered, start, PageEnd(Bound(o.take, OwnTake(b)), start, |every|)), |every|),
                       Cleared(b))
  {
    ClearedListing(b, rand);
    FilterWithoutBounds(Positions(b.hunks, None, None));
  }

  // ---------------------------------------------------------------- results

  /** `ISegmentResults`. */
  datatype SegmentResults = SegmentResults(
    ids: seq<int>, count: nat, skipped: int, take: int, total: nat, resultSetId: Option<string>, paged: bool)

  /** `prepareCountResult(total)`. */
  function PrepareCountResult(total: nat): (r: SegmentResults)
    ensures r.ids == [] && r.count == r.total == total && !r.paged
    ensures r.skipped == 0 && r.take == 0 && r.resultSetId.None?
  {
    SegmentResults([], total, 0, 0, total, None, false)
  }

  /** `prepareCachedResult(options, cached)`: the cached listing filtered to the bounds and sliced
      from `skip` (`skip || 0`) for `take` positions, a missing `take` meaning the cached total. */
  function PrepareCachedResult(o: QueryOptions, cached: PositionsResult): SegmentResults {
    var skip := o.skip.GetOr(0);
    var take := if o.take.None? then cached.total else o.take.value;
    var slice := JsArrays.Slice(FilterBounds(cached.values, o.min, o.max), skip, take + skip);
    SegmentResults(slice, |slice|, o.skip.GetOr(0), o.take.GetOr(0), cached.total, Some(o.query), ExpectsPaging(o))
  }

  /** A re-query answered from the cache pages the cached ids within the bounds; with a missing
      `take` and no `skip` it returns them all. */
  lemma CachedResultPage(o: QueryOptions, cached: PositionsResult)
    requires o.skip.GetOr(0) >= 0 && o.take.GetOr(0) >= 0 && |cached.values| <= cached.total
    ensures var r := PrepareCachedResult(o, cached);
            var filtered := FilterBounds(cached.values, o.min, o.max);
            var skip := o.skip.GetOr(0);
            r.count == |r.ids| && r.total == cached.total && r.resultSetId == Some(o.query) &&
            IsPage(r.ids, filtered, skip, skip + if o.take.None? then cached.total else o.take.value) &&
            (o.skip.GetOr(0) == 0 && o.take.None? ==> r.ids == filtered)
  {
    var filtered := FilterBounds(cached.values, o.min, o.max);
    var skip := o.skip.GetOr(0);
    var take := if o.take.None? then cached.total else o.take.value;
    SliceIsPage(filtered, skip, take + skip);
    assert take + skip == skip + take;
  }

  /** The page a snapshot query returns is the page a later re-query with the same options cuts
      from the cached listing of the stored buffer. */
  lemma CachedAgreesWithLocal(b: SparseBuffer, o: QueryOptions, rand: nat -> nat)
    requires b.ordered && b.minimum.None? && b.maximum.None?
    requires b.paging.Plain? || b.paging == WithPaging(None, None)
    requires o.skip.GetOr(0) >= 0
    ensures var s := PaginateLocal(b, o, rand);
            var cached := GetOnBitPositions(s.stored, None, None, None, None, rand);
            PrepareCachedResult(o, cached).ids == s.page.values && cached.total == s.page.total
  {
    var every := Positions(b.hunks, None, None);
    var filtered := FilterBounds(every, o.min, o.max);
    var skip := o.skip.GetOr(0);
    PaginateLocalShape(b, o, rand);
    var c := Cleared(b);
    assert Cleared(c) == c;
    ClearedListing(c, rand);
    if o.take.None? {
      SliceEndsBeyond(filtered, skip, |every|, |every| + skip);
    }
  }

  /** Every end at or past the sequence's length cuts the same slice. */
  lemma SliceEndsBeyond(s: seq<int>, start: int, e1: int, e2: int)
    requires e1 >= |s| && e2 >= |s|
    ensures JsArrays.Slice(s, start, e1) == JsArrays.Slice(s, start, e2)
  {
  }

  /** What a query over a freshly fetched buffer answers, and the buffer it snapshots if any. */
  datatype Answer = Answer(results: SegmentResults, snapshot: Option<SparseBuffer>)

  /** `_prepareNewResultAndCacheIfAppropriate(isReQuery, options, buffer)`; `newId` stands for the
      `uuid()` a snapshot is filed under. */
  function NewResult(isReQuery: bool, o: QueryOptions, b: SparseBuffer, newId: string, rand: nat -> nat): (a: Answer)
    ensures a.snapshot.Some? <==> !isReQuery && ExpectsPaging(o)
    ensures a.results.resultSetId ==
              if a.snapshot.Some? then Some(newId) else if isReQuery then Some(o.query) else None
    ensures a.results.count == |a.results.ids| && a.results.paged == ExpectsPaging(o)
    ensures a.results.skipped == o.skip.GetOr(0) && a.results.take == o.take.GetOr(0)
  {
    var paged := ExpectsPaging(o);
    var snapshot := !isReQuery && paged;
    var id := if snapshot then Some(newId) else if isReQuery then Some(o.query) else None;
    if snapshot then
      var s := PaginateLocal(b, o, rand);
      Answer(SegmentResults(s.page.values, |s.page.values|, o.skip.GetOr(0), o.take.GetOr(0), s.page.total, id, paged), Some(s.stored))
    else
      var p := GetOnBitPositions(b, o.skip, o.take, o.min, o.max, rand);
      Answer(SegmentResults(p.values, |p.values|, o.skip.GetOr(0), o.take.GetOr(0), p.total, id, paged), None)
  }

  /** A query with no paging option and no paging keyword over a freshly fetched segment buffer
      stores nothing and lists every on-bit, in ascending order. */
  lemma UnpagedListsEverything(o: QueryOptions, b: SparseBuffer, newId: string, rand: nat -> nat)
    requires !ExpectsPaging(o)
    requires b.ordered && b.minimum.None? && b.maximum.None?
    requires b.paging.Plain? || b.paging == WithPaging(None, None)
    ensures var a := NewResult(false, o, b, newId, rand);
            a.snapshot.None? && a.results.resultSetId.None? && !a.results.paged &&
            a.results.ids == Positions(b.hunks, None, None) && a.results.total == |a.results.ids|
  {
  }

  /** What the store answers for the query text: a buffer or, for a COUNT query, a number. */
  datatype Fetched = BufferResult(buffer: SparseBuffer) | CountResult(count: nat)

  /** `query(qry)`. `isReQuery` stands for `isUUID(options.query)`, `cached` for the LRU cache entry
      of that id, and `fetch` for what `_rehydrate` (on a re-query) or `getBuffer` (otherwise) yields
      for the query, failures included. */
  function Query<E>(input: QueryInput, isReQuery: bool, cached: Option<PositionsResult>,
                    fetch: Result<Fetched, E>, newId: string, rand: nat -> nat): (r: Result<Answer, Option<E>>)
    ensures r == Err(None) <==> SanitizeOptions(input).Err?
    ensures r.Ok? && isReQuery && cached.Some? ==>
              r.value == Answer(PrepareCachedResult(SanitizeOptions(input).value, cached.value), None)
    ensures r.Ok? && !(isReQuery && cached.Some?) && fetch.Ok? && fetch.value.CountResult? ==>
              r.value == Answer(PrepareCountResult(fetch.value.count), None)
    ensures SanitizeOptions(input).Ok? && !(isReQuery && cached.Some?) && fetch.Ok? && fetch.value.BufferResult? ==>
              r == Ok(NewResult(isReQuery, SanitizeOptions(input).value, fetch.value.buffer, newId, rand))
    ensures SanitizeOptions(input).Ok? && !(isReQuery && cached.Some?) && fetch.Err? ==>
              r == Err(Some(fetch.error))
    ensures SanitizeOptions(input).Ok? && !(isReQuery && cached.Some?) ==> (r.Err? <==> fetch.Err?)
  {
    match SanitizeOptions(input)
    case Err(_) => Err(None)
    case Ok(o) =>
      if isReQuery && cached.Some? then Ok(Answer(PrepareCachedResult(o, cached.value), None))
      else
        match fetch
        case Err(e) => Err(Some(e))
        case Ok(CountResult(n)) => Ok(Answer(PrepareCountResult(n), None))
        case Ok(BufferResult(b)) => Ok(NewResult(isReQuery, o, b, newId, rand))
  }

  // ---------------------------------------------------------------- tryDo

  /** `tryDo(func, maxAttempts)`: `attempt(i)` is the outcome of the `i`-th call. The loop stops at the
      first success and rethrows the failure of the last permitted call; with no attempts permitted
      it calls nothing and succeeds. */
  method TryDo<E>(attempt: nat -> Result<(), E>, maxAttempts: int) returns (r: Result<(), E>, calls: nat)
    ensures calls <= if maxAttempts < 0 then 0 else maxAttempts
    ensures forall i :: 0 <= i < calls - 1 ==> attempt(i).Err?
    ensures r.Ok? ==> calls == 0 || attempt(calls - 1).Ok?
    ensures r.Ok? && calls == 0 ==> maxAttempts <= 0
    ensures r.Err? ==> calls > 0 && calls == maxAttempts && attempt(calls - 1) == r
  {
    var i := 0;
    while i < maxAttempts
      invariant 0 <= i && (maxAttempts > 0 ==> i < maxAttempts) && (maxAttempts <= 0 ==> i == 0)
      invariant forall j :: 0 <= j < i ==> attempt(j).Err?
      decreases maxAttempts - i
    {
      var outcome := attempt(i);
      if outcome.Ok? {
        return Ok(()), i + 1;
      }
      if i == maxAttempts - 1 {
        return outcome, i + 1;
      }
      i := i + 1;
    }
    return Ok(()), i;
  }

  const DefaultMaxAttempts := 5
}

=== FILE: queries_examples.dfy ===
/** The re-query and snapshot scenarios of the query tests, stated over the model. */
module QueriesExamples {
  import opened Wrappers
  import opened JsText
  import opened BitPositions
  import opened Queries

  /** The listing cached for a segment holding 1 to 5. */
  const OneToFive := PositionsResult([1, 2, 3, 4, 5], 5)

  /** Re-querying a result set with `skip: 2, take: 1` returns `[3]`. */
  lemma ReQueryWithSkipAndTake(id: string)
    ensures PrepareCachedResult(QueryOptions(id, Some(2), Some(1), None, None), OneToFive).ids == [3]
  {
    var o := QueryOptions(id, Some(2), Some(1), None, None);
    FilterWithoutBounds(OneToFive.values);
    assert JsArrays.Slice(OneToFive.values, 2, 3) == OneToFive.values[2..3];
  }

  /** Re-querying with `min: 3, max: 3` returns `[3]`. */
  lemma ReQueryWithMinAndMax(id: string)
    ensures PrepareCachedResult(QueryOptions(id, None, None, Some(3), Some(3)), OneToFive).ids == [3]
  {
    var f := FilterBounds(OneToFive.values, Some(3), Some(3));
    assert f == [3];
  }

  /** Re-querying with `min: 2, max: 4, skip: 1, take: 1` returns `[3]`. */
  lemma ReQueryWithBoundsAndPaging(id: string)
    ensures PrepareCachedResult(QueryOptions(id, Some(1), Some(1), Some(2), Some(4)), OneToFive).ids == [3]
  {
    TwoToFour();
    assert JsArrays.Slice([2, 3, 4], 1, 2) == [2, 3, 4][1..2];
  }

  lemma TwoToFour()
    ensures FilterBounds(OneToFive.values, Some(2), Some(4)) == [2, 3, 4]
  {
    OneToFiveLists();
    TwoToFourFrom2();
    FilterCons(1, [2, 3, 4, 5], Some(2), Some(4));
  }

  lemma TwoToFourFrom2()
    ensures FilterBounds([2, 3, 4, 5], Some(2), Some(4)) == [2, 3, 4]
  {
    OneToFiveLists();
    TwoToFourFrom3();
    FilterCons(2, [3, 4, 5], Some(2), Some(4));
  }

  lemma TwoToFourFrom3()
    ensures FilterBounds([3, 4, 5], Some(2), Some(4)) == [3, 4]
  {
    OneToFiveLists();
    TwoToFourFrom4();
    FilterCons(3, [4, 5], Some(2), Some(4));
  }

  lemma TwoToFourFrom4()
    ensures FilterBounds([4, 5], Some(2), Some(4)) == [4]
  {
    OneToFiveLists();
    FilterCons(5, [], Some(2), Some(4));
    FilterCons(4, [5], Some(2), Some(4));
  }

  /** The lists the steps above pass through, each built from its head and tail. */
  lemma OneToFiveLists()
    ensures [1] + [2, 3, 4, 5] == OneToFive.values
    ensures [2] + [3, 4, 5] == [2, 3, 4, 5] && [2] + [3, 4] == [2, 3, 4]
    ensures [3] + [4, 5] == [3, 4, 5] && [3] + [4] == [3, 4]
    ensures [4] + [5] == [4, 5] && [4] + [] == [4] && [5] + [] == [5]
  {
  }

  /** One step of the bounds filter. */
  lemma FilterCons(x: int, s: seq<int>, min: Option<int>, max: Option<int>)
    ensures FilterBounds([x] + s, min, max) ==
              if InBounds(x, min, max) then [x] + FilterBounds(s, min, max) else FilterBounds(s, min, max)
  {
    assert ([x] + s)[0] == x && ([x] + s)[1..] == s;
  }

  /** ` skip ` between any two texts marks a query as paged. */
  lemma SkipKeywordPages(a: string, b: string)
    ensures MentionsPaging(a + " skip " + b)
  {
    var s := a + " skip " + b;
    var i := |a|;
    assert s[i] == ' ' && s[i + 5] == ' ';
    assert s[i + 1..][..4] == "skip";
    assert WordBetweenSpaces(s, i, "SKIP");
    assert PagingWordAt(s, i);
  }

  /** ` Take ` (in any case) between any two texts marks a query as paged. */
  lemma TakeKeywordPages(a: string, b: string)
    ensures MentionsPaging(a + " Take " + b)
  {
    var s := a + " Take " + b;
    var i := |a|;
    assert s[i] == ' ' && s[i + 5] == ' ';
    assert s[i + 1..][..4] == "Take";
    assert WordBetweenSpaces(s, i, "TAKE");
    assert PagingWordAt(s, i);
  }

  /** `get where in "<id>" skip 0 take 1` is paged. */
  lemma SkipAndTakeMakeAQueryPaged(id: string)
    ensures ExpectsPaging(QueryOptions("get where in \"" + id + "\"" + " skip " + "0 take 1", None, None, None, None))
  {
    SkipKeywordPages("get where in \"" + id + "\"", "0 take 1");
  }

  /** Keywords match whatever their case: `GET WHERE IN "<id>" Take 1` is paged. */
  lemma UpperCaseKeywordMakesAQueryPaged(id: string)
    ensures ExpectsPaging(QueryOptions("GET WHERE IN \"" + id + "\" Take 1", None, None, None, None))
  {
    TakeKeywordPages("GET WHERE IN \"" + id + "\"", "1");
    assert "GET WHERE IN \"" + id + "\"" + " Take " + "1" == "GET WHERE IN \"" + id + "\" Take 1";
  }

  /** A keyword needs whitespace on both sides: `skipper` is no paging keyword. */
  lemma KeywordInsideAWordIsNotPaging(s: string)
    requires forall k :: 0 <= k < |s| ==> !IsWhitespace(s[k])
    ensures !ExpectsPaging(QueryOptions(s, None, None, None, None))
  {
  }

  /** Querying a segment id with neither `skip` nor `take` stores no snapshot, answers without a
      result-set id, and lists all of the segment's ids. */
  lemma NoSnapshotWithoutPaging(id: string, b: SparseBuffers.SparseBuffer, newId: string, rand: nat -> nat)
    requires id != "" && forall k :: 0 <= k < |id| ==> !IsWhitespace(id[k])
    requires b.ordered && b.minimum.None? && b.maximum.None? && b.paging == SparseBuffers.WithPaging(None, None)
    ensures var o := SanitizeOptions(Options(Some(id), Undefined, Null, Undefined, Undefined));
            o.Ok? &&
            var a := NewResult(false, o.value, b, newId, rand);
            a.snapshot.None? && a.results.resultSetId.None? && !a.results.paged &&
            a.results.ids == Positions(b.hunks, None, None)
  {
    var o := QueryOptions(id, None, None, None, None);
    KeywordInsideAWordIsNotPaging(id);
    UnpagedListsEverything(o, b, newId, rand);
  }

  /** A query carrying `skip` and `take` over a fresh buffer is snapshotted under the new id. */
  lemma PagedQuerySnapshots(q: string, b: SparseBuffers.SparseBuffer, newId: string, rand: nat -> nat)
    requires q != ""
    ensures var a := NewResult(false, QueryOptions(q, Some(0), Some(1), None, None), b, newId, rand);
            a.snapshot.Some? && a.results.resultSetId == Some(newId) && a.results.paged
  {
  }
}

=== FILE: set_bits.dfy ===
/** The batch write path. `_tryPut` turns add and del operations into one flat argument list for
    the `setbits` Redis script; the script (Lua) walks that list back into `setbit` calls and
    registers every bucket key it meets in the segment's index set. */
module SetBits {
  import opened Wrappers
  import opened JsText
  import Decimal
  import Keys
  import opened Addressing

  /** An `IAddOperation` or `IDelOperation`; an object may also carry both fields or neither. */
  datatype PutOperation = PutOperation(add: Option<int>, del: Option<int>)

  /** One element of `cmds`: a bucket key or a number. */
  datatype Arg = KeyArg(key: string) | NumberArg(n: int)

  datatype PutError = TooManyOperations | AddAndDelCombined

  /** An empty batch only makes sure the segment exists; any other batch is one `setbits` call. */
  datatype PutPlan = EnsureSegmentExists | SetBitsCall(args: seq<Arg>)

  /** `redis.call("setbit", key, offset, value)`. */
  datatype BitWrite = BitWrite(key: string, offset: int, value: int)

  predicate Combines(op: PutOperation) {
    op.add.Some? && op.del.Some?
  }

  predicate AnyCombined(ops: seq<PutOperation>) {
    exists k :: 0 <= k < |ops| && Combines(ops[k])
  }

  /** Every id the batch names is a valid (non-negative) bit position. */
  predicate NonNegativeIds(ops: seq<PutOperation>) {
    forall k :: 0 <= k < |ops| ==> (ops[k].add.Some? ==> ops[k].add.value >= 0) && (ops[k].del.Some? ==> ops[k].del.value >= 0)
  }

  // ---------------------------------------------------------------- encoding (`_tryPut`)

  /** The loop of `_tryPut` from operation 0 of `ops` on, `last` being the bucket named last: each
      add or del emits its offset and value, preceded by its bucket key when the bucket changed;
      an operation with neither field is skipped and one with both fails the whole batch. */
  function EncodeFrom(dataKey: string, size: nat, ops: seq<PutOperation>, last: Option<string>): (r: Result<seq<Arg>, PutError>)
    requires size > 0
    ensures r.Err? <==> AnyCombined(ops)
    ensures r.Err? ==> r.error == AddAndDelCombined
    decreases |ops|
  {
    if |ops| == 0 then Ok([])
    else
      var op := ops[0];
      assert forall k :: 1 <= k < |ops| ==> ops[k] == ops[1..][k - 1];
      if Combines(op) then Err(AddAndDelCombined)
      else if op.add.None? && op.del.None? then EncodeFrom(dataKey, size, ops[1..], last)
      else
        var id := if op.add.Some? then op.add.value else op.del.value;
        var val := if op.add.Some? then 1 else 0;
        var name := BucketName(id, size);
        var head := (if last == Some(name) then [] else [KeyArg(Keys.BucketKey(dataKey, name))]) + [NumberArg(Offset(id, size)), NumberArg(val)];
        match EncodeFrom(dataKey, size, ops[1..], Some(name))
        case Err(e) => Err(e)
        case Ok(rest) => Ok(head + rest)
  }

  /** `_tryPut(segment, operations)` for the data key of the segment. */
  function TryPut(dataKey: string, size: nat, maxOperations: nat, ops: seq<PutOperation>): (r: Result<PutPlan, PutError>)
    requires size > 0 && maxOperations > 0
    ensures |ops| == 0 ==> r == Ok(EnsureSegmentExists)
    ensures |ops| > maxOperations ==> r == Err(TooManyOperations)
    ensures 0 < |ops| <= maxOperations ==> (r.Err? <==> AnyCombined(ops)) && (r.Ok? ==> r.value.SetBitsCall?)
  {
    if |ops| == 0 then Ok(EnsureSegmentExists)
    else if |ops| > maxOperations then Err(TooManyOperations)
    else
      match EncodeFrom(dataKey, size, ops, None)
      case Err(e) => Err(e)
      case Ok(args) => Ok(SetBitsCall(args))
  }

  /** The bit writes a batch stands for, one per add or del in input order. */
  function Writes(dataKey: string, size: nat, ops: seq<PutOperation>): seq<BitWrite>
    requires size > 0
    decreases |ops|
  {
    if |ops| == 0 then []
    else
      var op := ops[0];
      var here :=
        if Combines(op) || (op.add.None? && op.del.None?) then []
        else
          var id := if op.add.Some? then op.add.value else op.del.value;
          [BitWrite(Keys.BucketKey(dataKey, BucketName(id, size)), Offset(id, size), if op.add.Some? then 1 else 0)];
      here + Writes(dataKey, size, ops[1..])
  }

  /** The keys of `ws` that differ from the key written just before them (`prev` before the first). */
  function Runs(prev: Option<string>, ws: seq<BitWrite>): seq<string>
    decreases |ws|
  {
    if |ws| == 0 then []
    else (if prev == Some(ws[0].key) then [] else [ws[0].key]) + Runs(Some(ws[0].key), ws[1..])
  }

  /** The key arguments of a command list, in order. */
  function KeyArgs(args: seq<Arg>): seq<string>
    decreases |args|
  {
    if |args| == 0 then []
    else (if args[0].KeyArg? then [args[0].key] else []) + KeyArgs(args[1..])
  }

  // ---------------------------------------------------------------- the script (`set-bits.ts`)

  /** How the client sends an argument: numbers as their decimal text. */
  function Render(a: Arg): string {
    match a
    case KeyArg(k) => k
    case NumberArg(n) => Decimal.IntToString(n)
  }

  function RenderAll(args: seq<Arg>): (argv: seq<string>)
    ensures |argv| == |args|
    decreases |args|
  {
    if |args| == 0 then [] else [Render(args[0])] + RenderAll(args[1..])
  }

  /** The script's locals: the current `key`, a pending `offset`, the writes made and the keys kept
      for indexing. */
  datatype ScriptState = ScriptState(key: Option<string>, offset: Option<int>, writes: seq<BitWrite>, segmentKeys: seq<string>)

  /** `setbit` with a `nil` key raises, which aborts the script after the writes already made. */
  datatype ScriptError = SetBitWithoutKey(applied: seq<BitWrite>)

  const StartState := ScriptState(None, None, [], [])

  /** One argument: a non-number becomes the key (kept for indexing when it differs from the
      current one); numbers alternate between offset and value, each value completing a write. */
  function Consume(st: ScriptState, val: string): Result<ScriptState, ScriptError> {
    match Decimal.LuaToNumber(val)
    case None =>
      Ok(st.(key := Some(val), segmentKeys := if st.key == Some(val) then st.segmentKeys else st.segmentKeys + [val]))
    case Some(number) =>
      if st.offset.None? then Ok(st.(offset := Some(number)))
      else if st.key.None? then Err(SetBitWithoutKey(st.writes))
      else Ok(st.(offset := None, writes := st.writes + [BitWrite(st.key.value, st.offset.value, number)]))
  }

  /** The `for k, val in ipairs(ARGV)` loop. */
  function Walk(argv: seq<string>, st: ScriptState): Result<ScriptState, ScriptError>
    decreases |argv|
  {
    if |argv| == 0 then Ok(st)
    else
      match Consume(st, argv[0])
      case Err(e) => Err(e)
      case Ok(next) => Walk(argv[1..], next)
  }

  /** A bucket name as the script's pattern `%/[0-9]+[-][0-9]+$` sees it after the slash. */
  predicate IsBucketName(s: string) {
    var i := FirstIndexOf(s, '-');
    0 < i && i + 1 < |s| && Decimal.AllDigits(s[..i]) && Decimal.AllDigits(s[i + 1..])
  }

  /** `val:gsub("%/[0-9]+[-][0-9]+$", "") .. "/index"`. Only the last slash can start a match, since
      the pattern admits no slash after its first character. */
  function IndexKey(key: string): string {
    var i := LastIndexOf(key, '/');
    if i >= 0 && IsBucketName(key[i + 1..]) then key[..i] + "/index" else key + "/index"
  }

  /** `redis.call("sadd", indexKey, val)`. */
  datatype IndexAdd = IndexAdd(indexKey: string, member: string)

  datatype ScriptEffect = ScriptEffect(writes: seq<BitWrite>, indexAdds: seq<IndexAdd>)

  function IndexAdds(keys: seq<string>): (r: seq<IndexAdd>)
    ensures |r| == |keys|
    ensures forall k :: 0 <= k < |keys| ==> r[k] == IndexAdd(IndexKey(keys[k]), keys[k])
    decreases |keys|
  {
    if |keys| == 0 then [] else [IndexAdd(IndexKey(keys[0]), keys[0])] + IndexAdds(keys[1..])
  }

  /** The whole script: the walk, then one `sadd` per key kept. */
  function SetBitsScript(argv: seq<string>): Result<ScriptEffect, ScriptError> {
    match Walk(argv, StartState)
    case Err(e) => Err(e)
    case Ok(st) => Ok(ScriptEffect(st.writes, IndexAdds(st.segmentKeys)))
  }

  // ---------------------------------------------------------------- the round trip

  lemma {:induction false} RenderAllAppend(a: seq<Arg>, b: seq<Arg>)
    ensures RenderAll(a + b) == RenderAll(a) + RenderAll(b)
    decreases |a|
  {
    if |a| > 0 {
      assert (a + b)[0] == a[0] && (a + b)[1..] == a[1..] + b;
      RenderAllAppend(a[1..], b);
    } else {
      assert a + b == b;
    }
  }

  lemma {:induction false} KeyArgsAppend(a: seq<Arg>, b: seq<Arg>)
    ensures KeyArgs(a + b) == KeyArgs(a) + KeyArgs(b)
    decreases |a|
  {
    if |a| > 0 {
      assert (a + b)[0] == a[0] && (a + b)[1..] == a[1..] + b;
      KeyArgsAppend(a[1..], b);
    } else {
      assert a + b == b;
    }
  }

  lemma {:induction false} WalkAppend(a: seq<string>, b: seq<string>, st: ScriptState)
    ensures Walk(a + b, st) ==
              match Walk(a, st)
              case Err(e) => Err(e)
              case Ok(mid) => Walk(b, mid)
    decreases |a|
  {
    if |a| > 0 {
      assert (a + b)[0] == a[0] && (a + b)[1..] == a[1..] + b;
      match Consume(st, a[0])
      case Err(e) =>
      case Ok(next) => WalkAppend(a[1..], b, next);
    } else {
      assert a + b == b;
    }
  }

  lemma {:induction false} NoKeyArgs(args: seq<Arg>)
    requires forall k :: 0 <= k < |args| ==> args[k].NumberArg?
    ensures KeyArgs(args) == []
    decreases |args|
  {
    if |args| > 0 {
      NoKeyArgs(args[1..]);
    }
  }

  /** A bucket key is never read as a number, since it contains a slash. */
  lemma BucketKeyIsNotANumber(dataKey: string, name: string)
    ensures Decimal.LuaToNumber(Keys.BucketKey(dataKey, name)) == None
  {
    var k := Keys.BucketKey(dataKey, name);
    assert !IsDigit(k[|dataKey|]);
  }

  /** Within one segment, different bucket names give different bucket keys. */
  lemma BucketKeyInjective(dataKey: string, a: string, b: string)
    requires Keys.BucketKey(dataKey, a) == Keys.BucketKey(dataKey, b)
    ensures a == b
  {
    assert a == Keys.BucketKey(dataKey, a)[|dataKey| + 1..];
  }

  /** What the script does with the arguments of one operation. */
  lemma HeadWalk(dataKey: string, size: nat, id: nat, val: nat, last: Option<string>, st: ScriptState)
    requires size > 0 && val <= 1
    requires st.offset.None?
    requires st.key == if last.Some? then Some(Keys.BucketKey(dataKey, last.value)) else None
    ensures var name := BucketName(id, size);
            var key := Keys.BucketKey(dataKey, name);
            var head := (if last == Some(name) then [] else [KeyArg(key)]) + [NumberArg(Offset(id, size)), NumberArg(val)];
            Walk(RenderAll(head), st) ==
              Ok(ScriptState(Some(key), None, st.writes + [BitWrite(key, Offset(id, size), val)],
                             st.segmentKeys + (if st.key == Some(key) then [] else [key]))) &&
            KeyArgs(head) == if st.key == Some(key) then [] else [key]
  {
    var name := BucketName(id, size);
    var key := Keys.BucketKey(dataKey, name);
    var off := Offset(id, size);
    BucketPlacement(id, size);
    var nums := [NumberArg(off), NumberArg(val)];
    Decimal.LuaToNumberOfNatToString(off);
    Decimal.LuaToNumberOfNatToString(val);
    var st1 := st.(key := Some(key), segmentKeys := if st.key == Some(key) then st.segmentKeys else st.segmentKeys + [key]);
    var st2 := st1.(offset := Some(off));
    var a, b := Decimal.NatToString(off), Decimal.NatToString(val);
    assert Render(nums[0]) == a && Render(nums[1]) == b;
    assert RenderAll(nums) == [a, b];
    var st3 := st2.(offset := None, writes := st.writes + [BitWrite(key, off, val)]);
    assert Consume(st1, a) == Ok(st2);
    assert Consume(st2, b) == Ok(st3);
    assert [a, b][1..] == [b] && [b][1..] == [];
    assert Walk([b], st2) == Ok(st3);
    assert Walk(RenderAll(nums), st1) == Ok(st3);
    NoKeyArgs(nums);
    var head := (if last == Some(name) then [] else [KeyArg(key)]) + nums;
    assert st3 == ScriptState(Some(key), None, st.writes + [BitWrite(key, off, val)],
                              st.segmentKeys + (if st.key == Some(key) then [] else [key]));
    if last == Some(name) {
      assert st.key == Some(key);
      assert st1 == st;
      assert head == nums;
    } else {
      BucketKeyIsNotANumber(dataKey, name);
      assert Consume(st, key) == Ok(st1);
      assert head == [KeyArg(key)] + nums;
      var argv := RenderAll(head);
      assert argv == [key] + RenderAll(nums);
      assert argv[0] == key && argv[1..] == RenderAll(nums);
      assert Walk(argv, st) == Walk(RenderAll(nums), st1);
      assert head[0] == KeyArg(key) && head[1..] == nums;
    }
  }

  /** Decoding what the encoder emitted from some point on reproduces the writes of the remaining
      operations, and the script keeps for indexing exactly the keys the encoder emitted. */
  lemma {:induction false} EncodeFromWalk(dataKey: string, size: nat, ops: seq<PutOperation>, last: Option<string>, st: ScriptState)
    requires size > 0 && NonNegativeIds(ops)
    requires EncodeFrom(dataKey, size, ops, last).Ok?
    requires st.offset.None?
    requires st.key == if last.Some? then Some(Keys.BucketKey(dataKey, last.value)) else None
    ensures var args := EncodeFrom(dataKey, size, ops, last).value;
            var r := Walk(RenderAll(args), st);
            r.Ok? && r.value.offset.None? &&
            r.value.writes == st.writes + Writes(dataKey, size, ops) &&
            r.value.segmentKeys == st.segmentKeys + Runs(st.key, Writes(dataKey, size, ops)) &&
            KeyArgs(args) == Runs(st.key, Writes(dataKey, size, ops))
    decreases |ops|, 1
  {
    if |ops| > 0 {
      var op := ops[0];
      NonNegativeTail(ops);
      if op.add.None? && op.del.None? {
        EncodeFromWalk(dataKey, size, ops[1..], last, st);
        assert EncodeFrom(dataKey, size, ops, last) == EncodeFrom(dataKey, size, ops[1..], last);
        assert Writes(dataKey, size, ops) == Writes(dataKey, size, ops[1..]);
      } else {
        EncodeFromWalkStep(dataKey, size, ops, last, st);
      }
    }
  }

  lemma ConcatAssoc<T>(a: seq<T>, b: seq<T>, c: seq<T>)
    ensures (a + b) + c == a + (b + c)
  {
  }

  lemma NonNegativeTail(ops: seq<PutOperation>)
    requires |ops| > 0 && NonNegativeIds(ops)
    ensures NonNegativeIds(ops[1..])
  {
    assert forall k :: 0 <= k < |ops[1..]| ==> ops[1..][k] == ops[k + 1];
  }

  /** The case of `EncodeFromWalk` where the first operation emits a write. */
  lemma {:induction false} EncodeFromWalkStep(dataKey: string, size: nat, ops: seq<PutOperation>, last: Option<string>, st: ScriptState)
    requires size > 0 && NonNegativeIds(ops) && |ops| > 0
    requires ops[0].add.Some? || ops[0].del.Some?
    requires EncodeFrom(dataKey, size, ops, last).Ok?
    requires st.offset.None?
    requires st.key == if last.Some? then Some(Keys.BucketKey(dataKey, last.value)) else None
    ensures var args := EncodeFrom(dataKey, size, ops, last).value;
            var r := Walk(RenderAll(args), st);
            r.Ok? && r.value.offset.None? &&
            r.value.writes == st.writes + Writes(dataKey, size, ops) &&
            r.value.segmentKeys == st.segmentKeys + Runs(st.key, Writes(dataKey, size, ops)) &&
            KeyArgs(args) == Runs(st.key, Writes(dataKey, size, ops))
    decreases |ops|, 0
  {
    var op := ops[0];
    assert !Combines(op);
    NonNegativeTail(ops);
    var id: nat := if op.add.Some? then op.add.value else op.del.value;
    var val := if op.add.Some? then 1 else 0;
    var name := BucketName(id, size);
    var key := Keys.BucketKey(dataKey, name);
    var head := (if last == Some(name) then [] else [KeyArg(key)]) + [NumberArg(Offset(id, size)), NumberArg(val)];
    var tail := EncodeFrom(dataKey, size, ops[1..], Some(name));
    assert tail.Ok?;
    var rest := tail.value;
    assert EncodeFrom(dataKey, size, ops, last).value == head + rest;
    var w := BitWrite(key, Offset(id, size), val);
    var ws := Writes(dataKey, size, ops[1..]);
    assert Writes(dataKey, size, ops) == [w] + ws;
    var kept := if st.key == Some(key) then [] else [key];
    HeadWalk(dataKey, size, id, val, last, st);
    var mid := ScriptState(Some(key), None, st.writes + [w], st.segmentKeys + kept);
    EncodeFromWalk(dataKey, size, ops[1..], Some(name), mid);
    RenderAllAppend(head, rest);
    WalkAppend(RenderAll(head), RenderAll(rest), st);
    KeyArgsAppend(head, rest);
    assert ([w] + ws)[0] == w && ([w] + ws)[1..] == ws;
    assert Runs(st.key, [w] + ws) == kept + Runs(Some(key), ws);
    var r := Walk(RenderAll(head + rest), st);
    assert r == Walk(RenderAll(rest), mid);
    assert r.value.writes == st.writes + ([w] + ws) by {
      assert r.value.writes == mid.writes + ws;
      ConcatAssoc(st.writes, [w], ws);
    }
    assert r.value.segmentKeys == st.segmentKeys + (kept + Runs(Some(key), ws)) by {
      assert r.value.segmentKeys == mid.segmentKeys + Runs(Some(key), ws);
      ConcatAssoc(st.segmentKeys, kept, Runs(Some(key), ws));
    }
  }

  /** The headline round trip: the script run on the command list `_tryPut` builds makes exactly
      the batch's bit writes, in input order, and indexes every bucket key the list names. */
  lemma PutRoundTrip(dataKey: string, size: nat, maxOperations: nat, ops: seq<PutOperation>)
    requires size > 0 && maxOperations > 0 && NonNegativeIds(ops)
    requires TryPut(dataKey, size, maxOperations, ops).Ok? && |ops| > 0
    ensures var args := TryPut(dataKey, size, maxOperations, ops).value.args;
            var keys := Runs(None, Writes(dataKey, size, ops));
            KeyArgs(args) == keys &&
            SetBitsScript(RenderAll(args)) == Ok(ScriptEffect(Writes(dataKey, size, ops), IndexAdds(keys)))
  {
    var args := EncodeFrom(dataKey, size, ops, None).value;
    assert TryPut(dataKey, size, maxOperations, ops) == Ok(SetBitsCall(args));
    EncodeFromWalk(dataKey, size, ops, None, StartState);
    var st := Walk(RenderAll(args), StartState).value;
    assert st.writes == Writes(dataKey, size, ops);
    assert st.segmentKeys == Runs(None, Writes(dataKey, size, ops));
  }

  // ---------------------------------------------------------------- index keys

  /** A bucket of a non-negative id is named `<digits>-<digits>`. */
  lemma BucketNameShape(id: nat, size: nat)
    requires size > 0
    ensures IsBucketName(BucketName(id, size)) && '/' !in BucketName(id, size)
  {
    var lower := BucketLower(id, size);
    BucketPlacement(id, size);
    var a, b := Decimal.NatToString(lower), Decimal.NatToString(lower + size - 1);
    var name := a + "-" + b;
    assert BucketName(id, size) == name;
    assert name[|a|] == '-';
    assert forall k :: 0 <= k < |a| ==> name[k] == a[k];
    assert FirstIndexOf(name, '-') == |a|;
    assert name[..|a|] == a && name[|a| + 1..] == b;
  }

  /** The script files a bucket key of a segment under `<dataKey>/index`, the key `_fetchIndex`
      and `_getSegmentKeys` read. */
  lemma IndexKeyOfBucketKey(dataKey: string, id: nat, size: nat)
    requires size > 0
    ensures IndexKey(Keys.BucketKey(dataKey, BucketName(id, size))) == Keys.IndexKeyFor(dataKey)
  {
    var name := BucketName(id, size);
    BucketNameShape(id, size);
    var key := Keys.BucketKey(dataKey, name);
    assert key == dataKey + ['/'] + name;
    LastIndexOfJoin(dataKey, '/', name);
    assert key[|dataKey| + 1..] == name && key[..|dataKey|] == dataKey;
  }

  /** Every write of a batch goes to a bucket key of the batch's segment. */
  lemma {:induction false} WritesKeys(dataKey: string, size: nat, ops: seq<PutOperation>, k: nat) returns (id: nat)
    requires size > 0 && NonNegativeIds(ops) && k < |Writes(dataKey, size, ops)|
    ensures Writes(dataKey, size, ops)[k].key == Keys.BucketKey(dataKey, BucketName(id, size))
    decreases |ops|
  {
    var op := ops[0];
    assert NonNegativeIds(ops[1..]) by {
      assert forall j :: 0 <= j < |ops[1..]| ==> ops[1..][j] == ops[j + 1];
    }
    var ws, rest := Writes(dataKey, size, ops), Writes(dataKey, size, ops[1..]);
    if Combines(op) || (op.add.None? && op.del.None?) {
      WritesSkip(dataKey, size, ops);
      id := WritesKeys(dataKey, size, ops[1..], k);
    } else {
      WritesEmit(dataKey, size, ops);
      if k == 0 {
        id := if op.add.Some? then op.add.value else op.del.value;
      } else {
        id := WritesKeys(dataKey, size, ops[1..], k - 1);
        assert ws[k] == ws[1..][k - 1];
      }
    }
  }

  /** An operation that writes nothing adds nothing to the writes. */
  lemma WritesSkip(dataKey: string, size: nat, ops: seq<PutOperation>)
    requires size > 0 && |ops| > 0
    requires Combines(ops[0]) || (ops[0].add.None? && ops[0].del.None?)
    ensures Writes(dataKey, size, ops) == Writes(dataKey, size, ops[1..])
  {
    assert Writes(dataKey, size, ops) == [] + Writes(dataKey, size, ops[1..]);
  }

  /** An add or a del writes its bit first, in its bucket's key. */
  lemma WritesEmit(dataKey: string, size: nat, ops: seq<PutOperation>)
    requires size > 0 && |ops| > 0
    requires !Combines(ops[0]) && (ops[0].add.Some? || ops[0].del.Some?)
    ensures var op := ops[0];
            var id := if op.add.Some? then op.add.value else op.del.value;
            Writes(dataKey, size, ops) ==
              [BitWrite(Keys.BucketKey(dataKey, BucketName(id, size)), Offset(id, size), if op.add.Some? then 1 else 0)] +
              Writes(dataKey, size, ops[1..])
    ensures Writes(dataKey, size, ops)[1..] == Writes(dataKey, size, ops[1..])
  {
  }

  lemma {:induction false} RunsFromWrites(prev: Option<string>, ws: seq<BitWrite>, k: nat)
    requires k < |Runs(prev, ws)|
    ensures exists j :: 0 <= j < |ws| && Runs(prev, ws)[k] == ws[j].key
    decreases |ws|
  {
    var here := if prev == Some(ws[0].key) then [] else [ws[0].key];
    if k < |here| {
      assert Runs(prev, ws)[k] == ws[0].key;
    } else {
      RunsFromWrites(Some(ws[0].key), ws[1..], k - |here|);
      var j :| 0 <= j < |ws[1..]| && Runs(Some(ws[0].key), ws[1..])[k - |here|] == ws[1..][j].key;
      assert Runs(prev, ws)[k] == ws[j + 1].key;
    }
  }

  /** So every `sadd` of a batch goes to the segment's own index set. */
  lemma PutIndexesUnderSegment(dataKey: string, size: nat, ops: seq<PutOperation>, k: nat)
    requires size > 0 && NonNegativeIds(ops)
    requires k < |Runs(None, Writes(dataKey, size, ops))|
    ensures IndexAdds(Runs(None, Writes(dataKey, size, ops)))[k].indexKey == Keys.IndexKeyFor(dataKey)
  {
    var ws := Writes(dataKey, size, ops);
    RunsFromWrites(None, ws, k);
    var j :| 0 <= j < |ws| && Runs(None, ws)[k] == ws[j].key;
    var id := WritesKeys(dataKey, size, ops, j);
    IndexKeyOfBucketKey(dataKey, id, size);
  }

  // ---------------------------------------------------------------- the bits the writes leave

  /** Redis bits by key and bit offset; a bit never set reads 0. */
  type BitStore = map<(string, int), int>

  function GetBit(store: BitStore, key: string, offset: int): int {
    if (key, offset) in store then store[(key, offset)] else 0
  }

  /** The writes made one after the other. */
  function ApplyWrites(store: BitStore, ws: seq<BitWrite>): BitStore
    decreases |ws|
  {
    if |ws| == 0 then store else ApplyWrites(store[(ws[0].key, ws[0].offset) := ws[0].value], ws[1..])
  }

  /** The value of the last write to a bit, looking from the end. */
  function LastWrite(ws: seq<BitWrite>, key: string, offset: int): Option<int>
    decreases |ws|
  {
    if |ws| == 0 then None
    else if ws[|ws| - 1].key == key && ws[|ws| - 1].offset == offset then Some(ws[|ws| - 1].value)
    else LastWrite(ws[..|ws| - 1], key, offset)
  }

  lemma {:induction false} LastWriteCons(w: BitWrite, ws: seq<BitWrite>, key: string, offset: int)
    ensures LastWrite([w] + ws, key, offset) ==
              if LastWrite(ws, key, offset).Some? then LastWrite(ws, key, offset)
              else if w.key == key && w.offset == offset then Some(w.value) else None
    decreases |ws|
  {
    if |ws| > 0 {
      assert ([w] + ws)[..|ws|] == [w] + ws[..|ws| - 1];
      LastWriteCons(w, ws[..|ws| - 1], key, offset);
    } else {
      assert [w] + ws == [w];
    }
  }

  /** A later write to the same bit overrides an earlier one; bits nobody writes keep their value. */
  lemma {:induction false} LastWriteWins(store: BitStore, ws: seq<BitWrite>, key: string, offset: int)
    ensures GetBit(ApplyWrites(store, ws), key, offset) ==
              if LastWrite(ws, key, offset).Some? then LastWrite(ws, key, offset).value else GetBit(store, key, offset)
    decreases |ws|
  {
    if |ws| > 0 {
      var w := ws[0];
      LastWriteWins(store[(w.key, w.offset) := w.value], ws[1..], key, offset);
      assert ws == [w] + ws[1..];
      LastWriteCons(w, ws[1..], key, offset);
    }
  }

  /** The value (1 for add, 0 for del) of the last operation of a batch that names `id`. */
  function LastOperationOn(ops: seq<PutOperation>, id: int): Option<int>
    decreases |ops|
  {
    if |ops| == 0 then None
    else
      var later := LastOperationOn(ops[1..], id);
      if later.Some? then later
      else if !Combines(ops[0]) && ops[0].add == Some(id) then Some(1)
      else if ops[0].add.None? && ops[0].del == Some(id) then Some(0)
      else None
  }

  /** Bucket name and offset together pin down a non-negative id. */
  lemma SameAddress(a: nat, b: nat, size: nat)
    requires size > 0
    requires BucketName(a, size) == BucketName(b, size) && Offset(a, size) == Offset(b, size)
    ensures a == b
  {
    SameBucketName(a, b, size);
    BucketPlacement(a, size);
    BucketPlacement(b, size);
  }

  /** The last write a batch makes to the bit of `id` carries the value of the last operation on `id`. */
  lemma {:induction false} LastWriteOfBatch(dataKey: string, size: nat, ops: seq<PutOperation>, id: nat)
    requires size > 0 && NonNegativeIds(ops)
    ensures LastWrite(Writes(dataKey, size, ops), Keys.BucketKey(dataKey, BucketName(id, size)), Offset(id, size)) ==
              LastOperationOn(ops, id)
    decreases |ops|
  {
    if |ops| > 0 {
      var op := ops[0];
      var key, off := Keys.BucketKey(dataKey, BucketName(id, size)), Offset(id, size);
      NonNegativeTail(ops);
      LastWriteOfBatch(dataKey, size, ops[1..], id);
      var rest := Writes(dataKey, size, ops[1..]);
      if Combines(op) || (op.add.None? && op.del.None?) {
        assert Writes(dataKey, size, ops) == rest;
      } else {
        var other: nat := if op.add.Some? then op.add.value else op.del.value;
        var w := BitWrite(Keys.BucketKey(dataKey, BucketName(other, size)), Offset(other, size), if op.add.Some? then 1 else 0);
        assert Writes(dataKey, size, ops) == [w] + rest;
        LastWriteCons(w, rest, key, off);
        if w.key == key && w.offset == off {
          BucketKeyInjective(dataKey, BucketName(other, size), BucketName(id, size));
          SameAddress(other, id, size);
        }
      }
    }
  }

  /** After a batch, the bit of each id holds the value of the last operation naming it, and bits
      of ids the batch does not name keep their value. */
  lemma PutLastOperationWins(store: BitStore, dataKey: string, size: nat, ops: seq<PutOperation>, id: nat)
    requires size > 0 && NonNegativeIds(ops)
    ensures var key, off := Keys.BucketKey(dataKey, BucketName(id, size)), Offset(id, size);
            GetBit(ApplyWrites(store, Writes(dataKey, size, ops)), key, off) ==
              if LastOperationOn(ops, id).Some? then LastOperationOn(ops, id).value else GetBit(store, key, off)
  {
    var key, off := Keys.BucketKey(dataKey, BucketName(id, size)), Offset(id, size);
    LastWriteWins(store, Writes(dataKey, size, ops), key, off);
    LastWriteOfBatch(dataKey, size, ops, id);
  }
}

=== FILE: set_bits_examples.dfy ===
/** The `setbits` script on the argument list of its own test: two keys, each followed by
    offset/value pairs. */
module SetBitsExamples {
  import opened Wrappers
  import opened SetBits
  import Decimal
  import JsText

  /** Offset/value pairs as the script receives them. */
  function PairArgs(pairs: seq<(nat, nat)>): seq<string>
    decreases |pairs|
  {
    if |pairs| == 0 then [] else [Decimal.NatToString(pairs[0].0), Decimal.NatToString(pairs[0].1)] + PairArgs(pairs[1..])
  }

  /** The writes the pairs ask for under one key. */
  function PairWrites(key: string, pairs: seq<(nat, nat)>): seq<BitWrite>
    decreases |pairs|
  {
    if |pairs| == 0 then [] else [BitWrite(key, pairs[0].0, pairs[0].1)] + PairWrites(key, pairs[1..])
  }

  /** With a key current and no offset pending, the pairs become writes to that key, in order. */
  lemma {:induction false} WalkPairs(key: string, pairs: seq<(nat, nat)>, st: ScriptState)
    requires st.key == Some(key) && st.offset.None?
    ensures Walk(PairArgs(pairs), st) == Ok(st.(writes := st.writes + PairWrites(key, pairs)))
    decreases |pairs|
  {
    if |pairs| == 0 {
      assert st.writes + [] == st.writes;
    } else {
      var o, v := pairs[0].0, pairs[0].1;
      var head := [Decimal.NatToString(o), Decimal.NatToString(v)];
      Decimal.LuaToNumberOfNatToString(o);
      Decimal.LuaToNumberOfNatToString(v);
      var mid := st.(writes := st.writes + [BitWrite(key, o, v)]);
      assert Consume(st, head[0]) == Ok(st.(offset := Some(o)));
      assert Consume(st.(offset := Some(o)), head[1]) == Ok(mid);
      assert head[1..] == [head[1]];
      assert Walk([head[1]], st.(offset := Some(o))) == Ok(mid);
      assert Walk(head, st) == Ok(mid);
      WalkAppend(head, PairArgs(pairs[1..]), st);
      WalkPairs(key, pairs[1..], mid);
      assert st.writes + [BitWrite(key, o, v)] + PairWrites(key, pairs[1..]) == st.writes + PairWrites(key, pairs);
    }
  }

  /** A new non-numeric key followed by its pairs. */
  lemma WalkGroup(key: string, pairs: seq<(nat, nat)>, st: ScriptState)
    requires st.offset.None? && st.key != Some(key) && Decimal.LuaToNumber(key).None?
    ensures Walk([key] + PairArgs(pairs), st) ==
              Ok(ScriptState(Some(key), None, st.writes + PairWrites(key, pairs), st.segmentKeys + [key]))
  {
    var mid := st.(key := Some(key), segmentKeys := st.segmentKeys + [key]);
    assert Walk([key], st) == Ok(mid);
    WalkAppend([key], PairArgs(pairs), st);
    WalkPairs(key, pairs, mid);
  }

  const Key1 := "set_bits_test1"
  const Key2 := "set_bits_test2"
  const Pairs1: seq<(nat, nat)> := [(0, 1), (1, 0), (2, 1)]
  const Pairs2: seq<(nat, nat)> := [(0, 0), (1, 1), (2, 0), (3, 1)]

  /** `setbits(key1, 0, 1, 1, 0, 2, 1, key2, 0, 0, 1, 1, 2, 0, 3, 1)`. */
  function TestArgv(): seq<string> {
    [Key1] + PairArgs(Pairs1) + [Key2] + PairArgs(Pairs2)
  }

  lemma TestArgvDigits()
    ensures TestArgv() == [Key1, "0", "1", "1", "0", "2", "1", Key2, "0", "0", "1", "1", "2", "0", "3", "1"]
  {
  }

  lemma KeysAreNotNumbers()
    ensures Decimal.LuaToNumber(Key1).None? && Decimal.LuaToNumber(Key2).None?
  {
    assert !JsText.IsDigit(Key1[0]) && !JsText.IsDigit(Key2[0]);
  }

  /** The script writes each pair under its key, in order, and indexes both keys. */
  lemma TestScriptEffect()
    ensures SetBitsScript(TestArgv()) ==
              Ok(ScriptEffect(PairWrites(Key1, Pairs1) + PairWrites(Key2, Pairs2),
                              [IndexAdd(Key1 + "/index", Key1), IndexAdd(Key2 + "/index", Key2)]))
  {
    TestWalk();
    TestIndexAdds();
  }

  /** The walk over the test's arguments ends with both groups' writes and both keys kept. */
  lemma TestWalk()
    ensures Walk(TestArgv(), StartState) ==
              Ok(ScriptState(Some(Key2), None, PairWrites(Key1, Pairs1) + PairWrites(Key2, Pairs2), [Key1, Key2]))
  {
    KeysAreNotNumbers();
    var a := [Key1] + PairArgs(Pairs1);
    var b := [Key2] + PairArgs(Pairs2);
    var w1, w2 := PairWrites(Key1, Pairs1), PairWrites(Key2, Pairs2);
    WalkGroup(Key1, Pairs1, StartState);
    assert [] + w1 == w1 && [] + [Key1] == [Key1];
    var mid := ScriptState(Some(Key1), None, w1, [Key1]);
    assert Walk(a, StartState) == Ok(mid);
    WalkGroup(Key2, Pairs2, mid);
    assert [Key1] + [Key2] == [Key1, Key2];
    WalkAppend(a, b, StartState);
    assert TestArgv() == a + b;
  }

  /** Neither test key holds a slash, so each is indexed under `<key>/index`. */
  lemma TestIndexAdds()
    ensures IndexAdds([Key1, Key2]) == [IndexAdd(Key1 + "/index", Key1), IndexAdd(Key2 + "/index", Key2)]
  {
    PlainKeyIndex(Key1);
    PlainKeyIndex(Key2);
  }

  /** A key without a slash is indexed under itself. */
  lemma PlainKeyIndex(key: string)
    requires '/' !in key
    ensures IndexKey(key) == key + "/index"
  {
  }

  lemma {:induction false} ApplyWritesAppend(store: BitStore, a: seq<BitWrite>, b: seq<BitWrite>)
    ensures ApplyWrites(store, a + b) == ApplyWrites(ApplyWrites(store, a), b)
    decreases |a|
  {
    if |a| > 0 {
      assert (a + b)[0] == a[0] && (a + b)[1..] == a[1..] + b;
      ApplyWritesAppend(store[(a[0].key, a[0].offset) := a[0].value], a[1..], b);
    } else {
      assert a + b == b;
    }
  }

  /** Applying the writes of one key's pairs, one pair at a time. */
  lemma ApplyPairWrites(store: BitStore, key: string, pairs: seq<(nat, nat)>)
    requires |pairs| > 0
    ensures ApplyWrites(store, PairWrites(key, pairs)) ==
              ApplyWrites(store[(key, pairs[0].0) := pairs[0].1], PairWrites(key, pairs[1..]))
  {
  }

  /** The store the script's writes leave, spelled out update by update. */
  lemma TestStore(store: BitStore)
    ensures ApplyWrites(store, PairWrites(Key1, Pairs1) + PairWrites(Key2, Pairs2)) ==
              store[(Key1, 0) := 1][(Key1, 1) := 0][(Key1, 2) := 1]
                   [(Key2, 0) := 0][(Key2, 1) := 1][(Key2, 2) := 0][(Key2, 3) := 1]
  {
    var w1, w2 := PairWrites(Key1, Pairs1), PairWrites(Key2, Pairs2);
    ApplyWritesAppend(store, w1, w2);
    var s1 := store[(Key1, 0) := 1][(Key1, 1) := 0][(Key1, 2) := 1];
    ApplyPairWrites(store, Key1, Pairs1);
    ApplyPairWrites(store[(Key1, 0) := 1], Key1, Pairs1[1..]);
    ApplyPairWrites(store[(Key1, 0) := 1][(Key1, 1) := 0], Key1, Pairs1[2..]);
    assert ApplyWrites(store, w1) == s1;
    ApplyPairWrites(s1, Key2, Pairs2);
    ApplyPairWrites(s1[(Key2, 0) := 0], Key2, Pairs2[1..]);
    ApplyPairWrites(s1[(Key2, 0) := 0][(Key2, 1) := 1], Key2, Pairs2[2..]);
    ApplyPairWrites(s1[(Key2, 0) := 0][(Key2, 1) := 1][(Key2, 2) := 0], Key2, Pairs2[3..]);
  }

  /** The bits the test reads back: 1, 0, 1 under the first key and 0, 1, 0, 1 under the second. */
  lemma TestBits(store: BitStore)
    ensures SetBitsScript(TestArgv()).Ok?
    ensures var after := ApplyWrites(store, SetBitsScript(TestArgv()).value.writes);
            GetBit(after, Key1, 0) == 1 && GetBit(after, Key1, 1) == 0 && GetBit(after, Key1, 2) == 1 &&
            GetBit(after, Key2, 0) == 0 && GetBit(after, Key2, 1) == 1 && GetBit(after, Key2, 2) == 0 &&
            GetBit(after, Key2, 3) == 1
  {
    TestScriptEffect();
    TestStore(store);
    assert Key1 != Key2 by { assert Key1[13] != Key2[13]; }
    ReadBack(store, Key1, Key2);
  }

  lemma ReadBack(store: BitStore, a: string, b: string)
    requires a != b
    ensures var after := store[(a, 0) := 1][(a, 1) := 0][(a, 2) := 1][(b, 0) := 0][(b, 1) := 1][(b, 2) := 0][(b, 3) := 1];
            GetBit(after, a, 0) == 1 && GetBit(after, a, 1) == 0 && GetBit(after, a, 2) == 1 &&
            GetBit(after, b, 0) == 0 && GetBit(after, b, 1) == 1 && GetBit(after, b, 2) == 0 && GetBit(after, b, 3) == 1
  {
  }
}

=== FILE: shuffle.dfy ===
/** The two in-place shuffles: `shuffleUsingFisherYatesMethod` and the partial shuffle
    `randomizeInPlace` used for unordered bit positions. `Math.random` is replaced by an oracle
    `rand` from step number to a natural number; each step reduces its draw into the range the
    source's `randomNumber(min, max)` produces, so every sequence of in-range choices is covered. */
module Shuffles {

  /** Swap positions `i` and `j` (the three assignments of either loop body). */
  function Swap<T>(s: seq<T>, i: nat, j: nat): (r: seq<T>)
    requires i < |s| && j < |s|
    ensures |r| == |s| && r[i] == s[j] && r[j] == s[i]
    ensures forall k :: 0 <= k < |s| && k != i && k != j ==> r[k] == s[k]
    ensures multiset(r) == multiset(s)
  {
    var r := s[i := s[j]][j := s[i]];
    if i == j then (assert r == s; r)
    else
      SwapMultiset(s, i, j);
      r
  }

  lemma SwapMultiset<T>(s: seq<T>, i: nat, j: nat)
    requires i < j < |s| || j < i < |s|
    ensures multiset(s[i := s[j]][j := s[i]]) == multiset(s)
  {
    if i < j {
      SwapOrdered(s, i, j);
    } else {
      SwapOrdered(s, j, i);
      assert s[i := s[j]][j := s[i]] == s[j := s[i]][i := s[j]];
    }
  }

  lemma SwapOrdered<T>(s: seq<T>, a: nat, b: nat)
    requires a < b < |s|
    ensures multiset(s[a := s[b]][b := s[a]]) == multiset(s)
  {
    var r := s[a := s[b]][b := s[a]];
    var x, y, z := s[..a], s[a + 1..b], s[b + 1..];
    assert s == x + [s[a]] + y + [s[b]] + z;
    assert r == x + [s[b]] + y + [s[a]] + z;
  }

  // ---------------------------------------------------------------- Fisher-Yates

  /** `randomNumber(0, i)`: an index in `0..i`. */
  function PickUpTo(rand: nat -> nat, i: nat): (j: nat)
    ensures j <= i
  {
    rand(i) % (i + 1)
  }

  /** The steps still to run once the loop variable is `i`: `i`, `i - 1`, ..., 1. */
  function FisherYatesFrom<T>(s: seq<T>, i: nat, rand: nat -> nat): (r: seq<T>)
    requires i < |s|
    ensures |r| == |s| && multiset(r) == multiset(s)
    ensures forall k :: i < k < |s| ==> r[k] == s[k]
    decreases i
  {
    if i == 0 then s else FisherYatesFrom(Swap(s, i, PickUpTo(rand, i)), i - 1, rand)
  }

  /** The whole shuffle: the loop runs `i` from `n - 1` down to 1. */
  function FisherYates<T>(s: seq<T>, rand: nat -> nat): (r: seq<T>)
    ensures |r| == |s| && multiset(r) == multiset(s)
    ensures |s| <= 1 ==> r == s
  {
    if |s| == 0 then s else FisherYatesFrom(s, |s| - 1, rand)
  }

  /** Each step `i` touches only positions `i` and `j <= i`, so after it position `i` keeps its value
      for the rest of the run. */
  lemma {:induction false} FisherYatesFreezesPosition<T>(s: seq<T>, i: nat, rand: nat -> nat)
    requires 0 < i < |s|
    ensures FisherYatesFrom(s, i, rand)[i] == s[PickUpTo(rand, i)]
  {
    var s' := Swap(s, i, PickUpTo(rand, i));
    assert FisherYatesFrom(s, i, rand) == FisherYatesFrom(s', i - 1, rand);
  }

  /** `shuffleUsingFisherYatesMethod` on a copy of the array. */
  method ShuffleFisherYates<T>(numbers: seq<T>, rand: nat -> nat) returns (r: seq<T>)
    ensures |r| == |numbers| && multiset(r) == multiset(numbers)
    ensures r == FisherYates(numbers, rand)
  {
    r := numbers;
    if |numbers| == 0 {
      return;
    }
    var i := |numbers| - 1;
    assert FisherYates(numbers, rand) == FisherYatesFrom(numbers, i, rand);
    while i > 0
      invariant 0 <= i < |numbers| && |r| == |numbers|
      invariant multiset(r) == multiset(numbers)
      invariant FisherYatesFrom(r, i, rand) == FisherYates(numbers, rand)
      decreases i
    {
      var next := Swap(r, i, PickUpTo(rand, i));
      assert FisherYatesFrom(r, i, rand) == FisherYatesFrom(next, i - 1, rand);
      r, i := next, i - 1;
    }
  }

  // ---------------------------------------------------------------- randomizeInPlace

  /** `Math.ceil(n * 3/4)`: how many leading positions get swapped. */
  function Top(n: nat): (top: nat)
    ensures top <= n
    ensures 4 * top >= 3 * n && 4 * top < 3 * n + 4
  {
    (3 * n + 3) / 4
  }

  /** `randomNumber(0, n - 1)`: an index in `0..n-1`. */
  function PickBelow(rand: nat -> nat, i: nat, n: nat): (j: nat)
    requires n > 0
    ensures j < n
  {
    rand(i) % n
  }

  /** Steps `i .. top - 1` of `randomizeInPlace`: step `i` swaps position `i` with a random position. */
  function RandomizeFrom<T>(s: seq<T>, i: nat, top: nat, rand: nat -> nat): (r: seq<T>)
    requires top <= |s|
    ensures |r| == |s| && multiset(r) == multiset(s)
    decreases top - i
  {
    if i >= top then s else RandomizeFrom(Swap(s, i, PickBelow(rand, i, |s|)), i + 1, top, rand)
  }

  function RandomizeInPlace<T>(numbers: seq<T>, rand: nat -> nat): (r: seq<T>)
    ensures |r| == |numbers| && multiset(r) == multiset(numbers)
    ensures |numbers| <= 1 ==> r == numbers
  {
    if |numbers| == 1 then
      assert Swap(numbers, 0, PickBelow(rand, 0, 1)) == numbers;
      RandomizeFrom(numbers, 0, Top(1), rand)
    else
      RandomizeFrom(numbers, 0, Top(|numbers|), rand)
  }
}

=== FILE: sparse_buffer.dfy ===
/** The sparse bitmap: a virtual byte space held as a list of hunks kept sorted by
    `first` and pairwise disjoint. Merging a run of bytes into it walks the hunks the
    run intersects, inserts the uncovered gaps verbatim and applies the transform to
    the bytes it meets. Metadata for bit enumeration (`minimum`, `maximum`, `ordered`,
    and the `skip`/`take` of the paging variant) travels with the hunks. */
module SparseBuffers {
  import opened Wrappers
  import ByteOps
  import opened Hunks

  /** Every hunk non-empty and starting at or after `lo` and at or after the end of the one before it. */
  predicate Above(hs: seq<Hunk>, lo: int)
    decreases |hs|
  {
    |hs| == 0 || (|hs[0].bytes| > 0 && lo <= hs[0].first && Above(hs[1..], hs[0].End()))
  }

  predicate Sorted(hs: seq<Hunk>) {
    |hs| == 0 || Above(hs, hs[0].first)
  }

  /** The invariant the hunk list is meant to keep. */
  type HunkList = hs: seq<Hunk> | Sorted(hs) witness []

  lemma AboveLower(hs: seq<Hunk>, lo: int, lo': int)
    requires Above(hs, lo) && (|hs| > 0 ==> lo' <= hs[0].first)
    ensures Above(hs, lo')
  {
  }

  lemma SortedAbove(hs: seq<Hunk>)
    requires Sorted(hs)
    ensures exists lo :: Above(hs, lo)
  {
    if |hs| > 0 {
      assert Above(hs, hs[0].first);
    } else {
      assert Above(hs, 0);
    }
  }

  lemma AboveSorted(hs: seq<Hunk>, lo: int)
    requires Above(hs, lo)
    ensures Sorted(hs)
  {
  }

  /** The recursive invariant is the pairwise one: non-empty hunks, each ending before the next starts. */
  lemma {:induction false} AbovePairwise(hs: seq<Hunk>, lo: int)
    ensures Above(hs, lo) <==>
      (forall k :: 0 <= k < |hs| ==> |hs[k].bytes| > 0 && lo <= hs[k].first) &&
      (forall j, k :: 0 <= j < k < |hs| ==> hs[j].End() <= hs[k].first)
    decreases |hs|
  {
    if |hs| > 0 {
      var t := hs[1..];
      AbovePairwise(t, hs[0].End());
      if Above(hs, lo) {
        forall k | 0 < k < |hs|
          ensures hs[0].End() <= hs[k].first
        {
          assert t[k - 1] == hs[k];
        }
        forall j, k | 0 <= j < k < |hs|
          ensures hs[j].End() <= hs[k].first
        {
          if j > 0 {
            assert t[j - 1] == hs[j] && t[k - 1] == hs[k];
          }
        }
      }
      if (forall k :: 0 <= k < |hs| ==> |hs[k].bytes| > 0 && lo <= hs[k].first) &&
         (forall j, k :: 0 <= j < k < |hs| ==> hs[j].End() <= hs[k].first) {
        forall k | 0 <= k < |t|
          ensures |t[k].bytes| > 0 && hs[0].End() <= t[k].first
        {
          assert t[k] == hs[k + 1];
        }
        forall j, k | 0 <= j < k < |t|
          ensures t[j].End() <= t[k].first
        {
          assert t[j] == hs[j + 1] && t[k] == hs[k + 1];
        }
      }
    }
  }

  // ---------------------------------------------------------------- reading

  /** `_findHunkAt` followed by the buffer read: the first hunk in list order covering `i`. */
  function Read(hs: seq<Hunk>, i: int): Option<bv8>
    decreases |hs|
  {
    if |hs| == 0 then None
    else if hs[0].Covers(i) then hs[0].At(i)
    else Read(hs[1..], i)
  }

  lemma {:induction false} ReadCovering(hs: seq<Hunk>, i: int)
    ensures Read(hs, i).Some? <==> exists k :: 0 <= k < |hs| && hs[k].Covers(i)
    ensures Read(hs, i).Some? ==> exists k :: 0 <= k < |hs| && hs[k].Covers(i) && Read(hs, i) == hs[k].At(i)
    decreases |hs|
  {
    if |hs| > 0 {
      ReadCovering(hs[1..], i);
      if !hs[0].Covers(i) {
        if exists k :: 0 <= k < |hs| && hs[k].Covers(i) {
          var k :| 0 <= k < |hs| && hs[k].Covers(i);
          assert hs[1..][k - 1] == hs[k];
        }
        if Read(hs, i).Some? {
          var k :| 0 <= k < |hs[1..]| && hs[1..][k].Covers(i) && Read(hs[1..], i) == hs[1..][k].At(i);
          assert hs[k + 1] == hs[1..][k];
        }
      }
    }
  }

  /** Nothing below the bound of a sorted list is covered. */
  lemma {:induction false} ReadBelow(hs: seq<Hunk>, lo: int, i: int)
    requires Above(hs, lo) && i < lo
    ensures Read(hs, i) == None
    decreases |hs|
  {
    if |hs| > 0 {
      ReadBelow(hs[1..], hs[0].End(), i);
    }
  }

  lemma {:induction false} ReadConcat(a: seq<Hunk>, b: seq<Hunk>, i: int)
    ensures Read(a + b, i) == if Read(a, i).Some? then Read(a, i) else Read(b, i)
    decreases |a|
  {
    if |a| > 0 {
      assert (a + b)[0] == a[0];
      assert (a + b)[1..] == a[1..] + b;
      ReadConcat(a[1..], b, i);
    } else {
      assert a + b == b;
    }
  }

  /** In a sorted list the covering hunk is unique, so the first one found is the one. */
  lemma ReadUnique(hs: seq<Hunk>, k: nat, i: int)
    requires Sorted(hs) && k < |hs| && hs[k].Covers(i)
    ensures Read(hs, i) == hs[k].At(i)
  {
    ReadCovering(hs, i);
    var j :| 0 <= j < |hs| && hs[j].Covers(i) && Read(hs, i) == hs[j].At(i);
    AbovePairwise(hs, hs[0].first);
  }

  /** `_recalculateLength`: a left fold keeping the larger of the running value and `first + length`. */
  function MaxEnd(hs: seq<Hunk>, acc: int): (r: int)
    ensures r >= acc
    decreases |hs|
  {
    if |hs| == 0 then acc
    else
      var virtualEnd := |hs[0].bytes| + hs[0].first;
      MaxEnd(hs[1..], if acc > virtualEnd then acc else virtualEnd)
  }

  /** The virtual length: the largest hunk end, or 0 when there are no hunks (or all end below 0). */
  function LengthOf(hs: seq<Hunk>): (n: nat)
    ensures forall k :: 0 <= k < |hs| ==> hs[k].End() <= n
    ensures n == 0 || exists k :: 0 <= k < |hs| && hs[k].End() == n
  {
    MaxEndBounds(hs, 0);
    MaxEnd(hs, 0)
  }

  lemma {:induction false} MaxEndBounds(hs: seq<Hunk>, acc: int)
    ensures forall k :: 0 <= k < |hs| ==> hs[k].End() <= MaxEnd(hs, acc)
    ensures MaxEnd(hs, acc) == acc || exists k :: 0 <= k < |hs| && hs[k].End() == MaxEnd(hs, acc)
    decreases |hs|
  {
    if |hs| > 0 {
      var e := hs[0].End();
      var acc' := if acc > e then acc else e;
      MaxEndBounds(hs[1..], acc');
      assert MaxEnd(hs, acc) == MaxEnd(hs[1..], acc');
      forall k | 0 < k < |hs|
        ensures hs[k].End() <= MaxEnd(hs, acc)
      {
        assert hs[1..][k - 1] == hs[k];
      }
      if MaxEnd(hs, acc) != acc && MaxEnd(hs, acc) != e {
        var k :| 0 <= k < |hs[1..]| && hs[1..][k].End() == MaxEnd(hs[1..], acc');
        assert hs[k + 1] == hs[1..][k];
      }
    }
  }

  /** Every covered address lies below the length, and the address just below a non-zero length is covered. */
  lemma LengthBoundsCover(hs: seq<Hunk>, i: int)
    requires forall k :: 0 <= k < |hs| ==> |hs[k].bytes| > 0
    ensures Read(hs, i).Some? ==> i < LengthOf(hs)
    ensures LengthOf(hs) > 0 ==> Read(hs, LengthOf(hs) - 1).Some?
  {
    ReadCovering(hs, i);
    ReadCovering(hs, LengthOf(hs) - 1);
    if LengthOf(hs) > 0 {
      var k :| 0 <= k < |hs| && hs[k].End() == LengthOf(hs);
      assert hs[k].Covers(LengthOf(hs) - 1);
    }
  }

  /** Two lengths that bound the same coverage in the sense of `LengthBoundsCover` are equal. */
  lemma LengthFromCover(a: seq<Hunk>, b: seq<Hunk>)
    requires forall k :: 0 <= k < |a| ==> |a[k].bytes| > 0
    requires forall k :: 0 <= k < |b| ==> |b[k].bytes| > 0
    requires forall i :: Read(a, i).Some? <==> Read(b, i).Some?
    ensures LengthOf(a) == LengthOf(b)
  {
    LengthBoundsCover(a, LengthOf(b) - 1);
    LengthBoundsCover(b, LengthOf(a) - 1);
  }

  // ---------------------------------------------------------------- merging

  /** The byte a merge leaves at an address the incoming run covers. */
  function Merged(t: ByteOps.Transform, existing: Option<bv8>, incoming: bv8): bv8 {
    if existing.Some? then ByteOps.Apply(t, existing.value, incoming) else incoming
  }

  /** `_insertHunkPart(source, from, end)`: the incoming bytes `from .. end - 1` as a hunk of their own. */
  function Gap(inc: Hunk, from: int, end: int): (g: seq<Hunk>)
    requires inc.first <= from && end <= inc.End()
    ensures |g| <= 1
    ensures forall i :: Read(g, i) == if from <= i < end then inc.At(i) else None
  {
    if end > from then
      var part := Hunk(inc.Slice(from, Some(end)), from);
      assert forall i :: Read([part], i) == part.At(i);
      [part]
    else []
  }

  /** `_appendRemainingBytes(source, from)`: the incoming bytes from `from` on, dropped when empty
      (as `_addHunk` drops an empty hunk). */
  function Remainder(inc: Hunk, from: int): (g: seq<Hunk>)
    requires inc.first <= from
    ensures |g| <= 1
    ensures |g| == 1 ==> g[0].first == from && g[0].End() == inc.End() && |g[0].bytes| > 0
    ensures forall i :: Read(g, i) == if from <= i then inc.At(i) else None
  {
    if from < inc.End() then
      var part := Hunk(inc.Slice(from, None), from);
      assert forall i :: Read([part], i) == part.At(i);
      [part]
    else []
  }

  /** The in-place loop over one intersecting hunk: `h.set(p, transform(h.at(p), incoming.at(p)))`
      for `p` from `p` to `stop`. */
  function OverlayFrom(h: Hunk, inc: Hunk, t: ByteOps.Transform, p: int, stop: int): (o: Hunk)
    requires h.first <= p && inc.first <= p && stop <= h.Last() && stop <= inc.Last()
    ensures o.first == h.first && |o.bytes| == |h.bytes|
    ensures forall q :: o.At(q) == if p <= q <= stop then Some(ByteOps.Apply(t, h.At(q).value, inc.At(q).value)) else h.At(q)
    decreases stop + 1 - p
  {
    if p > stop then h
    else
      var o := OverlayFrom(h.Set(p, ByteOps.Apply(t, h.At(p).value, inc.At(p).value)), inc, t, p + 1, stop);
      OverlayStep(h, inc, t, p, stop, o);
      o
  }

  /** Writing address `p` first and then overlaying from `p + 1` overlays from `p`. */
  lemma OverlayStep(h: Hunk, inc: Hunk, t: ByteOps.Transform, p: int, stop: int, o: Hunk)
    requires h.first <= p <= stop && inc.first <= p && stop <= h.Last() && stop <= inc.Last()
    requires var h' := h.Set(p, ByteOps.Apply(t, h.At(p).value, inc.At(p).value));
             forall q :: o.At(q) == if p + 1 <= q <= stop then Some(ByteOps.Apply(t, h'.At(q).value, inc.At(q).value)) else h'.At(q)
    ensures forall q :: o.At(q) == if p <= q <= stop then Some(ByteOps.Apply(t, h.At(q).value, inc.At(q).value)) else h.At(q)
  {
    var h' := h.Set(p, ByteOps.Apply(t, h.At(p).value, inc.At(p).value));
    forall q
      ensures o.At(q) == if p <= q <= stop then Some(ByteOps.Apply(t, h.At(q).value, inc.At(q).value)) else h.At(q)
    {
      if q != p {
        assert h'.At(q) == h.At(q);
      }
    }
  }

  /** The merge loop of `_consumeBuffer` from virtual address `idx` on, over the hunks not yet
      passed. Hunks wholly before the incoming run are kept; the first hunk wholly after the run
      (or the end of the list) receives the remaining incoming bytes in front of it; an
      intersecting hunk is handled by `MergeIntersecting`. `idx` is either the start of the run or
      no later than the first hunk left. */
  function MergeFrom(hs: seq<Hunk>, inc: Hunk, t: ByteOps.Transform, idx: int): seq<Hunk>
    requires Sorted(hs) && |inc.bytes| > 0 && inc.first <= idx
    requires idx == inc.first || Above(hs, idx)
    decreases |hs|, 2
  {
    if |hs| == 0 then Remainder(inc, idx)
    else
      var h := hs[0];
      if !IntersectsOrCovers(inc, h) then
        if h.first > inc.Last() then Remainder(inc, idx) + hs
        else
          AboveSorted(hs[1..], h.End());
          [h] + MergeFrom(hs[1..], inc, t, idx)
      else MergeIntersecting(hs, inc, t, idx)
  }

  /** One intersecting hunk: the gap in front of it (`_insertHunkPart`) is inserted, the bytes it
      shares with the run are transformed in place, and the walk continues after it unless it
      reaches past the run. */
  function MergeIntersecting(hs: seq<Hunk>, inc: Hunk, t: ByteOps.Transform, idx: int): seq<Hunk>
    requires Sorted(hs) && |inc.bytes| > 0 && inc.first <= idx
    requires idx == inc.first || Above(hs, idx)
    requires |hs| > 0 && IntersectsOrCovers(inc, hs[0])
    decreases |hs|, 1
  {
    var h := hs[0];
    GapBefore(inc, h, idx) + [Overlaid(inc, h, t, idx)] + MergeAfter(hs, inc, t)
  }

  function GapBefore(inc: Hunk, h: Hunk, idx: int): (g: seq<Hunk>)
    requires |h.bytes| > 0 && inc.first <= idx && IntersectsOrCovers(inc, h)
    ensures |g| <= 1
    ensures |g| == 1 <==> h.first > idx
    ensures |g| == 1 ==> g[0].first == idx && g[0].End() == h.first && |g[0].bytes| > 0
    ensures forall i :: Read(g, i) == if idx <= i < h.first then inc.At(i) else None
  {
    if h.first > idx then
      var g := Gap(inc, idx, h.first);
      assert Read(g, idx).Some?;
      g
    else []
  }

  function Overlaid(inc: Hunk, h: Hunk, t: ByteOps.Transform, idx: int): (o: Hunk)
    requires |h.bytes| > 0 && inc.first <= idx && idx <= h.Last() && IntersectsOrCovers(inc, h)
    ensures o.first == h.first && |o.bytes| == |h.bytes|
    ensures forall q :: o.At(q) == if idx <= q <= inc.Last() && h.Covers(q)
                                  then Some(ByteOps.Apply(t, h.At(q).value, inc.At(q).value)) else h.At(q)
  {
    var start := if h.first > idx then h.first else idx;
    var stop := if h.Last() < inc.Last() then h.Last() else inc.Last();
    OverlayFrom(h, inc, t, start, stop)
  }

  function MergeAfter(hs: seq<Hunk>, inc: Hunk, t: ByteOps.Transform): seq<Hunk>
    requires Sorted(hs) && |inc.bytes| > 0
    requires |hs| > 0 && IntersectsOrCovers(inc, hs[0])
    decreases |hs|, 0
  {
    var h := hs[0];
    assert Above(hs[1..], h.End());
    AboveSorted(hs[1..], h.End());
    if h.Last() >= inc.Last() then hs[1..] else MergeFrom(hs[1..], inc, t, h.Last() + 1)
  }

  /** What the merge leaves at address `i`, given the incoming run from `idx` on. */
  function Expected(hs: seq<Hunk>, inc: Hunk, t: ByteOps.Transform, idx: int, i: int): Option<bv8>
    requires inc.first <= idx
  {
    if idx <= i <= inc.Last() then Some(Merged(t, Read(hs, i), inc.At(i).value)) else Read(hs, i)
  }

  lemma {:induction false} MergeFromRead(hs: seq<Hunk>, inc: Hunk, t: ByteOps.Transform, idx: int, i: int)
    requires Sorted(hs) && |inc.bytes| > 0 && inc.first <= idx
    requires idx == inc.first || Above(hs, idx)
    ensures Read(MergeFrom(hs, inc, t, idx), i) == Expected(hs, inc, t, idx, i)
    decreases |hs|, 2
  {
    if |hs| > 0 {
      var h := hs[0];
      assert Above(hs[1..], h.End());
      AboveSorted(hs[1..], h.End());
      IntersectsIffOverlap(inc, h);
      if !IntersectsOrCovers(inc, h) {
        if h.first > inc.Last() {
          ReadConcat(Remainder(inc, idx), hs, i);
          if idx <= i <= inc.Last() {
            ReadBelow(hs, h.first, i);
          }
        } else {
          assert h.Last() < inc.first;
          ReadConcat([h], MergeFrom(hs[1..], inc, t, idx), i);
          MergeFromRead(hs[1..], inc, t, idx, i);
        }
      } else {
        MergeIntersectingRead(hs, inc, t, idx, i);
      }
    }
  }

  lemma {:induction false} MergeAfterRead(hs: seq<Hunk>, inc: Hunk, t: ByteOps.Transform, i: int)
    requires Sorted(hs) && |inc.bytes| > 0
    requires |hs| > 0 && IntersectsOrCovers(inc, hs[0])
    ensures Read(MergeAfter(hs, inc, t), i) ==
      if hs[0].Last() < i <= inc.Last() then Some(Merged(t, Read(hs[1..], i), inc.At(i).value)) else Read(hs[1..], i)
    decreases |hs|, 0
  {
    var h := hs[0];
    assert Above(hs[1..], h.End());
    AboveSorted(hs[1..], h.End());
    if h.Last() < inc.Last() {
      assert MergeAfter(hs, inc, t) == MergeFrom(hs[1..], inc, t, h.End());
      MergeFromRead(hs[1..], inc, t, h.End(), i);
    } else {
      assert MergeAfter(hs, inc, t) == hs[1..];
    }
  }

  lemma {:induction false} MergeIntersectingRead(hs: seq<Hunk>, inc: Hunk, t: ByteOps.Transform, idx: int, i: int)
    requires Sorted(hs) && |inc.bytes| > 0 && inc.first <= idx
    requires idx == inc.first || Above(hs, idx)
    requires |hs| > 0 && IntersectsOrCovers(inc, hs[0])
    ensures Read(MergeIntersecting(hs, inc, t, idx), i) == Expected(hs, inc, t, idx, i)
    decreases |hs|, 1
  {
    var h := hs[0];
    var rest := hs[1..];
    assert Above(rest, h.End());
    assert idx <= h.Last();
    var gap := GapBefore(inc, h, idx);
    var o := Overlaid(inc, h, t, idx);
    var after := MergeAfter(hs, inc, t);
    ReadConcat(gap + [o], after, i);
    ReadConcat(gap, [o], i);
    assert Read([o], i) == o.At(i);
    MergeAfterRead(hs, inc, t, i);
    assert Read(hs, i) == if h.Covers(i) then h.At(i) else Read(rest, i);
    if i <= h.Last() {
      ReadBelow(rest, h.End(), i);
    }
  }

  lemma {:induction false} MergeFromSorted(hs: seq<Hunk>, lo: int, inc: Hunk, t: ByteOps.Transform, idx: int)
    requires Above(hs, lo) && |inc.bytes| > 0 && inc.first <= idx
    requires idx == inc.first || Above(hs, idx)
    ensures Sorted(hs)
    ensures Above(MergeFrom(hs, inc, t, idx), if lo < idx then lo else idx)
    decreases |hs|, 2
  {
    AboveSorted(hs, lo);
    var bound := if lo < idx then lo else idx;
    if |hs| > 0 {
      var h := hs[0];
      var rest := hs[1..];
      if !IntersectsOrCovers(inc, h) {
        if h.first > inc.Last() {
          var r := Remainder(inc, idx);
          if |r| == 1 {
            assert (r + hs)[0] == r[0] && (r + hs)[1..] == hs;
            AboveLower(hs, lo, r[0].End());
          } else {
            assert r + hs == hs;
            AboveLower(hs, lo, bound);
          }
        } else {
          assert h.End() <= idx;
          MergeFromSorted(rest, h.End(), inc, t, idx);
          var m := MergeFrom(rest, inc, t, idx);
          assert ([h] + m)[0] == h && ([h] + m)[1..] == m;
        }
      } else {
        MergeIntersectingSorted(hs, lo, inc, t, idx);
      }
    }
  }

  lemma {:induction false} MergeIntersectingSorted(hs: seq<Hunk>, lo: int, inc: Hunk, t: ByteOps.Transform, idx: int)
    requires Above(hs, lo) && |inc.bytes| > 0 && inc.first <= idx
    requires idx == inc.first || Above(hs, idx)
    requires |hs| > 0 && IntersectsOrCovers(inc, hs[0])
    ensures Sorted(hs)
    ensures Above(MergeIntersecting(hs, inc, t, idx), if lo < idx then lo else idx)
    decreases |hs|, 1
  {
    AboveSorted(hs, lo);
    var h := hs[0];
    var bound := if lo < idx then lo else idx;
    assert idx <= h.Last();
    MergeAfterAbove(hs, inc, t);
    PrefixedAbove(GapBefore(inc, h, idx), Overlaid(inc, h, t, idx), MergeAfter(hs, inc, t), bound);
  }

  /** An optional gap hunk, then a hunk, then a list starting after it, is ordered. */
  lemma PrefixedAbove(gap: seq<Hunk>, o: Hunk, after: seq<Hunk>, bound: int)
    requires |gap| <= 1 && |o.bytes| > 0 && Above(after, o.End())
    requires |gap| == 1 ==> |gap[0].bytes| > 0 && bound <= gap[0].first && gap[0].End() <= o.first
    requires |gap| == 0 ==> bound <= o.first
    ensures Above(gap + [o] + after, bound)
  {
    var ot := [o] + after;
    if |gap| == 1 {
      ConsAbove(o, after, gap[0].End());
      ConsAbove(gap[0], ot, bound);
      assert gap == [gap[0]];
    } else {
      ConsAbove(o, after, bound);
      assert gap + ot == ot;
    }
    assert gap + [o] + after == gap + ot;
  }

  /** What follows the overlaid hunk starts at or after that hunk's end. */
  lemma {:induction false} MergeAfterAbove(hs: seq<Hunk>, inc: Hunk, t: ByteOps.Transform)
    requires Sorted(hs) && |inc.bytes| > 0
    requires |hs| > 0 && IntersectsOrCovers(inc, hs[0])
    ensures Above(MergeAfter(hs, inc, t), hs[0].End())
    decreases |hs|, 0
  {
    var h := hs[0];
    assert Above(hs[1..], h.End());
    if h.Last() < inc.Last() {
      MergeFromSorted(hs[1..], h.End(), inc, t, h.Last() + 1);
    }
  }

  lemma ConsAbove(h: Hunk, rest: seq<Hunk>, lo: int)
    requires |h.bytes| > 0 && lo <= h.first && Above(rest, h.End())
    ensures Above([h] + rest, lo)
  {
    assert ([h] + rest)[0] == h && ([h] + rest)[1..] == rest;
  }

  // ---------------------------------------------------------------- whole-list operations

  /** The left-fold length of a list with one more hunk at the end. */
  lemma {:induction false} MaxEndSnoc(a: seq<Hunk>, x: Hunk, acc: int)
    ensures MaxEnd(a + [x], acc) == (var m := MaxEnd(a, acc); if m > x.End() then m else x.End())
    decreases |a|
  {
    if |a| == 0 {
      assert a + [x] == [x];
      assert [x][1..] == [];
    } else {
      var e := a[0].End();
      assert (a + [x])[0] == a[0] && (a + [x])[1..] == a[1..] + [x];
      MaxEndSnoc(a[1..], x, if acc > e then acc else e);
    }
  }

  /** `_consumeBuffer`: merge one run of bytes into a sorted hunk list. An empty run changes nothing
      (the walk has no address to visit and `_addHunk` drops an empty hunk). */
  function ConsumeBuffer(hs: HunkList, inc: Hunk, t: ByteOps.Transform): (r: HunkList)
    ensures forall i :: Read(r, i) == if inc.Covers(i) then Some(Merged(t, Read(hs, i), inc.At(i).value)) else Read(hs, i)
    ensures |inc.bytes| > 0 ==> LengthOf(r) == if LengthOf(hs) > inc.End() then LengthOf(hs) else inc.End()
    ensures |inc.bytes| == 0 ==> r == hs
  {
    if |inc.bytes| == 0 then hs
    else
      var lo := if |hs| > 0 then hs[0].first else inc.first;
      assert Above(hs, lo);
      MergeFromSorted(hs, lo, inc, t, inc.first);
      var r := MergeFrom(hs, inc, t, inc.first);
      AboveSorted(r, if lo < inc.first then lo else inc.first);
      ConsumeBufferFacts(hs, inc, t, r);
      r
  }

  lemma ConsumeBufferFacts(hs: HunkList, inc: Hunk, t: ByteOps.Transform, r: seq<Hunk>)
    requires |inc.bytes| > 0 && Sorted(r) && r == MergeFrom(hs, inc, t, inc.first)
    ensures forall i :: Read(r, i) == if inc.Covers(i) then Some(Merged(t, Read(hs, i), inc.At(i).value)) else Read(hs, i)
    ensures LengthOf(r) == if LengthOf(hs) > inc.End() then LengthOf(hs) else inc.End()
  {
    forall i
      ensures Read(r, i) == if inc.Covers(i) then Some(Merged(t, Read(hs, i), inc.At(i).value)) else Read(hs, i)
    {
      MergeFromRead(hs, inc, t, inc.first, i);
    }
    var both := hs + [inc];
    forall i
      ensures Read(r, i).Some? <==> Read(both, i).Some?
    {
      ReadConcat(hs, [inc], i);
      assert Read([inc], i) == inc.At(i);
    }
    AbovePairwise(hs, if |hs| > 0 then hs[0].first else 0);
    AbovePairwise(r, if |r| > 0 then r[0].first else 0);
    assert forall k :: 0 <= k < |both| ==> |both[k].bytes| > 0 by {
      forall k | 0 <= k < |both|
        ensures |both[k].bytes| > 0
      {
        if k < |hs| {
          assert both[k] == hs[k];
        }
      }
    }
    LengthFromCover(r, both);
    MaxEndSnoc(hs, inc, 0);
  }

  /** The bytes of a sparse buffer source merged hunk by hunk, in its own order and at its own places. */
  function ConsumeHunks(hs: HunkList, src: seq<Hunk>, t: ByteOps.Transform): HunkList
    decreases |src|
  {
    if |src| == 0 then hs else ConsumeHunks(ConsumeBuffer(hs, src[0], t), src[1..], t)
  }

  /** What a source contributes at an address where it covers `incoming`. */
  function Combine(t: ByteOps.Transform, existing: Option<bv8>, incoming: Option<bv8>): Option<bv8> {
    if incoming.None? then existing else Some(Merged(t, existing, incoming.value))
  }

  /** Merging a sorted list of hunks acts address by address: where the source covers an address the
      existing byte is transformed with it (or the source byte is taken where nothing was), elsewhere
      nothing changes. */
  lemma {:induction false} ConsumeHunksRead(hs: HunkList, src: seq<Hunk>, lo: int, t: ByteOps.Transform, i: int)
    requires Above(src, lo)
    ensures Read(ConsumeHunks(hs, src, t), i) == Combine(t, Read(hs, i), Read(src, i))
    decreases |src|
  {
    if |src| > 0 {
      var h := src[0];
      ConsumeHunksRead(ConsumeBuffer(hs, h, t), src[1..], h.End(), t, i);
      if h.Covers(i) {
        ReadBelow(src[1..], h.End(), i);
      }
    }
  }

  // ---------------------------------------------------------------- the buffer object

  /** `SparseBufferWithPaging` adds its own `skip` and `take` to a plain `SparseBuffer`. */
  datatype Paging = Plain | WithPaging(skip: Option<int>, take: Option<int>)

  datatype SparseBuffer = SparseBuffer(
    hunks: HunkList,
    minimum: Option<int>,
    maximum: Option<int>,
    ordered: bool,
    paging: Paging)

  /** What `or`, `and`, `not` and `append` accept. */
  datatype Source = Bytes(bytes: seq<bv8>) | HunkSource(hunk: Hunk) | BufferSource(buffer: SparseBuffer)

  /** `new SparseBuffer(bytes)` or, with paging, `new SparseBufferWithPaging(bytes)`. */
  function New(bytes: Option<seq<bv8>>, withPaging: bool): (b: SparseBuffer)
    ensures b.minimum.None? && b.maximum.None? && b.ordered
    ensures b.paging == if withPaging then WithPaging(None, None) else Plain
    ensures bytes.None? ==> b.hunks == []
    ensures forall i :: Read(b.hunks, i) == if bytes.Some? && 0 <= i < |bytes.value| then Some(bytes.value[i]) else None
  {
    var empty := SparseBuffer([], None, None, true, if withPaging then WithPaging(None, None) else Plain);
    if bytes.Some? then Or(empty, Bytes(bytes.value), None) else empty
  }

  function Length(b: SparseBuffer): nat {
    LengthOf(b.hunks)
  }

  /** Everything `Read` and `LengthOf` promise about a sorted list. */
  lemma ReadSorted(hs: HunkList, i: int)
    ensures Read(hs, i).Some? ==> i < LengthOf(hs)
    ensures Read(hs, i).None? <==> forall k :: 0 <= k < |hs| ==> !hs[k].Covers(i)
    ensures forall k :: 0 <= k < |hs| && hs[k].Covers(i) ==> Read(hs, i) == hs[k].At(i)
  {
    AbovePairwise(hs, if |hs| > 0 then hs[0].first else 0);
    LengthBoundsCover(hs, i);
    ReadCovering(hs, i);
    forall k | 0 <= k < |hs| && hs[k].Covers(i)
      ensures Read(hs, i) == hs[k].At(i)
    {
      ReadUnique(hs, k, i);
    }
  }

  /** `at(index)`: the byte of the hunk covering `index`, 0 in a gap below the length, and
      `undefined` (`None`) from the length on. */
  function At(b: SparseBuffer, i: int): (r: Option<bv8>)
    ensures r.None? <==> i >= Length(b)
    ensures forall k :: 0 <= k < |b.hunks| && b.hunks[k].Covers(i) ==> r == b.hunks[k].At(i)
    ensures (forall k :: 0 <= k < |b.hunks| ==> !b.hunks[k].Covers(i)) ==> r == if i < Length(b) then Some(0) else None
    ensures Read(b.hunks, i).Some? ==> r == Read(b.hunks, i)
  {
    ReadSorted(b.hunks, i);
    var found := Read(b.hunks, i);
    if found.None? then (if i < Length(b) then Some(0) else None) else found
  }

  /** `dump()`: every byte from address 0 up to the length. */
  method Dump(b: SparseBuffer) returns (r: seq<bv8>)
    ensures |r| == Length(b)
    ensures forall k :: 0 <= k < |r| ==> At(b, k) == Some(r[k])
  {
    r := [];
    var i := 0;
    while i < Length(b)
      invariant 0 <= i <= Length(b) && |r| == i
      invariant forall k :: 0 <= k < i ==> At(b, k) == Some(r[k])
    {
      r := r + [At(b, i).value];
      i := i + 1;
    }
  }

  /** `_consume`: raw bytes go to `offset`; a hunk or another sparse buffer keeps its own addresses. */
  function Consume(b: SparseBuffer, source: Source, offset: int, t: ByteOps.Transform): (r: SparseBuffer)
    ensures r == b.(hunks := r.hunks)
    ensures source.Bytes? ==>
      forall i :: Read(r.hunks, i) ==
        if offset <= i < offset + |source.bytes| then Some(Merged(t, Read(b.hunks, i), source.bytes[i - offset])) else Read(b.hunks, i)
    ensures source.Bytes? && |source.bytes| > 0 ==>
      Length(r) == if Length(b) > offset + |source.bytes| then Length(b) else offset + |source.bytes|
    ensures source.Bytes? && |source.bytes| == 0 ==> r == b
    ensures source.HunkSource? ==>
      forall i :: Read(r.hunks, i) ==
        if source.hunk.Covers(i) then Some(Merged(t, Read(b.hunks, i), source.hunk.At(i).value)) else Read(b.hunks, i)
    ensures source.BufferSource? ==>
      forall i :: Read(r.hunks, i) == Combine(t, Read(b.hunks, i), Read(source.buffer.hunks, i))
  {
    match source
    case Bytes(bytes) =>
      var inc := Hunk(bytes, offset);
      assert forall i :: offset <= i < offset + |bytes| ==> inc.At(i).value == bytes[i - offset];
      b.(hunks := ConsumeBuffer(b.hunks, inc, t))
    case HunkSource(h) => b.(hunks := ConsumeBuffer(b.hunks, Hunk(h.bytes, h.first), t))
    case BufferSource(other) =>
      var lo := if |other.hunks| > 0 then other.hunks[0].first else 0;
      assert Above(other.hunks, lo);
      forall i | true
        ensures Read(ConsumeHunks(b.hunks, other.hunks, t), i) == Combine(t, Read(b.hunks, i), Read(other.hunks, i))
      {
        ConsumeHunksRead(b.hunks, other.hunks, lo, t, i);
      }
      b.(hunks := ConsumeHunks(b.hunks, other.hunks, t))
  }

  /** `or(source, offset)`: a missing offset is 0. */
  function Or(b: SparseBuffer, source: Source, offset: Option<int>): SparseBuffer {
    Consume(b, source, offset.GetOr(0), ByteOps.Or)
  }

  function And(b: SparseBuffer, source: Source, offset: Option<int>): SparseBuffer {
    Consume(b, source, offset.GetOr(0), ByteOps.And)
  }

  function Not(b: SparseBuffer, source: Source, offset: Option<int>): SparseBuffer {
    Consume(b, source, offset.GetOr(0), ByteOps.Not)
  }

  /** `append(source)`: OR at the current length. */
  function Append(b: SparseBuffer, source: Source): SparseBuffer {
    Consume(b, source, Length(b), ByteOps.Or)
  }
}

=== FILE: sparse_buffer_properties.dfy ===
/** What the sparse bitmap operations mean for bytes and bit positions: appending, OR as a union of
    on-bits, the quirk that AND and NOT copy incoming bytes verbatim where nothing was stored, and the
    worked cases the repository's own tests describe. */
module SparseBufferProperties {
  import opened Wrappers
  import ByteOps
  import opened Hunks
  import opened SparseBuffers
  import opened BitPositions

  /** `append(bytes)` places the bytes right after the current length and leaves every other byte
      as it was. */
  lemma AppendBytesAt(b: SparseBuffer, x: seq<bv8>, i: int)
    requires |x| > 0
    ensures Length(Append(b, Bytes(x))) == Length(b) + |x|
    ensures At(Append(b, Bytes(x)), i) ==
              if Length(b) <= i < Length(b) + |x| then Some(x[i - Length(b)]) else At(b, i)
  {
    var r := Append(b, Bytes(x));
    ReadSorted(b.hunks, i);
    ReadSorted(r.hunks, i);
  }

  /** OR-ing in another sparse buffer turns a bit on exactly when it is on in either buffer. */
  lemma OrBufferBits(b: SparseBuffer, c: SparseBuffer, offset: Option<int>, i: int, k: nat)
    requires k < 8
    ensures var r := Or(b, BufferSource(c), offset);
            (Read(r.hunks, i).Some? && ByteOps.BitOn(Read(r.hunks, i).value, k)) <==>
              (Read(b.hunks, i).Some? && ByteOps.BitOn(Read(b.hunks, i).value, k)) ||
              (Read(c.hunks, i).Some? && ByteOps.BitOn(Read(c.hunks, i).value, k))
  {
  }

  /** So the on-bit positions of an OR of two buffers (without bounds) are the union of theirs. */
  lemma OrBufferPositionsUnion(b: SparseBuffer, c: SparseBuffer, offset: Option<int>, x: int)
    ensures x in Positions(Or(b, BufferSource(c), offset).hunks, None, None) <==>
              x in Positions(b.hunks, None, None) || x in Positions(c.hunks, None, None)
  {
    var r := Or(b, BufferSource(c), offset);
    PositionsMembership(r.hunks, FirstOf(r.hunks), None, None, x);
    PositionsMembership(b.hunks, FirstOf(b.hunks), None, None, x);
    PositionsMembership(c.hunks, FirstOf(c.hunks), None, None, x);
    OrBufferBits(b, c, offset, x / 8, x % 8);
  }

  /** The address of the first hunk, or 0: a lower bound every sorted list is `Above`. */
  function FirstOf(hs: HunkList): (lo: int)
    ensures Above(hs, lo)
  {
    if |hs| > 0 then hs[0].first else 0
  }

  /** Where nothing is stored, AND and NOT store the incoming byte itself: neither clears anything
      there. */
  lemma IncomingCopiedWhereNothingStored(b: SparseBuffer, x: seq<bv8>, offset: int, t: ByteOps.Transform, i: int)
    requires Read(b.hunks, i).None? && offset <= i < offset + |x|
    ensures Read(Consume(b, Bytes(x), offset, t).hunks, i) == Some(x[i - offset])
  {
  }

  /** Where a byte is stored, AND and NOT only ever clear bits of it. */
  lemma AndNotOnlyClear(b: SparseBuffer, x: seq<bv8>, offset: int, t: ByteOps.Transform, i: int, k: nat)
    requires t != ByteOps.Or && k < 8 && Read(b.hunks, i).Some?
    ensures var r := Consume(b, Bytes(x), offset, t).hunks;
            Read(r, i).Some? && (ByteOps.BitOn(Read(r, i).value, k) ==> ByteOps.BitOn(Read(b.hunks, i).value, k))
  {
    if offset <= i < offset + |x| {
      var e := Read(b.hunks, i).value;
      if t == ByteOps.Not {
        ByteOps.NotIsAndNot(e, x[i - offset]);
      }
    }
  }

  /** The buffer the repository's tests start from. */
  function Empty(): (b: SparseBuffer)
    ensures Length(b) == 0 && b.hunks == []
  {
    New(None, false)
  }

  /** AND-ing `[0x02, 0x04]` into a buffer holding `[0x01]` ANDs the shared byte and keeps the
      leftover byte as it comes. */
  lemma AndLeftoverBytes()
    ensures var b := And(And(Empty(), Bytes([0x01]), None), Bytes([0x02, 0x04]), None);
            Length(b) == 2 && At(b, 0) == Some(0x01 & 0x02) && At(b, 1) == Some(0x04)
  {
    var b1 := And(Empty(), Bytes([0x01]), None);
    assert Read(b1.hunks, 0) == Some(0x01);
    var b2 := And(b1, Bytes([0x02, 0x04]), None);
    assert Read(b2.hunks, 0) == Some(0x01 & 0x02);
    assert Read(b2.hunks, 1) == Some(0x04);
  }

  /** The five overlapping AND runs of the worked example, one call at a time. */
  function Runs(k: nat): (b: SparseBuffer)
    requires k <= 5
  {
    match k
    case 0 => Empty()
    case 1 => And(Runs(0), Bytes([0x01, 0x01]), Some(0))
    case 2 => And(Runs(1), Bytes([0x01, 0x01]), Some(3))
    case 3 => And(Runs(2), Bytes([0x01, 0x01]), Some(6))
    case 4 => And(Runs(3), Bytes([0x02, 0x02, 0x02]), Some(2))
    case _ => And(Runs(4), Bytes([0x04, 0x04, 0x04, 0x04, 0x04]), Some(5))
  }

  /** One AND call of the example read at one address, in terms of the buffer before it. */
  lemma AndRead(k: nat, x: seq<bv8>, offset: int, i: int)
    requires 1 <= k <= 5
    requires Runs(k) == And(Runs(k - 1), Bytes(x), Some(offset))
    ensures Read(Runs(k).hunks, i) ==
              if offset <= i < offset + |x| then Some(Merged(ByteOps.And, Read(Runs(k - 1).hunks, i), x[i - offset]))
              else Read(Runs(k - 1).hunks, i)
  {
  }

  lemma ThreeRunsOfOnes(i: int)
    ensures Read(Runs(3).hunks, i) == if 0 <= i < 8 && i != 2 && i != 5 then Some(0x01) else None
  {
    AndRead(1, [0x01, 0x01], 0, i);
    AndRead(2, [0x01, 0x01], 3, i);
    AndRead(3, [0x01, 0x01], 6, i);
  }

  lemma FourthRun(i: int)
    ensures Read(Runs(4).hunks, i) ==
              if 2 <= i < 5 then Some(if i == 2 then 0x02 else 0x00)
              else if 0 <= i < 8 && i != 5 then Some(0x01) else None
  {
    ThreeRunsOfOnes(i);
    AndRead(4, [0x02, 0x02, 0x02], 2, i);
  }

  lemma FifthRun(i: int)
    ensures Read(Runs(5).hunks, i) ==
              if 5 <= i < 10 then Some(if i == 6 || i == 7 then 0x00 else 0x04)
              else if 2 <= i < 5 then Some(if i == 2 then 0x02 else 0x00)
              else if 0 <= i < 2 then Some(0x01) else None
  {
    FourthRun(i);
    AndRead(5, [0x04, 0x04, 0x04, 0x04, 0x04], 5, i);
  }

  /** Five overlapping AND runs: the bytes no two runs share stay as they came, the shared ones
      are ANDed. */
  lemma AndWholeEnchilada()
    ensures Length(Runs(5)) == 10
    ensures At(Runs(5), 0) == Some(0x01) && At(Runs(5), 1) == Some(0x01) && At(Runs(5), 2) == Some(0x02)
    ensures At(Runs(5), 3) == Some(0x01 & 0x02) && At(Runs(5), 4) == Some(0x01 & 0x02)
    ensures At(Runs(5), 5) == Some(0x04) && At(Runs(5), 6) == Some(0x01 & 0x04)
    ensures At(Runs(5), 7) == Some(0x01 & 0x04) && At(Runs(5), 8) == Some(0x04) && At(Runs(5), 9) == Some(0x04)
  {
    LengthOfRuns();
    FifthRunAt(0); FifthRunAt(1); FifthRunAt(2); FifthRunAt(3); FifthRunAt(4);
    FifthRunAt(5); FifthRunAt(6); FifthRunAt(7); FifthRunAt(8); FifthRunAt(9);
  }

  /** The buffer after the fifth run, as `_.at` reads it inside its length. */
  lemma FifthRunAt(i: int)
    requires 0 <= i < 10
    ensures At(Runs(5), i) ==
              Some(if 5 <= i then (if i == 6 || i == 7 then 0x00 else 0x04)
                   else if 2 <= i then (if i == 2 then 0x02 else 0x00) else 0x01)
  {
    FifthRun(i);
  }

  lemma LengthOfRuns()
    ensures Length(Runs(5)) == 10
  {
    assert Length(Runs(1)) == 2;
    assert Length(Runs(2)) == 5;
    assert Length(Runs(3)) == 8;
    assert Length(Runs(4)) == 8;
  }

  // ---------------------------------------------------------------- bit positions of full bytes

  /** A strictly ascending list holding exactly `0 .. n - 1` is `[0, 1, ..., n - 1]`. */
  lemma IncreasingRange(s: seq<int>, n: nat)
    requires Increasing(s)
    requires forall x :: x in s <==> 0 <= x < n
    ensures |s| == n && forall i :: 0 <= i < n ==> s[i] == i
  {
    IncreasingRangePrefix(s, n, |s|);
    if |s| > 0 {
      assert s[|s| - 1] in s;
    }
    if n > 0 {
      assert n - 1 in s;
      var j :| 0 <= j < |s| && s[j] == n - 1;
    }
  }

  lemma {:induction false} IncreasingRangePrefix(s: seq<int>, n: nat, m: nat)
    requires Increasing(s) && m <= |s|
    requires forall x :: x in s <==> 0 <= x < n
    ensures forall i :: 0 <= i < m ==> s[i] == i
  {
    if m > 0 {
      IncreasingRangePrefix(s, n, m - 1);
      var i := m - 1;
      assert s[i] >= i by {
        if i > 0 {
          assert s[i - 1] == i - 1;
        } else {
          assert s[0] in s;
        }
      }
      assert s[i] in s;
      assert i in s;
      var j :| 0 <= j < |s| && s[j] == i;
      assert forall k :: 0 <= k < i ==> s[k] != i;
      assert i <= j;
      assert s[i] <= s[j];
    }
  }

  /** OR-ing `n` bytes of `0xFF` into an empty buffer makes every position `0 .. 8n - 1` an on-bit,
      listed in order. */
  lemma AllOnBytesListEveryPosition(n: nat, rand: nat -> nat)
    requires n > 0
    ensures var b := Or(Empty(), Bytes(seq(n, _ => 0xFF)), None);
            var r := GetOnBitPositions(b, None, None, None, None, rand);
            r.total == 8 * n && |r.values| == 8 * n && forall i :: 0 <= i < 8 * n ==> r.values[i] == i
  {
    var ones: seq<bv8> := seq(n, _ => 0xFF);
    var b := Or(Empty(), Bytes(ones), None);
    var all := Positions(b.hunks, None, None);
    PositionsIncreasing(b.hunks, FirstOf(b.hunks), None, None);
    forall x
      ensures x in all <==> 0 <= x < 8 * n
    {
      PositionsMembership(b.hunks, FirstOf(b.hunks), None, None, x);
      AllOnBits(x % 8);
    }
    IncreasingRange(all, 8 * n);
  }

  lemma AllOnBits(k: nat)
    requires k < 8
    ensures ByteOps.BitOn(0xFF, k)
  {
  }
}

=== FILE: tokenize.dfy ===
/** The lexer (`tokenize`): trim the query, then repeatedly take the first pattern of the table that
    matches at the start of what is left, emit its token and trim again. Patterns are the regular
    expressions of the table, each written out as the prefix it accepts. */
module Tokenizer {
  import opened Wrappers
  import opened JsText
  import opened Tokens

  /** The characters of a segment name: `[a-zA-Z0-9-_:]`. */
  predicate IsNameChar(c: char) {
    IsWordChar(c) || c == '-' || c == ':'
  }

  /** End of the longest run of name characters starting at `i`. */
  function NameRunEnd(s: string, i: nat): (j: nat)
    requires i <= |s|
    ensures i <= j <= |s|
    ensures forall k :: i <= k < j ==> IsNameChar(s[k])
    ensures j < |s| ==> !IsNameChar(s[j])
    decreases |s| - i
  {
    if i < |s| && IsNameChar(s[i]) then NameRunEnd(s, i + 1) else i
  }

  /** `\b` right after a word character at position `k`: the end, or a non-word character. */
  predicate BoundaryAt(s: string, k: nat) {
    k >= |s| || !IsWordChar(s[k])
  }

  /** The entries of the pattern table, in table order. */
  datatype Pattern =
    | Quoted(quote: char)   // `(q{1})\b[a-zA-Z0-9-_:]+\b(q{1})`
    | GetWhere              // `\bGET\s+WHERE\b` (i)
    | CountWhere            // `\bCOUNT\s+WHERE\b` (i)
    | OpenParen             // `\(`
    | CloseParen            // `\)`
    | NotIn                 // `\bNOT IN\b` (i)
    | In                    // `\bIN\b` (i)
    | AndWord               // `\bAND\b` (i)
    | OrWord                // `\bOR\b` (i)

  const Table: seq<(TokenType, Pattern)> := [
    (Identifier, Quoted('\'')), (Identifier, Quoted('"')),
    (Get, GetWhere), (Count, CountWhere), (OParens, OpenParen), (CParens, CloseParen),
    (Exclude, NotIn), (Include, In), (And, AndWord), (Or, OrWord)]

  /** A quoted name at the start of `s`: the quote, a run of name characters beginning and ending with
      a word character, and the same quote. The run cannot contain a quote, so the longest run is the
      only candidate the regular expression can settle on. */
  function MatchQuoted(s: string, q: char): (r: Option<nat>)
    ensures r.Some? ==> 3 <= r.value <= |s| && s[0] == q && s[r.value - 1] == q
  {
    if |s| > 0 && s[0] == q then
      var j := NameRunEnd(s, 1);
      if j > 1 && IsWordChar(s[1]) && IsWordChar(s[j - 1]) && j < |s| && s[j] == q then Some(j + 1) else None
    else None
  }

  /** A keyword (or `NOT IN`) as a whole word, letters in any case. */
  function MatchWord(s: string, word: string): (r: Option<nat>)
    requires |word| > 0 && forall k :: 0 <= k < |word| ==> ('A' <= word[k] <= 'Z') || word[k] == ' '
    ensures r.Some? ==> r.value == |word| <= |s|
  {
    if StartsWithIgnoringCase(s, word) && BoundaryAt(s, |word|) then Some(|word|) else None
  }

  /** `GET` or `COUNT`, at least one white-space character, then `WHERE` as a whole word. */
  function MatchVerb(s: string, verb: string): (r: Option<nat>)
    requires |verb| > 0 && forall k :: 0 <= k < |verb| ==> 'A' <= verb[k] <= 'Z'
    ensures r.Some? ==> |verb| + 6 <= r.value <= |s|
  {
    if StartsWithIgnoringCase(s, verb) then
      var j := WhitespaceRunEnd(s, |verb|);
      if j > |verb| && StartsWithIgnoringCase(s[j..], "WHERE") && BoundaryAt(s, j + 5) then Some(j + 5) else None
    else None
  }

  /** Length of the prefix of `s` the pattern matches, if it matches at index 0. */
  function Match(p: Pattern, s: string): (r: Option<nat>)
    ensures r.Some? ==> 1 <= r.value <= |s|
  {
    match p
    case Quoted(q) => MatchQuoted(s, q)
    case GetWhere => MatchVerb(s, "GET")
    case CountWhere => MatchVerb(s, "COUNT")
    case OpenParen => if |s| > 0 && s[0] == '(' then Some(1) else None
    case CloseParen => if |s| > 0 && s[0] == ')' then Some(1) else None
    case NotIn => MatchWord(s, "NOT IN")
    case In => MatchWord(s, "IN")
    case AndWord => MatchWord(s, "AND")
    case OrWord => MatchWord(s, "OR")
  }

  /** The `reduce` over the table: the position of the first entry from `k` on that matches. */
  function FirstMatch(s: string, k: nat): (r: Option<nat>)
    requires k <= |Table|
    ensures r.Some? ==> k <= r.value < |Table| && Match(Table[r.value].1, s).Some?
    ensures r.Some? ==> forall n :: k <= n < r.value ==> Match(Table[n].1, s).None?
    ensures r.None? <==> forall m :: k <= m < |Table| ==> Match(Table[m].1, s).None?
    decreases |Table| - k
  {
    if k == |Table| then None
    else if Match(Table[k].1, s).Some? then Some(k)
    else FirstMatch(s, k + 1)
  }

  /** Every entry's kind is lexable, and only the quoted patterns produce identifiers. */
  lemma TableKinds(m: nat)
    requires m < |Table|
    ensures Lexable(Table[m].0)
    ensures Table[m].0 == Identifier <==> Table[m].1.Quoted?
    ensures Table[m].1.Quoted? ==> Table[m].1.quote == '\'' || Table[m].1.quote == '"'
  {
  }

  datatype LexError = InvalidToken(near: string) | InvalidSegmentIdentifier(name: string)

  /** `sanitizeIdentifier`: drop one leading and one trailing quote; a quote left inside is an error. */
  function SanitizeIdentifier(str: string): (r: Result<string, LexError>)
    ensures r.Ok? ==> '\'' !in r.value && '"' !in r.value
  {
    var a := if |str| > 0 && (str[0] == '\'' || str[0] == '"') then str[1..] else str;
    var b := if |a| > 0 && (a[|a| - 1] == '\'' || a[|a| - 1] == '"') then a[..|a| - 1] else a;
    if '\'' in b || '"' in b then Err(InvalidSegmentIdentifier(b)) else Ok(b)
  }

  /** A segment name the quoted pattern accepts. */
  predicate ValidName(v: string) {
    |v| > 0 && IsWordChar(v[0]) && IsWordChar(v[|v| - 1]) && forall k :: 0 <= k < |v| ==> IsNameChar(v[k])
  }

  /** A token the lexer can produce: a lexable kind, a valid name on an identifier and no value on
      anything else. */
  predicate TokenWellFormed(t: Token) {
    Lexable(t.kind) &&
    if t.kind == Identifier then t.value.Some? && ValidName(t.value.value) else t.value.None?
  }

  predicate WellFormed(ts: seq<Token>) {
    forall k :: 0 <= k < |ts| ==> TokenWellFormed(ts[k])
  }

  lemma WellFormedCons(t: Token, rest: seq<Token>)
    requires TokenWellFormed(t) && WellFormed(rest)
    ensures WellFormed([t] + rest)
  {
    assert forall k :: 0 < k <= |rest| ==> ([t] + rest)[k] == rest[k - 1];
  }

  /** `code.substr(0, 10)`: what the error message shows of the text the lexer stopped at. */
  function Near(rest: string): (r: string)
    ensures |r| == (if |rest| < 10 then |rest| else 10) && rest[..|r|] == r
  {
    rest[..if |rest| < 10 then |rest| else 10]
  }

  /** The lexer stopped at `rest`: non-empty remaining text at whose start no pattern of the table
      matches, of which the error shows `near`. */
  predicate Stuck(rest: string, near: string) {
    |rest| > 0 && FirstMatch(rest, 0).None? && near == Near(rest)
  }

  /** Where the lexer stops inside the trimmed remainder, it stops inside `code`. */
  lemma StuckInRemainder(code: string, len: nat, near: string)
    requires len <= |code|
    requires exists rest, i :: InfixAt(rest, Trim(code[len..]), i) && Stuck(rest, near)
    ensures exists rest, i :: InfixAt(rest, code, i) && Stuck(rest, near)
  {
    var rest, i :| InfixAt(rest, Trim(code[len..]), i) && Stuck(rest, near);
    InfixOfRemainder(code, len, rest, i);
  }

  /** The loop body applied to an already trimmed remainder. */
  function Lex(code: string): (r: Result<seq<Token>, LexError>)
    ensures r.Ok? ==> |r.value| <= |code| && WellFormed(r.value)
    ensures |code| == 0 ==> r == Ok([])
    ensures r.Err? ==> r.error.InvalidToken? && exists rest, i :: InfixAt(rest, code, i) && Stuck(rest, r.error.near)
    decreases |code|
  {
    if |code| == 0 then Ok([])
    else
      match FirstMatch(code, 0)
      case None =>
        assert code[0..|code|] == code;
        assert InfixAt(code, code, 0) && Stuck(code, Near(code));
        Err(InvalidToken(Near(code)))
      case Some(m) =>
        var (kind, pattern) := Table[m];
        var len := Match(pattern, code).value;
        TableKinds(m);
        var value := if kind == Identifier then QuotedValue(code, len, pattern.quote).value else None;
        var tail := Lex(Trim(code[len..]));
        if tail.Err? then
          StuckInRemainder(code, len, tail.error.near);
          Err(tail.error)
        else
          var rest := tail.value;
          WellFormedCons(Token(kind, value), rest);
          Ok([Token(kind, value)] + rest)
  }

  /** The value of an identifier token: the sanitized lexeme. For a lexeme the quoted pattern matched
      this is the name between the quotes, so the sanitizer's error never fires. */
  function QuotedValue(code: string, len: nat, q: char): (r: Result<Option<string>, LexError>)
    requires q == '\'' || q == '"'
    requires MatchQuoted(code, q) == Some(len)
    ensures r == Ok(Some(code[1..len - 1])) && ValidName(code[1..len - 1])
  {
    var lexeme := code[..len];
    SanitizeQuoted(code, len, q);
    Ok(Some(SanitizeIdentifier(lexeme).value))
  }

  lemma SanitizeQuoted(code: string, len: nat, q: char)
    requires q == '\'' || q == '"'
    requires MatchQuoted(code, q) == Some(len)
    ensures SanitizeIdentifier(code[..len]) == Ok(code[1..len - 1]) && ValidName(code[1..len - 1])
  {
    var lexeme := code[..len];
    var inner := code[1..len - 1];
    assert lexeme[1..][..len - 2] == inner;
    assert forall k :: 0 <= k < |inner| ==> inner[k] == code[k + 1] && IsNameChar(code[k + 1]);
    assert '\'' !in inner && '"' !in inner;
  }

  /** `tokenize(code)`. */
  function Tokenize(code: string): (r: Result<seq<Token>, LexError>)
    ensures r.Ok? ==> |r.value| <= |code| && WellFormed(r.value)
    ensures r.Err? ==> r.error.InvalidToken? && exists rest, i :: InfixAt(rest, code, i) && Stuck(rest, r.error.near)
  {
    var r := Lex(Trim(code));
    assert code[0..] == code;
    if r.Err? then
      StuckInRemainder(code, 0, r.error.near);
      r
    else
      r
  }

  // ---------------------------------------------------------------- rendering

  /** The canonical text of a token: upper-case keywords and a single-quoted name. */
  function Render(t: Token): (r: string)
    ensures |r| > 0 && !IsWhitespace(r[0]) && !IsWhitespace(r[|r| - 1])
  {
    match t.kind
    case Get => "GET WHERE"
    case Count => "COUNT WHERE"
    case OParens => "("
    case CParens => ")"
    case Exclude => "NOT IN"
    case Include => "IN"
    case And => "AND"
    case Or => "OR"
    case Identifier => "'" + t.value.GetOr("") + "'"
    case _ => Name(t.kind)
  }

  /** Tokens rendered one after another, separated by single spaces. */
  function RenderAll(ts: seq<Token>): (r: string)
    ensures |ts| > 0 ==> |r| > 0 && !IsWhitespace(r[0]) && !IsWhitespace(r[|r| - 1])
    ensures |ts| == 0 ==> r == ""
  {
    if |ts| == 0 then ""
    else if |ts| == 1 then Render(ts[0])
    else Render(ts[0]) + " " + RenderAll(ts[1..])
  }

  /** Trimming text that neither starts nor ends with white space changes nothing, and trimming a
      leading space of it gives it back. */
  lemma TrimRendered(s: string)
    requires |s| > 0 && !IsWhitespace(s[0]) && !IsWhitespace(s[|s| - 1])
    ensures Trim(s) == s && Trim(" " + s) == s
  {
    assert (" " + s)[1..] == s;
  }

  /** The table's `reduce` settles on entry `m` when it matches and no entry before it does. */
  lemma {:induction false} FirstMatchAt(s: string, k: nat, m: nat)
    requires k <= m < |Table| && Match(Table[m].1, s).Some?
    requires forall n :: k <= n < m ==> Match(Table[n].1, s).None?
    ensures FirstMatch(s, k) == Some(m)
    decreases m - k
  {
    if k < m {
      FirstMatchAt(s, k + 1, m);
    }
  }

  /** When no entry matches, the table's `reduce` finds nothing. */
  lemma NoEntryMatches(s: string)
    requires Match(Table[0].1, s).None? && Match(Table[1].1, s).None? && Match(Table[2].1, s).None?
    requires Match(Table[3].1, s).None? && Match(Table[4].1, s).None? && Match(Table[5].1, s).None?
    requires Match(Table[6].1, s).None? && Match(Table[7].1, s).None? && Match(Table[8].1, s).None?
    requires Match(Table[9].1, s).None?
    ensures FirstMatch(s, 0).None?
  {
    forall m | 0 <= m < |Table|
      ensures Match(Table[m].1, s).None?
    {
      assert m in {0, 1, 2, 3, 4, 5, 6, 7, 8, 9};
    }
  }

  /** A keyword cannot match text whose first character is not its first letter in either case. */
  lemma FirstLetterMismatch(s: string, word: string)
    requires |word| > 0 && forall k :: 0 <= k < |word| ==> ('A' <= word[k] <= 'Z') || word[k] == ' '
    requires 'A' <= word[0] <= 'Z'
    requires |s| > 0 && !SameLetterIgnoringCase(s[0], word[0])
    ensures !StartsWithIgnoringCase(s, word)
  {
  }

  /** Neither quoted pattern, nor any keyword beginning with another letter, matches text starting
      with the letter `c` in either case. */
  lemma OnlyLetterPatterns(s: string, c: char)
    requires |s| > 0 && 'A' <= c <= 'Z' && SameLetterIgnoringCase(s[0], c)
    ensures Match(Table[0].1, s).None? && Match(Table[1].1, s).None?
    ensures Match(Table[4].1, s).None? && Match(Table[5].1, s).None?
    ensures c != 'G' ==> Match(Table[2].1, s).None?
    ensures c != 'C' ==> Match(Table[3].1, s).None?
    ensures c != 'N' ==> Match(Table[6].1, s).None?
    ensures c != 'I' ==> Match(Table[7].1, s).None?
    ensures c != 'A' ==> Match(Table[8].1, s).None?
    ensures c != 'O' ==> Match(Table[9].1, s).None?
  {
    assert 'A' <= s[0] <= 'Z' || 'a' <= s[0] <= 'z';
    QuotesDoNotMatch(s);
    VerbsOfOtherLetters(s, c);
    WordsOfOtherLetters(s, c);
  }

  lemma VerbsOfOtherLetters(s: string, c: char)
    requires |s| > 0 && 'A' <= c <= 'Z' && SameLetterIgnoringCase(s[0], c)
    ensures c != 'G' ==> Match(Table[2].1, s).None?
    ensures c != 'C' ==> Match(Table[3].1, s).None?
  {
    if c != 'G' { FirstLetterMismatch(s, "GET"); }
    if c != 'C' { FirstLetterMismatch(s, "COUNT"); }
  }

  lemma WordsOfOtherLetters(s: string, c: char)
    requires |s| > 0 && 'A' <= c <= 'Z' && SameLetterIgnoringCase(s[0], c)
    ensures c != 'N' ==> Match(Table[6].1, s).None?
    ensures c != 'I' ==> Match(Table[7].1, s).None?
    ensures c != 'A' ==> Match(Table[8].1, s).None?
    ensures c != 'O' ==> Match(Table[9].1, s).None?
  {
    if c != 'N' { FirstLetterMismatch(s, "NOT IN"); }
    if c != 'I' { FirstLetterMismatch(s, "IN"); }
    if c != 'A' { FirstLetterMismatch(s, "AND"); }
    if c != 'O' { FirstLetterMismatch(s, "OR"); }
  }

  /** `GET WHERE` or `COUNT WHERE` followed by nothing or a space matches its verb pattern whole. */
  lemma VerbMatches(s: string, verb: string)
    requires verb == "GET" || verb == "COUNT"
    requires |s| >= |verb| + 6 && s[..|verb| + 6] == verb + " WHERE"
    requires |s| == |verb| + 6 || s[|verb| + 6] == ' '
    ensures MatchVerb(s, verb) == Some(|verb| + 6)
  {
    var n := |verb|;
    assert s[..n] == verb;
    assert s[n..n + 6] == " WHERE";
    VerbPrefix(s, verb);
    WhereAfter(s, n);
  }

  /** Text that starts with the verb starts with it ignoring case. */
  lemma VerbPrefix(s: string, verb: string)
    requires verb == "GET" || verb == "COUNT"
    requires |s| >= |verb| && s[..|verb|] == verb
    ensures StartsWithIgnoringCase(s, verb)
  {
    assert forall k :: 0 <= k < |verb| ==> s[k] == s[..|verb|][k];
  }

  /** After ` WHERE` at `n`, the white-space run is the single space and `WHERE` follows it. */
  lemma WhereAfter(s: string, n: nat)
    requires n + 6 <= |s| && s[n..n + 6] == " WHERE"
    ensures WhitespaceRunEnd(s, n) == n + 1
    ensures StartsWithIgnoringCase(s[n + 1..], "WHERE")
  {
    assert s[n] == s[n..n + 6][0] == ' ';
    assert s[n + 1] == s[n..n + 6][1] == 'W';
    assert WhitespaceRunEnd(s, n + 1) == n + 1;
    var rest := s[n + 1..];
    assert forall k :: 0 <= k < 5 ==> rest[k] == s[n..n + 6][k + 1];
  }

  /** A keyword followed by nothing or a space matches its pattern whole. */
  lemma WordMatches(s: string, word: string)
    requires word in {"NOT IN", "IN", "AND", "OR"}
    requires |s| >= |word| && s[..|word|] == word
    requires |s| == |word| || s[|word|] == ' '
    ensures MatchWord(s, word) == Some(|word|)
  {
    assert forall k :: 0 <= k < |word| ==> s[k] == word[k];
  }

  /** A quoted name followed by nothing or a space matches the single-quote pattern whole. */
  lemma QuotedMatches(s: string, v: string, tail: string)
    requires ValidName(v) && s == "'" + v + "'" + tail
    requires |tail| == 0 || tail[0] == ' '
    ensures MatchQuoted(s, '\'') == Some(|v| + 2)
  {
    var n := |v| + 2;
    assert forall k :: 1 <= k < n - 1 ==> s[k] == v[k - 1];
    NameRunUpTo(s, 1, n - 1);
  }

  /** Neither quoted pattern matches text that does not start with a quote. */
  lemma QuotesDoNotMatch(s: string)
    requires |s| > 0 && s[0] != '\'' && s[0] != '"'
    ensures Match(Table[0].1, s).None? && Match(Table[1].1, s).None?
  {
  }

  lemma VerbEntryMatches(s: string, verb: string, m: nat, tail: string)
    requires (verb == "GET" && m == 2) || (verb == "COUNT" && m == 3)
    requires s == verb + " WHERE" + tail && (|tail| == 0 || tail[0] == ' ')
    ensures Match(Table[m].1, s) == Some(|verb| + 6)
  {
    assert s[..|verb| + 6] == verb + " WHERE";
    VerbMatches(s, verb);
  }

  lemma GetMatches(tail: string)
    requires |tail| == 0 || tail[0] == ' '
    ensures Match(Table[2].1, "GET WHERE" + tail) == Some(9)
  {
    VerbEntryMatches("GET WHERE" + tail, "GET", 2, tail);
  }

  /** A verb pattern that matches settles the table's `reduce` on it: the quoted patterns cannot
      match text starting with a letter. */
  lemma GetFirst(tail: string)
    requires Match(Table[2].1, "GET WHERE" + tail) == Some(9)
    ensures FirstMatch("GET WHERE" + tail, 0) == Some(2)
  {
    var s := "GET WHERE" + tail;
    assert s[0] == 'G';
    QuotesDoNotMatch(s);
    assert Match(Table[0].1, s).None? && Match(Table[1].1, s).None?;
    FirstMatchAt(s, 0, 2);
  }

  /** `GET WHERE` followed by nothing or a space is lexed by its table entry, whole. */
  lemma LexGet(tail: string)
    requires |tail| == 0 || tail[0] == ' '
    ensures FirstMatch("GET WHERE" + tail, 0) == Some(2)
    ensures Match(Table[2].1, "GET WHERE" + tail) == Some(9)
  {
    GetMatches(tail);
    GetFirst(tail);
  }

  lemma CountMatches(tail: string)
    requires |tail| == 0 || tail[0] == ' '
    ensures Match(Table[3].1, "COUNT WHERE" + tail) == Some(11)
  {
    VerbEntryMatches("COUNT WHERE" + tail, "COUNT", 3, tail);
  }

  /** Nor can the `GET` pattern match text starting with `C`. */
  lemma CountFirst(tail: string)
    requires Match(Table[3].1, "COUNT WHERE" + tail) == Some(11)
    ensures FirstMatch("COUNT WHERE" + tail, 0) == Some(3)
  {
    var s := "COUNT WHERE" + tail;
    assert s[0] == 'C';
    QuotesDoNotMatch(s);
    FirstLetterMismatch(s, "GET");
    assert Match(Table[0].1, s).None? && Match(Table[1].1, s).None? && Match(Table[2].1, s).None?;
    FirstMatchAt(s, 0, 3);
  }

  /** `COUNT WHERE` followed by nothing or a space is lexed by its table entry, whole. */
  lemma LexCount(tail: string)
    requires |tail| == 0 || tail[0] == ' '
    ensures FirstMatch("COUNT WHERE" + tail, 0) == Some(3)
    ensures Match(Table[3].1, "COUNT WHERE" + tail) == Some(11)
  {
    CountMatches(tail);
    CountFirst(tail);
  }

  /** `NOT IN`, `IN`, `AND` or `OR` (the first letter `c`) followed by nothing or a space is lexed by
      table entry `m` with the whole word as lexeme. */
  lemma LexWord(m: nat, word: string, c: char, tail: string)
    requires (m == 6 && word == "NOT IN" && c == 'N') || (m == 7 && word == "IN" && c == 'I') ||
             (m == 8 && word == "AND" && c == 'A') || (m == 9 && word == "OR" && c == 'O')
    requires |tail| == 0 || tail[0] == ' '
    ensures FirstMatch(word + tail, 0) == Some(m) && Match(Table[m].1, word + tail) == Some(|word|)
  {
    var s := word + tail;
    assert s[..|word|] == word;
    WordMatches(s, word);
    OnlyLetterPatterns(s, c);
    FirstMatchAt(s, 0, m);
  }

  /** A parenthesis followed by anything is lexed by its own entry: nothing before it in the table
      accepts a text starting with it. */
  lemma LexParen(m: nat, p: char, tail: string)
    requires (m == 4 && p == '(') || (m == 5 && p == ')')
    ensures FirstMatch([p] + tail, 0) == Some(m) && Match(Table[m].1, [p] + tail) == Some(1)
  {
    var s := [p] + tail;
    FirstLetterMismatch(s, "GET");
    FirstLetterMismatch(s, "COUNT");
    FirstMatchAt(s, 0, m);
  }

  /** The table entry that lexes each kind's rendering. */
  function EntryFor(k: TokenType): (m: nat)
    requires Lexable(k)
    ensures m < |Table| && Table[m].0 == k
  {
    match k
    case Identifier => 0 case Get => 2 case Count => 3 case OParens => 4 case CParens => 5
    case Exclude => 6 case Include => 7 case And => 8 case Or => 9
  }

  /** The rendered text of a token followed by nothing or by a space is lexed back as that token,
      with the whole rendering as its lexeme. */
  lemma LexRenderedToken(t: Token, tail: string)
    requires TokenWellFormed(t)
    requires |tail| == 0 || tail[0] == ' '
    ensures FirstMatch(Render(t) + tail, 0) == Some(EntryFor(t.kind))
    ensures Match(Table[EntryFor(t.kind)].1, Render(t) + tail) == Some(|Render(t)|)
  {
    if t.kind == Identifier {
      LexRenderedIdentifier(t, tail);
    } else if t.kind == Get || t.kind == Count {
      LexRenderedVerb(t, tail);
    } else if t.kind == OParens || t.kind == CParens {
      LexRenderedParen(t, tail);
    } else {
      LexRenderedWord(t, tail);
    }
  }

  lemma LexRenderedIdentifier(t: Token, tail: string)
    requires TokenWellFormed(t) && t.kind == Identifier
    requires |tail| == 0 || tail[0] == ' '
    ensures FirstMatch(Render(t) + tail, 0) == Some(EntryFor(t.kind))
    ensures Match(Table[EntryFor(t.kind)].1, Render(t) + tail) == Some(|Render(t)|)
  {
    var s := Render(t) + tail;
    QuotedMatches(s, t.value.value, tail);
    FirstMatchAt(s, 0, 0);
  }

  lemma LexRenderedVerb(t: Token, tail: string)
    requires t.kind == Get || t.kind == Count
    requires |tail| == 0 || tail[0] == ' '
    ensures FirstMatch(Render(t) + tail, 0) == Some(EntryFor(t.kind))
    ensures Match(Table[EntryFor(t.kind)].1, Render(t) + tail) == Some(|Render(t)|)
  {
    if t.kind == Get {
      LexRenderedGet(t, tail);
    } else {
      LexRenderedCount(t, tail);
    }
  }

  lemma LexRenderedGet(t: Token, tail: string)
    requires t.kind == Get
    requires |tail| == 0 || tail[0] == ' '
    ensures FirstMatch(Render(t) + tail, 0) == Some(EntryFor(t.kind))
    ensures Match(Table[EntryFor(t.kind)].1, Render(t) + tail) == Some(|Render(t)|)
  {
    LexGet(tail);
    LexedAs(t, tail, "GET WHERE", 2);
  }

  lemma LexRenderedCount(t: Token, tail: string)
    requires t.kind == Count
    requires |tail| == 0 || tail[0] == ' '
    ensures FirstMatch(Render(t) + tail, 0) == Some(EntryFor(t.kind))
    ensures Match(Table[EntryFor(t.kind)].1, Render(t) + tail) == Some(|Render(t)|)
  {
    var text := "COUNT WHERE";
    assert Render(t) == text && EntryFor(t.kind) == 3 && |text| == 11;
    LexCount(tail);
    LexedAs(t, tail, text, 3);
  }

  lemma LexRenderedParen(t: Token, tail: string)
    requires t.kind == OParens || t.kind == CParens
    ensures FirstMatch(Render(t) + tail, 0) == Some(EntryFor(t.kind))
    ensures Match(Table[EntryFor(t.kind)].1, Render(t) + tail) == Some(|Render(t)|)
  {
    if t.kind == OParens {
      LexParen(4, '(', tail); LexedAs(t, tail, ['('], 4);
    } else {
      LexParen(5, ')', tail); LexedAs(t, tail, [')'], 5);
    }
  }

  lemma LexRenderedWord(t: Token, tail: string)
    requires t.kind == Exclude || t.kind == Include || t.kind == And || t.kind == Or
    requires |tail| == 0 || tail[0] == ' '
    ensures FirstMatch(Render(t) + tail, 0) == Some(EntryFor(t.kind))
    ensures Match(Table[EntryFor(t.kind)].1, Render(t) + tail) == Some(|Render(t)|)
  {
    if t.kind == Exclude {
      LexWord(6, "NOT IN", 'N', tail); LexedAs(t, tail, "NOT IN", 6);
    } else if t.kind == Include {
      LexWord(7, "IN", 'I', tail); LexedAs(t, tail, "IN", 7);
    } else if t.kind == And {
      LexWord(8, "AND", 'A', tail); LexedAs(t, tail, "AND", 8);
    } else {
      LexWord(9, "OR", 'O', tail); LexedAs(t, tail, "OR", 9);
    }
  }

  /** What the table does with a token's rendering `text` it does with `Render(t)`. */
  lemma LexedAs(t: Token, tail: string, text: string, m: nat)
    requires Lexable(t.kind) && Render(t) == text && EntryFor(t.kind) == m
    requires FirstMatch(text + tail, 0) == Some(m) && Match(Table[m].1, text + tail) == Some(|text|)
    ensures FirstMatch(Render(t) + tail, 0) == Some(EntryFor(t.kind))
    ensures Match(Table[EntryFor(t.kind)].1, Render(t) + tail) == Some(|Render(t)|)
  {
  }

  lemma {:induction false} NameRunUpTo(s: string, i: nat, j: nat)
    requires i <= j < |s|
    requires forall k :: i <= k < j ==> IsNameChar(s[k])
    requires !IsNameChar(s[j])
    ensures NameRunEnd(s, i) == j
    decreases j - i
  {
    if i < j {
      NameRunUpTo(s, i + 1, j);
    }
  }

  /** Lexing undoes rendering: the canonical text of a well-formed token list lexes back to that list. */
  lemma {:induction false} TokenizeRenderAll(ts: seq<Token>)
    requires WellFormed(ts)
    ensures Tokenize(RenderAll(ts)) == Ok(ts)
    decreases |ts|
  {
    if |ts| > 0 {
      TrimRendered(RenderAll(ts));
      LexRenderAll(ts);
    }
  }

  lemma {:induction false} LexRenderAll(ts: seq<Token>)
    requires WellFormed(ts)
    ensures Lex(RenderAll(ts)) == Ok(ts)
    decreases |ts|
  {
    if |ts| > 0 {
      WellFormedTail(ts);
      LexRenderAll(ts[1..]);
      LexRenderCons(ts[0], ts[1..]);
      assert [ts[0]] + ts[1..] == ts;
    }
  }

  lemma LexRenderCons(t: Token, rest: seq<Token>)
    requires TokenWellFormed(t)
    requires Lex(RenderAll(rest)) == Ok(rest)
    ensures Lex(RenderAll([t] + rest)) == Ok([t] + rest)
  {
    RenderAllCons(t, rest);
    SeparatedTrims(rest);
    LexStep(t, Separated(rest), rest);
  }

  lemma WellFormedTail(ts: seq<Token>)
    requires WellFormed(ts) && |ts| > 0
    ensures TokenWellFormed(ts[0]) && WellFormed(ts[1..])
  {
    assert forall k :: 0 <= k < |ts| - 1 ==> ts[1..][k] == ts[k + 1];
  }

  /** What follows the first token in the rendering: nothing, or a space and the rest. */
  function Separated(rest: seq<Token>): (r: string)
    ensures |r| == 0 || r[0] == ' '
  {
    if |rest| == 0 then "" else " " + RenderAll(rest)
  }

  lemma SeparatedTrims(rest: seq<Token>)
    ensures Trim(Separated(rest)) == RenderAll(rest)
  {
    if |rest| > 0 {
      TrimRendered(RenderAll(rest));
    }
  }

  lemma RenderAllCons(t: Token, rest: seq<Token>)
    ensures RenderAll([t] + rest) == Render(t) + Separated(rest)
  {
    var ts := [t] + rest;
    assert ts[0] == t && ts[1..] == rest;
    if |rest| == 0 {
      assert Render(t) + "" == Render(t);
    }
  }

  /** One turn of the loop on a rendered token: the token comes back and lexing goes on with the
      trimmed rest. */
  lemma LexStep(t: Token, tail: string, rest: seq<Token>)
    requires TokenWellFormed(t)
    requires |tail| == 0 || tail[0] == ' '
    requires Lex(Trim(tail)) == Ok(rest)
    ensures Lex(Render(t) + tail) == Ok([t] + rest)
  {
    if t.kind == Identifier {
      LexStepIdentifier(t, tail, rest);
    } else {
      LexStepKeyword(t, tail, rest);
    }
  }

  lemma LexStepIdentifier(t: Token, tail: string, rest: seq<Token>)
    requires t.kind == Identifier && t.value.Some? && ValidName(t.value.value)
    requires |tail| == 0 || tail[0] == ' '
    requires Lex(Trim(tail)) == Ok(rest)
    ensures Lex(Render(t) + tail) == Ok([t] + rest)
  {
    var v := t.value.value;
    assert Render(t) == "'" + v + "'";
    LexQuoted(v, tail, rest);
    assert t == Token(Identifier, Some(v));
  }

  /** A name in single quotes lexes to one identifier holding the name. */
  lemma LexQuoted(v: string, tail: string, rest: seq<Token>)
    requires ValidName(v) && (|tail| == 0 || tail[0] == ' ')
    requires Lex(Trim(tail)) == Ok(rest)
    ensures Lex("'" + v + "'" + tail) == Ok([Token(Identifier, Some(v))] + rest)
  {
    var code := "'" + v + "'" + tail;
    IdentifierLexeme(v, tail);
    assert Table[0].0 == Identifier && Table[0].1 == Quoted('\'');
    LexUnfold(code, 0, |v| + 2, Some(v));
  }

  /** What the loop body sees on a rendered name: the first entry matches the quoted name and the
      value is the name itself. */
  lemma IdentifierLexeme(v: string, tail: string)
    requires ValidName(v) && (|tail| == 0 || tail[0] == ' ')
    ensures var code := "'" + v + "'" + tail;
            FirstMatch(code, 0) == Some(0) && Match(Table[0].1, code) == Some(|v| + 2) &&
            QuotedValue(code, |v| + 2, '\'').value == Some(v) && code[|v| + 2..] == tail
  {
    var code := "'" + v + "'" + tail;
    var n := |v| + 2;
    QuotedMatches(code, v, tail);
    FirstMatchAt(code, 0, 0);
    assert code[n..] == tail && code[1..n - 1] == v;
  }

  lemma LexStepKeyword(t: Token, tail: string, rest: seq<Token>)
    requires Lexable(t.kind) && t.kind != Identifier && t.value.None?
    requires |tail| == 0 || tail[0] == ' '
    requires Lex(Trim(tail)) == Ok(rest)
    ensures Lex(Render(t) + tail) == Ok([t] + rest)
  {
    var code := Render(t) + tail;
    var n := |Render(t)|;
    LexRenderedToken(t, tail);
    assert code[n..] == tail;
    LexUnfold(code, EntryFor(t.kind), n, None);
  }

  /** The loop body once the first table entry to match, its lexeme length and the token's value are
      known. */
  lemma LexUnfold(code: string, m: nat, len: nat, value: Option<string>)
    requires m < |Table| && FirstMatch(code, 0) == Some(m) && Match(Table[m].1, code) == Some(len)
    requires Table[m].0 == Identifier ==> Table[m].1.Quoted? && Table[m].1.quote == '\''
    requires value == if Table[m].0 == Identifier then QuotedValue(code, len, '\'').value else None
    ensures Lex(code) == match Lex(Trim(code[len..]))
                         case Ok(rest) => Ok([Token(Table[m].0, value)] + rest)
                         case Err(e) => Err(e)
  {
  }
}

=== FILE: tokenize_examples.dfy ===
/** Worked cases of the lexer: names in quotes are never keywords, `NOT IN` wins over `IN`, and
    what the table cannot read stops the lexer with the text it stopped at. */
module TokenizerExamples {
  import opened Wrappers
  import opened JsText
  import opened Tokens
  import opened Tokenizer

  function Example(): seq<Token> {
    [Token(Get, None), Token(Exclude, None), Token(Identifier, Some("in"))]
  }

  lemma ExampleWellFormed()
    ensures WellFormed(Example())
  {
    assert ValidName("in");
  }

  lemma ExampleRendering()
    ensures RenderAll(Example()) == "GET WHERE NOT IN 'in'"
  {
    var ts := Example();
    assert RenderAll(ts[2..]) == "'in'";
    assert RenderAll(ts[1..]) == "NOT IN 'in'";
  }

  /** A keyword in quotes is a segment name, and `NOT IN` is read as one token. */
  lemma QuotedKeywordIsName()
    ensures Tokenize("GET WHERE NOT IN 'in'") == Ok(Example())
  {
    ExampleWellFormed();
    TokenizeRenderAll(Example());
    ExampleRendering();
  }

  lemma DoubleSpacedNothingMatches()
    ensures FirstMatch("NOT  IN 'x'", 0).None?
  {
    var s := "NOT  IN 'x'";
    OnlyLetterPatterns(s, 'N');
    assert !StartsWithIgnoringCase(s, "NOT IN") by {
      assert s[4] != "NOT IN"[4];
    }
    assert Match(Table[6].1, s).None?;
    NoEntryMatches(s);
  }

  /** `NOT` and `IN` separated by two spaces match neither `NOT IN` nor anything else. */
  lemma DoubleSpacedNotInIsInvalid()
    ensures Lex("NOT  IN 'x'") == Err(InvalidToken("NOT  IN 'x"))
  {
    DoubleSpacedNothingMatches();
    assert "NOT  IN 'x'"[..10] == "NOT  IN 'x";
  }

  // ---------------------------------------------------------------- a negated group

  /** Where the lexer stops in the query text below. */
  const NotGroupRest := "not (in 'y' or in 'z')"

  /** The query text of the nested `not` group in the repository's query tests,
      `get where in 'x' and not (in 'y' or in 'z')`, built word by word. The table has an entry for
      `NOT IN` but none for a bare `not`, so the lexer reads `get where`, `in`, `'x'` and `and` and
      then stops at `not (`. */
  const NotGroupText := "get where " + InNotGroup
  const InNotGroup := "in " + NameNotGroup
  const NameNotGroup := "'x' " + AndNotGroup
  const AndNotGroup := "and " + NotGroupRest

  /** The error the lexer stops with. */
  const NotGroupError := InvalidToken("not (in 'y")

  /** No entry matches text starting `n` whose fifth character is `(`: `NOT IN` needs `I` there,
      and no other entry starts with `n`. */
  lemma NotBeforeParenMatchesNothing(s: string)
    requires |s| > 4 && s[0] == 'n' && s[4] == '('
    ensures FirstMatch(s, 0).None?
  {
    OnlyLetterPatterns(s, 'N');
    assert !StartsWithIgnoringCase(s, "NOT IN") by {
      assert !SameLetterIgnoringCase(s[4], "NOT IN"[4]);
    }
    NoEntryMatches(s);
  }

  /** Where the lexer stops: the ten characters from `not (` on. */
  lemma NotGroupRestStuck()
    ensures Lex(NotGroupRest) == Err(NotGroupError)
  {
    var s := NotGroupRest;
    assert s[0] == 'n' && s[4] == '(' && s[..10] == "not (in 'y";
    NotBeforeParenMatchesNothing(s);
  }

  /** Text the lexer can start on: non-empty, with no white space at either end. */
  predicate Rendered(rest: string) {
    |rest| > 0 && !IsWhitespace(rest[0]) && !IsWhitespace(rest[|rest| - 1])
  }

  /** The `AND` entry reads a lower-case `and` followed by a space. */
  lemma LowerAnd(s: string)
    requires |s| > 3 && s[0] == 'a' && s[1] == 'n' && s[2] == 'd' && s[3] == ' '
    ensures FirstMatch(s, 0) == Some(8) && Match(Table[8].1, s) == Some(3)
  {
    assert StartsWithIgnoringCase(s, "AND") && BoundaryAt(s, 3);
    assert Match(Table[8].1, s) == Some(3);
    OnlyLetterPatterns(s, 'A');
    assert FirstMatch(s, 8) == Some(8);
    assert FirstMatch(s, 7) == Some(8);
    assert FirstMatch(s, 6) == Some(8);
    assert FirstMatch(s, 5) == Some(8);
    assert FirstMatch(s, 4) == Some(8);
    assert FirstMatch(s, 3) == Some(8);
    assert FirstMatch(s, 2) == Some(8);
    assert FirstMatch(s, 1) == Some(8);
  }

  /** The `IN` entry reads a lower-case `in` followed by a space. */
  lemma LowerIn(s: string)
    requires |s| > 2 && s[0] == 'i' && s[1] == 'n' && s[2] == ' '
    ensures FirstMatch(s, 0) == Some(7) && Match(Table[7].1, s) == Some(2)
  {
    assert StartsWithIgnoringCase(s, "IN") && BoundaryAt(s, 2);
    assert Match(Table[7].1, s) == Some(2);
    OnlyLetterPatterns(s, 'I');
    assert FirstMatch(s, 7) == Some(7);
    assert FirstMatch(s, 6) == Some(7);
    assert FirstMatch(s, 5) == Some(7);
    assert FirstMatch(s, 4) == Some(7);
    assert FirstMatch(s, 3) == Some(7);
    assert FirstMatch(s, 2) == Some(7);
    assert FirstMatch(s, 1) == Some(7);
  }

  /** `where` followed by a space, in any case, is the `WHERE` of a verb pattern. */
  lemma LowerWhere(w: string)
    requires |w| > 5 && w[0] == 'w' && w[1] == 'h' && w[2] == 'e' && w[3] == 'r' && w[4] == 'e'
    ensures StartsWithIgnoringCase(w, "WHERE")
  {
  }

  /** The `GET WHERE` entry reads a lower-case `get where` followed by a space. */
  lemma LowerGetWhere(s: string)
    requires |s| > 9 && s[0] == 'g' && s[1] == 'e' && s[2] == 't' && s[3] == ' '
    requires s[4] == 'w' && s[5] == 'h' && s[6] == 'e' && s[7] == 'r' && s[8] == 'e' && s[9] == ' '
    ensures FirstMatch(s, 0) == Some(2) && Match(Table[2].1, s) == Some(9)
  {
    assert StartsWithIgnoringCase(s, "GET");
    assert WhitespaceRunEnd(s, 4) == 4;
    assert WhitespaceRunEnd(s, 3) == 4;
    LowerWhere(s[4..]);
    assert BoundaryAt(s, 9);
    assert Match(Table[2].1, s) == Some(9);
    QuotesDoNotMatch(s);
    assert FirstMatch(s, 2) == Some(2);
    assert FirstMatch(s, 1) == Some(2);
  }

  /** A word and a space in front of rendered text: the space and the text are what is left after
      the word, and the whole is rendered again. */
  lemma WordInFront(p: string, rest: string)
    requires |p| > 1 && p[|p| - 1] == ' ' && !IsWhitespace(p[0]) && Rendered(rest)
    ensures (p + rest)[|p| - 1..] == " " + rest && Rendered(p + rest)
  {
    var s := p + rest;
    assert s[0] == p[0] && s[|s| - 1] == rest[|rest| - 1];
    assert s[|p| - 1..] == [p[|p| - 1]] + rest;
  }

  /** `and ` in front of rendered text: the entry that reads it, and what is left. */
  lemma AndPrefix(rest: string)
    requires Rendered(rest)
    ensures var s := "and " + rest;
            FirstMatch(s, 0) == Some(8) && Match(Table[8].1, s) == Some(3) &&
            s[3..] == " " + rest && Rendered(s)
  {
    WordInFront("and ", rest);
    var s := "and " + rest;
    assert s[0] == 'a' && s[1] == 'n' && s[2] == 'd' && s[3] == ' ';
    LowerAnd(s);
  }

  /** `in ` in front of rendered text. */
  lemma InPrefix(rest: string)
    requires Rendered(rest)
    ensures var s := "in " + rest;
            FirstMatch(s, 0) == Some(7) && Match(Table[7].1, s) == Some(2) &&
            s[2..] == " " + rest && Rendered(s)
  {
    WordInFront("in ", rest);
    var s := "in " + rest;
    assert s[0] == 'i' && s[1] == 'n' && s[2] == ' ';
    LowerIn(s);
  }

  /** `get where ` in front of rendered text. */
  lemma GetWherePrefix(rest: string)
    requires Rendered(rest)
    ensures var s := "get where " + rest;
            FirstMatch(s, 0) == Some(2) && Match(Table[2].1, s) == Some(9) &&
            s[9..] == " " + rest && Rendered(s)
  {
    WordInFront("get where ", rest);
    var s := "get where " + rest;
    assert s[0] == 'g' && s[1] == 'e' && s[2] == 't' && s[3] == ' ';
    assert s[4] == 'w' && s[5] == 'h' && s[6] == 'e' && s[7] == 'r' && s[8] == 'e' && s[9] == ' ';
    LowerGetWhere(s);
  }

  /** `'x' ` in front of rendered text: the identifier `x`, and what is left. */
  lemma NamePrefix(rest: string)
    requires Rendered(rest)
    ensures var s := "'x' " + rest;
            FirstMatch(s, 0) == Some(0) && Match(Table[0].1, s) == Some(3) &&
            QuotedValue(s, 3, '\'').value == Some("x") && s[3..] == " " + rest && Rendered(s)
  {
    var s := "'x' " + rest;
    var tail := " " + rest;
    assert ValidName("x");
    assert s == "'" + "x" + "'" + tail;
    IdentifierLexeme("x", tail);
    assert s[|s| - 1] == rest[|rest| - 1];
  }

  /** Table entry `m` reads the first `len` characters of `s` and a space and `rest` follow: an
      error lexing `rest` is the error of the whole. */
  lemma StepThenError(s: string, m: nat, len: nat, value: Option<string>, rest: string, e: LexError)
    requires m < |Table| && FirstMatch(s, 0) == Some(m) && Match(Table[m].1, s) == Some(len)
    requires Table[m].0 == Identifier ==> Table[m].1.Quoted? && Table[m].1.quote == '\''
    requires value == if Table[m].0 == Identifier then QuotedValue(s, len, '\'').value else None
    requires len <= |s| && s[len..] == " " + rest && Rendered(rest) && Lex(rest) == Err(e)
    ensures Lex(s) == Err(e)
  {
    LexUnfold(s, m, len, value);
    TrimRendered(rest);
  }

  /** Every entry after the two quoted ones reads a keyword or a parenthesis, never a name. */
  lemma KeywordEntry(m: nat)
    requires 2 <= m < |Table|
    ensures Table[m].0 != Identifier
  {
    TableKinds(m);
  }

  /** A keyword entry `m` reads the first `len` characters of `s`, and a space and `rest` follow. */
  lemma KeywordThenError(s: string, m: nat, len: nat, rest: string, e: LexError)
    requires 2 <= m < |Table|
    requires FirstMatch(s, 0) == Some(m) && Match(Table[m].1, s) == Some(len)
    requires len <= |s| && s[len..] == " " + rest && Rendered(rest) && Lex(rest) == Err(e)
    ensures Lex(s) == Err(e)
  {
    KeywordEntry(m);
    LexUnfold(s, m, len, None);
    TrimRendered(rest);
  }

  lemma NotGroupRestRendered()
    ensures Rendered(NotGroupRest)
  {
    assert NotGroupRest[0] == 'n' && NotGroupRest[|NotGroupRest| - 1] == ')';
  }

  lemma AndNotGroupStuck()
    ensures Rendered(AndNotGroup) && Lex(AndNotGroup) == Err(NotGroupError)
  {
    NotGroupRestStuck();
    NotGroupRestRendered();
    AndPrefix(NotGroupRest);
    KeywordThenError(AndNotGroup, 8, 3, NotGroupRest, NotGroupError);
  }

  lemma NameNotGroupStuck()
    ensures Rendered(NameNotGroup) && Lex(NameNotGroup) == Err(NotGroupError)
  {
    AndNotGroupStuck();
    NamePrefix(AndNotGroup);
    StepThenError(NameNotGroup, 0, 3, Some("x"), AndNotGroup, NotGroupError);
  }

  lemma InNotGroupStuck()
    ensures Rendered(InNotGroup) && Lex(InNotGroup) == Err(NotGroupError)
  {
    NameNotGroupStuck();
    InPrefix(NameNotGroup);
    KeywordThenError(InNotGroup, 7, 2, NameNotGroup, NotGroupError);
  }

  lemma GetNotGroupStuck()
    ensures Rendered(NotGroupText) && Lex(NotGroupText) == Err(NotGroupError)
  {
    InNotGroupStuck();
    GetWherePrefix(InNotGroup);
    KeywordThenError(NotGroupText, 2, 9, InNotGroup, NotGroupError);
  }

  /** The test's query text does not lex: `tokenize` fails at `not (` with the ten characters from
      there, so `getBuffer` cannot run it. */
  lemma NotGroupTextDoesNotLex()
    ensures Tokenize(NotGroupText) == Err(InvalidToken("not (in 'y"))
  {
    GetNotGroupStuck();
    TrimRendered(NotGroupText);
  }

  /** The first query of the re-query tests, `get where in "<id>" skip 0 take 1`, built word by word.
      The table has no entry for `skip` or `take`, so the lexer reads `get where`, `in` and the
      double-quoted name and then stops at `skip`. */
  function PagedQueryText(id: string): string {
    "get where " + InPaged(id)
  }

  function InPaged(id: string): string {
    "in " + NamePaged(id)
  }

  function NamePaged(id: string): string {
    "\"" + id + "\" " + PagedRest
  }

  const PagedRest := "skip 0 take 1"

  /** The error the lexer stops with. */
  const PagedError := InvalidToken("skip 0 tak")

  /** Where the lexer stops: no entry starts with `s`, and the error shows the ten characters from
      there. */
  lemma PagedRestStuck()
    ensures Rendered(PagedRest) && Lex(PagedRest) == Err(PagedError)
  {
    var s := PagedRest;
    assert s[0] == 's' && s[|s| - 1] == '1' && s[..10] == "skip 0 tak";
    OnlyLetterPatterns(s, 'S');
    NoEntryMatches(s);
  }

  /** A double-quoted name and a space in front of rendered text: the second quoted entry reads the
      name, and what is left is the space and the text. */
  lemma DoubleQuotedPrefix(id: string, rest: string)
    requires ValidName(id) && Rendered(rest)
    ensures var s := "\"" + id + "\" " + rest;
            FirstMatch(s, 0) == Some(1) && Match(Table[1].1, s) == Some(|id| + 2) &&
            s[|id| + 2..] == " " + rest && Rendered(s)
  {
    var p := "\"" + id + "\" ";
    var s := p + rest;
    WordInFront(p, rest);
    DoubleQuotedMatch(id, rest);
    SecondEntryFirst(s);
  }

  /** The table settles on its second entry when the first does not match and the second does. */
  lemma SecondEntryFirst(s: string)
    requires Match(Table[0].1, s).None? && Match(Table[1].1, s).Some?
    ensures FirstMatch(s, 0) == Some(1)
  {
    FirstMatchAt(s, 0, 1);
  }

  /** The double-quote pattern reads the name and both quotes. */
  lemma DoubleQuotedMatch(id: string, rest: string)
    requires ValidName(id)
    ensures var s := "\"" + id + "\" " + rest;
            Match(Table[0].1, s).None? && Match(Table[1].1, s) == Some(|id| + 2)
  {
    var s := "\"" + id + "\" " + rest;
    var n := |id| + 2;
    assert s[0] == '"' && s[n - 1] == '"';
    assert forall k :: 1 <= k < n - 1 ==> s[k] == id[k - 1];
    NameRunUpTo(s, 1, n - 1);
  }

  /** The double-quoted entry reads the first `len` characters of `s`, and a space and `rest` follow:
      an error lexing `rest` is the error of the whole. */
  lemma QuotedThenError(s: string, len: nat, rest: string, e: LexError)
    requires FirstMatch(s, 0) == Some(1) && Match(Table[1].1, s) == Some(len)
    requires len <= |s| && s[len..] == " " + rest && Rendered(rest) && Lex(rest) == Err(e)
    ensures Lex(s) == Err(e)
  {
    TrimRendered(rest);
    assert Lex(Trim(s[len..])) == Err(e);
  }

  lemma NamePagedStuck(id: string)
    requires ValidName(id)
    ensures Rendered(NamePaged(id)) && Lex(NamePaged(id)) == Err(PagedError)
  {
    PagedRestStuck();
    DoubleQuotedPrefix(id, PagedRest);
    QuotedThenError(NamePaged(id), |id| + 2, PagedRest, PagedError);
  }

  lemma InPagedStuck(id: string)
    requires ValidName(id)
    ensures Rendered(InPaged(id)) && Lex(InPaged(id)) == Err(PagedError)
  {
    NamePagedStuck(id);
    InPrefix(NamePaged(id));
    KeywordThenError(InPaged(id), 7, 2, NamePaged(id), PagedError);
  }

  lemma GetPagedStuck(id: string)
    requires ValidName(id)
    ensures Rendered(PagedQueryText(id)) && Lex(PagedQueryText(id)) == Err(PagedError)
  {
    InPagedStuck(id);
    GetWherePrefix(InPaged(id));
    KeywordThenError(PagedQueryText(id), 2, 9, InPaged(id), PagedError);
  }

  /** The re-query tests' first query does not lex for any name: `tokenize` fails at `skip` with the
      ten characters from there, so `getBuffer` cannot run it. */
  lemma PagedQueryTextDoesNotLex(id: string)
    requires ValidName(id)
    ensures Tokenize(PagedQueryText(id)) == Err(InvalidToken("skip 0 tak"))
  {
    GetPagedStuck(id);
    TrimRendered(PagedQueryText(id));
  }
}

=== FILE: tokens.dfy ===
/** The tokens of the query language. The lexer produces only the first nine kinds; the parser
    and the validators also name `negate`, `min`, `max`, `integer`, `skip`, `take` and `random`,
    so the enumeration is the union of both. */
module Tokens {
  import opened Wrappers

  datatype TokenType =
    | Get | Count | OParens | CParens | Exclude | Include | Identifier | And | Or
    | Negate | Min | Max | Integer | Skip | Take | Random

  /** The kinds the lexer's pattern table can produce. */
  predicate Lexable(t: TokenType) {
    t in {Get, Count, OParens, CParens, Exclude, Include, Identifier, And, Or}
  }

  /** The enumeration member's own name (`TokenTypes[t]`), as error messages print it. */
  function Name(t: TokenType): string {
    match t
    case Get => "get" case Count => "count" case OParens => "oparens" case CParens => "cparens"
    case Exclude => "exclude" case Include => "include" case Identifier => "identifier"
    case And => "and" case Or => "or" case Negate => "negate" case Min => "min" case Max => "max"
    case Integer => "integer" case Skip => "skip" case Take => "take" case Random => "random"
  }

  datatype Token = Token(kind: TokenType, value: Option<string>)
}

=== FILE: validation.dfy ===
/** The validators a token list must pass before it is parsed (`validate`): each check either
    passes or names a syntax error, the checks run in a fixed order, and only the first failure is
    reported — once one check has failed the later ones are not run at all. */
module Validation {
  import opened Wrappers
  import opened Tokens
  import JsArrays

  datatype SyntaxError =
    | EmptyQuery
    | MustStartWithVerb
    | StartsNegated
    | NoInitialIn
    | NoSegmentId
    | MayNotRun(first: TokenType, second: TokenType)
      /** What `tokens[0].type` or an initial-value-less `reduce` throws on an empty list. */
    | EmptyListTypeError

  /** How a kind is spelled in the "May not run" message: the translation table first, the
      enumeration name otherwise. */
  function Spelling(t: TokenType): (r: string)
    ensures t == Negate ==> r == "not"
    ensures t == Exclude ==> r == "not in"
    ensures t != Negate && t != Exclude ==> r == Name(t)
  {
    if t == Negate then "not" else if t == Exclude then "not in" else Name(t)
  }

  /** The error text; tokens carry no line or column, so every message has the plain prefix. */
  function Message(e: SyntaxError): string {
    match e
    case EmptyQuery => "Syntax error: empty query"
    case MustStartWithVerb => "Syntax error: query must start with 'GET WHERE' or 'COUNT WHERE'"
    case StartsNegated => "Syntax error: may not start query with 'not in': result set is infinite"
    case NoInitialIn => "Syntax error: 'GET WHERE' / 'COUNT WHERE' requires at least initial 'IN'"
    case NoSegmentId => "Syntax error: no segment id specified (must be single- or double-quoted)"
    case MayNotRun(a, b) => "Syntax error: May not run " + Spelling(a) + " into " + Spelling(b)
    case EmptyListTypeError => "TypeError"
  }

  /** `tokens.map(t => t.type)`. */
  function Kinds(ts: seq<Token>): (r: seq<TokenType>)
    ensures |r| == |ts| && forall k :: 0 <= k < |ts| ==> r[k] == ts[k].kind
  {
    if |ts| == 0 then [] else [ts[0].kind] + Kinds(ts[1..])
  }

  /** `findIndex` for one kind: the first position holding it, or -1. */
  function FindKind(ts: seq<Token>, t: TokenType): (r: int)
    ensures -1 <= r < |ts|
    ensures r >= 0 ==> ts[r].kind == t && forall j :: 0 <= j < r ==> ts[j].kind != t
    ensures r == -1 <==> forall j :: 0 <= j < |ts| ==> ts[j].kind != t
  {
    JsArrays.IndexOf(Kinds(ts), t, 0)
  }

  // ---------------------------------------------------------------- the checks

  function ShouldNotBeEmpty(ts: seq<Token>): (r: Option<SyntaxError>)
    ensures r.Some? <==> |ts| == 0
    ensures r.Some? ==> r.value == EmptyQuery
  {
    if |ts| == 0 then Some(EmptyQuery) else None
  }

  function ShouldStartWithGetOrCount(ts: seq<Token>): (r: Option<SyntaxError>)
    ensures |ts| == 0 ==> r == Some(EmptyListTypeError)
    ensures |ts| > 0 ==> (r.None? <==> ts[0].kind == Get || ts[0].kind == Count)
    ensures |ts| > 0 && r.Some? ==> r.value == MustStartWithVerb
  {
    if |ts| == 0 then Some(EmptyListTypeError)
    else if JsArrays.IndexOf([Get, Count], ts[0].kind, 0) == -1 then Some(MustStartWithVerb)
    else None
  }

  /** The list fails when some `exclude` has no `include` anywhere before it. */
  function ShouldNotStartNegated(ts: seq<Token>): (r: Option<SyntaxError>)
    ensures r.Some? <==> exists k :: 0 <= k < |ts| && ts[k].kind == Exclude && NoIncludeBefore(ts, k)
    ensures r.Some? ==> r.value == StartsNegated
  {
    var firstInclude := FindKind(ts, Include);
    var firstExclude := FindKind(ts, Exclude);
    if firstExclude > -1 && (firstInclude == -1 || firstInclude > firstExclude) then
      assert NoIncludeBefore(ts, firstExclude);
      Some(StartsNegated)
    else
      assert forall k :: 0 <= k < |ts| && ts[k].kind == Exclude ==> !NoIncludeBefore(ts, k) by {
        forall k | 0 <= k < |ts| && ts[k].kind == Exclude
          ensures !NoIncludeBefore(ts, k)
        {
          assert firstExclude != -1 && firstExclude <= k;
          assert firstInclude != -1 && firstInclude != firstExclude;
          IncludeBefore(ts, firstInclude, k);
        }
      }
      None
  }

  lemma IncludeBefore(ts: seq<Token>, i: nat, k: nat)
    requires i < k <= |ts| && ts[i].kind == Include
    ensures !NoIncludeBefore(ts, k)
  {
  }

  predicate NoIncludeBefore(ts: seq<Token>, k: nat)
    requires k <= |ts|
  {
    forall j :: 0 <= j < k ==> ts[j].kind != Include
  }

  /** Where the search for the first `include` starts: the first `get`, else the first `count`;
      with neither, `indexOf(..., -1)` looks at the last position only. */
  function SearchStart(ts: seq<Token>): (r: nat)
    ensures r <= |ts|
    ensures FindKind(ts, Get) >= 0 ==> r == FindKind(ts, Get)
    ensures FindKind(ts, Get) == -1 && FindKind(ts, Count) >= 0 ==> r == FindKind(ts, Count)
    ensures FindKind(ts, Get) == -1 && FindKind(ts, Count) == -1 && |ts| > 0 ==> r == |ts| - 1
  {
    var initialGet := FindKind(ts, Get);
    var initial := if initialGet == -1 then FindKind(ts, Count) else initialGet;
    JsArrays.RelativeIndex(|ts|, initial)
  }

  /** The first identifier, or the length when there is none. */
  function MustBeBefore(ts: seq<Token>): (r: nat)
    ensures r <= |ts|
    ensures forall j :: 0 <= j < r ==> ts[j].kind != Identifier
    ensures r < |ts| ==> ts[r].kind == Identifier
  {
    var firstIdentifier := FindKind(ts, Identifier);
    if firstIdentifier == -1 then |ts| else firstIdentifier
  }

  /** The list passes when it has at least two tokens and an `include` lies between the leading
      verb and the first identifier. */
  function ShouldHaveInitialIn(ts: seq<Token>): (r: Option<SyntaxError>)
    ensures r.None? <==>
              |ts| >= 2 && exists k :: SearchStart(ts) <= k < MustBeBefore(ts) && ts[k].kind == Include
    ensures r.Some? ==> r.value == NoInitialIn
  {
    var types := Kinds(ts);
    var initialGet := JsArrays.IndexOf(types, Get, 0);
    var initialCount := JsArrays.IndexOf(types, Count, 0);
    var initial := if initialGet == -1 then initialCount else initialGet;
    var firstIn := JsArrays.IndexOf(types, Include, initial);
    var mustBeBefore := MustBeBefore(ts);
    assert JsArrays.RelativeIndex(|ts|, initial) == SearchStart(ts);
    if |ts| < 2 || firstIn == -1 || firstIn > mustBeBefore then
      assert firstIn != -1 ==> firstIn != mustBeBefore by {
        if firstIn != -1 && mustBeBefore < |ts| {
          assert ts[firstIn].kind == Include;
        }
      }
      Some(NoInitialIn)
    else
      None
  }

  function ShouldHaveSomeSegmentId(ts: seq<Token>): (r: Option<SyntaxError>)
    ensures r.None? <==> exists k :: 0 <= k < |ts| && ts[k].kind == Identifier
    ensures r.Some? ==> r.value == NoSegmentId
  {
    if FindKind(ts, Identifier) < 0 then Some(NoSegmentId) else None
  }

  /** `shouldNotRunTokens`: the `reduce` that carries the previous token along, failing at the first
      adjacent pair `a`, `b`. Without an initial value it throws on an empty list. */
  function ShouldNotRun(ts: seq<Token>, a: TokenType, b: TokenType): (r: Option<SyntaxError>)
    ensures |ts| == 0 ==> r == Some(EmptyListTypeError)
    ensures |ts| > 0 ==> (r.Some? <==> exists k :: 0 <= k < |ts| - 1 && ts[k].kind == a && ts[k + 1].kind == b)
    ensures |ts| > 0 && r.Some? ==> r.value == MayNotRun(a, b)
  {
    if |ts| == 0 then Some(EmptyListTypeError) else RunFrom(ts, 1, a, b)
  }

  /** The `reduce` from position `k`, the accumulator being the token at `k - 1`. */
  function RunFrom(ts: seq<Token>, k: nat, a: TokenType, b: TokenType): (r: Option<SyntaxError>)
    requires 1 <= k <= |ts|
    ensures r.Some? <==> exists j :: k - 1 <= j < |ts| - 1 && ts[j].kind == a && ts[j + 1].kind == b
    ensures r.Some? ==> r.value == MayNotRun(a, b)
    decreases |ts| - k
  {
    if k == |ts| then None
    else if ts[k - 1].kind == a && ts[k].kind == b then Some(MayNotRun(a, b))
    else RunFrom(ts, k + 1, a, b)
  }

  // ---------------------------------------------------------------- validate

  /** The entries of the validator list. */
  datatype Check =
    | NotEmpty | StartWithGetOrCount | NotStartNegated | InitialIn | SomeSegmentId
    | NotRun(a: TokenType, b: TokenType)

  const Checks: seq<Check> := [
    NotEmpty, StartWithGetOrCount, NotStartNegated, InitialIn, SomeSegmentId,
    NotRun(And, And), NotRun(Or, Or), NotRun(And, Or), NotRun(Or, And),
    NotRun(Negate, Exclude), NotRun(Exclude, Negate)]

  function Run(c: Check, ts: seq<Token>): Option<SyntaxError> {
    match c
    case NotEmpty => ShouldNotBeEmpty(ts)
    case StartWithGetOrCount => ShouldStartWithGetOrCount(ts)
    case NotStartNegated => ShouldNotStartNegated(ts)
    case InitialIn => ShouldHaveInitialIn(ts)
    case SomeSegmentId => ShouldHaveSomeSegmentId(ts)
    case NotRun(a, b) => ShouldNotRun(ts, a, b)
  }

  /** The `reduce` over the validators: `acc || cur(tokens)`, so a check runs only while nothing has
      failed yet. */
  function Reduce(cs: seq<Check>, ts: seq<Token>, acc: Option<SyntaxError>): (r: Option<SyntaxError>)
    ensures acc.Some? ==> r == acc
    decreases |cs|
  {
    if |cs| == 0 then acc
    else Reduce(cs[1..], ts, if acc.Some? then acc else Run(cs[0], ts))
  }

  function Validate(ts: seq<Token>): (r: Result<(), SyntaxError>) {
    match Reduce(Checks, ts, None)
    case None => Ok(())
    case Some(e) => Err(e)
  }

  /** Starting from no error, the fold reports the first failing check and nothing when all pass. */
  lemma {:induction false} ReduceFindsFirst(cs: seq<Check>, ts: seq<Token>)
    ensures Reduce(cs, ts, None).None? <==> forall i :: 0 <= i < |cs| ==> Run(cs[i], ts).None?
    ensures Reduce(cs, ts, None).Some? ==>
              exists i :: 0 <= i < |cs| && Run(cs[i], ts) == Reduce(cs, ts, None) &&
                          forall j :: 0 <= j < i ==> Run(cs[j], ts).None?
    decreases |cs|
  {
    if |cs| > 0 {
      ReduceFindsFirst(cs[1..], ts);
      if Run(cs[0], ts).None? {
        var r := Reduce(cs[1..], ts, None);
        if r.Some? {
          var i :| 0 <= i < |cs[1..]| && Run(cs[1..][i], ts) == r && forall j :: 0 <= j < i ==> Run(cs[1..][j], ts).None?;
          assert Run(cs[i + 1], ts) == r;
        }
      } else {
        assert Run(cs[0], ts) == Reduce(cs, ts, None);
      }
    }
  }

  /** A token list is accepted exactly when it passes every check. */
  lemma ValidateAcceptsIffAllPass(ts: seq<Token>)
    ensures Validate(ts).Ok? <==> forall i :: 0 <= i < |Checks| ==> Run(Checks[i], ts).None?
  {
    ReduceFindsFirst(Checks, ts);
  }

  /** A rejected list is rejected with the error of the first check it fails. */
  lemma ValidateReportsFirstFailure(ts: seq<Token>)
    requires Validate(ts).Err?
    ensures exists i :: 0 <= i < |Checks| && Run(Checks[i], ts) == Some(Validate(ts).error) &&
                        forall j :: 0 <= j < i ==> Run(Checks[j], ts).None?
  {
    ReduceFindsFirst(Checks, ts);
  }

  /** Conversely, the first failing check decides the error. */
  lemma ValidateStopsAtFirstFailure(ts: seq<Token>, i: nat)
    requires i < |Checks| && Run(Checks[i], ts).Some?
    requires forall j :: 0 <= j < i ==> Run(Checks[j], ts).None?
    ensures Validate(ts) == Err(Run(Checks[i], ts).value)
  {
    ReduceFindsFirst(Checks, ts);
    var k :| 0 <= k < |Checks| && Run(Checks[k], ts) == Reduce(Checks, ts, None) &&
             forall j :: 0 <= j < k ==> Run(Checks[j], ts).None?;
    assert k == i;
  }

  /** The empty list is rejected as an empty query; the checks that would throw on it never run. */
  lemma EmptyIsEmptyQuery()
    ensures Validate([]) == Err(EmptyQuery)
  {
  }

  /** A non-empty list never reaches the failure an empty list would cause, so that failure is never
      what `validate` reports. */
  lemma NeverReportsTypeError(ts: seq<Token>)
    ensures Validate(ts) != Err(EmptyListTypeError)
  {
    ReduceFindsFirst(Checks, ts);
    if Validate(ts).Err? && |ts| > 0 {
      var i :| 0 <= i < |Checks| && Run(Checks[i], ts) == Some(Validate(ts).error);
      assert Checks[i] == NotEmpty || Checks[i] == StartWithGetOrCount || Checks[i] == NotStartNegated ||
             Checks[i] == InitialIn || Checks[i] == SomeSegmentId || Checks[i].NotRun?;
    }
  }
}

=== FILE: validation_examples.dfy ===
/** The rejections the repository's tests list, on the token lists the lexer makes of their
    queries, and one accepted query. Each is first stated for every list of that shape. */
module ValidationExamples {
  import opened Wrappers
  import opened Tokens
  import opened Validation

  function Kw(t: TokenType): Token { Token(t, None) }
  function Id(name: string): Token { Token(Identifier, Some(name)) }

  /** The first three checks pass on a list starting with `get` followed by `include`. */
  lemma GetInOpening(ts: seq<Token>)
    requires |ts| >= 3 && ts[0].kind == Get && ts[1].kind == Include
    ensures forall j :: 0 <= j < 3 ==> Run(Checks[j], ts).None?
  {
    assert forall k :: 0 <= k < |ts| && ts[k].kind == Exclude ==> !NoIncludeBefore(ts, k) by {
      forall k | 0 <= k < |ts| && ts[k].kind == Exclude
        ensures !NoIncludeBefore(ts, k)
      {
        assert ts[1].kind == Include;
      }
    }
  }

  /** `IN GET WHERE IN 'x'` */
  lemma MustStartWithVerbExample()
    ensures Validate([Kw(Include), Kw(Get), Kw(Include), Id("x")]) == Err(MustStartWithVerb)
  {
    var ts := [Kw(Include), Kw(Get), Kw(Include), Id("x")];
    assert Checks[0] == NotEmpty && Checks[1] == StartWithGetOrCount;
    assert Run(Checks[0], ts).None? && Run(Checks[1], ts) == Some(MustStartWithVerb);
    assert forall j :: 0 <= j < 1 ==> Run(Checks[j], ts).None?;
    ValidateStopsAtFirstFailure(ts, 1);
  }

  lemma StartsNegatedShape(ts: seq<Token>)
    requires |ts| >= 2 && ts[0].kind == Get && ts[1].kind == Exclude
    ensures Validate(ts) == Err(StartsNegated)
  {
    VerbOpening(ts);
    assert Run(Checks[2], ts) == Some(StartsNegated) by {
      assert Checks[2] == NotStartNegated;
      assert ts[1].kind == Exclude && NoIncludeBefore(ts, 1);
    }
    ValidateStopsAtFirstFailure(ts, 2);
  }

  /** A list starting with a verb passes the first two checks. */
  lemma VerbOpening(ts: seq<Token>)
    requires |ts| > 0 && (ts[0].kind == Get || ts[0].kind == Count)
    ensures forall j :: 0 <= j < 2 ==> Run(Checks[j], ts).None?
  {
    assert Checks[0] == NotEmpty && Checks[1] == StartWithGetOrCount;
    assert ShouldNotBeEmpty(ts).None? && ShouldStartWithGetOrCount(ts).None?;
    forall j | 0 <= j < 2 ensures Run(Checks[j], ts).None? {
      assert j == 0 || j == 1;
    }
  }

  /** `GET WHERE NOT IN 'x'` */
  lemma StartsNegatedExample()
    ensures Validate([Kw(Get), Kw(Exclude), Id("x")]) == Err(StartsNegated)
  {
    StartsNegatedShape([Kw(Get), Kw(Exclude), Id("x")]);
  }

  /** An identifier right after the verb, with no `not in` anywhere before an `in`. */
  lemma NameRightAfterVerbShape(ts: seq<Token>)
    requires |ts| >= 2 && ts[0].kind == Get && ts[1].kind == Identifier
    requires forall k :: 0 <= k < |ts| && ts[k].kind == Exclude ==> !NoIncludeBefore(ts, k)
    ensures Validate(ts) == Err(NoInitialIn)
  {
    assert MustBeBefore(ts) == 1;
    assert SearchStart(ts) == 0;
    ValidateStopsAtFirstFailure(ts, 3);
  }

  /** `GET WHERE 'X'` */
  lemma NoInitialInExample()
    ensures Validate([Kw(Get), Id("X")]) == Err(NoInitialIn)
  {
    NameRightAfterVerbShape([Kw(Get), Id("X")]);
  }

  /** `GET WHERE 'X' OR IN 'Y'`: the `IN` comes after the first identifier. */
  lemma LateInExample()
    ensures Validate([Kw(Get), Id("X"), Kw(Or), Kw(Include), Id("Y")]) == Err(NoInitialIn)
  {
    NameRightAfterVerbShape([Kw(Get), Id("X"), Kw(Or), Kw(Include), Id("Y")]);
  }

  lemma NoNameShape(ts: seq<Token>)
    requires |ts| >= 3 && ts[0].kind == Get && ts[1].kind == Include
    requires forall k :: 0 <= k < |ts| ==> ts[k].kind != Identifier
    ensures Validate(ts) == Err(NoSegmentId)
  {
    GetInOpening(ts);
    assert MustBeBefore(ts) == |ts|;
    assert SearchStart(ts) == 0;
    ValidateStopsAtFirstFailure(ts, 4);
  }

  /** `GET WHERE IN OR AND AND` */
  lemma NoSegmentIdExample()
    ensures Validate([Kw(Get), Kw(Include), Kw(Or), Kw(And), Kw(And)]) == Err(NoSegmentId)
  {
    NoNameShape([Kw(Get), Kw(Include), Kw(Or), Kw(And), Kw(And)]);
  }

  /** `get`, `include`, a name, then anything: the first five checks pass. */
  lemma GetInNameOpening(ts: seq<Token>)
    requires |ts| >= 3 && ts[0].kind == Get && ts[1].kind == Include && ts[2].kind == Identifier
    ensures forall j :: 0 <= j < 5 ==> Run(Checks[j], ts).None?
  {
    GetInOpening(ts);
    assert MustBeBefore(ts) == 2;
    assert SearchStart(ts) == 0;
  }

  lemma AndIntoAndShape(ts: seq<Token>)
    requires |ts| >= 5 && ts[0].kind == Get && ts[1].kind == Include && ts[2].kind == Identifier
    requires ts[3].kind == And && ts[4].kind == And
    ensures Validate(ts) == Err(MayNotRun(And, And))
  {
    GetInNameOpening(ts);
    ValidateStopsAtFirstFailure(ts, 5);
  }

  /** `GET WHERE IN 'X' AND AND IN 'Y'` */
  lemma AndIntoAndExample()
    ensures Validate([Kw(Get), Kw(Include), Id("X"), Kw(And), Kw(And), Kw(Include), Id("Y")]) == Err(MayNotRun(And, And))
  {
    AndIntoAndShape([Kw(Get), Kw(Include), Id("X"), Kw(And), Kw(And), Kw(Include), Id("Y")]);
  }

  lemma AcceptedShape(ts: seq<Token>)
    requires |ts| == 6 && ts[0].kind == Get && ts[1].kind == Include && ts[2].kind == Identifier
    requires ts[3].kind == Or && ts[4].kind == Include && ts[5].kind == Identifier
    ensures Validate(ts) == Ok(())
  {
    GetInNameOpening(ts);
    forall j | 5 <= j < |Checks|
      ensures Run(Checks[j], ts).None?
    {
      var c := Checks[j];
      assert c.NotRun? && (c.a in {And, Negate, Exclude} || (c.a == Or && c.b != Include));
      NoAdjacentPair(ts, c.a, c.b);
    }
    ValidateAcceptsIffAllPass(ts);
  }

  /** In the accepted shape an `or` is always followed by `include`, and no `and`, `negate` or
      `exclude` occurs, so no forbidden adjacent pair starting with one of those exists. */
  lemma NoAdjacentPair(ts: seq<Token>, a: TokenType, b: TokenType)
    requires |ts| == 6 && ts[0].kind == Get && ts[1].kind == Include && ts[2].kind == Identifier
    requires ts[3].kind == Or && ts[4].kind == Include && ts[5].kind == Identifier
    requires a in {And, Negate, Exclude} || (a == Or && b != Include)
    ensures ShouldNotRun(ts, a, b).None?
  {
    forall k | 0 <= k < |ts| - 1
      ensures !(ts[k].kind == a && ts[k + 1].kind == b)
    {
      assert k in {0, 1, 2, 3, 4};
    }
  }

  /** `GET WHERE IN 'X' OR IN 'Y'` passes every check. */
  lemma AcceptedExample()
    ensures Validate([Kw(Get), Kw(Include), Id("X"), Kw(Or), Kw(Include), Id("Y")]) == Ok(())
  {
    AcceptedShape([Kw(Get), Kw(Include), Id("X"), Kw(Or), Kw(Include), Id("Y")]);
  }

  /** `negate` and `exclude` are spelled out in the adjacency message, other kinds by name. */
  lemma AndIntoAndMessage()
    ensures Message(MayNotRun(And, And)) == "Syntax error: May not run and into and"
  {
  }

  lemma NotIntoNotInMessage()
    ensures Message(MayNotRun(Negate, Exclude)) == "Syntax error: May not run not into not in"
  {
  }

  lemma NotInIntoNotMessage()
    ensures Message(MayNotRun(Exclude, Negate)) == "Syntax error: May not run not in into not"
  {
  }
}

=== FILE: wrappers.dfy ===
/** Failure-compatible wrappers used across the model: `Option` for values that
    the source leaves `undefined`, `Result` for operations that throw. */
module Wrappers {

  datatype Option<+T> = None | Some(value: T) {

    /** The value, or `default` when absent (the source's `x === undefined ? d : x`). */
    function GetOr(default: T): T {
      match this
      case Some(v) => v
      case None => default
    }
  }

  datatype Result<+T, +E> = Ok(value: T) | Err(error: E) {

    predicate IsFailure() {
      Err?
    }

    function PropagateFailure<U>(): Result<U, E>
      requires Err?
    {
      Err(error)
    }

    function Extract(): T
      requires Ok?
    {
      value
    }
  }
}
